=== FILE: README.md ===
# USBane core in Dafny

USBane is an ESP32-S3 USB host that sends hand-built control transfers,
malformed ones included, to a device under test. A browser UI drives it over
HTTP. This project models the parts of USBane that decide what goes on the
wire and what the operator sees. Each part is a pure function, and its
properties are proved.

- **Firmware transfer engine** (`main/usb_malformed.c`), module `ControlTransfer` in `control.dfy`:
  - the SETUP packet buffer;
  - the DATA OUT stage split into 64-byte packets with alternating PIDs;
  - the DATA IN poll loop, with its `size_t` byte count;
  - the failure counters that trigger bus resets and VBUS power cycles;
  - the device-info cache.
- **Request handler** (`main/web_interface.c`):
  - module `RequestApi` (`requestapi.dfy`): query fields, then packet configuration, then the JSON reply with its hex and ASCII dumps;
  - module `HttpQuery` (`query.dfy`): the query-string lookup into fixed-size buffers.
- **Trigger registry** (`main/web_interface.c`), module `Triggers` (`triggers.dfy`): at most 16 distinct ids, which webhook waits poll.
- **Web UI** (`main/html/app.js`):
  - `Descriptors` (`descriptors.dfy`): the descriptor decoders and formatters.
  - `ChainSteps` (`chainsteps.dfy`): the step records.
  - `ChainCsv` (`chaincsv.dfy`): the chain's CSV export and import, and the CSV line parser.
  - `Condition` (`condition.dfy`): the condition evaluator and its results-table lookup.
  - `Chain` (`chain.dfy`): the chain engine, as a small-step machine over Tick, Continue and Stop events.
  - `Bruteforce` (`bruteforce.dfy`): the bruteforce odometer and its request/reply driver.
  - `UiHelpers` (`uihelpers.dfy`): the version comparison, the results filter, the data-mode packet-size helper and chain reordering.
- **Library behaviour the code relies on:**
  - `Text` (`text.dfy`): ECMAScript string operations and `parseInt`.
  - `CLib` (`clib.dfy`): C `strtol`, `atoi`, `strtok` and the integer casts.
  - `Wrappers` (`wrappers.dfy`): `Option`.

  These modules describe language and library semantics. They are not repository code.

Everything the source reads from its environment is an input of the model:

- device replies, as per-packet results and poll snapshots;
- HTTP replies and network errors;
- results-table rows;
- form values;
- the connection flag.

Integer widths are explicit:

- `uint8_t`, `uint16_t` and the ESP32's 32-bit `size_t` reduce modulo 2^8, 2^16 and 2^32;
- `strtol` saturates at the 32-bit `long` range;
- JavaScript bitwise operators reduce modulo 2^32.

## Model

| member | source | states |
|---|---|---|
| ControlTransfer.DefaultConfig | main/usb_malformed.c:891-911 | the default request is the eight SETUP bytes of GET_DESCRIPTOR(Device) for 18 bytes, in an 8-byte packet |
| ControlTransfer.SetupHeader | main/usb_malformed.c:557-564 | the SETUP header is eight bytes |
| ControlTransfer.ExtraLength | main/usb_malformed.c:567-573 | extra bytes follow the header only when the packet is longer than 8; then there are `size - 8` of them, capped at 248 |
| ControlTransfer.SetupBuffer | main/usb_malformed.c:550-573 | the 256-byte buffer holds the header up to the packet size and then the extra data; every other byte is zero |
| ControlTransfer.SetupLayout | main/usb_malformed.c:557-564 | in a full SETUP packet, wValue, wIndex and wLength read back little-endian from bytes 2-7 |
| ControlTransfer.PacketCountIsCeiling | main/usb_malformed.c:613 | the SETUP packet count is the ceiling of packet size over max packet size |
| ControlTransfer.ChunkSize | main/usb_malformed.c:682-683 | every DATA OUT packet carries 1 to 64 bytes |
| ControlTransfer.PidToggles | main/usb_malformed.c:742-743 | consecutive DATA OUT packets alternate DATA1 and DATA0 |
| ControlTransfer.NumChunksBound | main/usb_malformed.c:657-668 | packet `k` is sent exactly when the packets before it leave bytes to send |
| ControlTransfer.Chunks | main/usb_malformed.c:668-743 | the first `count` packets of the stage, in order |
| ControlTransfer.FirstFailure | main/usb_malformed.c:716-738 | finds the first packet that is not acknowledged; all packets before it are |
| ControlTransfer.DmaChunk | main/usb_malformed.c:686-691 | the 64-byte DMA buffer holds exactly the packet's size |
| ControlTransfer.DmaChunkIsPacket | main/usb_malformed.c:686-691 | the cleared and partly copied DMA buffer equals the packet: extra data below 248, zeros after |
| ControlTransfer.WriteData | main/usb_malformed.c:651-749 | the packet loop hands over every packet up to and including the first failed one, and the failed packet decides the status |
| ControlTransfer.WriteOutcome | main/usb_malformed.c:651-749 | the DATA OUT stage succeeds exactly when every packet is acknowledged; packet `k` carries chunk `k`; a failure stops at the first unacknowledged packet |
| ControlTransfer.FirstFailureFrom | main/usb_malformed.c:735-741 | after `k` acknowledged packets, packet `k` is the first failure exactly when it fails |
| ControlTransfer.ChunksCoverPayload | main/usb_malformed.c:686-691 | the packets carry the stage's bytes in order: extra data up to 248 bytes, zeros after |
| ControlTransfer.WholeStageLength | main/usb_malformed.c:657-743 | a complete stage of `ceil(length/64)` packets carries exactly `length` bytes |
| ControlTransfer.ReceivedCountInRange | main/usb_malformed.c:816-819 | the wrapped `size_t` count lands in `1..xfer` exactly when less than the transfer size remains, and then it is `xfer - remaining` |
| ControlTransfer.PollLoop | main/usb_malformed.c:801-839 | a delivered count is in `1..xfer` |
| ControlTransfer.PollLoopWitness | main/usb_malformed.c:801-839 | data is delivered only by a halted and completed poll whose remaining count is below the transfer size, and the count is what was not left |
| ControlTransfer.AfterFailureKeepsValid | main/usb_malformed.c:841-881 | a failed read keeps the failure count below 5 and the recovery count below 3 |
| ControlTransfer.AfterFailure | main/usb_malformed.c:841-881 | below 5 failures nothing is done; at 5 the bus is reset and the failures cleared; at 3 recoveries VBUS is power cycled and both counters cleared |
| ControlTransfer.FailRepeatedlyClosedForm | main/usb_malformed.c:841-881 | after `k` failures the counters are `k mod 5` and `(k div 5) mod 3`; failure `k` resets the bus when `k` is a multiple of 5 but not of 15, and power-cycles when it is a multiple of 15 |
| ControlTransfer.ReadResponse | main/usb_malformed.c:755-885 | success returns `1..min(maxLen, 256)` received bytes (the 256 limit is the correction listed under Findings; the source allows `maxLen`) and clears both counters; a timeout returns nothing and applies the recovery step |
| ControlTransfer.ReadCountAsWrittenOverruns | main/usb_malformed.c:781-820 | as written, a 512-byte transfer that completes is accepted as 512 bytes, copied from a 256-byte DMA buffer |
| ControlTransfer.ReadResponseFitsBuffers | main/usb_malformed.c:781-820 | with the transfer size limited, the accepted count fits both the DMA buffer and the caller's buffer |
| ControlTransfer.AcceptedAsWrittenOverruns | main/usb_malformed.c:526-618 | the guard as written lets a 300-byte packet through, though the SETUP DMA copy holds 256 bytes |
| ControlTransfer.SendPacket | main/usb_malformed.c:526-646 | a rejected configuration touches nothing (the guard here also rejects packet sizes above 256, the correction listed under Findings; the source rejects only NULL and 0); otherwise the SETUP frame is the first `packet_size` buffer bytes; a host-to-device request with wLength > 0 runs the DATA OUT stage and reads nothing; a device-to-host request expecting a response takes the status, bytes, count and recovery of the DATA IN read; with neither stage the transfer is OK with nothing sent or read and the counters kept; only the DATA IN read can change the counters |
| ControlTransfer.SendPacketFrame | main/usb_malformed.c:555-564 | the SETUP frame's first eight bytes carry bmRequestType, bRequest, wValue, wIndex and wLength, little-endian |
| ControlTransfer.SendPacketIgnoresNakRetries | main/usb_malformed.c:636-641 | the transfer does not depend on `max_nak_retries` |
| ControlTransfer.DeviceInfoConfig | main/usb_malformed.c:951-967 | the device-info fetch sends GET_DESCRIPTOR(Device) into an 18-byte buffer and expects a response |
| ControlTransfer.GetDeviceInfo | main/usb_malformed.c:913-998 | with no device it fails and marks the cache stale; with a valid cache it returns the cache unchanged; a fresh fetch succeeds only with 18 bytes and then fills the cache |
| ControlTransfer.DeviceInfoMatchesDescriptor | main/usb_malformed.c:974-982 | the fetched VID, PID, class, subclass, protocol and max packet size are the device-descriptor fields of the bytes received |
| ControlTransfer.CachedInfoLosesStrings | main/usb_malformed.c:984-991 | a fresh fetch answers "N/A" strings; the cached answer that follows has the same ids but empty strings |
| HttpQuery.Lookup | main/web_interface.c:227 | the value found belongs to a pair with the key; no value means no pair has the key |
| HttpQuery.LookupFindsFirst | main/web_interface.c:227 | a key present once is found whatever precedes it |
| HttpQuery.QueryValue | main/web_interface.c:227-277 | a value is taken exactly when the key is present and the value fits the buffer with its terminator |
| HttpQuery.QueryText | main/web_interface.c:789-793 | the text left in a buffer whose return code is ignored: shorter than the buffer, empty when the key is absent, a prefix of the value otherwise, and the whole value when it fits |
| RequestApi.ParseDataBytes | main/web_interface.c:267-277 | at most 248 bytes; byte `i` is token `i` of `strtok(_, " ,")`, read in base 16 and cast to `uint8_t` |
| RequestApi.ReadFields | main/web_interface.c:214-277 | an absent packetSize leaves 8, an absent dataBytes leaves no custom data, and custom data never exceeds 248 bytes; what each key sets is stated by ReadRequestFields and ReadTransferOptions |
| RequestApi.ReadRequestFields | main/web_interface.c:215-241 | a present key sets its field: bmRequestType and bRequest by `strtol(_, NULL, 0)` cast to `uint8_t`, wValue and wIndex the same cast to `uint16_t`, wLength by `atoi` cast to `uint16_t`; an absent key leaves the default 0x80, 0x06, 0x0100, 0 or 18 |
| RequestApi.ReadTransferOptions | main/web_interface.c:220-277 | a given packetSize is `atoi` wrapped to `size_t` and marked as given, otherwise 8; maxRetries is `atoi` or -1; append mode is exactly `dataMode=append`; a non-empty dataBytes gives its parsed bytes and anything else none |
| RequestApi.NegativePacketSizeWraps | main/web_interface.c:242-245 | a packetSize of -1 becomes 4294967295 in `size_t` and so is not refused |
| RequestApi.Padded | main/web_interface.c:319-326 | the custom bytes open the zero-padded `extra_data` array |
| RequestApi.AutoPattern | main/web_interface.c:335-345 | the filler of an oversized packet is 0xAA + i mod 8 over `min(packetSize - 8, 248)` bytes, and zero after |
| RequestApi.BuildConfig | main/web_interface.c:292-345 | the request fields are kept; append mode grows the packet to `8 + n` (capped at 256) and keeps wLength; separate mode keeps 8 bytes and raises wLength to at least `n`; without data the packet size is as asked |
| RequestApi.AppendPutsDataInSetup | main/web_interface.c:310-321 | in append mode custom byte `i` is SETUP byte `8 + i` |
| RequestApi.SeparatePutsDataInDataStage | main/web_interface.c:322-334 | in separate mode the SETUP packet is 8 bytes and custom byte `i` is byte `i` of the DATA OUT stage |
| RequestApi.DataBytesRoundTrip | main/web_interface.c:267-277 | bytes written by the UI's hex formatter are read back exactly, up to 248 of them |
| RequestApi.DataBytesCapacity | main/web_interface.c:267-277 | 171 space-separated bytes overflow the 512-byte buffer, and then no custom data is read |
| RequestApi.FormatHexBytesLength | main/html/app.js:300-302 | `n` formatted bytes take `3n - 1` characters |
| RequestApi.HexGroups | main/web_interface.c:387-389 | each byte takes three characters |
| RequestApi.AsciiChar | main/web_interface.c:396-397 | a byte shows as itself when printable (32..126), otherwise as '.' |
| RequestApi.AsciiDump | main/web_interface.c:394-399 | one character per byte of the first 128 |
| RequestApi.ErrorToken | main/web_interface.c:409-415 | a failed transfer is reported as one of TIMEOUT, NAK, ERROR and FAILED |
| RequestApi.Render | main/web_interface.c:365-418 | "success" exactly for an OK transfer; with data, the hex and ASCII dumps; an OK transfer with no data gives empty texts; a failure with no data gives its error token |
| RequestApi.HexDumpReadsBack | main/web_interface.c:387-389 | the UI's hex-dump parser reads the firmware's hex groups back as the bytes, for up to 128 bytes |
| RequestApi.HexGroupsDigits | main/web_interface.c:387-389 | the hex groups without spaces are the two-digit spellings of the bytes |
| RequestApi.HexDumpOverflowsAsWritten | main/web_interface.c:379-389 | 128 hex groups fill all 384 bytes of `hex_str`, so the terminator lands past the end |
| RequestApi.HexDumpFits | main/web_interface.c:384-392 | every dump of a response that fits the 512-byte buffer fits 399 bytes, and a 512-byte response needs all 399 |
| RequestApi.AsciiDumpFits | main/web_interface.c:394-399 | the ASCII dump and its terminator always fit the 256-byte `ascii_str` |
| RequestApi.HandleSendRequest | main/web_interface.c:207-429 | no query means no reply; an explicit packet size of 0 gets the error reply and no transfer; a transfer happens exactly when there is a query whose packet size is not refused, it is the transfer of the configuration built from the query's fields, and the reply is that transfer's outcome rendered with the echo of those fields; a reset goes out exactly when one is pending and a device is connected |
| RequestApi.ReplyDumpsReceived | main/web_interface.c:379-399 | when the transfer reads bytes, the reply's data and ascii are the hex and ASCII dumps of the bytes received |
| RequestApi.SetupFrameCarriesQuery | main/web_interface.c:214-345 | when the configuration built from the query is accepted and at least 8 bytes long, the SETUP frame sent opens with the query's bmRequestType, bRequest, wValue and wIndex |
| RequestApi.HexDump | main/web_interface.c:379-392 | up to 128 bytes take three characters each; a longer response ends with " more)" |
| RequestApi.OversizedPacketReachesTransfer | main/web_interface.c:242-345 | packetSize=300 without data reaches the transfer as 300: the guard as written lets it through, the bounded guard refuses it, and the reply says FAILED |
| RequestApi.RefusedConfigReportsFailed | main/web_interface.c:407-417 | a configuration the transfer refuses is reported as FAILED with no bytes |
| Triggers.Set | main/web_interface.c:823-838 | an absent id is appended when fewer than 16 are stored; otherwise nothing changes |
| Triggers.Clear | main/web_interface.c:840-851 | clearing an absent id changes nothing; clearing a present id removes one entry |
| Triggers.SetKeepsValid | main/web_interface.c:823-838 | setting keeps at most 16 pairwise distinct ids |
| Triggers.ClearKeepsValid | main/web_interface.c:840-851 | clearing keeps at most 16 pairwise distinct ids |
| Triggers.SetMembership | main/web_interface.c:823-838 | after a set the id is present exactly when it was already present or there was room; other ids keep their membership |
| Triggers.ClearMembership | main/web_interface.c:840-851 | in a valid registry a clear removes the id and keeps every other id |
| Triggers.ClearKeepsOrder | main/web_interface.c:841-847 | a clear leaves exactly the ids other than the cleared one, in their order |
| Triggers.SetClearInverse | main/web_interface.c:823-851 | setting an absent id when there is room and then clearing it restores the registry |
| Triggers.SetIdempotent | main/web_interface.c:825-833 | setting twice is setting once |
| Triggers.RequestedId | main/web_interface.c:785-792 | the id is non-empty and fits the 32-byte buffer |
| Triggers.HandleTrigger | main/web_interface.c:782-870 | GET reports membership and changes nothing; POST with state "true", "1" or none sets, any other state clears, and the reply echoes the requested state |
| Triggers.HandleKeepsValid | main/web_interface.c:782-870 | every handler call keeps the registry valid |
| Triggers.PostReportsRequest | main/web_interface.c:833-858 | with 16 other ids stored, a set reports true although the id was not stored |
| Triggers.LongStateClears | main/web_interface.c:786-818 | a state of "truetrue" is cut to 7 characters and so clears |
| Triggers.RequestedState | main/web_interface.c:793-818 | a POST sets when the query or its state is absent, or the state is empty, "true" or "1"; otherwise it clears |
| Triggers.ReceivedQuery | main/web_interface.c:784-788 | a query is received exactly when it is present and shorter than the 128-byte buffer |
| Triggers.LongQueryActsOnDefault | main/web_interface.c:784-858 | a query of 128 bytes or more acts on the default id: a POST sets it, and a GET reports it |
| Descriptors.Le16Split | main/html/app.js:129-132 | `lo \| (hi << 8)` joins the bytes that `Lo` and `Hi` split off |
| Descriptors.HexPairs | main/html/app.js:116-120 | the hex text of `n` characters yields `ceil(n/2)` values |
| Descriptors.DescriptorResponse | main/html/app.js:109-124 | bytes come back exactly when the reply has non-empty data and a positive byte count |
| Descriptors.HexPairsOfDigits | main/html/app.js:116-120 | back-to-back digit pairs are read as the bytes they spell |
| Descriptors.FormatHexBytesDigits | main/html/app.js:300-302 | `formatHexBytes` loses nothing but the separators |
| Descriptors.HexDumpRoundTrip | main/html/app.js:114-121 | the hex-dump parser inverts `formatHexBytes` |
| Descriptors.ParseDeviceDescriptor | main/html/app.js:126-142 | nothing is decoded exactly when fewer than 18 bytes arrive |
| Descriptors.EncodeDeviceDescriptor | main/html/app.js:126-142 | an encoded device descriptor is 18 bytes with length 18 and type 1 |
| Descriptors.DeviceDescriptorRoundTrip | main/html/app.js:126-142 | decoding an encoded device descriptor, whatever follows it, gives it back |
| Descriptors.DeviceDescriptorPrefix | main/html/app.js:126-142 | only the first 18 bytes matter |
| Descriptors.DecodeDesc | main/html/app.js:173-210 | a descriptor that is neither an interface nor an endpoint keeps its type |
| Descriptors.Attach | main/html/app.js:173-210 | an interface opens one new card; nothing else adds a card |
| Descriptors.ParseConfigDescriptor | main/html/app.js:145-152 | nothing is decoded exactly when fewer than 9 bytes arrive |
| Descriptors.DecodeEncode | main/html/app.js:168-210 | a well-formed descriptor is classified back as itself |
| Descriptors.WalkEncoded | main/html/app.js:164-213 | walking encoded descriptors applies them one by one |
| Descriptors.WalkStep | main/html/app.js:167-212 | one loop iteration reads the descriptor at the offset, attaches it and moves past it |
| Descriptors.ConfigRoundTrip | main/html/app.js:145-213 | an encoded configuration decodes to its header and the cards its descriptors build |
| Descriptors.AttachFlatten | main/html/app.js:173-210 | every card list is drawn by its flattening: endpoints land on the interface they follow |
| Descriptors.EndpointBeforeInterface | main/html/app.js:195 | an endpoint before the first interface is dropped |
| Descriptors.ConfigCardsRoundTrip | main/html/app.js:145-213 | a configuration built from cards decodes to those cards |
| Descriptors.FormatConfigAttributes | main/html/app.js:292-298 | Bus-Powered exactly when bits 5 and 6 are clear; Self-Powered exactly when bit 6 is set; Remote Wakeup exactly when bit 5 is set |
| Descriptors.LangsFromEncoded | main/html/app.js:219-221 | the language loop reads the encoded LANGIDs from any pair on |
| Descriptors.LanguagesRoundTrip | main/html/app.js:216-224 | the LANGID list of an encoded string descriptor zero is read back |
| Descriptors.UnitsFromEncoded | main/html/app.js:230-235 | the string loop reads the encoded non-zero code units from any pair on |
| Descriptors.UsbStringRoundTrip | main/html/app.js:226-237 | a string descriptor of non-zero code units is read back |
| Descriptors.ParseUsbString | main/html/app.js:230-235 | zero code units are dropped: every unit kept is non-zero |
| Descriptors.FormatBcdReadsBack | main/html/app.js:239-244 | the version text reads back as the major byte and the minor and patch nibbles |
| Descriptors.FormatBcdInjective | main/html/app.js:239-244 | distinct BCD values never share a text |
| Descriptors.FormatBcdMajorIsBinary | main/html/app.js:240-243 | the major byte is printed as a binary number: 0x1000 shows as "16.0" |
| ChainSteps.NumberText | main/html/app.js:2128-2129 | the text is "NaN" exactly when `parseInt` reads no number |
| ChainSteps.NumberTextIdempotent | main/html/app.js:2128-2129 | number text written and read again is unchanged |
| ChainSteps.SetField | main/html/app.js:1558 | setting a request field keeps the step's kind, makes that field read back as the value and keeps every other field; a USB request without the field is unchanged; an OUT transfer takes the value as its payload exactly for dataBytes; a goto's `gotoReqNo` becomes the text written; a condition's `valueAValue` or `valueBValue` takes the value while its operator, action and other side are kept |
| ChainSteps.JumpIndex | main/html/app.js:1572-1574 | `gotoReqNo \|\| 0` as the runner compares it: a stored number as it is (0 for 0), a written text through `Number`, and 0 for empty text |
| ChainSteps.RequestField | main/html/app.js:2123-2134 | a USB request has a field exactly for the seven copy targets and dataMode |
| ChainCsv.Fields | main/html/app.js:2177-2197 | the parser yields at least one field, each trimmed and free of quotes |
| ChainCsv.ParseCsvLine | main/html/app.js:2177-2197 | at least one field, each trimmed and free of quotes |
| ChainCsv.ParseCsvLineCount | main/html/app.js:2177-2197 | a line has one more field than it has unquoted commas |
| ChainCsv.ParseRenderedRow | main/html/app.js:2177-2197 | reading a written row gives back every field, trimmed |
| ChainCsv.ExportCells | main/html/app.js:1911-1975 | every step is written as at least one field |
| ChainCsv.ExportChain | main/html/app.js:1893-1985 | a file is produced exactly when the chain is not empty |
| ChainCsv.WriteLinesJoin | main/html/app.js:1911-1975 | the written lines are the step lines joined by newlines, with an empty piece last |
| ChainCsv.SplitFile | main/html/app.js:1998-2005 | the file splits back into its lines after the header |
| ChainCsv.ImportFile | main/html/app.js:1991-2166 | import reads every line after the header, in order |
| ChainCsv.FileRoundTrip | main/html/app.js:1991-2166 | a file of lines that each read as a step imports as exactly those steps |
| ChainCsv.ChainRoundTrip | main/html/app.js:1893-2166 | exporting and re-importing a chain whose records each read back loses and adds nothing and keeps the order |
| ChainCsv.ReadWrittenRecord | main/html/app.js:2177-2197 | a written row of readable fields imports as the record of its texts |
| ChainCsv.UsbRequestRoundTrip | main/html/app.js:2118-2136 | a USB request with well-formed fields reads back as itself, with an empty data mode becoming "separate" |
| ChainCsv.UsbTexts | main/html/app.js:1956-1974 | the fields a USB request is written as, in order, with "noretry" last when set |
| ChainCsv.ImportUsbRecord | main/html/app.js:2118-2136 | a usbrequest record with at least 7 fields becomes the USB request its fields name |
| ChainCsv.ImportActionRecord | main/html/app.js:2057-2099 | goto and comment records become the goto and comment they name |
| ChainCsv.ImportWaitRecord | main/html/app.js:2019-2056 | a webhook record gets a 300 s timeout; a short gpio record becomes a button wait |
| ChainCsv.GotoRoundTrip | main/html/app.js:2092-2098 | a goto record reads back as the same jump |
| ChainCsv.WrittenGotoReadsBack | main/html/app.js:1936 | a goto whose index a copy rewrote to "0x" and hex digits is exported with that text and imported as the number the digits spell, so it jumps to the same index |
| ChainCsv.CommentRoundTrip | main/html/app.js:2074-2080 | a comment reads back, with an empty one coming back as "Comment" |
| ChainCsv.ShortGpioWaitIsButton | main/html/app.js:2049-2054 | a gpio wait record without a level is read as a button wait prompted by the pin number |
| ChainCsv.WebhookTimeoutResets | main/html/app.js:2030-2036 | a webhook wait comes back with 300 s, whatever its timeout was |
| ChainCsv.ImportRecord | main/html/app.js:2019-2166 | a record is read exactly when its kind is known and it has the cells that kind needs; the step's kind follows the kind cell |
| ChainCsv.ImportLine | main/html/app.js:2006-2016 | a blank line or a '#' line reads as nothing, and a line read as a step has a kind the import knows |
| ChainCsv.ImportChain | main/html/app.js:1998-2166 | there is at most one step per line after the header |
| ChainCsv.UnreadableLineSkipped | main/html/app.js:2006-2166 | a line that reads as nothing is skipped without disturbing the steps read from its neighbours |
| ChainCsv.UnknownOrShortRecordSkipped | main/html/app.js:2019-2166 | a record of an unknown kind, or with fewer cells than its kind needs, reads as nothing |
| Condition.RemoveHexPrefixes | main/html/app.js:1643 | removing markers never lengthens the text and never introduces whitespace |
| Condition.RemoveHexPrefixesUnmarked | main/html/app.js:1643 | text without a marker is left alone |
| Condition.NormaliseManual | main/html/app.js:1643 | a manual value has no whitespace and no lower-case letters, and is no longer than typed |
| Condition.ManualOfHexDigits | main/html/app.js:1643 | hex digits typed plainly are only upper-cased |
| Condition.ManualDropsSpacedMarker | main/html/app.js:1643 | whitespace goes first, so "0 x1f" becomes "1F" |
| Condition.ManualIsSinglePass | main/html/app.js:1643 | the removal is a single pass: "00xx" becomes "0X", which still has a marker |
| Condition.ManualDropsLeadingMarker | main/html/app.js:1643 | a leading "0x" or "0X" marker is dropped |
| Condition.ManualMarkedHex | main/html/app.js:1643 | a manual value of "0x" and upper-case hex digits, as a copy writes it, compares as the digits alone |
| Condition.ManualAppend | main/html/app.js:1643 | two pieces normalise separately when the first does not end in '0', so no marker spans the join |
| Condition.OperandValue | main/html/app.js:1595-1643 | an operand has no whitespace and no lower-case letters; a table operand is hex digits; a manual operand of hex digits is only upper-cased |
| Condition.HexCellDigits | main/html/app.js:1620-1625 | a hex cell yields a non-empty run of hex digits |
| Condition.ScanCellsSpec | main/html/app.js:1620-1626 | the scan returns the first hex cell from column 6 up to column 8 without its whitespace, and "" exactly when there is none |
| Condition.SelectRow | main/html/app.js:1603-1616 | a row is picked exactly for `-n..-1` or `1..n-1`; negative numbers count from the end and positive ones index directly |
| Condition.Leading | main/html/app.js:1639 | `substring(0, end)` is the prefix clamped to the text |
| Condition.TableValue | main/html/app.js:1632-1640 | a table operand is an upper-cased prefix of the row's hex: all of it when the length is absent or -1, otherwise `2 * length` characters clamped |
| Condition.TableValueIsHexPrefix | main/html/app.js:1595-1640 | a table value is never padded: it is an upper-cased prefix of the hex read, made of hex digits |
| Condition.Evaluate | main/html/app.js:1663-1686 | == and != compare text; the orderings are false when either side is NaN; contains is substring search; any other operator is false |
| Condition.OrderingIsNumeric | main/html/app.js:1668-1683 | the orderings compare the numbers the leading hex digits spell, not the text |
| Condition.EmptyNeverOrders | main/html/app.js:1668-1683 | an empty side is never ordered against anything |
| Condition.ContainsEmpty | main/html/app.js:1684-1685 | every value contains the empty value |
| Condition.EqualityComplement | main/html/app.js:1672-1675 | inequality is the negation of equality |
| Condition.ResultRow | main/html/app.js:2250-2265 | a row has ten cells; cell 6 is the packet size and cell 8 the response cut to 60 characters |
| Condition.ScanReadsPacketSize | main/html/app.js:1620-1625 | on a request row, the scan reads the decimal packet-size cell back, whatever the device answered |
| Condition.LastRowReadsPacketSize | main/html/app.js:1632-1637 | a condition with the default row number and length reads the bottom table row, the oldest one logged because rows are inserted at the top, and compares its packet size |
| Chain.Start | main/html/app.js:1253-1262 | an empty chain or a run in progress changes nothing; otherwise a valid run starts on the chain and the table keeps its rows |
| Chain.MoveOn | main/html/app.js:1281 | the cursor moves on by one, and past the last step the run is over |
| Chain.AttemptsFrom | main/html/app.js:1786-1856 | attempts stop after the first success or after `max + 1`; every attempt but the last failed |
| Chain.UsbRowData | main/html/app.js:1836-1837 | a successful attempt's data is the row's data cell |
| Chain.RequestParams | main/html/app.js:1811-1826 | a noRetry request asks the firmware for one retry and at most 100 ms; retries, timeout and data mode are never zero or empty |
| Chain.SendWithRetries | main/html/app.js:1786-1856 | the loop makes `AttemptsFrom` attempts and resets before retries as `ResetsBefore` counts; it logs nothing exactly when no attempt is made, otherwise the row of the last attempt |
| Chain.RetryLoop | main/html/app.js:1786-1856 | the `while (!success && retryCount <= max)` loop makes exactly `AttemptsFrom` attempts, the reset count `ResetsBefore` gives, and returns the last attempt made |
| Chain.NextUsbRequest | main/html/app.js:1510-1515 | finds the first USB request at or after `j`, or -1 when there is none |
| Chain.CopyTarget | main/html/app.js:1507-1518 | -1 or 0 targets the next USB request; a positive number is itself; any other negative number has no target |
| Chain.CopyOutcome | main/html/app.js:1498-1566 | a copy keeps the chain's length and logs a seven-cell COPY row; without a target, a value or a field it changes nothing and logs FAILED and ERROR |
| Chain.CopyKeepsKinds | main/html/app.js:1519-1561 | a copy rewrites at most the target and keeps every step's kind; a step other than a USB request, an OUT transfer, a goto or a condition is left exactly as it was |
| Chain.CopyIntoNextRequest | main/html/app.js:1507-1565 | a copy into wValue of the next request sets exactly that request's wValue to "0x" plus the value, and logs the value |
| Chain.CopyWithoutTarget | main/html/app.js:1520-1565 | a copy without a target changes nothing and logs FAILED |
| Chain.ResetsClosedForm | main/html/app.js:1799-1802 | no resets when resetting is off; otherwise one before each retry from the threshold on |
| Chain.NoRetryAttemptsOnce | main/html/app.js:1790-1793 | a noRetry request is attempted once and never resets |
| Chain.NegativeRetriesSendNothing | main/html/app.js:1791-1793 | a negative retry setting skips the loop: the request is never sent |
| Chain.FirstSuccessWins | main/html/app.js:1793-1837 | if attempt `k` is the first success within the limit, exactly `k + 1` attempts are made |
| Chain.NextKeepsValid | main/html/app.js:1253-1891 | every event keeps a run valid, keeps the chain's length and step kinds, and appends at most one row |
| Chain.RunConditionLogs | main/html/app.js:1688-1706 | a condition step logs one row and leaves the chain as it is |
| Chain.FinishedIsFinal | main/html/app.js:1863 | a finished run is never changed |
| Chain.StopEnds | main/html/app.js:1880-1891 | Stop ends the run and changes neither the chain nor the log |
| Chain.ContinueReleasesButton | main/html/app.js:1873-1878 | Continue only releases a button wait, and then the run goes on with the next step, logging nothing |
| Chain.SkipConsumesStep | main/html/app.js:1289-1313 | a pending skip logs the step as skipped, does not execute it, and clears the flag |
| Chain.ConditionActions | main/html/app.js:1697-1706 | a condition that holds breaks the run on "break" and skips the next step on "skip_next"; one that fails goes on |
| Chain.GotoMoves | main/html/app.js:1567-1581 | a goto whose index, as JavaScript compares it, lies inside the chain moves the cursor there; any other goto, NaN included, is logged as invalid with the index as stored and the run goes on |
| Chain.StraightTickAdvances | main/html/app.js:1281 | in a chain without gotos or button waits every tick moves on by one or ends the run |
| Chain.StraightChainFinishes | main/html/app.js:1281-1863 | such a chain finishes after one tick per remaining step, whatever the world answers |
| Chain.Next | main/html/app.js:1253-1891 | every event keeps each step's kind and appends at most one row; Stop finishes the run without logging; Continue logs nothing and keeps the chain |
| Chain.Execute | main/html/app.js:1289-1313 | a pending skip keeps the chain, clears the flag and logs exactly one SKIPPED row; any step appends at most one row and keeps every kind |
| Chain.RunCopy | main/html/app.js:1498-1566 | a copy step keeps every kind, moves on by one and logs exactly one COPY row |
| Chain.RunUsbRequest | main/html/app.js:1786-1856 | a request step keeps the chain and moves on by one; it logs one nine-cell row exactly when the retry limit is not negative, otherwise nothing |
| Chain.RunAction | main/html/app.js:1316-1589 | waits and actions keep the chain; the run awaits the button exactly for a button wait; waits log nothing and every other step logs one row |
| Chain.RunCondition | main/html/app.js:1590-1706 | a condition keeps the chain and logs one Condition row; the run either ends or moves on by one, and the skip flag can only be raised |
| Chain.EffectiveMax | main/html/app.js:1790-1791 | the retry limit is 0 exactly for a noRetry request, and otherwise `bfMaxRetries` when that is not 0 |
| Chain.UsbRow | main/html/app.js:1836-1851 | a row has nine cells opening with the six request fields; a thrown request shows 0 bytes, ERROR and the message; a failed reply shows its data, or FAILED when there is none |
| Chain.FailedTokenIsNoError | main/html/app.js:1832 | the firmware's FAILED token contains none of TIMEOUT, ERROR, STALL and NAK |
| Chain.FailedReplyEndsRetries | main/html/app.js:1832-1837 | a reply whose data is the firmware's FAILED token counts as a success: one attempt is made and the row shows FAILED |
| Chain.CopyIntoGoto | main/html/app.js:1558-1577 | a copy of a non-empty value into a goto's `gotoReqNo` stores "0x" and the value; the goto then jumps to the index the hex digits spell, and its row shows the text |
| Chain.CopyIntoCondition | main/html/app.js:1558-1660 | a copy into `valueAValue` or `valueBValue` of a condition stores "0x" and the value on that side, keeps the operator and action, and a manual side then compares exactly the copied digits |
| Chain.CopyIntoTarget | main/html/app.js:1519-1565 | a copy of a non-empty value into a named request field sets exactly that field to "0x" plus the value, keeps the target's other fields and every other step, and logs the value with OK |
| Chain.CopyEmptyWritesNothing | main/html/app.js:1519-1565 | a copy that reads no value or names no field changes nothing and logs FAILED |
| Bruteforce.Skip | main/html/app.js:3313-3315 | the skip stops past the end or on a value that is not excluded |
| Bruteforce.SkipPassesExcluded | main/html/app.js:3313-3315 | every value skipped is excluded and within the end |
| Bruteforce.AllowedSpec | main/html/app.js:3401-3410 | the allowed values are exactly the non-excluded values of the range, in increasing order |
| Bruteforce.SkipFindsFirst | main/html/app.js:3310-3316 | the start skip stops on the first allowed value, or past the end when none is allowed |
| Bruteforce.StepWalksChoices | main/html/app.js:3401-3405 | a field starts on its first choice, steps through its choices in order, and steps past the end after the last one |
| Bruteforce.Advance | main/html/app.js:3398-3413 | the advance keeps one value per field; what it counts is stated by AdvanceCounts |
| Bruteforce.IncrementRank | main/html/app.js:3398-3413 | counting up moves the rank on by one, and wraps exactly from the last position to the first |
| Bruteforce.AdvanceCounts | main/html/app.js:3398-3413 | the odometer on values is counting up on positions |
| Bruteforce.InitialIsFirst | main/html/app.js:3310-3316 | the start values are position zero |
| Bruteforce.SweepCoversAll | main/html/app.js:3291-3413 | a sweep sends exactly one request per combination: the product of the fields' numbers of choices |
| Bruteforce.SweepOrder | main/html/app.js:3398-3413 | the `n`-th request carries the combination of rank `n`, with the last field running fastest, and the sweep reports done exactly after the last |
| Bruteforce.SweepSendsEachOnce | main/html/app.js:3291-3413 | every combination is sent once and only once, as the request numbered by its rank |
| Bruteforce.UpperHexPrefixReadsZero | main/html/app.js:3282-3284 | "0X…" is not recognised as hex: it is read as decimal and gives 0 |
| Bruteforce.ExcludeListRoundTrip | main/html/app.js:3286-3289 | a comma-separated list of decimal numbers is read back as those numbers |
| Bruteforce.ParseHexOrDecOfDecimal | main/html/app.js:3282-3284 | decimal text is read back as the number it spells |
| Bruteforce.ParseExcludeList | main/html/app.js:3286-3289 | the list has at most one number per comma-separated entry |
| Bruteforce.BitOrDisjoint | main/html/app.js:3358-3359 | a low part below `2^k` or-ed with a high part shifted by `k` is their sum |
| Bruteforce.ShiftOrOfBytes | main/html/app.js:3358-3359 | `(hi << 8) \| lo` is `hi * 256 + lo`, and a NaN side counts as 0 |
| Bruteforce.ByteTextReadsBack | main/html/app.js:3347-3348 | a run byte is sent as "0x" and two hex digits, which the firmware reads back as the byte |
| Bruteforce.WordTextReadsBack | main/html/app.js:3358-3359 | two run bytes sent as one 16-bit value are read by the firmware and by `parseHexOrDec` as `hi * 256 + lo` |
| Bruteforce.RunBytesReachFirmware | main/html/app.js:3346-3362 | when the sweep runs both halves of wValue, the firmware reads the request's wValue as high byte times 256 plus low byte |
| Bruteforce.FixedFieldsFromForm | main/html/app.js:3346-3355 | a field the sweep does not run is sent as the form has it |
| Bruteforce.RunByteSent | main/html/app.js:3347 | a run request type is read by the firmware as the value swept |
| Bruteforce.Start | main/html/app.js:3291-3319 | a sweep in progress is left alone; with no field the sweep stops at once; otherwise the fields start on their first values, the table is kept, and the first request goes out |
| Bruteforce.FireOnce | main/html/app.js:3328-3362 | nothing happens once stopped; otherwise the count goes up by one and a request goes out; values and table do not change |
| Bruteforce.Replied | main/html/app.js:3363-3415 | a reply never changes the request count or the fields; the retries and resets it allows are stated by FailuresRetrySameValues, ResetBeforeRetry and EmptyFieldsUseDefaults |
| Bruteforce.Caught | main/html/app.js:3416-3428 | a network error never moves the values, and does nothing after a stop |
| Bruteforce.FailuresRetrySameValues | main/html/app.js:3369-3386 | a failing combination is resent unchanged after each of its first `getBfMaxRetries()` failures (3 when the field is empty), logging nothing |
| Bruteforce.FailingCombinationLogged | main/html/app.js:3389-3413 | the next failure logs FAILED with no bytes and advances: `getBfMaxRetries() + 1` requests in all, 4 when the field is empty |
| Bruteforce.SuccessAdvances | main/html/app.js:3388-3414 | a success is logged with its bytes, data and ASCII and the fields advance; the sweep stops when the first field wraps |
| Bruteforce.ResetBeforeRetry | main/html/app.js:3369-3383 | a reset precedes a retry exactly when resets are on and the retry count, with this retry, has reached `getResetAfterRetries()` (2 when the field is empty) |
| Bruteforce.EmptyFieldsUseDefaults | main/html/app.js:3241-3252 | with the retry and threshold fields empty, a combination gets 3 retries; its first failure is resent with no reset and nothing logged, and its second after a reset when resets are on |
| Bruteforce.ErrorsNeverAdvance | main/html/app.js:3416-3428 | however many requests throw, the same values are sent again and every row added is an ERROR row |
| Bruteforce.ErrorsLoggedEveryMaxRetries | main/html/app.js:3419-3426 | `getBfMaxRetries()` errors in a row log one ERROR row and clear the retry count |
| Bruteforce.StoppedSendsNothing | main/html/app.js:3329-3417 | once stopped, no transfer request is sent and the values do not move; a reply in flight may still add one row, and a failed one may still send one USB reset |
| Bruteforce.StopEnds | main/html/app.js:3321-3326 | stop ends the sweep and keeps its values and table |
| Bruteforce.Next | main/html/app.js:3321-3428 | every event keeps the sweep valid: one current value per field, and a running sweep has at least one field |
| Bruteforce.Round | main/html/app.js:3328-3428 | a reply and the call it schedules keep the sweep valid |
| UiHelpers.CompareVersions | main/html/app.js:2682-2693 | the result is 1, -1 or 0 |
| UiHelpers.CompareZeroIffSame | main/html/app.js:2686-2692 | the comparison is 0 exactly when the parts agree, missing parts counting as 0 |
| UiHelpers.CompareAntisymmetric | main/html/app.js:2686-2692 | swapping the versions negates the comparison |
| UiHelpers.CompareTransitive | main/html/app.js:2686-2692 | newer-than is transitive |
| UiHelpers.CompareFirstDifference | main/html/app.js:2686-2692 | the first part where the versions differ decides |
| UiHelpers.TrailingZeroIgnored | main/html/app.js:2686-2689 | "1.2" and "1.2.0" are the same version |
| UiHelpers.LeadingVIgnored | main/html/app.js:2683-2684 | a leading 'v' is ignored |
| UiHelpers.TableRow | main/html/app.js:2250-2253 | the stored response is upper-cased without whitespace, and the row is failed exactly for FAILED or ERROR |
| UiHelpers.Shown | main/html/app.js:2290-2325 | every visible row is a table row that the filter does not hide, and there are no more visible rows than table rows |
| UiHelpers.ShownExactly | main/html/app.js:2299-2325 | every visible row is shown and every hidden one is not |
| UiHelpers.ResetFiltersShowAll | main/html/app.js:2330-2335 | the reset filters show every row written with a non-negative byte count |
| UiHelpers.FailedRowsIgnoreMinBytes | main/html/app.js:2307-2310 | a failed row is never hidden by the minimum byte count |
| UiHelpers.IncludeExcludeComplement | main/html/app.js:2313-2321 | with a search text and no other filter, include and exclude mode show complementary rows |
| UiHelpers.MinBytesMonotone | main/html/app.js:2310 | raising the minimum never shows a hidden row |
| UiHelpers.QueryIgnoresCaseAndSpaces | main/html/app.js:2293 | the search ignores case and whitespace in what is typed |
| UiHelpers.PacketSizeFor | main/html/app.js:3054-3075 | append mode proposes 8 plus one per whole pair of hex digits; separate mode proposes 8 |
| UiHelpers.AppendSizeCoversData | main/html/app.js:3059-3067 | for bytes written as the UI writes them, the proposed size is 8 plus their number, and the firmware reads exactly those bytes back |
| UiHelpers.OddDigitDropped | main/html/app.js:3062-3063 | an odd trailing digit does not count as a byte |
| Text.JsNumberOfIntToString | main/html/app.js:2683-2684 | `Number`, which reads the version parts, reads back the decimal text of any integer |
| Text.JsNumberOfHex | main/html/app.js:1574 | `Number` reads "0x" and hex digits as their value |
| Text.ParseIntOfHexText | main/html/app.js:2096 | `parseInt` with no radix reads "0x" and hex digits as their value |
| UiHelpers.Move | main/html/app.js:813-821 | a move past either end leaves the chain alone; otherwise the step lands at `index + direction` |
| UiHelpers.MoveKeepsOthersInOrder | main/html/app.js:817-819 | the other steps keep their order |
| UiHelpers.MoveByOneSwaps | main/html/app.js:813-821 | moving by one swaps the step with its neighbour |
| UiHelpers.MoveBack | main/html/app.js:813-821 | a move is undone by the opposite move from the new place |
| UiHelpers.InsertPermutes | main/html/app.js:818-819 | taking a step out and putting it back keeps the steps as a multiset |
| CLib.Strtol | main/web_interface.c:228 | `strtol` saturates within the 32-bit `long` range |
| CLib.StrtolOfHexByte | main/web_interface.c:272 | two hex digits are read in base 16 as the byte they spell |
| CLib.StrtokOfJoin | main/web_interface.c:270-274 | tokens joined by single spaces split back into the same tokens |
| CLib.ToSize | main/web_interface.c:243 | the cast to the ESP32's `size_t` reduces modulo 2^32 |
| Text.ParseIntOfIntToString | main/html/app.js:2128-2129 | decimal text from `String(n)` is read back by `parseInt` |
| Text.SplitJoin | main/html/app.js:3288 | splitting a join of separator-free pieces gives the pieces back |
| Text.IncludesIffWindow | main/html/app.js:1685 | `includes` holds exactly when some window equals the text sought |

## Left out

- Hardware access is not modelled. That covers DWC OTG registers, interrupts, FIFO flushes, DMA and task delays. Per-packet results and poll snapshots stand in for the device.
- All timing is left out:
  - the chain delays, retry-delay increments and `setTimeout` ordering;
  - webhook and GPIO polling intervals and timeouts;
  - the timeout loops of `usb_write_data` and `usb_read_response`.
  A wait step completes in one tick with the outcome the world supplies.
- Concurrency is left out:
  - the worker task and the queue behind `usb_send_packet`;
  - the trigger mutex;
  - races between a stop and an `await` that is still pending.
  Stop takes effect between events, so a Bruteforce reply already in flight may still log its row.
- HTTP endpoints other than `/api/send_request` and `/api/trigger` are left out: reset, GPIO, endpoint IN/OUT, stats and settings. A chain step that calls them yields the row built from the reply the world supplies.
- DOM rendering, alerts and progress texts are left out. The model keeps the row cells that later steps read.
- `formatDeviceClass` and `formatInterfaceClass` are left out. They are display-only lookup tables, and nothing else reads them.
- Bruteforce.Start: range bounds that are NaN are not modelled, because the fields are integers. An empty or all-excluded range keeps the value where the skip stops, as the source does.
- UiHelpers.CompareVersions: `Number` is modelled for blank text, signed decimals and "0x" hex only. Exponents, "Infinity", fractions and the "0b"/"0o" prefixes are not modelled.
- Text.ToUpper: `toUpperCase` and `toLowerCase` are modelled on ASCII letters only. The values compared are hex text.
- Text.IntToString: `String(n)` is modelled for integers, not for the exponent form JavaScript uses from 1e21 on.
- Chain.RequestParams: the model does not follow `timeout` and `deviceAddr` past the query, because the firmware handler never reads them. `maxRetries` becomes `max_nak_retries`, which the transfer never reads (SendPacketIgnoresNakRetries).
- Condition.SelectRow: the results table that conditions and copies read is looked up by id `resultsTable`, but `addTableRow` writes into `results_table`. The model follows the engine's intent and hands the table to conditions and copies as an explicit row snapshot.
- Bruteforce.Replied: a failed reply may be answered by `getBfMaxRetries() + 1` requests, while the catch path allows `getBfMaxRetries()`. Both are modelled as written.
- Bruteforce.RequestFor: the form's start fields are read once, when the sweep starts. The source re-reads every `bf_*_start` field on each request (main/html/app.js:3332-3343), so an edit made during a sweep changes the fixed fields it sends; the model does not follow such edits.
- Condition.Evaluate: the orderings compare the exact integers that the leading hex digits spell. JavaScript's `parseInt` gives a double, so above 2^53 (hex operands of 14 digits or more) two different values can round to the same double, and then the source finds neither less than the other while the model orders them.
- Condition.OrderingIsNumeric: states exact integer order; for values above 2^53 the source compares rounded doubles, as the line above says.
- ChainSteps.SkippedDescription: a copy step is always described as "Action: COPY". The source also accepts the spelling `copy_to` (main/html/app.js:1498) and would describe such a step as "Action: COPY_TO", but no code path creates that spelling, so the model has a single copy step.
- ChainSteps.SetField: a copy may name any property, and the source sets it on the target (main/html/app.js:1558). The model writes only these: a USB request's request fields and `dataMode`, an OUT transfer's data, a goto's `gotoReqNo`, and a condition's `valueAValue` and `valueBValue`. A write to any other property leaves the step as it was. That covers `type` and `actionType`, which in the source change what the step is. It covers a USB request's `noRetry` and `deviceAddr`, a condition's request numbers, lengths, sources, operator and action, and the fields of waits, HTTP and GPIO actions, endpoint reads and copy steps.
- Chain.CopyKeepsKinds: holds because `SetField` drops writes to `type` and `actionType`. In the source a copy into either of them changes the target's kind, and the model does not promise what happens then.
- ChainSteps.JumpIndex: `Number` is modelled for integer text only, as for the version parts. A written index such as "1.5", which the source compares as 1.5, counts as NaN here. A copy only ever writes "0x" and hex digits, and those are read exactly.
- ControlTransfer.SendPacket: the guard rejects packet sizes above 256 as well as NULL and 0, so the 256-byte SETUP buffer overrun of the source is not modelled here. The as-written guard is `ControlTransfer.AcceptedAsWritten`, and `RequestApi.HandleSendRequest` and `ControlTransfer.GetDeviceInfo` inherit the corrected guard.
- ControlTransfer.ReadResponse: the IN transfer size is limited to the 256-byte receive buffer, so reading past that buffer, as the source can, is not modelled here. The as-written count is shown by `ControlTransfer.ReadCountAsWrittenOverruns`, and `RequestApi.HandleSendRequest` and `ControlTransfer.GetDeviceInfo` inherit the bound.
- Triggers.HandleTrigger: the query text is not parsed. The handler receives the pairs the HTTP server reads from it, and `Triggers.ReceivedQuery` takes the text's length to decide whether the 128-byte buffer held it; a longer query is dropped whole, as in the source.

## Findings

| source | as written | input that shows it | evidently intended | confidence | as-written member | corrected member |
|---|---|---|---|---|---|---|
| main/web_interface.c:379-392 | `hex_str` holds 384 bytes, but 128 groups of "%02x " take 384 characters before the terminator, and the "... (k more)" suffix adds up to 14 more | a response of 128 bytes or more | a buffer of at least 399 bytes, the largest dump plus its terminator | high (not executed) | RequestApi.HexDumpOverflowsAsWritten | RequestApi.HexDumpFits |
| main/usb_malformed.c:526-618 | the guard rejects only a NULL config and a zero packet size, then copies `packet_size` bytes into a 256-byte DMA buffer | `packetSize=300` with no `dataBytes` | reject packet sizes above 256 (`USB_MAX_PACKET_SIZE`) | high (not executed) | ControlTransfer.AcceptedAsWrittenOverruns | ControlTransfer.SendPacket |
| main/usb_malformed.c:781-820 | the IN transfer size is the caller's `max_len` (512 from the request handler) while the receive DMA buffer is 256 bytes, and up to `max_len` bytes are copied out of it | a device that sends 512 bytes to a GET with wLength 512 | limit the transfer size to the 256-byte receive buffer | medium (not executed) | ControlTransfer.ReadCountAsWrittenOverruns | ControlTransfer.ReadResponseFitsBuffers |

=== FILE: bruteforce.dfy ===
/** The brute-force sweep of the web UI (`startBruteforce`,
    `executeBruteforce`, `stopBruteforce`): the selected request fields run
    like the wheels of an odometer from their start to their end value, the
    last selected field fastest, skipping excluded values, and one request is
    sent per combination. */
module Bruteforce {
  import opened Wrappers
  import opened Text
  import CLib
  import Chain
  import ChainSteps

  // ---------------------------------------------------------------------
  // One field
  // ---------------------------------------------------------------------

  /** The fields the sweep can run, in the order they are collected. */
  datatype FieldName = BmRequestType | BRequest | WValueHi | WValueLo | WIndexHi | WIndexLo | WLength | PacketSize

  /** A selected field: its range and its excluded values. */
  datatype Field = Field(name: FieldName, start: int, end: int, exclude: seq<int>)

  /** `while (v <= end && exclude.includes(v)) v++`. */
  function Skip(v: int, end: int, exclude: seq<int>): (r: int)
    ensures r >= v
    ensures r > end || r !in exclude
    decreases if v <= end then end - v + 1 else 0
  {
    if v <= end && v in exclude then Skip(v + 1, end, exclude) else v
  }

  /** Every value the skip passes over is excluded and within the end. */
  lemma {:induction false} SkipPassesExcluded(v: int, end: int, exclude: seq<int>, u: int)
    requires v <= u < Skip(v, end, exclude)
    ensures u <= end && u in exclude
    decreases if v <= end then end - v + 1 else 0
  {
    if u > v {
      SkipPassesExcluded(v + 1, end, exclude, u);
    }
  }

  /** The value a field starts from. */
  function First(f: Field): int {
    Skip(f.start, f.end, f.exclude)
  }

  /** `do { v++ } while (v <= end && exclude.includes(v))`. */
  function Step(f: Field, v: int): int {
    Skip(v + 1, f.end, f.exclude)
  }

  /** The values of `[lo, end]` that are not excluded, in increasing order. */
  function Allowed(lo: int, end: int, exclude: seq<int>): seq<int>
    decreases if lo <= end then end - lo + 1 else 0
  {
    if lo > end then [] else (if lo in exclude then [] else [lo]) + Allowed(lo + 1, end, exclude)
  }

  predicate Increasing(s: seq<int>) {
    forall i, j :: 0 <= i < j < |s| ==> s[i] < s[j]
  }

  lemma {:induction false} AllowedSpec(lo: int, end: int, exclude: seq<int>)
    ensures forall i :: 0 <= i < |Allowed(lo, end, exclude)| ==>
              lo <= Allowed(lo, end, exclude)[i] <= end && Allowed(lo, end, exclude)[i] !in exclude
    ensures Increasing(Allowed(lo, end, exclude))
    ensures forall x :: lo <= x <= end && x !in exclude ==> x in Allowed(lo, end, exclude)
    decreases if lo <= end then end - lo + 1 else 0
  {
    if lo <= end {
      AllowedSpec(lo + 1, end, exclude);
      var r := Allowed(lo, end, exclude);
      var tail := Allowed(lo + 1, end, exclude);
      if lo !in exclude {
        assert r == [lo] + tail;
        forall i, j | 0 <= i < j < |r| ensures r[i] < r[j] {
          assert r[j] == tail[j - 1];
          if i > 0 {
            assert r[i] == tail[i - 1];
          }
        }
      } else {
        assert r == tail;
      }
    }
  }

  /** The values a field takes, in the order it takes them. A field none of
      whose values is allowed (an empty range, or every value excluded) stays
      at the value the skip ends on. */
  function Choices(f: Field): (c: seq<int>)
    ensures |c| > 0
  {
    var a := Allowed(f.start, f.end, f.exclude);
    if |a| > 0 then a else [First(f)]
  }

  function Radix(f: Field): nat {
    |Choices(f)|
  }

  /** The first allowed value is where the skip from `lo` stops. */
  lemma {:induction false} SkipFindsFirst(lo: int, end: int, exclude: seq<int>)
    ensures |Allowed(lo, end, exclude)| > 0 ==> Skip(lo, end, exclude) == Allowed(lo, end, exclude)[0]
    ensures |Allowed(lo, end, exclude)| == 0 ==> Skip(lo, end, exclude) > end
    decreases if lo <= end then end - lo + 1 else 0
  {
    if lo <= end {
      SkipFindsFirst(lo + 1, end, exclude);
      if lo !in exclude {
        assert Allowed(lo, end, exclude)[0] == lo;
      } else {
        assert Allowed(lo, end, exclude) == Allowed(lo + 1, end, exclude);
      }
    }
  }

  /** The allowed values of `[lo, end]` are those of `[lo, x]` followed by
      those of `(x, end]`. */
  lemma {:induction false} AllowedSplit(lo: int, x: int, end: int, exclude: seq<int>)
    requires lo <= x <= end
    ensures Allowed(lo, end, exclude) == Allowed(lo, x, exclude) + Allowed(x + 1, end, exclude)
    decreases x - lo
  {
    var head := if lo in exclude then [] else [lo];
    AllowedCons(lo, end, exclude);
    AllowedCons(lo, x, exclude);
    if lo == x {
      assert Allowed(x + 1, x, exclude) == [];
      assert Allowed(lo, x, exclude) == head;
    } else {
      AllowedSplit(lo + 1, x, end, exclude);
      AppendAssoc(head, Allowed(lo + 1, x, exclude), Allowed(x + 1, end, exclude));
    }
  }

  /** `Allowed` unfolded once. */
  lemma {:induction false} AllowedCons(lo: int, end: int, exclude: seq<int>)
    requires lo <= end
    ensures Allowed(lo, end, exclude) == (if lo in exclude then [] else [lo]) + Allowed(lo + 1, end, exclude)
  {
  }

  lemma {:induction false} AppendAssoc(a: seq<int>, b: seq<int>, c: seq<int>)
    ensures a + (b + c) == (a + b) + c
  {
  }

  /** An allowed `x` is the last allowed value up to `x`. */
  lemma {:induction false} AllowedEndsAt(lo: int, x: int, exclude: seq<int>)
    requires lo <= x && x !in exclude
    ensures var a := Allowed(lo, x, exclude); |a| > 0 && a[|a| - 1] == x
  {
    if lo < x {
      AllowedSplit(lo, x - 1, x, exclude);
      assert Allowed(x, x, exclude) == [x] + Allowed(x + 1, x, exclude);
    }
  }

  /** The allowed values after the `k`-th are those above it. */
  lemma {:induction false} AllowedAfter(lo: int, end: int, exclude: seq<int>, k: nat)
    requires k < |Allowed(lo, end, exclude)|
    ensures var a := Allowed(lo, end, exclude);
            Allowed(a[k] + 1, end, exclude) == a[k + 1..]
  {
    var a := Allowed(lo, end, exclude);
    var x := a[k];
    AllowedSpec(lo, end, exclude);
    AllowedSplit(lo, x, end, exclude);
    AllowedEndsAt(lo, x, exclude);
    var front := Allowed(lo, x, exclude);
    var n := |front|;
    assert a == front + Allowed(x + 1, end, exclude);
    assert a[n - 1] == x;
    assert a[k + 1..] == Allowed(x + 1, end, exclude);
  }

  /** A field walks through its choices one by one, and steps past its end
      after the last one; it starts on the first. */
  lemma {:induction false} StepWalksChoices(f: Field, k: nat)
    requires k < Radix(f)
    ensures First(f) == Choices(f)[0]
    ensures k + 1 < Radix(f) ==> Step(f, Choices(f)[k]) == Choices(f)[k + 1] && Choices(f)[k + 1] <= f.end
    ensures k + 1 == Radix(f) ==> Step(f, Choices(f)[k]) > f.end
  {
    var a := Allowed(f.start, f.end, f.exclude);
    SkipFindsFirst(f.start, f.end, f.exclude);
    if |a| > 0 {
      AllowedSpec(f.start, f.end, f.exclude);
      AllowedAfter(f.start, f.end, f.exclude, k);
      SkipFindsFirst(a[k] + 1, f.end, f.exclude);
      if k + 1 < |a| {
        assert a[k + 1..][0] == a[k + 1];
      }
    }
  }

  // ---------------------------------------------------------------------
  // The odometer
  // ---------------------------------------------------------------------

  /** The values the fields start on (`startBruteforce`). */
  function Initial(fields: seq<Field>): (cur: seq<int>)
    ensures |cur| == |fields|
  {
    seq(|fields|, j requires 0 <= j < |fields| => First(fields[j]))
  }

  /** The advance after a request: from the last field backwards, the field
      steps; if it is still within its end the advance stops, otherwise it
      goes back to its first value and the field before it steps. When the
      first field wraps the sweep is done. */
  function Advance(fields: seq<Field>, cur: seq<int>): (res: (seq<int>, bool))
    requires |fields| == |cur| > 0
    ensures |res.0| == |cur|
    decreases |cur|
  {
    var k := |cur| - 1;
    var v := Step(fields[k], cur[k]);
    if v <= fields[k].end then (cur[k := v], false)
    else if k == 0 then ([First(fields[0])], true)
    else
      var (front, done) := Advance(fields[..k], cur[..k]);
      (front + [First(fields[k])], done)
  }

  /** Mixed-radix positions: the index of each field's value among its
      choices. */
  predicate ValidPos(r: seq<nat>, pos: seq<nat>) {
    |pos| == |r| && forall j :: 0 <= j < |pos| ==> pos[j] < r[j]
  }

  /** Each field's choices, row by row. */
  function Table(fields: seq<Field>): (t: seq<seq<int>>)
    ensures |t| == |fields|
  {
    seq(|fields|, j requires 0 <= j < |fields| => Choices(fields[j]))
  }

  function Sizes(table: seq<seq<int>>): (r: seq<nat>)
    ensures |r| == |table|
  {
    seq(|table|, j requires 0 <= j < |table| => |table[j]|)
  }

  /** The value each field has at a position. */
  function Pick(table: seq<seq<int>>, pos: seq<nat>): (cur: seq<int>)
    requires ValidPos(Sizes(table), pos)
    ensures |cur| == |table|
  {
    seq(|table|, j requires 0 <= j < |table| => table[j][pos[j]])
  }

  function Radices(fields: seq<Field>): (r: seq<nat>)
    ensures |r| == |fields|
  {
    Sizes(Table(fields))
  }

  function Values(fields: seq<Field>, pos: seq<nat>): (cur: seq<int>)
    requires ValidPos(Radices(fields), pos)
    ensures |cur| == |fields|
  {
    Pick(Table(fields), pos)
  }

  /** What the odometer needs to know of a field's row of choices: it starts
      on the first, steps to the next, and steps past the end after the
      last. */
  predicate WalksField(f: Field, c: seq<int>) {
    && |c| > 0
    && First(f) == c[0]
    && (forall k {:trigger Step(f, c[k])} :: 0 <= k < |c| - 1 ==> Step(f, c[k]) == c[k + 1] && c[k + 1] <= f.end)
    && Step(f, c[|c| - 1]) > f.end
  }

  predicate Walks(fields: seq<Field>, table: seq<seq<int>>) {
    |table| == |fields| && forall j :: 0 <= j < |fields| ==> WalksField(fields[j], table[j])
  }

  lemma {:induction false} TableWalks(fields: seq<Field>)
    ensures Walks(fields, Table(fields))
  {
    forall j | 0 <= j < |fields| ensures WalksField(fields[j], Table(fields)[j]) {
      var f := fields[j];
      StepWalksChoices(f, 0);
      var c := Choices(f);
      forall k {:trigger Step(f, c[k])} | 0 <= k < |c| - 1 ensures Step(f, c[k]) == c[k + 1] && c[k + 1] <= f.end {
        StepWalksChoices(f, k);
      }
      StepWalksChoices(f, Radix(f) - 1);
    }
  }

  /** Counting up by one in mixed radix; `true` when the count wraps. */
  function Increment(r: seq<nat>, pos: seq<nat>): (res: (seq<nat>, bool))
    requires ValidPos(r, pos) && |pos| > 0
    ensures ValidPos(r, res.0)
    decreases |pos|
  {
    var k := |pos| - 1;
    if pos[k] + 1 < r[k] then (pos[k := pos[k] + 1], false)
    else if k == 0 then ([0], true)
    else
      var (front, done) := Increment(r[..k], pos[..k]);
      (front + [0], done)
  }

  /** The number a position spells, most significant field first. */
  function Rank(r: seq<nat>, pos: seq<nat>): nat
    requires |pos| == |r|
  {
    if |pos| == 0 then 0 else Scale(Rank(r[..|pos| - 1], pos[..|pos| - 1]), r[|pos| - 1]) + pos[|pos| - 1]
  }

  /** The number of positions: the product of the radices. */
  function Total(r: seq<nat>): nat {
    if |r| == 0 then 1 else Scale(Total(r[..|r| - 1]), r[|r| - 1])
  }

  /** `a * n` as repeated addition, so that the counting proofs stay in linear
      arithmetic; `ScaleIsMul` connects the two. */
  function Scale(a: nat, n: nat): nat {
    if n == 0 then 0 else Scale(a, n - 1) + a
  }

  lemma {:induction false} ScaleIsMul(a: nat, n: nat)
    ensures Scale(a, n) == a * n
  {
    if n > 0 {
      ScaleIsMul(a, n - 1);
    }
  }

  lemma {:induction false} ScaleSucc(a: nat, n: nat)
    ensures Scale(a + 1, n) == Scale(a, n) + n
  {
    ScaleIsMul(a + 1, n);
    ScaleIsMul(a, n);
  }

  lemma {:induction false} ScaleMonotone(a: nat, b: nat, n: nat)
    requires a <= b
    ensures Scale(a, n) <= Scale(b, n)
  {
    ScaleIsMul(a, n);
    ScaleIsMul(b, n);
    MulMonotone(a, b, n);
  }

  lemma {:induction false} ScaleOfZero(n: nat)
    ensures Scale(0, n) == 0
  {
    ScaleIsMul(0, n);
  }

  lemma {:induction false} RankBelowTotal(r: seq<nat>, pos: seq<nat>)
    requires ValidPos(r, pos)
    ensures Rank(r, pos) < Total(r)
    decreases |pos|
  {
    if |pos| > 0 {
      var k := |pos| - 1;
      RankBelowTotal(r[..k], pos[..k]);
      var a := Rank(r[..k], pos[..k]);
      ScaleSucc(a, r[k]);
      ScaleMonotone(a + 1, Total(r[..k]), r[k]);
    }
  }

  lemma {:induction false} MulMonotone(a: nat, b: nat, c: nat)
    requires a <= b
    ensures a * c <= b * c
  {
  }

  /** Counting up moves the rank on by one, and wraps exactly from the last
      position to the first. */
  lemma {:induction false} IncrementRank(r: seq<nat>, pos: seq<nat>)
    requires ValidPos(r, pos) && |pos| > 0
    ensures var (next, done) := Increment(r, pos);
            && (done <==> Rank(r, pos) + 1 == Total(r))
            && (!done ==> Rank(r, next) == Rank(r, pos) + 1)
            && (done ==> Rank(r, next) == 0)
    decreases |pos|, 1
  {
    var k := |pos| - 1;
    if pos[k] + 1 < r[k] {
      IncrementRankStep(r, pos);
    } else if k == 0 {
      IncrementRankWrap(r, pos);
    } else {
      IncrementRankCarry(r, pos);
    }
  }

  /** The last digit has room: only it moves. */
  lemma {:induction false} IncrementRankStep(r: seq<nat>, pos: seq<nat>)
    requires ValidPos(r, pos) && |pos| > 0 && pos[|pos| - 1] + 1 < r[|pos| - 1]
    ensures var (next, done) := Increment(r, pos);
            !done && Rank(r, next) == Rank(r, pos) + 1 && Rank(r, pos) + 1 != Total(r)
  {
    var k := |pos| - 1;
    var next := pos[k := pos[k] + 1];
    assert Increment(r, pos) == (next, false);
    assert next[..k] == pos[..k];
    assert Rank(r, next) == Scale(Rank(r[..k], pos[..k]), r[k]) + pos[k] + 1;
    RankBelowTotal(r, next);
  }

  /** A single digit at its top wraps to zero, and that was the last rank. */
  lemma {:induction false} IncrementRankWrap(r: seq<nat>, pos: seq<nat>)
    requires ValidPos(r, pos) && |pos| == 1 && pos[0] + 1 >= r[0]
    ensures var (next, done) := Increment(r, pos);
            done && Rank(r, next) == 0 && Rank(r, pos) + 1 == Total(r)
  {
    assert Increment(r, pos) == ([0], true);
    assert Rank(r, [0]) == Scale(Rank(r[..0], [0][..0]), r[0]) + 0;
    assert Rank(r, pos) == Scale(Rank(r[..0], pos[..0]), r[0]) + pos[0];
    assert Total(r) == Scale(Total(r[..0]), r[0]);
    ScaleOfZero(r[0]);
    ScaleSucc(0, r[0]);
  }

  /** A top last digit carries into the prefix. */
  lemma {:induction false} IncrementRankCarry(r: seq<nat>, pos: seq<nat>)
    requires ValidPos(r, pos) && |pos| > 1
    requires pos[|pos| - 1] + 1 >= r[|pos| - 1]
    ensures var outer := Increment(r, pos);
            && (outer.1 <==> Rank(r, pos) + 1 == Total(r))
            && (!outer.1 ==> Rank(r, outer.0) == Rank(r, pos) + 1)
            && (outer.1 ==> Rank(r, outer.0) == 0)
    decreases |pos|, 0
  {
    var k := |pos| - 1;
    IncrementRank(r[..k], pos[..k]);
    CarryRank(r, pos, Increment(r[..k], pos[..k]).0, Increment(r[..k], pos[..k]).1);
  }

  /** The carry case once the prefix's count is known: the prefix's step
      `front`, `d`, scaled by the last radix, is the whole position's step. */
  lemma {:induction false} CarryRank(r: seq<nat>, pos: seq<nat>, front: seq<nat>, d: bool)
    requires ValidPos(r, pos) && |pos| > 1
    requires pos[|pos| - 1] + 1 >= r[|pos| - 1]
    requires Increment(r[..|pos| - 1], pos[..|pos| - 1]) == (front, d)
    requires var rk, pk := r[..|pos| - 1], pos[..|pos| - 1];
             && (d <==> Rank(rk, pk) + 1 == Total(rk))
             && (!d ==> Rank(rk, front) == Rank(rk, pk) + 1)
             && (d ==> Rank(rk, front) == 0)
    ensures var outer := Increment(r, pos);
            && (outer.1 <==> Rank(r, pos) + 1 == Total(r))
            && (!outer.1 ==> Rank(r, outer.0) == Rank(r, pos) + 1)
            && (outer.1 ==> Rank(r, outer.0) == 0)
  {
    var k := |pos| - 1;
    var rk := r[..k];
    CarryShape(r, pos);
    assert Increment(r, pos) == (front + [0], d);
    RankOfSnoc(r, front, 0);
    RankLast(r, pos);
    var rp, rn := Rank(r, pos), Rank(r, front + [0]);
    if !d {
      RankBelowTotal(r, front + [0]);
    }
    CarryArith(Rank(rk, pos[..k]), Rank(rk, front), r[k], Total(rk), d, rp, rn, Total(r));
  }

  /** The rank of a position given as its prefix and its last digit. */
  lemma {:induction false} RankOfSnoc(r: seq<nat>, front: seq<nat>, last: nat)
    requires |front| + 1 == |r|
    ensures Rank(r, front + [last]) == Scale(Rank(r[..|front|], front), r[|front|]) + last
  {
    assert (front + [last])[..|front|] == front;
  }

  /** A carry out of the last digit zeroes it and counts up the prefix. */
  lemma {:induction false} CarryShape(r: seq<nat>, pos: seq<nat>)
    requires ValidPos(r, pos) && |pos| > 1 && pos[|pos| - 1] + 1 >= r[|pos| - 1]
    ensures var k := |pos| - 1;
            var inner := Increment(r[..k], pos[..k]);
            && Increment(r, pos).0 == inner.0 + [0] && Increment(r, pos).1 == inner.1
            && ValidPos(r, inner.0 + [0])
            && pos[k] == r[k] - 1 && r[k] > 0
            && Total(r) == Scale(Total(r[..k]), r[k])
  {
    var k := |pos| - 1;
    assert r[..k][..k] == r[..k];
  }

  /** `Rank` unfolded once: the prefix's rank scaled, plus the last digit. */
  lemma {:induction false} RankLast(r: seq<nat>, pos: seq<nat>)
    requires |pos| == |r| && |pos| > 0
    ensures var k := |pos| - 1; Rank(r, pos) == Scale(Rank(r[..k], pos[..k]), r[k]) + pos[k]
  {
  }

  /** The arithmetic of a carry: `a` then `f` in the prefix, `R` values for the
      last digit, `T` prefix positions in all. */
  lemma {:induction false} CarryArith(a: nat, f: nat, R: nat, T: nat, d: bool, rp: nat, rn: nat, tot: nat)
    requires R > 0 && rp == Scale(a, R) + (R - 1) && rn == Scale(f, R) + 0 && tot == Scale(T, R)
    requires (d <==> a + 1 == T) && (!d ==> f == a + 1) && (d ==> f == 0)
    requires !d ==> rn < tot
    ensures (d <==> rp + 1 == tot) && (!d ==> rn == rp + 1) && (d ==> rn == 0)
  {
    ScaleSucc(a, R);
    ScaleOfZero(R);
  }

  /** The odometer on values is counting up on positions. */
  lemma {:induction false} AdvanceCounts(fields: seq<Field>, pos: seq<nat>)
    requires |fields| > 0 && ValidPos(Radices(fields), pos)
    ensures var (next, done) := Increment(Radices(fields), pos);
            Advance(fields, Values(fields, pos)) == (Values(fields, next), done)
  {
    TableWalks(fields);
    AdvancePicks(fields, Table(fields), pos);
  }

  lemma {:induction false} AdvancePicks(fields: seq<Field>, table: seq<seq<int>>, pos: seq<nat>)
    requires |fields| > 0 && Walks(fields, table) && ValidPos(Sizes(table), pos)
    ensures var (next, done) := Increment(Sizes(table), pos);
            Advance(fields, Pick(table, pos)) == (Pick(table, next), done)
    decreases |fields|
  {
    var r := Sizes(table);
    var k := |fields| - 1;
    if pos[k] + 1 < r[k] {
      LastFieldSteps(fields, table, pos);
    } else if k == 0 {
      OnlyFieldWraps(fields, table, pos);
    } else {
      assert Sizes(table[..k]) == r[..k];
      AdvancePicks(fields[..k], table[..k], pos[..k]);
      LastFieldCarries(fields, table, pos);
    }
  }

  lemma {:induction false} LastFieldSteps(fields: seq<Field>, table: seq<seq<int>>, pos: seq<nat>)
    requires |fields| > 0 && Walks(fields, table) && ValidPos(Sizes(table), pos)
    requires var k := |fields| - 1; pos[k] + 1 < |table[k]|
    ensures Advance(fields, Pick(table, pos)) == (Pick(table, Increment(Sizes(table), pos).0), false)
  {
    var k := |fields| - 1;
    var cur := Pick(table, pos);
    assert WalksField(fields[k], table[k]);
    var next := pos[k := pos[k] + 1];
    assert Increment(Sizes(table), pos).0 == next;
    assert Pick(table, next) == cur[k := table[k][pos[k] + 1]];
  }

  lemma {:induction false} OnlyFieldWraps(fields: seq<Field>, table: seq<seq<int>>, pos: seq<nat>)
    requires |fields| == 1 && Walks(fields, table) && ValidPos(Sizes(table), pos)
    requires pos[0] + 1 == |table[0]|
    ensures Advance(fields, Pick(table, pos)) == (Pick(table, Increment(Sizes(table), pos).0), true)
  {
    assert WalksField(fields[0], table[0]);
    assert Increment(Sizes(table), pos).0 == [0];
    assert Pick(table, [0]) == [First(fields[0])];
  }

  lemma {:induction false} LastFieldCarries(fields: seq<Field>, table: seq<seq<int>>, pos: seq<nat>)
    requires |fields| > 1 && Walks(fields, table) && ValidPos(Sizes(table), pos)
    requires var k := |fields| - 1; pos[k] + 1 == |table[k]|
    requires var k := |fields| - 1;
             Sizes(table[..k]) == Sizes(table)[..k] &&
             Advance(fields[..k], Pick(table[..k], pos[..k])) ==
               (Pick(table[..k], Increment(Sizes(table[..k]), pos[..k]).0),
                Increment(Sizes(table[..k]), pos[..k]).1)
    ensures Advance(fields, Pick(table, pos)) ==
              (Pick(table, Increment(Sizes(table), pos).0), Increment(Sizes(table), pos).1)
  {
    var k := |fields| - 1;
    var r := Sizes(table);
    var cur := Pick(table, pos);
    assert WalksField(fields[k], table[k]);
    assert cur[..k] == Pick(table[..k], pos[..k]);
    var (front, d) := Increment(r[..k], pos[..k]);
    assert Increment(r, pos) == (front + [0], d);
    assert Pick(table, front + [0]) == Pick(table[..k], front) + [First(fields[k])];
  }

  /** The start values are the first position. */
  lemma {:induction false} InitialIsFirst(fields: seq<Field>)
    ensures ValidPos(Radices(fields), Repeat(0, |fields|))
    ensures Initial(fields) == Values(fields, Repeat(0, |fields|))
  {
    forall j | 0 <= j < |fields| ensures First(fields[j]) == Choices(fields[j])[0] {
      StepWalksChoices(fields[j], 0);
    }
  }

  /** The number of requests a sweep sends from a position on, one per
      position, until the count wraps. */
  function RequestsFrom(r: seq<nat>, pos: seq<nat>): nat
    requires ValidPos(r, pos) && |pos| > 0
    decreases Total(r) - Rank(r, pos)
  {
    var (next, done) := Increment(r, pos);
    IncrementRank(r, pos);
    RankBelowTotal(r, next);
    if done then 1 else 1 + RequestsFrom(r, next)
  }

  lemma {:induction false} RequestsFromRank(r: seq<nat>, pos: seq<nat>)
    requires ValidPos(r, pos) && |pos| > 0
    ensures RequestsFrom(r, pos) == Total(r) - Rank(r, pos)
    decreases Total(r) - Rank(r, pos)
  {
    var (next, done) := Increment(r, pos);
    IncrementRank(r, pos);
    RankBelowTotal(r, next);
    if !done {
      RequestsFromRank(r, next);
    }
  }

  lemma {:induction false} RankOfZeros(r: seq<nat>)
    ensures Rank(r, Repeat<nat>(0, |r|)) == 0
    decreases |r|
  {
    if |r| > 0 {
      var z: seq<nat> := Repeat(0, |r|);
      var k := |r| - 1;
      assert |r[..k]| == k;
      assert z[..k] == Repeat<nat>(0, |r[..k]|);
      RankOfZeros(r[..k]);
      assert Rank(r, z) == Scale(Rank(r[..k], z[..k]), r[k]) + z[k];
      ScaleOfZero(r[k]);
    }
  }

  /** A sweep from the start values sends exactly one request per
      combination of choices: the product of the fields' numbers of
      choices. */
  lemma {:induction false} SweepCoversAll(fields: seq<Field>)
    requires |fields| > 0
    ensures ValidPos(Radices(fields), Repeat(0, |fields|))
    ensures RequestsFrom(Radices(fields), Repeat(0, |fields|)) == Total(Radices(fields))
  {
    InitialIsFirst(fields);
    RankOfZeros(Radices(fields));
    RequestsFromRank(Radices(fields), Repeat(0, |fields|));
  }

  // ---------------------------------------------------------------------
  // The order of the sweep
  // ---------------------------------------------------------------------

  /** The position whose rank is `n`: `n` written in mixed radix. */
  function Unrank(r: seq<nat>, n: nat): (pos: seq<nat>)
    requires forall j :: 0 <= j < |r| ==> r[j] > 0
    requires n < Total(r)
    ensures ValidPos(r, pos)
  {
    if |r| == 0 then []
    else
      var k := |r| - 1;
      QuotBelow(n, Total(r[..k]), r[k]);
      QuotRem(n, r[k]);
      Unrank(r[..k], Quot(n, r[k])) + [Rem(n, r[k])]
  }

  /** Division by repeated subtraction, so that the counting proofs stay in
      linear arithmetic. */
  function Quot(n: nat, d: nat): nat
    requires d > 0
    decreases n
  {
    if n < d then 0 else Quot(n - d, d) + 1
  }

  function Rem(n: nat, d: nat): nat
    requires d > 0
    decreases n
  {
    if n < d then n else Rem(n - d, d)
  }

  lemma {:induction false} QuotRem(n: nat, d: nat)
    requires d > 0
    ensures Scale(Quot(n, d), d) + Rem(n, d) == n && Rem(n, d) < d
    decreases n
  {
    if n < d {
      ScaleOfZero(d);
    } else {
      QuotRem(n - d, d);
      ScaleSucc(Quot(n - d, d), d);
    }
  }

  /** Quotient and remainder are the only such pair. */
  lemma {:induction false} QuotRemUnique(a: nat, d: nat, m: nat)
    requires m < d
    ensures Quot(Scale(a, d) + m, d) == a && Rem(Scale(a, d) + m, d) == m
    decreases a
  {
    if a == 0 {
      ScaleOfZero(d);
    } else {
      ScaleSucc(a - 1, d);
      QuotRemUnique(a - 1, d, m);
      assert Scale(a, d) + m - d == Scale(a - 1, d) + m;
    }
  }

  lemma {:induction false} QuotBelow(n: nat, t: nat, d: nat)
    requires d > 0 && n < Scale(t, d)
    ensures Quot(n, d) < t
  {
    QuotRem(n, d);
    if Quot(n, d) >= t {
      ScaleMonotone(t, Quot(n, d), d);
      assert false;
    }
  }

  lemma {:induction false} RankOfUnrank(r: seq<nat>, n: nat)
    requires forall j :: 0 <= j < |r| ==> r[j] > 0
    requires n < Total(r)
    ensures Rank(r, Unrank(r, n)) == n
    decreases |r|
  {
    if |r| > 0 {
      var k := |r| - 1;
      var rk := r[..k];
      UnrankLast(r, n);
      var q := Quot(n, r[k]);
      RankOfUnrank(rk, q);
      RankOfSnoc(r, Unrank(rk, q), Rem(n, r[k]));
      QuotRem(n, r[k]);
    }
  }

  lemma {:induction false} UnrankOfRank(r: seq<nat>, pos: seq<nat>)
    requires ValidPos(r, pos)
    ensures forall j :: 0 <= j < |r| ==> r[j] > 0
    ensures Rank(r, pos) < Total(r) && Unrank(r, Rank(r, pos)) == pos
    decreases |r|
  {
    RankBelowTotal(r, pos);
    if |r| > 0 {
      var k := |r| - 1;
      var a := Rank(r[..k], pos[..k]);
      var n := Rank(r, pos);
      RankLast(r, pos);
      QuotRemUnique(a, r[k], pos[k]);
      UnrankOfRank(r[..k], pos[..k]);
      UnrankLast(r, n);
      assert pos == pos[..k] + [pos[k]];
    }
  }

  lemma {:induction false} UnrankLast(r: seq<nat>, n: nat)
    requires |r| > 0 && forall j :: 0 <= j < |r| ==> r[j] > 0
    requires n < Total(r)
    ensures Quot(n, r[|r| - 1]) < Total(r[..|r| - 1])
    ensures Unrank(r, n) == Unrank(r[..|r| - 1], Quot(n, r[|r| - 1])) + [Rem(n, r[|r| - 1])]
  {
    QuotBelow(n, Total(r[..|r| - 1]), r[|r| - 1]);
  }

  /** The values of the fields after `n` advances. */
  function AdvanceTimes(fields: seq<Field>, cur: seq<int>, n: nat): (r: seq<int>)
    requires |fields| == |cur| > 0
    ensures |r| == |cur|
  {
    if n == 0 then cur else Advance(fields, AdvanceTimes(fields, cur, n - 1)).0
  }

  /** The `n`-th request of a sweep carries the combination whose rank is
      `n`, the last field running fastest, and the advance after it reports
      the sweep done exactly when it is the last. */
  lemma {:induction false} SweepOrder(fields: seq<Field>, n: nat)
    requires |fields| > 0 && n < Total(Radices(fields))
    ensures forall j :: 0 <= j < |fields| ==> Radices(fields)[j] > 0
    ensures AdvanceTimes(fields, Initial(fields), n) == Values(fields, Unrank(Radices(fields), n))
    ensures Advance(fields, AdvanceTimes(fields, Initial(fields), n)).1 <==> n + 1 == Total(Radices(fields))
  {
    TableWalks(fields);
    SweepOrderIn(fields, Table(fields), n);
  }

  lemma {:induction false} SweepOrderIn(fields: seq<Field>, table: seq<seq<int>>, n: nat)
    requires |fields| > 0 && Walks(fields, table) && n < Total(Sizes(table))
    ensures forall j :: 0 <= j < |table| ==> Sizes(table)[j] > 0
    ensures AdvanceTimes(fields, Initial(fields), n) == Pick(table, Unrank(Sizes(table), n))
    ensures Advance(fields, AdvanceTimes(fields, Initial(fields), n)).1 <==> n + 1 == Total(Sizes(table))
  {
    if n == 0 {
      SweepStarts(fields, table);
    } else {
      SweepOrderIn(fields, table, n - 1);
      var pos := Unrank(Sizes(table), n - 1);
      assert AdvanceTimes(fields, Initial(fields), n - 1) == Pick(table, pos);
      SweepSteps(fields, table, n, pos);
    }
    SweepEnds(fields, table, n);
  }

  lemma {:induction false} SweepStarts(fields: seq<Field>, table: seq<seq<int>>)
    requires |fields| > 0 && Walks(fields, table)
    ensures forall j :: 0 <= j < |table| ==> Sizes(table)[j] > 0
    ensures Total(Sizes(table)) > 0
    ensures Initial(fields) == Pick(table, Unrank(Sizes(table), 0))
  {
    var r := Sizes(table);
    var zeros: seq<nat> := Repeat(0, |fields|);
    assert forall j :: 0 <= j < |fields| ==> WalksField(fields[j], table[j]);
    assert Initial(fields) == Pick(table, zeros);
    UnrankOfRank(r, zeros);
    RankOfZeros(r);
  }

  lemma {:induction false} SweepSteps(fields: seq<Field>, table: seq<seq<int>>, n: nat, pos: seq<nat>)
    requires |fields| > 0 && Walks(fields, table) && 0 < n < Total(Sizes(table))
    requires forall j :: 0 <= j < |table| ==> Sizes(table)[j] > 0
    requires pos == Unrank(Sizes(table), n - 1)
    requires AdvanceTimes(fields, Initial(fields), n - 1) == Pick(table, pos)
    ensures AdvanceTimes(fields, Initial(fields), n) == Pick(table, Unrank(Sizes(table), n))
  {
    var r := Sizes(table);
    assert AdvanceTimes(fields, Initial(fields), n) == Advance(fields, Pick(table, pos)).0;
    NextUnrank(r, n);
    AdvancePicks(fields, table, pos);
  }

  /** Counting up from the position of rank `n - 1` reaches the position of
      rank `n`. */
  lemma {:induction false} NextUnrank(r: seq<nat>, n: nat)
    requires |r| > 0 && (forall j :: 0 <= j < |r| ==> r[j] > 0) && 0 < n < Total(r)
    ensures ValidPos(r, Unrank(r, n - 1))
    ensures Increment(r, Unrank(r, n - 1)).0 == Unrank(r, n)
  {
    var pos := Unrank(r, n - 1);
    var next := Increment(r, pos).0;
    RankOfUnrank(r, n - 1);
    assert Rank(r, pos) + 1 == n;
    IncrementRank(r, pos);
    assert Rank(r, next) == n;
    UnrankOfRank(r, next);
  }

  lemma {:induction false} SweepEnds(fields: seq<Field>, table: seq<seq<int>>, n: nat)
    requires |fields| > 0 && Walks(fields, table) && n < Total(Sizes(table))
    requires forall j :: 0 <= j < |table| ==> Sizes(table)[j] > 0
    requires AdvanceTimes(fields, Initial(fields), n) == Pick(table, Unrank(Sizes(table), n))
    ensures Advance(fields, AdvanceTimes(fields, Initial(fields), n)).1 <==> n + 1 == Total(Sizes(table))
  {
    var r := Sizes(table);
    var pos := Unrank(r, n);
    AdvancePicks(fields, table, pos);
    IncrementRank(r, pos);
    RankOfUnrank(r, n);
  }

  /** Each row of choices has no value twice. */
  lemma {:induction false} ChoicesDistinct(f: Field)
    ensures Increasing(Choices(f))
  {
    AllowedSpec(f.start, f.end, f.exclude);
  }

  lemma {:induction false} ValuesInjective(fields: seq<Field>, pos: seq<nat>, pos': seq<nat>)
    requires ValidPos(Radices(fields), pos) && ValidPos(Radices(fields), pos')
    requires Values(fields, pos) == Values(fields, pos')
    ensures pos == pos'
  {
    forall j | 0 <= j < |fields| ensures pos[j] == pos'[j] {
      ChoicesDistinct(fields[j]);
      var c := Choices(fields[j]);
      assert Values(fields, pos)[j] == c[pos[j]];
      assert Values(fields, pos')[j] == c[pos'[j]];
    }
  }

  /** Every combination of the fields' choices is sent once and only once:
      as the request whose number is its rank. */
  lemma {:induction false} SweepSendsEachOnce(fields: seq<Field>, pos: seq<nat>, n: nat)
    requires |fields| > 0 && ValidPos(Radices(fields), pos)
    requires n < Total(Radices(fields))
    ensures Rank(Radices(fields), pos) < Total(Radices(fields))
    ensures AdvanceTimes(fields, Initial(fields), Rank(Radices(fields), pos)) == Values(fields, pos)
    ensures AdvanceTimes(fields, Initial(fields), n) == Values(fields, pos) <==> n == Rank(Radices(fields), pos)
  {
    var r := Radices(fields);
    RankBelowTotal(r, pos);
    UnrankOfRank(r, pos);
    SweepOrder(fields, Rank(r, pos));
    SweepOrder(fields, n);
    if AdvanceTimes(fields, Initial(fields), n) == Values(fields, pos) {
      ValuesInjective(fields, Unrank(r, n), pos);
      RankOfUnrank(r, n);
    }
  }

  // ---------------------------------------------------------------------
  // Reading the form
  // ---------------------------------------------------------------------

  /** `parseHexOrDec`: hexadecimal after a lower-case "0x", decimal
      otherwise. */
  function ParseHexOrDec(s: string): Option<int> {
    if IsPrefix("0x", s) then JsParseInt(s, Hex) else JsParseInt(s, Dec)
  }

  /** An upper-case "0X" prefix is not recognised: the text is read as
      decimal, and the digits stop at the 'X'. */
  lemma {:induction false} UpperHexPrefixReadsZero(s: string)
    requires |s| >= 2 && s[0] == '0' && s[1] == 'X'
    ensures ParseHexOrDec(s) == Some(0)
  {
    TrimStartNoSpace(s);
    assert DigitPrefix(s, 10) == "0" by {
      assert s[1..][0] == 'X';
    }
    assert DigitsValue("0", 10) == 0 by {
      assert "0"[..0] == "";
    }
  }

  /** `parseExcludeList`: an empty or blank list excludes nothing; otherwise
      the comma-separated entries are trimmed and read, and entries that are
      not numbers are dropped. */
  function ParseExcludeList(s: string): (r: seq<int>)
    ensures |r| <= |Split(s, ',')|
  {
    if Trim(s) == "" then [] else Numbers(Split(s, ','))
  }

  function Numbers(parts: seq<string>): (r: seq<int>)
    ensures |r| <= |parts|
  {
    if |parts| == 0 then []
    else
      (match ParseHexOrDec(Trim(parts[0])) case Some(n) => [n] case None => []) + Numbers(parts[1..])
  }

  /** Decimal text is read back by `parseHexOrDec` as the number it writes. */
  lemma {:induction false} ParseHexOrDecOfDecimal(n: int)
    ensures ParseHexOrDec(IntToString(n)) == Some(n)
  {
    ParseIntOfIntToString(n);
    DecimalHasNoHexPrefix(n);
  }

  lemma {:induction false} DecimalHasNoHexPrefix(n: int)
    ensures !IsPrefix("0x", IntToString(n))
  {
    var t := IntToString(n);
    if n < 0 {
      assert t[0] == '-';
    } else {
      NatToStringSpec(n, 10);
      if |t| >= 2 {
        assert IsDigitOf(t[1], 10);
      }
    }
  }

  predicate NoSpaceEnds(t: string) {
    |t| > 0 && !IsJsSpace(t[0]) && !IsJsSpace(t[|t| - 1])
  }

  lemma {:induction false} DecimalHasNoSpaceEnds(n: int)
    ensures NoSpaceEnds(IntToString(n))
  {
    var m := if n < 0 then -n else n;
    NatToStringSpec(m, 10);
    var d := NatToString(m, 10);
    assert IsDigitOf(d[0], 10) && IsDigitOf(d[|d| - 1], 10);
    if n < 0 {
      assert IntToString(n) == "-" + d;
    }
  }

  lemma {:induction false} NumbersOfDecimals(xs: seq<int>)
    ensures Numbers(Decimals(xs)) == xs
  {
    if |xs| > 0 {
      DecimalHasNoSpaceEnds(xs[0]);
      ParseHexOrDecOfDecimal(xs[0]);
      assert Decimals(xs)[1..] == Decimals(xs[1..]);
      NumbersOfDecimals(xs[1..]);
    }
  }

  function Decimals(xs: seq<int>): (ts: seq<string>)
    ensures |ts| == |xs|
  {
    seq(|xs|, i requires 0 <= i < |xs| => IntToString(xs[i]))
  }

  lemma {:induction false} DecimalHasNoComma(n: int)
    ensures ',' !in IntToString(n)
  {
    var m := if n < 0 then -n else n;
    NatToStringSpec(m, 10);
    var d := NatToString(m, 10);
    assert ',' !in d by {
      forall k | 0 <= k < |d| ensures d[k] != ',' {
        assert IsDigitOf(d[k], 10);
      }
    }
    if n < 0 {
      assert IntToString(n) == "-" + d;
    }
  }

  /** Text that starts with something other than whitespace does not trim
      to nothing. */
  lemma {:induction false} TrimKeepsText(s: string)
    requires |s| > 0 && !IsJsSpace(s[0])
    ensures Trim(s) != ""
  {
    TrimStartSpec(s);
    var t := TrimStart(s);
    assert t == s;
    TrimEndSpec(t);
  }

  /** A list of numbers written in decimal and separated by commas is read
      back as the same numbers. */
  lemma {:induction false} ExcludeListRoundTrip(xs: seq<int>)
    requires |xs| > 0
    ensures ParseExcludeList(Join(Decimals(xs), ",")) == xs
  {
    var ts := Decimals(xs);
    var s := Join(ts, ",");
    forall i | 0 <= i < |ts| ensures ',' !in ts[i] {
      DecimalHasNoComma(xs[i]);
    }
    SplitJoin(ts, ',');
    DecimalHasNoSpaceEnds(xs[0]);
    JoinEnds(ts, ",");
    TrimKeepsText(s);
    NumbersOfDecimals(xs);
  }

  // ---------------------------------------------------------------------
  // The request texts
  // ---------------------------------------------------------------------

  /** `n.toString(16)` for an integer. */
  function JsHex(n: int): (r: string)
    ensures |r| > 0
  {
    if n < 0 then "-" + NatToString(-n, 16) else NatToString(n, 16)
  }

  /** `'0x' + v.toString(16).padStart(2, '0')`. */
  function ByteText(v: int): string {
    "0x" + PadStart(JsHex(v), 2, '0')
  }

  /** The JavaScript bitwise operators work on the number reduced modulo
      2^32; NaN counts as 0. */
  function ToUint32(x: Option<int>): (r: nat)
    ensures r < 0x1_0000_0000
  {
    match x
    case Some(v) => v % 0x1_0000_0000
    case None => 0
  }

  /** Bitwise or of two naturals. */
  function BitOr(a: nat, b: nat): nat
    decreases a
  {
    if a == 0 then b
    else if b == 0 then a
    else 2 * BitOr(a / 2, b / 2) + (if a % 2 == 1 || b % 2 == 1 then 1 else 0)
  }

  function Pow2(k: nat): (r: nat)
    ensures r > 0
  {
    if k == 0 then 1 else 2 * Pow2(k - 1)
  }

  /** A low part below `2^k` and a high part shifted left by `k` bits do not
      overlap, so or-ing them adds them. */
  lemma {:induction false} BitOrDisjoint(a: nat, b: nat, k: nat)
    requires b < Pow2(k)
    ensures BitOr(a * Pow2(k), b) == a * Pow2(k) + b
    decreases k
  {
    if k > 0 && a * Pow2(k) != 0 && b != 0 {
      var h := a * Pow2(k - 1);
      assert a * Pow2(k) == 2 * h;
      assert (2 * h) / 2 == h && (2 * h) % 2 == 0;
      BitOrDisjoint(a, b / 2, k - 1);
    }
  }

  /** The signed 32-bit result of a bitwise operator. */
  function Signed32(x: nat): (r: int)
    requires x < 0x1_0000_0000
    ensures -0x8000_0000 <= r < 0x8000_0000
    ensures (r - x) % 0x1_0000_0000 == 0
  {
    if x >= 0x8000_0000 then x - 0x1_0000_0000 else x
  }

  lemma {:induction false} BitOrBelow(a: nat, b: nat, k: nat)
    requires a < Pow2(k) && b < Pow2(k)
    ensures BitOr(a, b) < Pow2(k)
    decreases k
  {
    if k > 0 && a != 0 && b != 0 {
      BitOrBelow(a / 2, b / 2, k - 1);
    }
  }

  lemma {:induction false} Pow2Of8()
    ensures Pow2(8) == 256
  {
    assert Pow2(1) == 2;
    assert Pow2(2) == 4;
    assert Pow2(3) == 8;
    assert Pow2(4) == 16;
    assert Pow2(5) == 32;
    assert Pow2(6) == 64;
    assert Pow2(7) == 128;
  }

  lemma {:induction false} Pow2Of16()
    ensures Pow2(16) == 0x1_0000
  {
    Pow2Of8();
    Pow2Add(8, 8);
  }

  lemma {:induction false} Pow2Of32()
    ensures Pow2(32) == 0x1_0000_0000
  {
    Pow2Of16();
    Pow2Add(16, 16);
  }

  lemma {:induction false} Pow2Add(a: nat, b: nat)
    ensures Pow2(a + b) == Pow2(a) * Pow2(b)
    decreases a
  {
    if a > 0 {
      Pow2Add(a - 1, b);
      assert Pow2(a + b) == 2 * Pow2(a - 1 + b);
      MulAssoc(2, Pow2(a - 1), Pow2(b));
    }
  }

  lemma {:induction false} MulAssoc(x: nat, y: nat, z: nat)
    ensures x * (y * z) == (x * y) * z
  {
  }

  /** `(hi << 8) | lo`. */
  function ShiftOr(hi: Option<int>, lo: Option<int>): (r: int)
    ensures -0x8000_0000 <= r < 0x8000_0000
  {
    var shifted := (ToUint32(hi) * 256) % 0x1_0000_0000;
    Pow2Of32();
    BitOrBelow(shifted, ToUint32(lo), 32);
    Signed32(BitOr(shifted, ToUint32(lo)))
  }

  /** Two bytes combine into the 16-bit value with `hi` as its high byte;
      a field that is not a number counts as 0. */
  lemma {:induction false} ShiftOrOfBytes(hi: int, lo: int)
    requires 0 <= hi < 256 && 0 <= lo < 256
    ensures ShiftOr(Some(hi), Some(lo)) == hi * 256 + lo
    ensures ShiftOr(None, Some(lo)) == lo
    ensures ShiftOr(Some(hi), None) == hi * 256
  {
    ShiftOrSmall(hi, lo);
    ShiftOrSmall(0, lo);
    ShiftOrSmall(hi, 0);
  }

  lemma {:induction false} ShiftOrSmall(hi: nat, lo: nat)
    requires hi < 256 && lo < 256
    ensures ShiftOr(Some(hi), Some(lo)) == hi * 256 + lo
    ensures hi == 0 ==> ShiftOr(None, Some(lo)) == lo
    ensures lo == 0 ==> ShiftOr(Some(hi), None) == hi * 256
  {
    Pow2Of8();
    assert ToUint32(Some(hi)) == hi && ToUint32(Some(lo)) == lo;
    var shifted := hi * 256;
    assert shifted < 0x1_0000_0000;
    assert (ToUint32(Some(hi)) * 256) % 0x1_0000_0000 == shifted;
    BitOrDisjoint(hi, lo, 8);
    assert BitOr(shifted, lo) == shifted + lo;
  }

  /** `'0x' + ((hi << 8) | lo).toString(16).padStart(4, '0')`. */
  function WordText(hi: Option<int>, lo: Option<int>): string {
    "0x" + PadStart(JsHex(ShiftOr(hi, lo)), 4, '0')
  }

  /** A number concatenated into the query: its decimal text, or "NaN". */
  function NumText(x: Option<int>): (t: string)
    ensures x.None? ==> t == "NaN"
    ensures x.Some? ==> JsParseInt(t, Auto) == x
  {
    match x
    case Some(n) =>
      ParseIntOfIntToString(n);
      IntToString(n)
    case None => "NaN"
  }

  /** The start fields of the form, as typed. */
  datatype Form = Form(bmRequestType: string, bRequest: string, wValueHi: string, wValueLo: string,
                       wIndexHi: string, wIndexLo: string, wLength: string, packetSize: string)

  /** The request parameters the sweep varies, as they go into the query
      string. */
  datatype Request = Request(bmRequestType: string, bRequest: string, wValue: string, wIndex: string,
                             wLength: string, packetSize: string)

  /** The value the sweep gives a field, if it runs it. */
  function Current(fields: seq<Field>, cur: seq<int>, name: FieldName): Option<int>
    requires |cur| == |fields|
  {
    if |fields| == 0 then None
    else if fields[|fields| - 1].name == name then Some(cur[|fields| - 1])
    else Current(fields[..|fields| - 1], cur[..|fields| - 1], name)
  }

  /** The sweep's value where it runs the field, the form's otherwise. */
  function Either(run: Option<int>, form: Option<int>): Option<int> {
    if run.Some? then run else form
  }

  /** The request `executeBruteforce` sends for the current values. */
  function RequestFor(form: Form, fields: seq<Field>, cur: seq<int>): Request
    requires |cur| == |fields|
  {
    var bm := Current(fields, cur, BmRequestType);
    var br := Current(fields, cur, BRequest);
    Request(
      if bm.Some? then ByteText(bm.value) else form.bmRequestType,
      if br.Some? then ByteText(br.value) else form.bRequest,
      WordText(Either(Current(fields, cur, WValueHi), ParseHexOrDec(form.wValueHi)),
               Either(Current(fields, cur, WValueLo), ParseHexOrDec(form.wValueLo))),
      WordText(Either(Current(fields, cur, WIndexHi), ParseHexOrDec(form.wIndexHi)),
               Either(Current(fields, cur, WIndexLo), ParseHexOrDec(form.wIndexLo))),
      NumText(Either(Current(fields, cur, WLength), JsParseInt(form.wLength, Auto))),
      NumText(Either(Current(fields, cur, PacketSize), JsParseInt(form.packetSize, Auto))))
  }

  /** The fields as `startBruteforce` collects them: each name at most once. */
  predicate DistinctNames(fields: seq<Field>) {
    forall i, j :: 0 <= i < j < |fields| ==> fields[i].name != fields[j].name
  }

  lemma {:induction false} CurrentFinds(fields: seq<Field>, cur: seq<int>, j: nat)
    requires |cur| == |fields| && DistinctNames(fields) && j < |fields|
    ensures Current(fields, cur, fields[j].name) == Some(cur[j])
    decreases |fields|
  {
    var k := |fields| - 1;
    if j < k {
      assert fields[..k][j] == fields[j];
      CurrentFinds(fields[..k], cur[..k], j);
    }
  }

  lemma {:induction false} CurrentMisses(fields: seq<Field>, cur: seq<int>, name: FieldName)
    requires |cur| == |fields|
    requires forall j :: 0 <= j < |fields| ==> fields[j].name != name
    ensures Current(fields, cur, name).None?
    decreases |fields|
  {
    if |fields| > 0 {
      var k := |fields| - 1;
      assert forall j :: 0 <= j < k ==> fields[..k][j].name != name;
      CurrentMisses(fields[..k], cur[..k], name);
    }
  }

  /** Hexadecimal text behind "0x", padded with zeros, is read back as the
      number it writes, by `parseHexOrDec` and by the firmware's
      `strtol(_, NULL, 0)`. */
  lemma {:induction false} PaddedHexReadsBack(n: nat, w: nat)
    requires n <= CLib.LongMax
    ensures var s := "0x" + PadStart(NatToString(n, 16), w, '0');
            ParseHexOrDec(s) == Some(n) && CLib.Strtol(s, CLib.Base0) == n
  {
    var p := PadStart(NatToString(n, 16), w, '0');
    PaddedDigits(n, w);
    HexTextReadsBack(p);
    CLib.StrtolOfHexDigits(p, CLib.Base0);
  }

  /** `parseHexOrDec` reads hexadecimal digits behind "0x" as their value. */
  lemma {:induction false} HexTextReadsBack(d: string)
    requires |d| > 0 && forall i :: 0 <= i < |d| ==> IsDigitOf(d[i], 16)
    ensures ParseHexOrDec("0x" + d) == Some(DigitsValue(d, 16) as int)
  {
    var s := "0x" + d;
    assert s[2..] == d && s[..2] == "0x";
    DigitPrefixOfDigits(d, "", 16);
    assert d + "" == d;
    TrimStartNoSpace(s);
    assert StripSign(s) == s;
    assert ParseUnsigned(s, Hex) == Some(DigitsValue(d, 16) as int);
  }

  /** Zero padding keeps the digits hexadecimal and their value. */
  lemma {:induction false} PaddedDigits(n: nat, w: nat)
    ensures var p := PadStart(NatToString(n, 16), w, '0');
            (forall i :: 0 <= i < |p| ==> IsDigitOf(p[i], 16)) && DigitsValue(p, 16) == n
  {
    var d := NatToString(n, 16);
    var p := PadStart(d, w, '0');
    NatToStringSpec(n, 16);
    var z := p[..|p| - |d|];
    assert p == z + d;
    ZerosThenDigits(z, d);
    LeadingZerosValue(z, d);
  }

  lemma {:induction false} ZerosThenDigits(z: string, d: string)
    requires forall i :: 0 <= i < |z| ==> z[i] == '0'
    requires forall i :: 0 <= i < |d| ==> IsDigitOf(d[i], 16)
    ensures forall i :: 0 <= i < |z + d| ==> IsDigitOf((z + d)[i], 16)
  {
    forall i | 0 <= i < |z + d| ensures IsDigitOf((z + d)[i], 16) {
      if i >= |z| {
        assert (z + d)[i] == d[i - |z|];
      }
    }
  }

  lemma {:induction false} LeadingZerosValue(z: string, d: string)
    requires forall i :: 0 <= i < |z| ==> z[i] == '0'
    ensures DigitsValue(z + d, 16) == DigitsValue(d, 16)
    decreases |d|
  {
    if |d| == 0 {
      assert z + d == z;
      ZerosValue(z);
    } else {
      var k := |d| - 1;
      assert (z + d)[..|z| + k] == z + d[..k];
      LeadingZerosValue(z, d[..k]);
    }
  }

  lemma {:induction false} ZerosValue(z: string)
    requires forall i :: 0 <= i < |z| ==> z[i] == '0'
    ensures DigitsValue(z, 16) == 0
  {
    if |z| > 0 {
      ZerosValue(z[..|z| - 1]);
    }
  }

  /** A byte the sweep runs is sent as "0x" and two lower-case hex digits,
      which the firmware reads back as that byte. */
  lemma {:induction false} ByteTextReadsBack(v: int)
    requires 0 <= v < 256
    ensures |ByteText(v)| == 4
    ensures CLib.Strtol(ByteText(v), CLib.Base0) == v
  {
    PaddedHexReadsBack(v, 2);
  }

  /** Two bytes the sweep runs as the halves of `wValue` or `wIndex` are
      sent as one 16-bit value, which the firmware reads back as
      `hi * 256 + lo`. */
  lemma {:induction false} WordTextReadsBack(hi: int, lo: int)
    requires 0 <= hi < 256 && 0 <= lo < 256
    ensures CLib.Strtol(WordText(Some(hi), Some(lo)), CLib.Base0) == hi * 256 + lo
    ensures ParseHexOrDec(WordText(Some(hi), Some(lo))) == Some(hi * 256 + lo)
  {
    ShiftOrOfBytes(hi, lo);
    PaddedHexReadsBack(hi * 256 + lo, 4);
  }

  /** When the sweep runs both halves of `wValue` over bytes, the firmware
      reads the request's `wValue` as the high byte times 256 plus the low
      byte. */
  lemma {:induction false} RunBytesReachFirmware(form: Form, fields: seq<Field>, cur: seq<int>, i: nat, j: nat)
    requires |cur| == |fields| && DistinctNames(fields) && i < |fields| && j < |fields|
    requires fields[i].name == WValueHi && fields[j].name == WValueLo
    requires 0 <= cur[i] < 256 && 0 <= cur[j] < 256
    ensures CLib.Strtol(RequestFor(form, fields, cur).wValue, CLib.Base0) == cur[i] * 256 + cur[j]
  {
    CurrentFinds(fields, cur, i);
    CurrentFinds(fields, cur, j);
    WordTextReadsBack(cur[i], cur[j]);
  }

  /** A field the sweep does not run is sent as the form has it. */
  lemma {:induction false} FixedFieldsFromForm(form: Form, fields: seq<Field>, cur: seq<int>)
    requires |cur| == |fields|
    requires forall j :: 0 <= j < |fields| ==> fields[j].name != BmRequestType
    ensures RequestFor(form, fields, cur).bmRequestType == form.bmRequestType
  {
    CurrentMisses(fields, cur, BmRequestType);
  }

  /** A run request type is sent as its two hex digits. */
  lemma {:induction false} RunByteSent(form: Form, fields: seq<Field>, cur: seq<int>, i: nat)
    requires |cur| == |fields| && DistinctNames(fields) && i < |fields|
    requires fields[i].name == BmRequestType && 0 <= cur[i] < 256
    ensures CLib.Strtol(RequestFor(form, fields, cur).bmRequestType, CLib.Base0) == cur[i]
  {
    CurrentFinds(fields, cur, i);
    ByteTextReadsBack(cur[i]);
  }

  // ---------------------------------------------------------------------
  // The driver
  // ---------------------------------------------------------------------

  /** Where the sweep is between events: a call of `executeBruteforce` is
      pending (`Scheduled`), a request is awaiting its reply (`Waiting`), or
      nothing is pending (`Idle`). */
  datatype Phase = Scheduled | Waiting | Idle

  /** A row of the results table: the values of the run fields when the
      request went out (its request cells are `RequestFor` of them), the
      bytes received, and the data and ASCII cells. */
  datatype Row = Row(values: seq<int>, bytes: int, data: string, ascii: string)

  /** The sweep's state: `bf_running`, `bf_count`, `bf_retries`, the fields
      and their current values, the USB resets sent and the table. */
  datatype Sweep = Sweep(form: Form, fields: seq<Field>, cur: seq<int>, retries: int, count: nat,
                         resets: nat, running: bool, phase: Phase, log: seq<Row>)

  predicate Valid(s: Sweep) {
    |s.cur| == |s.fields| && (s.running ==> |s.fields| > 0)
  }

  /** A pending call fires (the timer ran out), the reply to the request in
      flight arrives (`.then` or `.catch`), or the stop button is pressed. */
  datatype Event = Fire | Reply(attempt: Chain.Attempt) | StopPressed

  /** The request cells of a row. */
  function Cells(s: Sweep, row: Row): Request
    requires |row.values| == |s.fields|
  {
    RequestFor(s.form, s.fields, row.values)
  }

  /** `startBruteforce`: ignored while a sweep runs; with no field selected
      the sweep stops at once; otherwise the fields start on their first
      values and the first request goes out. */
  function Start(s: Sweep, form: Form, fields: seq<Field>): (r: Sweep)
    requires Valid(s)
    ensures Valid(r)
    ensures s.running ==> r == s
    ensures !s.running && |fields| == 0 ==> !r.running && r.count == 0
    ensures !s.running && |fields| > 0 ==>
              r.running && r.phase == Waiting && r.count == 1 && r.retries == 0
              && r.cur == Initial(fields) && r.log == s.log
  {
    if s.running then s
    else if |fields| == 0 then s.(running := false, count := 0, retries := 0)
    else FireOnce(s.(form := form, fields := fields, cur := Initial(fields), retries := 0, count := 0,
                     running := true, phase := Scheduled))
  }

  /** `executeBruteforce` called: nothing happens once the sweep was
      stopped; otherwise the request count goes up and the request is
      sent. */
  function FireOnce(s: Sweep): (r: Sweep)
    requires Valid(s)
    ensures Valid(r)
    ensures r.cur == s.cur && r.log == s.log && r.retries == s.retries && r.running == s.running
    ensures r.fields == s.fields && r.form == s.form
    ensures s.phase == Scheduled && s.running ==> r.phase == Waiting && r.count == s.count + 1
    ensures !(s.phase == Scheduled && s.running) ==> r.count == s.count
  {
    if s.phase != Scheduled then s
    else if !s.running then s.(phase := Idle)
    else s.(count := s.count + 1, phase := Waiting)
  }

  /** The text a reply is logged with: `d.data || ''`. */
  function DataText(data: Option<string>): string {
    match data
    case Some(d) => d
    case None => ""
  }

  /** `getBfMaxRetries()`: the retry field, or 3 when it is empty. */
  function MaxRetries(cfg: Chain.Settings): (m: int)
    ensures m != 0
    ensures cfg.bfMaxRetries != 0 ==> m == cfg.bfMaxRetries
  {
    ChainSteps.OrInt(cfg.bfMaxRetries, 3)
  }

  /** `getResetAfterRetries()`: the reset threshold field, or 2 when it is
      empty. */
  function ResetAfter(cfg: Chain.Settings): (m: int)
    ensures m != 0
    ensures cfg.resetAfterRetries != 0 ==> m == cfg.resetAfterRetries
  {
    ChainSteps.OrInt(cfg.resetAfterRetries, 2)
  }

  /** The `.then` path: a failed reply is retried while fewer than
      `MaxRetries` retries were made, with a USB reset once `ResetAfter`
      retries were made and resets are on; otherwise the result is logged, the retry
      count cleared and, while the sweep runs, the fields advance. */
  function Replied(s: Sweep, cfg: Chain.Settings, a: Chain.Attempt): (r: Sweep)
    requires Valid(s) && a.Replied?
    ensures Valid(r)
    ensures r.count == s.count && r.fields == s.fields
  {
    var success := Chain.Succeeded(a);
    if !success && s.retries < MaxRetries(cfg) then
      var retries := s.retries + 1;
      var reset := cfg.resetOnRetry && retries >= ResetAfter(cfg);
      s.(retries := retries, resets := s.resets + (if reset then 1 else 0), phase := Scheduled)
    else
      var row := if !success then Row(s.cur, 0, "FAILED", "MAX RETRIES")
                 else Row(s.cur, a.bytesReceived, DataText(a.data), a.ascii);
      var t := s.(log := s.log + [row], retries := 0);
      if !t.running then t.(phase := Idle)
      else
        var (next, done) := Advance(s.fields, s.cur);
        if done then t.(cur := next, running := false, phase := Idle)
        else t.(cur := next, phase := Scheduled)
  }

  /** The `.catch` path: while the sweep runs, a network error counts as a
      retry; once the retries reach `MaxRetries` an ERROR row is logged and
      the retry count cleared, and the same values are sent again. */
  function Caught(s: Sweep, cfg: Chain.Settings, message: string): (r: Sweep)
    requires Valid(s)
    ensures Valid(r)
    ensures r.cur == s.cur && r.running == s.running && r.count == s.count && r.resets == s.resets
    ensures r.fields == s.fields && r.form == s.form
    ensures !s.running ==> r.log == s.log && r.phase == Idle
  {
    if !s.running then s.(phase := Idle)
    else
      var retries := s.retries + 1;
      if retries < MaxRetries(cfg) then s.(retries := retries, phase := Scheduled)
      else s.(log := s.log + [Row(s.cur, 0, "ERROR", message)], retries := 0, phase := Scheduled)
  }

  /** One event. A reply is only taken while a request is in flight. */
  function Next(s: Sweep, cfg: Chain.Settings, e: Event): (r: Sweep)
    requires Valid(s)
    ensures Valid(r)
  {
    match e
    case Fire => FireOnce(s)
    case Reply(a) =>
      if s.phase != Waiting then s
      else if a.Replied? then Replied(s, cfg, a)
      else Caught(s, cfg, a.message)
    case StopPressed => s.(running := false)
  }

  /** A reply followed by the call it schedules. */
  function Round(s: Sweep, cfg: Chain.Settings, a: Chain.Attempt): (r: Sweep)
    requires Valid(s)
    ensures Valid(r)
  {
    FireOnce(Next(s, cfg, Reply(a)))
  }

  function Rounds(s: Sweep, cfg: Chain.Settings, a: Chain.Attempt, n: nat): (r: Sweep)
    requires Valid(s)
    ensures Valid(r)
  {
    if n == 0 then s else Round(Rounds(s, cfg, a, n - 1), cfg, a)
  }

  /** The retries a failing combination gets: `MaxRetries`, none when it
      is negative. */
  function RetryBudget(cfg: Chain.Settings): nat {
    if MaxRetries(cfg) > 0 then MaxRetries(cfg) else 0
  }

  /** A combination whose replies keep failing is sent again, unchanged,
      after each of its first `MaxRetries` failures (3 when the field is
      empty)... */
  lemma {:induction false} FailuresRetrySameValues(s: Sweep, cfg: Chain.Settings, a: Chain.Attempt, n: nat)
    requires Valid(s) && s.running && s.phase == Waiting && s.retries == 0
    requires a.Replied? && !Chain.Succeeded(a)
    requires n <= RetryBudget(cfg)
    ensures var t := Rounds(s, cfg, a, n);
            t.cur == s.cur && t.fields == s.fields && t.running && t.phase == Waiting && t.retries == n
            && t.count == s.count + n && t.log == s.log
  {
    if n > 0 {
      FailuresRetrySameValues(s, cfg, a, n - 1);
    }
  }

  /** ...and after the next failure it is logged as FAILED with no bytes and
      the fields advance: `MaxRetries + 1` requests in all. */
  lemma {:induction false} FailingCombinationLogged(s: Sweep, cfg: Chain.Settings, a: Chain.Attempt)
    requires Valid(s) && s.running && s.phase == Waiting && s.retries == 0
    requires a.Replied? && !Chain.Succeeded(a)
    ensures var t := Rounds(s, cfg, a, RetryBudget(cfg));
            var u := Next(t, cfg, Reply(a));
            && u.log == s.log + [Row(s.cur, 0, "FAILED", "MAX RETRIES")]
            && u.cur == Advance(s.fields, s.cur).0
            && u.retries == 0
            && u.count == s.count + RetryBudget(cfg)
            && (u.running <==> !Advance(s.fields, s.cur).1)
  {
    FailuresRetrySameValues(s, cfg, a, RetryBudget(cfg));
  }

  /** A successful reply is logged with its bytes, data and ASCII text, and
      the fields advance; the sweep stops when the first field wraps. */
  lemma {:induction false} SuccessAdvances(s: Sweep, cfg: Chain.Settings, a: Chain.Attempt)
    requires Valid(s) && s.running && s.phase == Waiting
    requires Chain.Succeeded(a)
    ensures var u := Next(s, cfg, Reply(a));
            && u.log == s.log + [Row(s.cur, a.bytesReceived, DataText(a.data), a.ascii)]
            && u.cur == Advance(s.fields, s.cur).0
            && u.retries == 0
            && (u.running <==> !Advance(s.fields, s.cur).1)
            && (u.running ==> u.phase == Scheduled)
  {
  }

  /** Empty retry and threshold fields mean 3 retries and a reset from the
      second retry on: the first failure of a combination is resent with no
      reset and nothing logged, and the second is resent after a reset when
      resets are on. */
  lemma {:induction false} EmptyFieldsUseDefaults(s: Sweep, cfg: Chain.Settings, a: Chain.Attempt)
    requires Valid(s) && s.running && s.phase == Waiting && s.retries == 0
    requires a.Replied? && !Chain.Succeeded(a)
    requires cfg.bfMaxRetries == 0 && cfg.resetAfterRetries == 0
    ensures RetryBudget(cfg) == 3
    ensures var u := Next(s, cfg, Reply(a));
            && u.log == s.log && u.retries == 1 && u.resets == s.resets && u.cur == s.cur
            && var v := Next(FireOnce(u), cfg, Reply(a));
               v.log == s.log && v.retries == 2 && v.resets == s.resets + (if cfg.resetOnRetry then 1 else 0)
  {
  }

  /** A USB reset goes out before a retry exactly when resets are on and the
      retry count, with this retry, has reached `ResetAfter` (2 when the
      field is empty). */
  lemma {:induction false} ResetBeforeRetry(s: Sweep, cfg: Chain.Settings, a: Chain.Attempt)
    requires Valid(s) && s.phase == Waiting
    requires a.Replied? && !Chain.Succeeded(a) && s.retries < MaxRetries(cfg)
    ensures var u := Next(s, cfg, Reply(a));
            && u.retries == s.retries + 1 && u.cur == s.cur && u.log == s.log
            && (u.resets == s.resets + 1 <==> cfg.resetOnRetry && s.retries + 1 >= ResetAfter(cfg))
            && (u.resets == s.resets || u.resets == s.resets + 1)
  {
  }

  /** A network error never moves the fields on: however many requests
      throw, the same values are sent again, and every row added is an ERROR
      row. */
  lemma {:induction false} ErrorsNeverAdvance(s: Sweep, cfg: Chain.Settings, message: string, n: nat)
    requires Valid(s) && s.running && s.phase == Waiting
    ensures var t := Rounds(s, cfg, Chain.Thrown(message), n);
            && t.cur == s.cur && t.fields == s.fields && t.running && t.phase == Waiting
            && t.count == s.count + n
            && |t.log| >= |s.log| && t.log[..|s.log|] == s.log
            && (forall i :: |s.log| <= i < |t.log| ==> t.log[i] == Row(s.cur, 0, "ERROR", message))
  {
    if n > 0 {
      ErrorsNeverAdvance(s, cfg, message, n - 1);
    }
  }

  /** With at least one retry allowed, `MaxRetries` network errors in a
      row log one ERROR row and clear the retry count. */
  lemma {:induction false} ErrorsLoggedEveryMaxRetries(s: Sweep, cfg: Chain.Settings, message: string, n: nat)
    requires Valid(s) && s.running && s.phase == Waiting && s.retries == 0
    requires MaxRetries(cfg) >= 1 && n < MaxRetries(cfg)
    ensures var t := Rounds(s, cfg, Chain.Thrown(message), n);
            t.retries == n && t.log == s.log
    ensures var t := Rounds(s, cfg, Chain.Thrown(message), MaxRetries(cfg));
            n == MaxRetries(cfg) - 1 ==>
              t.retries == 0 && t.log == s.log + [Row(s.cur, 0, "ERROR", message)]
  {
    ErrorsNeverAdvance(s, cfg, message, n);
    if n > 0 {
      ErrorsLoggedEveryMaxRetries(s, cfg, message, n - 1);
    }
  }

  /** Once stopped, no transfer request is sent and the fields no longer
      move; a reply still in flight may still add its row, and a failed one
      may still send one USB reset. */
  lemma {:induction false} StoppedSendsNothing(s: Sweep, cfg: Chain.Settings, e: Event)
    requires Valid(s) && !s.running
    ensures var u := Next(s, cfg, e);
            !u.running && u.count == s.count && u.cur == s.cur && |u.log| <= |s.log| + 1
            && s.resets <= u.resets <= s.resets + 1
  {
  }

  /** Pressing stop ends the sweep and keeps its values and table. */
  lemma {:induction false} StopEnds(s: Sweep, cfg: Chain.Settings)
    requires Valid(s)
    ensures var u := Next(s, cfg, StopPressed);
            !u.running && u.cur == s.cur && u.log == s.log && u.count == s.count
  {
  }
}

=== FILE: chain.dfy ===
/** The chain runner of the web UI (`executeChain`, `continueChain`,
    `stopChain`) as a state machine. A run walks the steps with a cursor; each
    tick executes the step under the cursor against what the outside world
    answers (the USB request endpoint, HTTP, GPIO, the results table as it
    stands), appends at most one row to the log of `addTableRow` calls, and
    moves on. The button wait parks the run until Continue; Stop ends it. */
module Chain {
  import opened Wrappers
  import opened Text
  import opened ChainSteps
  import Cond = Condition

  /** The arguments of one `addTableRow` call, as text. */
  type LogRow = seq<string>

  datatype Phase = Running | AwaitingButton | Finished

  /** `chainRequests` (which copy steps rewrite), the loop index, `skipNext`,
      whether the run goes on, waits for Continue or is over, and the rows
      logged so far. */
  datatype Run = Run(steps: seq<ChainStep>, cursor: nat, skipNext: bool, phase: Phase, log: seq<LogRow>)

  /** The configuration fields the runner reads, as `parseInt` gives them
      (0 stands for an empty or unreadable field, which the `|| default`
      replaces). */
  datatype Settings = Settings(maxRetries: int, bfMaxRetries: int, resetOnRetry: bool,
                               resetAfterRetries: int, globalTimeout: int)

  /** The answer to one `/api/send_request` attempt: the parsed JSON reply
      (`data` absent when the reply has no `data` member), or a failed fetch
      or parse with the exception text. */
  datatype Attempt =
    | Replied(bytesReceived: int, data: Option<string>, ascii: string)
    | Thrown(message: string)

  /** The answer to an endpoint transfer: the reply's status, byte count,
      data and ASCII fields, or the exception text. */
  datatype EndpointReply =
    | EpReplied(status: string, count: int, data: string, ascii: string)
    | EpThrown(message: string)

  /** What the world answers while one step runs: the reply to each attempt
      of a USB request, whether the HTTP and GPIO fetches went through, the
      results table the condition and copy steps read, and the reply to an
      endpoint transfer. */
  datatype World = World(attempt: nat -> Attempt, httpOk: bool, gpioOk: bool,
                         rows: seq<Cond.Row>, endpoint: EndpointReply)

  datatype Event = Tick(world: World) | ContinuePressed | StopPressed

  /** A run that is going on has a step under its cursor, and a run waiting
      for Continue sits on a button wait. */
  predicate Valid(r: Run) {
    && (r.phase != Finished ==> r.cursor < |r.steps|)
    && (r.phase == AwaitingButton ==> r.steps[r.cursor].Wait? && r.steps[r.cursor].wait.Button?)
  }

  // ---------------------------------------------------------------------
  // Starting and stopping
  // ---------------------------------------------------------------------

  function Initial(steps: seq<ChainStep>, log: seq<LogRow>): Run {
    Run(steps, 0, false, Running, log)
  }

  /** `executeChain` when pressed: an empty chain or a run still going on
      leaves everything as it is; otherwise a run starts at the first step,
      and the rows of earlier runs stay in the table. */
  function Start(current: Option<Run>, steps: seq<ChainStep>): (r: Option<Run>)
    ensures r.Some? && r != current ==> Valid(r.value) && r.value.phase == Running && r.value.steps == steps
    ensures r != current <==> |steps| > 0 && (current.None? || current.value.phase == Finished)
    ensures r != current && current.Some? ==> r.Some? && r.value.log == current.value.log
  {
    if |steps| == 0 then current
    else if current.Some? && current.value.phase != Finished then current
    else Some(Initial(steps, if current.Some? then current.value.log else []))
  }

  /** Leaving the step under the cursor for the next one; past the last step
      the run is over. */
  function MoveOn(r: Run): (r': Run)
    ensures r'.cursor == r.cursor + 1 && r'.steps == r.steps && r'.log == r.log && r'.skipNext == r.skipNext
    ensures r'.phase == (if r.cursor + 1 < |r.steps| then Running else Finished)
  {
    r.(cursor := r.cursor + 1, phase := if r.cursor + 1 < |r.steps| then Running else Finished)
  }

  function Append(r: Run, row: LogRow): Run {
    r.(log := r.log + [row])
  }

  /** A row whose first cell names `kind`. */
  predicate IsRowOf(row: LogRow, kind: string) {
    |row| > 0 && row[0] == kind
  }

  /** The log of `r'` is that of `r` with at most one row added at the end. */
  predicate AddsAtMostOneRow(r: Run, r': Run) {
    r.log <= r'.log && |r'.log| <= |r.log| + 1
  }

  /** One event. Stop ends the run wherever it is; Continue only releases a
      button wait; a tick executes the step under the cursor of a running
      run. */
  function Next(r: Run, cfg: Settings, e: Event): (r': Run)
    ensures SameKinds(r.steps, r'.steps)
    ensures AddsAtMostOneRow(r, r')
    ensures e.StopPressed? ==> r'.phase == Finished && r'.log == r.log
    ensures e.ContinuePressed? ==> r'.log == r.log && r'.steps == r.steps
  {
    match e
    case StopPressed => r.(phase := Finished)
    case ContinuePressed => if r.phase == AwaitingButton then MoveOn(r) else r
    case Tick(world) => if r.phase == Running then Execute(r, cfg, world) else r
  }

  /** One pass of the loop body for the step under the cursor. */
  function Execute(r: Run, cfg: Settings, world: World): (r': Run)
    ensures SameKinds(r.steps, r'.steps)
    ensures AddsAtMostOneRow(r, r')
    ensures r.cursor < |r.steps| && r.skipNext ==>
              r'.steps == r.steps && !r'.skipNext && |r'.log| == |r.log| + 1 && IsRowOf(r'.log[|r.log|], "SKIPPED")
  {
    if r.cursor >= |r.steps| then r.(phase := Finished)
    else if r.skipNext then MoveOn(Append(r.(skipNext := false), SkipRow(r.steps[r.cursor])))
    else if r.steps[r.cursor].Copy? then RunCopy(r, world.rows)
    else if r.steps[r.cursor].Condition? then RunCondition(r, world.rows)
    else if r.steps[r.cursor].UsbRequest? then RunUsbRequest(r, cfg, world.attempt)
    else RunAction(r, world)
  }

  /** A copy step rewrites the chain as `CopyOutcome` says and logs its row. */
  function RunCopy(r: Run, rows: seq<Cond.Row>): (r': Run)
    requires r.cursor < |r.steps| && r.steps[r.cursor].Copy?
    ensures SameKinds(r.steps, r'.steps)
    ensures r'.cursor == r.cursor + 1 && r'.skipNext == r.skipNext
    ensures r.log <= r'.log && |r'.log| == |r.log| + 1 && IsRowOf(r'.log[|r.log|], "COPY")
  {
    var c := CopyOutcome(r.steps, r.cursor, rows, r.steps[r.cursor]);
    CopyKeepsKinds(r.steps, r.cursor, rows, r.steps[r.cursor]);
    MoveOn(Append(r.(steps := c.0), c.1))
  }

  /** A USB request logs the row of its last attempt, or nothing when no
      attempt was made. */
  function RunUsbRequest(r: Run, cfg: Settings, attempt: nat -> Attempt): (r': Run)
    requires r.cursor < |r.steps| && r.steps[r.cursor].UsbRequest?
    ensures r'.steps == r.steps && r'.cursor == r.cursor + 1 && r'.skipNext == r.skipNext
    ensures AddsAtMostOneRow(r, r')
    ensures |r'.log| == |r.log| + 1 <==> EffectiveMax(r.steps[r.cursor], cfg) >= 0
    ensures |r'.log| == |r.log| + 1 ==> |r'.log[|r.log|]| == 9
  {
    var n := AttemptsFrom(attempt, 0, EffectiveMax(r.steps[r.cursor], cfg));
    var rows := if n == 0 then [] else [UsbRow(r.steps[r.cursor], attempt(n - 1))];
    MoveOn(r.(log := r.log + rows))
  }

  /** The steps that neither read the table nor send requests: waits, HTTP
      and GPIO actions, comments, gotos and endpoint transfers. */
  function RunAction(r: Run, world: World): (r': Run)
    requires r.cursor < |r.steps|
    requires !r.steps[r.cursor].Copy? && !r.steps[r.cursor].Condition? && !r.steps[r.cursor].UsbRequest?
    ensures r'.steps == r.steps && r'.skipNext == r.skipNext
    ensures AddsAtMostOneRow(r, r')
    ensures r.phase == Running ==>
              (r'.phase == AwaitingButton <==> r.steps[r.cursor].Wait? && r.steps[r.cursor].wait.Button?)
    ensures r.steps[r.cursor].Wait? ==> r'.log == r.log
    ensures !r.steps[r.cursor].Wait? ==> |r'.log| == |r.log| + 1
  {
    match r.steps[r.cursor]
    case Wait(w) => if w.Button? then r.(phase := AwaitingButton) else MoveOn(r)
    case Http(url) => MoveOn(Append(r, HttpRow(url, world.httpOk)))
    case GpioOut(pin, level) => MoveOn(Append(r, GpioRow(pin, level, world.gpioOk)))
    case Comment(text) => MoveOn(Append(r, ["Comment", OrStr(text, "No comment"), "-", "-", "", "", "info"]))
    case Goto(target) =>
      if InRange(target, |r.steps|) then Append(r, GotoRow(target, true)).(cursor := JumpIndex(target).value)
      else MoveOn(Append(r, GotoRow(target, false)))
    case EndpointIn(_, _, _, _, _, _, _, _) => MoveOn(Append(r, EndpointInRow(r.steps[r.cursor], world.endpoint)))
    case EndpointOut(_, _, _, _, _, _) => MoveOn(Append(r, EndpointOutRow(r.steps[r.cursor], world.endpoint)))
  }

  /** A condition step logs its row, then acts on the outcome: "break" ends
      the run, "skip_next" marks the next step to be skipped, and anything
      else (or a condition that fails) goes on with the next step. */
  function RunCondition(r: Run, rows: seq<Cond.Row>): (r': Run)
    requires r.cursor < |r.steps| && r.steps[r.cursor].Condition?
    ensures r'.steps == r.steps
    ensures r.log <= r'.log && |r'.log| == |r.log| + 1 && IsRowOf(r'.log[|r.log|], "Condition")
    ensures r'.phase == Finished || r'.cursor == r.cursor + 1
    ensures r'.skipNext != r.skipNext ==> r'.skipNext && r'.cursor == r.cursor + 1
  {
    var s := r.steps[r.cursor];
    var holds := Cond.ConditionHolds(rows, s.op, s.a, s.b);
    var act := OrStr(s.action, "continue");
    AfterCondition(Append(r, ConditionRow(rows, s, holds)), holds && act == "break", holds && act == "skip_next")
  }

  /** What follows a logged condition: the end of the run, or the next step,
      marked to be skipped or not. */
  function AfterCondition(r: Run, stop: bool, skip: bool): (r': Run)
    ensures r'.steps == r.steps && r'.log == r.log
    ensures stop ==> r'.phase == Finished
    ensures !stop ==> r' == MoveOn(r.(skipNext := skip || r.skipNext))
  {
    if stop then r.(phase := Finished)
    else if skip then MoveOn(r.(skipNext := true))
    else MoveOn(r)
  }

  // ---------------------------------------------------------------------
  // Rows
  // ---------------------------------------------------------------------

  function SkipRow(s: ChainStep): LogRow {
    ["SKIPPED", SkippedDescription(s), "-", "-", "", "", "info"]
  }

  function Outcome(ok: bool): seq<string> {
    if ok then ["SUCCESS", "OK", "", "", "success"] else ["FAILED", "ERROR", "", "", "error"]
  }

  /** The HTTP row names the URL, or "No URL" (the fetch itself goes to the
      default URL). */
  function HttpRow(url: string, ok: bool): LogRow {
    ["HTTP", OrStr(url, "No URL")] + Outcome(ok)
  }

  function GpioRow(pin: int, level: int, ok: bool): LogRow {
    ["GPIO OUT", "Pin " + IntToString(pin) + " -> " + IntToString(level)] + Outcome(ok)
  }

  /** Whether a goto's index, as JavaScript compares it, lies in a chain of
      `n` steps. */
  predicate InRange(t: JumpTarget, n: int) {
    JumpIndex(t).Some? && 0 <= JumpIndex(t).value < n
  }

  function GotoRow(t: JumpTarget, ok: bool): LogRow {
    ["GOTO", (if ok then "Jump to index " else "Invalid index ") + JumpText(t)] + Outcome(ok)
  }

  /** The request-number and length cells of one side of a condition: "-" for
      a manual value, otherwise the number and "all" for the whole response. */
  function ReqNoText(o: Operand): string {
    if o.source == "manual" then "-" else IntToString(o.reqNo)
  }

  function LengthText(o: Operand): string {
    if o.source == "manual" then "-"
    else match o.length
      case None => "all"
      case Some(n) => if n == -1 then "all" else IntToString(n)
  }

  function ConditionRow(rows: seq<Cond.Row>, s: ChainStep, holds: bool): (row: LogRow)
    requires s.Condition?
    ensures |row| == 9 && IsRowOf(row, "Condition")
    ensures row[8] == if holds then "SUCCESS" else "FAIL"
  {
    ["Condition", OrStr(Cond.OperandValue(rows, s.a), "-"), ReqNoText(s.a), LengthText(s.a), OrStr(s.op, "=="),
     OrStr(Cond.OperandValue(rows, s.b), "-"), ReqNoText(s.b), LengthText(s.b), if holds then "SUCCESS" else "FAIL"]
  }

  function EndpointInRow(s: ChainStep, reply: EndpointReply): LogRow
    requires s.EndpointIn?
  {
    var name := "EP" + IntToString(s.endpoint) + " IN";
    match reply
    case EpReplied(status, count, data, ascii) =>
      [name, OrStr(s.epType, "bulk"), "addr=" + IntToString(OrInt(s.deviceAddr, 0)),
       "len=" + IntToString(OrInt(s.length, 64)), IntToString(count),
       IntToString(OrInt(s.timeoutMs, 1000)) + "ms", IntToString(count), data, ascii, "", "",
       if status == "success" then "success" else "warning"]
    case EpThrown(message) => [name, "ERROR", "", "", "0", "", "0", message, "", "", "", "warning"]
  }

  function EndpointOutRow(s: ChainStep, reply: EndpointReply): LogRow
    requires s.EndpointOut?
  {
    var name := "EP" + IntToString(s.endpoint) + " OUT";
    match reply
    case EpReplied(status, count, _, _) =>
      [name, OrStr(s.epType, "bulk"), "addr=" + IntToString(OrInt(s.deviceAddr, 0)), s.payload,
       IntToString(count), IntToString(OrInt(s.timeoutMs, 1000)) + "ms", IntToString(count), status,
       "", "", "", if status == "success" then "success" else "warning"]
    case EpThrown(message) => [name, "ERROR", "", "", "0", "", "0", message, "", "", "", "warning"]
  }

  // ---------------------------------------------------------------------
  // USB requests and their retries
  // ---------------------------------------------------------------------

  /** A reply's `data` reports an error when it is non-empty and mentions
      TIMEOUT, ERROR, STALL or NAK. */
  predicate HasError(data: Option<string>) {
    data.Some? && data.value != ""
    && (Includes(data.value, "TIMEOUT") || Includes(data.value, "ERROR")
        || Includes(data.value, "STALL") || Includes(data.value, "NAK"))
  }

  /** An attempt succeeds when bytes came back, or when the reply carries
      `data` that reports no error. */
  predicate Succeeded(a: Attempt) {
    a.Replied? && (a.bytesReceived > 0 || (!HasError(a.data) && a.data.Some?))
  }

  /** The retries a request may make: none with `noRetry`, otherwise the
      brute-force retry setting (3 when unset). */
  function EffectiveMax(s: ChainStep, cfg: Settings): (max: int)
    requires s.UsbRequest?
    ensures max == 0 <==> s.noRetry
    ensures !s.noRetry && cfg.bfMaxRetries != 0 ==> max == cfg.bfMaxRetries
  {
    if s.noRetry then 0 else OrInt(cfg.bfMaxRetries, 3)
  }

  /** The number of attempts the retry loop makes once `k` attempts have
      failed: it stops after the first success or once `max + 1` attempts
      are spent. */
  function AttemptsFrom(attempt: nat -> Attempt, k: nat, max: int): (n: nat)
    ensures k > max ==> n == k
    ensures k <= max ==> k < n <= max + 1
    ensures forall j :: k <= j < n - 1 ==> !Succeeded(attempt(j))
    ensures n > k ==> Succeeded(attempt(n - 1)) || n == max + 1
    decreases max + 1 - k
  {
    if k > max then k
    else if Succeeded(attempt(k)) then k + 1
    else AttemptsFrom(attempt, k + 1, max)
  }

  /** The row of the last attempt: the reply on success; on exhaustion the
      reply with "FAILED" for missing data, or "ERROR" and the exception. */
  function UsbRow(s: ChainStep, a: Attempt): (row: LogRow)
    requires s.UsbRequest?
    ensures |row| == 9
    ensures row[..6] == [s.bmRequestType, s.bRequest, s.wValue, s.wIndex, s.wLength, s.packetSize]
    ensures a.Thrown? ==> row[6] == "0" && row[7] == "ERROR" && row[8] == a.message
    ensures Succeeded(a) && a.data.Some? ==> row[7] == a.data.value
    ensures a.Replied? && !Succeeded(a) ==>
              row[7] == if a.data.Some? && a.data.value != "" then a.data.value else "FAILED"
  {
    var head := [s.bmRequestType, s.bRequest, s.wValue, s.wIndex, s.wLength, s.packetSize];
    match a
    case Replied(bytes, data, ascii) =>
      head + [IntToString(OrInt(bytes, 0)), OrStr(data.GetOr(""), if Succeeded(a) then "" else "FAILED"), ascii]
    case Thrown(message) => head + ["0", "ERROR", message]
  }

  /** One more attempt adds a reset exactly when it is a retry at or past
      the threshold. */
  lemma {:induction false} ResetsStep(on: bool, after: int, n: nat)
    ensures ResetsBefore(on, after, n + 1) == ResetsBefore(on, after, n) + (if n > 0 && on && n >= after then 1 else 0)
  {
  }

  /** A successful attempt's data is the row's data cell. */
  lemma {:induction false} UsbRowData(s: ChainStep, a: Attempt)
    requires s.UsbRequest?
    ensures |UsbRow(s, a)| == 9
    ensures Succeeded(a) && a.data.Some? ==> UsbRow(s, a)[7] == a.data.value
  {
  }

  /** A text shorter than `t` does not include it. */
  lemma {:induction false} ShortExcludes(s: string, t: string)
    requires |s| < |t|
    ensures !Includes(s, t)
    decreases |s|
  {
    if |s| > 0 {
      ShortExcludes(s[1..], t);
    }
  }

  /** A text whose first character differs from `t`'s, and whose tail does
      not include `t`, does not include `t`. */
  lemma {:induction false} ExcludesStep(s: string, t: string)
    requires |s| > 0 && |t| > 0 && s[0] != t[0] && !Includes(s[1..], t)
    ensures !Includes(s, t)
  {
    if |t| <= |s| {
      assert s[..|t|][0] != t[0];
    }
  }

  /** The firmware's error token "FAILED" names none of the four error
      words the client looks for. */
  lemma {:induction false} FailedTokenIsNoError()
    ensures !HasError(Some("FAILED"))
  {
    var f := "FAILED";
    assert f[1..][1..] == f[2..] && f[2..][1..] == f[3..] && f[3..][1..] == f[4..];
    ShortExcludes(f, "TIMEOUT");
    ShortExcludes(f[2..], "ERROR");
    ExcludesStep(f[1..], "ERROR");
    ExcludesStep(f, "ERROR");
    ShortExcludes(f[2..], "STALL");
    ExcludesStep(f[1..], "STALL");
    ExcludesStep(f, "STALL");
    ShortExcludes(f[4..], "NAK");
    ExcludesStep(f[3..], "NAK");
    ExcludesStep(f[2..], "NAK");
    ExcludesStep(f[1..], "NAK");
    ExcludesStep(f, "NAK");
  }

  /** A reply whose data is the firmware's "FAILED" (a refused or failed
      transfer) counts as a success: the retry loop stops after it and the
      row shows "FAILED" as the data. */
  lemma {:induction false} FailedReplyEndsRetries(s: ChainStep, cfg: Settings, attempt: nat -> Attempt)
    requires s.UsbRequest? && EffectiveMax(s, cfg) >= 0
    requires attempt(0).Replied? && attempt(0).data == Some("FAILED")
    ensures Succeeded(attempt(0))
    ensures AttemptsFrom(attempt, 0, EffectiveMax(s, cfg)) == 1
    ensures UsbRow(s, attempt(0))[7] == "FAILED"
  {
    FailedTokenIsNoError();
    UsbRowData(s, attempt(0));
  }

  /** The number of USB resets made before the retries of `attempts`
      attempts: retry `k` resets first when resetting is on and `k` has
      reached the threshold. */
  function ResetsBefore(on: bool, after: int, attempts: nat): nat {
    if attempts <= 1 then 0
    else ResetsBefore(on, after, attempts - 1) + (if on && attempts - 1 >= after then 1 else 0)
  }

  /** The parameters the request is sent with: one device-side try and a
      timeout of at most 100 ms for a `noRetry` request, the configured
      values (100 tries, 1000 ms when unset) otherwise. */
  datatype SendParams = SendParams(maxRetries: int, timeout: int, dataMode: string, deviceAddr: int)

  function RequestParams(s: ChainStep, cfg: Settings): (p: SendParams)
    requires s.UsbRequest?
    ensures s.noRetry ==> p.maxRetries == 1 && p.timeout <= 100
    ensures p.maxRetries != 0 && p.timeout != 0
    ensures p.dataMode != ""
  {
    var global := OrInt(cfg.globalTimeout, 1000);
    SendParams(if s.noRetry then 1 else OrInt(cfg.maxRetries, 100),
               if s.noRetry then Min(global, 100) else global,
               OrStr(s.dataMode, "separate"), OrInt(s.deviceAddr, 0))
  }

  /** The retry loop as written: attempts are made while none has succeeded
      and the retry count has not passed the limit; before each retry the
      device may be reset. */
  method SendWithRetries(s: ChainStep, cfg: Settings, attempt: nat -> Attempt)
    returns (attempts: nat, resets: nat, row: Option<LogRow>)
    requires s.UsbRequest?
    ensures attempts == AttemptsFrom(attempt, 0, EffectiveMax(s, cfg))
    ensures resets == ResetsBefore(cfg.resetOnRetry, OrInt(cfg.resetAfterRetries, 2), attempts)
    ensures row.None? <==> attempts == 0
    ensures row.Some? ==> row.value == UsbRow(s, attempt(attempts - 1))
    ensures attempts > 0 && Succeeded(attempt(attempts - 1)) && attempt(attempts - 1).data.Some? ==>
              row.value[7] == attempt(attempts - 1).data.value
  {
    var last;
    attempts, resets, last := RetryLoop(EffectiveMax(s, cfg), cfg.resetOnRetry, OrInt(cfg.resetAfterRetries, 2), attempt);
    if attempts == 0 {
      row := None;
    } else {
      row := Some(UsbRow(s, last));
      UsbRowData(s, last);
    }
  }

  /** The loop of `SendWithRetries`: `max` is the retry limit, `after` the
      retry count from which a reset precedes each retry; `last` is the last
      attempt made. */
  method RetryLoop(max: int, resetOnRetry: bool, after: int, attempt: nat -> Attempt)
    returns (attempts: nat, resets: nat, last: Attempt)
    ensures attempts == AttemptsFrom(attempt, 0, max)
    ensures resets == ResetsBefore(resetOnRetry, after, attempts)
    ensures attempts > 0 ==> last == attempt(attempts - 1)
  {
    // `attempts` plays the source's `retryCount` while no attempt has
    // succeeded; `done` is the negated loop condition.
    attempts, resets, last := 0, 0, Thrown("");
    var done := max < 0;
    while !done
      invariant done ==> attempts == AttemptsFrom(attempt, 0, max)
      invariant !done ==> attempts <= max && AttemptsFrom(attempt, attempts, max) == AttemptsFrom(attempt, 0, max)
      invariant resets == ResetsBefore(resetOnRetry, after, attempts)
      invariant attempts > 0 ==> last == attempt(attempts - 1)
      decreases max + 1 - attempts, if done then 0 else 1
    {
      ResetsStep(resetOnRetry, after, attempts);
      if attempts > 0 && resetOnRetry && attempts >= after {
        resets := resets + 1;
      }
      last := attempt(attempts);
      AttemptsFromStep(attempt, attempts, max);
      done := Succeeded(last) || attempts == max;
      attempts := attempts + 1;
    }
  }

  /** One attempt of the loop: a success ends it, a failure leaves the rest. */
  lemma {:induction false} AttemptsFromStep(attempt: nat -> Attempt, k: nat, max: int)
    requires k <= max
    ensures Succeeded(attempt(k)) ==> AttemptsFrom(attempt, k, max) == k + 1
    ensures !Succeeded(attempt(k)) ==> AttemptsFrom(attempt, k, max) == AttemptsFrom(attempt, k + 1, max)
  {
  }

  // ---------------------------------------------------------------------
  // Copy
  // ---------------------------------------------------------------------

  /** The first USB request at or after `j`, or -1. */
  function NextUsbRequest(steps: seq<ChainStep>, j: nat): (t: int)
    ensures t == -1 || (j <= t < |steps| && steps[t].UsbRequest?)
    ensures forall k :: j <= k < |steps| && (t == -1 || k < t) ==> !steps[k].UsbRequest?
    decreases |steps| - j
  {
    if j >= |steps| then -1
    else if steps[j].UsbRequest? then j
    else NextUsbRequest(steps, j + 1)
  }

  /** The index a copy step writes to: for -1 or 0 (unset) the next USB
      request after it, for any other non-negative number that index, and
      none (-1) for any other negative number. */
  function CopyTarget(steps: seq<ChainStep>, i: nat, toReqNo: int): (t: int)
    ensures toReqNo > 0 ==> t == toReqNo
    ensures toReqNo < -1 ==> t == -1
    ensures toReqNo == -1 || toReqNo == 0 ==> t == NextUsbRequest(steps, i + 1)
  {
    if toReqNo == -1 || toReqNo == 0 then NextUsbRequest(steps, i + 1)
    else if toReqNo >= 0 then toReqNo
    else -1
  }

  /** The value a copy step carries: the response hex it reads, when the
      step names a source. */
  function CopyValue(rows: seq<Cond.Row>, s: ChainStep): string
    requires s.Copy?
  {
    if s.source != "" then Cond.TableValue(rows, s.fromReqNo, s.fromLength) else ""
  }

  /** The chain after a copy step at `i`, and the row it logs. The copy
      takes effect when the target exists, the step names a source and a
      field, and the value read is not empty: the field is set to "0x" and
      the value. */
  function CopyOutcome(steps: seq<ChainStep>, i: nat, rows: seq<Cond.Row>, s: ChainStep): (res: (seq<ChainStep>, LogRow))
    requires s.Copy?
    ensures |res.0| == |steps|
    ensures |res.1| == 7 && res.1[0] == "COPY"
    ensures var t := CopyTarget(steps, i, s.toReqNo);
            !(0 <= t < |steps| && CopyValue(rows, s) != "" && s.toField != "") ==>
              res.0 == steps && res.1[2] == "FAILED" && res.1[3] == "ERROR"
    ensures var t := CopyTarget(steps, i, s.toReqNo);
            0 <= t < |steps| && CopyValue(rows, s) != "" && s.toField != "" ==>
              res.0 == steps[t := SetField(steps[t], s.toField, "0x" + CopyValue(rows, s))]
              && res.1[2] == CopyValue(rows, s) && res.1[3] == "OK"
  {
    var t := CopyTarget(steps, i, s.toReqNo);
    var found := 0 <= t < |steps|;
    var value := if found then CopyValue(rows, s) else "";
    var ok := found && value != "" && s.toField != "";
    var desc := "Req" + IntToString(OrInt(s.fromReqNo, -1)) + " -> " + OrStr(s.toField, "?");
    var steps' := if ok then steps[t := SetField(steps[t], s.toField, "0x" + value)] else steps;
    (steps', ["COPY", desc, if ok then value else "FAILED", if ok then "OK" else "ERROR", "", "",
              if ok then "success" else "error"])
  }

  // ---------------------------------------------------------------------
  // Properties
  // ---------------------------------------------------------------------

  /** A step keeps its kind under a copy: only request fields, endpoint
      data, a goto's index and a condition's manual values change. */
  predicate SameKind(a: ChainStep, b: ChainStep) {
    && (a.UsbRequest? <==> b.UsbRequest?)
    && (a.EndpointOut? <==> b.EndpointOut?)
    && (a.Goto? <==> b.Goto?)
    && (a.Condition? <==> b.Condition?)
    && (!a.UsbRequest? && !a.EndpointOut? && !a.Goto? && !a.Condition? ==> a == b)
  }

  predicate SameKinds(xs: seq<ChainStep>, ys: seq<ChainStep>) {
    |xs| == |ys| && forall i :: 0 <= i < |xs| ==> SameKind(xs[i], ys[i])
  }

  lemma {:induction false} SetFieldKeepsKind(s: ChainStep, field: string, value: string)
    ensures SameKind(s, SetField(s, field, value))
  {
  }

  /** A copy rewrites at most the target, and keeps every step's kind. */
  lemma {:induction false} CopyKeepsKinds(steps: seq<ChainStep>, i: nat, rows: seq<Cond.Row>, s: ChainStep)
    requires s.Copy?
    ensures SameKinds(steps, CopyOutcome(steps, i, rows, s).0)
    ensures var t := CopyTarget(steps, i, s.toReqNo);
            forall k :: 0 <= k < |steps| && k != t ==> CopyOutcome(steps, i, rows, s).0[k] == steps[k]
  {
    var t := CopyTarget(steps, i, s.toReqNo);
    if 0 <= t < |steps| {
      SetFieldKeepsKind(steps[t], s.toField, "0x" + CopyValue(rows, s));
    }
  }

  /** A copy into "wValue" of the next USB request, with a value read,
      rewrites exactly that request's wValue. */
  lemma {:induction false} CopyIntoNextRequest(steps: seq<ChainStep>, i: nat, rows: seq<Cond.Row>, s: ChainStep)
    requires s.Copy? && s.toField == "wValue" && (s.toReqNo == -1 || s.toReqNo == 0)
    requires CopyValue(rows, s) != "" && NextUsbRequest(steps, i + 1) != -1
    ensures var t := NextUsbRequest(steps, i + 1);
            && i < t
            && CopyOutcome(steps, i, rows, s).0 == steps[t := steps[t].(wValue := "0x" + CopyValue(rows, s))]
            && CopyOutcome(steps, i, rows, s).1[2] == CopyValue(rows, s)
  {
  }

  /** A copy into any field of a USB request target, with a value read,
      writes "0x" and the value into that field alone: the other fields, the
      other steps and the target's address and retry flag are kept. */
  lemma {:induction false} CopyIntoTarget(steps: seq<ChainStep>, i: nat, rows: seq<Cond.Row>, s: ChainStep)
    requires s.Copy? && CopyValue(rows, s) != ""
    requires var t := CopyTarget(steps, i, s.toReqNo);
             0 <= t < |steps| && steps[t].UsbRequest? && RequestField(steps[t], s.toField).Some?
    ensures var t := CopyTarget(steps, i, s.toReqNo);
            var res := CopyOutcome(steps, i, rows, s);
            && res.0[t].UsbRequest?
            && RequestField(res.0[t], s.toField) == Some("0x" + CopyValue(rows, s))
            && (forall g :: g != s.toField ==> RequestField(res.0[t], g) == RequestField(steps[t], g))
            && res.0[t].deviceAddr == steps[t].deviceAddr && res.0[t].noRetry == steps[t].noRetry
            && (forall k :: 0 <= k < |steps| && k != t ==> res.0[k] == steps[k])
            && res.1[2] == CopyValue(rows, s) && res.1[3] == "OK"
  {
  }

  /** A value copied from the table is upper-case hexadecimal digits. */
  lemma {:induction false} CopyValueDigits(rows: seq<Cond.Row>, s: ChainStep)
    requires s.Copy?
    ensures var v := CopyValue(rows, s);
            forall k :: 0 <= k < |v| ==> IsHexDigit(v[k]) && !('a' <= v[k] <= 'z')
  {
    if s.source != "" {
      Cond.TableValueIsHexPrefix(rows, s.fromReqNo, s.fromLength);
    }
  }

  /** A copy into a goto's `gotoReqNo`, with a value read, stores "0x" and
      the value there: the goto then jumps to the index the copied digits
      spell in hexadecimal, and its row shows the text. */
  lemma {:induction false} CopyIntoGoto(steps: seq<ChainStep>, i: nat, rows: seq<Cond.Row>, s: ChainStep)
    requires s.Copy? && s.toField == "gotoReqNo" && CopyValue(rows, s) != ""
    requires var t := CopyTarget(steps, i, s.toReqNo); 0 <= t < |steps| && steps[t].Goto?
    ensures var t := CopyTarget(steps, i, s.toReqNo);
            var v := CopyValue(rows, s);
            var res := CopyOutcome(steps, i, rows, s);
            && res.0 == steps[t := Goto(Written("0x" + v))]
            && JumpIndex(res.0[t].target) == Some(DigitsValue(v, 16) as int)
            && JumpText(res.0[t].target) == "0x" + v
            && res.1[2] == v && res.1[3] == "OK"
  {
    var v := CopyValue(rows, s);
    CopyValueDigits(rows, s);
    JumpToWritten(v);
  }

  /** The text "0x" and upper-case hex digits, stored as a goto's index, is
      read by `Number` as the digits' value and shown as written. */
  lemma {:induction false} JumpToWritten(v: string)
    requires |v| > 0 && forall k :: 0 <= k < |v| ==> IsHexDigit(v[k]) && !('a' <= v[k] <= 'z')
    ensures JumpIndex(Written("0x" + v)) == Some(DigitsValue(v, 16) as int)
    ensures JumpText(Written("0x" + v)) == "0x" + v
  {
    assert AllDigitsOf(v, 16);
    JsNumberOfHex(v);
  }

  /** A copy into the manual value of a condition's side, with a value read,
      makes that side compare exactly the copied digits: the "0x" the copy
      adds is removed again when the condition reads it. */
  lemma {:induction false} CopyIntoCondition(steps: seq<ChainStep>, i: nat, rows: seq<Cond.Row>, s: ChainStep, later: seq<Cond.Row>)
    requires s.Copy? && (s.toField == "valueAValue" || s.toField == "valueBValue") && CopyValue(rows, s) != ""
    requires var t := CopyTarget(steps, i, s.toReqNo); 0 <= t < |steps| && steps[t].Condition?
    ensures var t := CopyTarget(steps, i, s.toReqNo);
            var v := CopyValue(rows, s);
            var c := CopyOutcome(steps, i, rows, s).0[t];
            var side := if s.toField == "valueAValue" then c.a else c.b;
            && c.Condition? && c.op == steps[t].op && c.action == steps[t].action
            && side.value == "0x" + v
            && (!Cond.FromTable(side) ==> Cond.OperandValue(later, side) == v)
  {
    var t := CopyTarget(steps, i, s.toReqNo);
    var v := CopyValue(rows, s);
    var c := CopyOutcome(steps, i, rows, s).0[t];
    CopyValueDigits(rows, s);
    var side := if s.toField == "valueAValue" then c.a else c.b;
    if !Cond.FromTable(side) {
      Cond.ManualMarkedHex(later, side, v);
    }
  }

  /** A copy that reads no value, or names no field, changes nothing and
      logs FAILED. */
  lemma {:induction false} CopyEmptyWritesNothing(steps: seq<ChainStep>, i: nat, rows: seq<Cond.Row>, s: ChainStep)
    requires s.Copy? && (CopyValue(rows, s) == "" || s.toField == "")
    ensures CopyOutcome(steps, i, rows, s).0 == steps
    ensures CopyOutcome(steps, i, rows, s).1[2] == "FAILED"
  {
  }

  /** A copy whose target cannot be found changes nothing and logs FAILED. */
  lemma {:induction false} CopyWithoutTarget(steps: seq<ChainStep>, i: nat, rows: seq<Cond.Row>, s: ChainStep)
    requires s.Copy?
    requires s.toReqNo < -1 || s.toReqNo >= |steps| || ((s.toReqNo == -1 || s.toReqNo == 0) && forall k :: i < k < |steps| ==> !steps[k].UsbRequest?)
    ensures CopyOutcome(steps, i, rows, s).0 == steps
    ensures CopyOutcome(steps, i, rows, s).1[2] == "FAILED"
  {
  }

  /** The retry count has the closed form the loop promises: no resets when
      resetting is off, otherwise one before each retry from the threshold
      on (the first retry at the earliest). */
  lemma {:induction false} ResetsClosedForm(on: bool, after: int, attempts: nat)
    ensures ResetsBefore(on, after, attempts) == if !on then 0 else Max(0, attempts - Max(1, after))
    decreases attempts
  {
    if attempts > 1 {
      ResetsClosedForm(on, after, attempts - 1);
    }
  }

  /** A `noRetry` request is attempted exactly once and never resets. */
  lemma {:induction false} NoRetryAttemptsOnce(s: ChainStep, cfg: Settings, attempt: nat -> Attempt)
    requires s.UsbRequest? && s.noRetry
    ensures AttemptsFrom(attempt, 0, EffectiveMax(s, cfg)) == 1
    ensures ResetsBefore(cfg.resetOnRetry, OrInt(cfg.resetAfterRetries, 2), 1) == 0
  {
  }

  /** A negative retry setting skips the loop: the request is never sent and
      nothing is logged for it. */
  lemma {:induction false} NegativeRetriesSendNothing(s: ChainStep, cfg: Settings, attempt: nat -> Attempt)
    requires s.UsbRequest? && !s.noRetry && cfg.bfMaxRetries < 0
    ensures AttemptsFrom(attempt, 0, EffectiveMax(s, cfg)) == 0
  {
  }

  /** The attempts stop at the first success: if attempt `k` succeeds within
      the limit and every earlier one failed, exactly `k + 1` are made and
      the row shows attempt `k`. */
  lemma {:induction false} FirstSuccessWins(attempt: nat -> Attempt, k: nat, max: int)
    requires k <= max && Succeeded(attempt(k))
    requires forall j :: 0 <= j < k ==> !Succeeded(attempt(j))
    ensures AttemptsFrom(attempt, 0, max) == k + 1
  {
  }

  /** `r'` may follow `r`: it is valid, the chain keeps its length and the
      kinds of its steps, and the log has grown by at most one row. */
  predicate Follows(r: Run, r': Run) {
    && Valid(r')
    && SameKinds(r.steps, r'.steps)
    && |r.log| <= |r'.log| <= |r.log| + 1
    && r'.log[..|r.log|] == r.log
  }

  /** Every event keeps a run valid, keeps the length and the step kinds of
      the chain, and only appends to the log, at most one row at a time. */
  lemma {:induction false} NextKeepsValid(r: Run, cfg: Settings, e: Event)
    requires Valid(r)
    ensures Follows(r, Next(r, cfg, e))
  {
    match e
    case Tick(w) =>
      if r.phase == Running {
        if r.skipNext {
          SkipConsumesStep(r, cfg, w);
          assert Follows(r, Next(r, cfg, e));
        } else if r.steps[r.cursor].Copy? {
          CopyStepFollows(r, cfg, w);
        } else if r.steps[r.cursor].Condition? {
          ConditionStepFollows(r, cfg, w);
        } else if r.steps[r.cursor].UsbRequest? {
          UsbStepFollows(r, cfg, w);
        } else {
          OtherStepFollows(r, cfg, w);
        }
      } else {
        assert r.log[..|r.log|] == r.log;
      }
    case ContinuePressed =>
      assert r.log[..|r.log|] == r.log;
    case StopPressed =>
      assert r.log[..|r.log|] == r.log;
  }

  lemma {:induction false} CopyStepFollows(r: Run, cfg: Settings, w: World)
    requires Valid(r) && r.phase == Running && !r.skipNext && r.steps[r.cursor].Copy?
    ensures Follows(r, Execute(r, cfg, w))
  {
    var c := CopyOutcome(r.steps, r.cursor, w.rows, r.steps[r.cursor]);
    var r' := RunCopy(r, w.rows);
    assert Execute(r, cfg, w) == r';
    CopyKeepsKinds(r.steps, r.cursor, w.rows, r.steps[r.cursor]);
    assert r'.log == r.log + [c.1];
    assert r'.log[..|r.log|] == r.log;
  }

  lemma {:induction false} ConditionStepFollows(r: Run, cfg: Settings, w: World)
    requires Valid(r) && r.phase == Running && !r.skipNext && r.steps[r.cursor].Condition?
    ensures Follows(r, Execute(r, cfg, w))
  {
    assert Execute(r, cfg, w) == RunCondition(r, w.rows);
    RunConditionLogs(r, w.rows);
    AppendFollows(r, RunCondition(r, w.rows), RunCondition(r, w.rows).log[|r.log|]);
  }

  /** A condition step logs one row and leaves the chain as it is. */
  lemma {:induction false} RunConditionLogs(r: Run, rows: seq<Cond.Row>)
    requires Valid(r) && r.cursor < |r.steps| && r.steps[r.cursor].Condition?
    ensures var r' := RunCondition(r, rows);
            Valid(r') && r'.steps == r.steps && r'.log == r.log + [r'.log[|r.log|]]
  {
  }

  /** A step that only logs one row and moves on keeps the chain as it is. */
  lemma {:induction false} AppendFollows(r: Run, r': Run, row: LogRow)
    requires Valid(r') && r'.steps == r.steps && r'.log == r.log + [row]
    ensures Follows(r, r')
  {
    assert r'.log[..|r.log|] == r.log;
  }

  lemma {:induction false} UsbStepFollows(r: Run, cfg: Settings, w: World)
    requires Valid(r) && r.phase == Running && !r.skipNext && r.steps[r.cursor].UsbRequest?
    ensures Follows(r, Execute(r, cfg, w))
  {
    var r' := Execute(r, cfg, w);
    assert r'.log[..|r.log|] == r.log;
  }

  lemma {:induction false} OtherStepFollows(r: Run, cfg: Settings, w: World)
    requires Valid(r) && r.phase == Running && !r.skipNext
    requires !r.steps[r.cursor].Copy? && !r.steps[r.cursor].Condition? && !r.steps[r.cursor].UsbRequest?
    ensures Follows(r, Execute(r, cfg, w))
  {
    assert Execute(r, cfg, w) == RunAction(r, w);
    ActionFollows(r, w);
  }

  lemma {:induction false} ActionFollows(r: Run, w: World)
    requires Valid(r) && r.phase == Running
    requires !r.steps[r.cursor].Copy? && !r.steps[r.cursor].Condition? && !r.steps[r.cursor].UsbRequest?
    ensures Follows(r, RunAction(r, w))
  {
    var r' := RunAction(r, w);
    match r.steps[r.cursor]
    case Wait(_) =>
      assert r'.log[..|r.log|] == r.log;
    case Http(url) => AppendFollows(r, r', HttpRow(url, w.httpOk));
    case GpioOut(pin, level) => AppendFollows(r, r', GpioRow(pin, level, w.gpioOk));
    case Comment(text) => AppendFollows(r, r', r'.log[|r.log|]);
    case Goto(target) => AppendFollows(r, r', GotoRow(target, InRange(target, |r.steps|)));
    case EndpointIn(_, _, _, _, _, _, _, _) => AppendFollows(r, r', EndpointInRow(r.steps[r.cursor], w.endpoint));
    case EndpointOut(_, _, _, _, _, _) => AppendFollows(r, r', EndpointOutRow(r.steps[r.cursor], w.endpoint));
  }

  /** A finished run stays finished and nothing changes it. */
  lemma {:induction false} FinishedIsFinal(r: Run, cfg: Settings, e: Event)
    requires r.phase == Finished
    ensures Next(r, cfg, e) == r
  {
  }

  /** Stop ends the run and changes neither the chain nor the log. */
  lemma {:induction false} StopEnds(r: Run, cfg: Settings)
    ensures var r' := Next(r, cfg, StopPressed);
            r'.phase == Finished && r'.steps == r.steps && r'.log == r.log
  {
  }

  /** Continue does nothing unless the run waits on a button; then the run
      goes on with the next step, logging nothing. */
  lemma {:induction false} ContinueReleasesButton(r: Run, cfg: Settings)
    ensures r.phase != AwaitingButton ==> Next(r, cfg, ContinuePressed) == r
    ensures r.phase == AwaitingButton ==>
              var r' := Next(r, cfg, ContinuePressed);
              r'.cursor == r.cursor + 1 && r'.log == r.log && r'.phase != AwaitingButton
  {
  }

  /** A pending skip consumes the step under the cursor: it is logged as
      skipped, not executed, and the flag is cleared. */
  lemma {:induction false} SkipConsumesStep(r: Run, cfg: Settings, w: World)
    requires Valid(r) && r.phase == Running && r.skipNext
    ensures var r' := Next(r, cfg, Tick(w));
            && r'.steps == r.steps && !r'.skipNext && r'.cursor == r.cursor + 1
            && r'.log == r.log + [SkipRow(r.steps[r.cursor])]
  {
  }

  /** A condition that holds with action "break" ends the run after logging
      its row; with "skip_next" the step after it will be skipped. */
  lemma {:induction false} ConditionActions(r: Run, cfg: Settings, w: World)
    requires Valid(r) && r.phase == Running && !r.skipNext && r.steps[r.cursor].Condition?
    ensures var s := r.steps[r.cursor];
            var r' := Next(r, cfg, Tick(w));
            && |r'.log| == |r.log| + 1 && r'.steps == r.steps
            && (Cond.ConditionHolds(w.rows, s.op, s.a, s.b) && s.action == "break" ==> r'.phase == Finished)
            && (Cond.ConditionHolds(w.rows, s.op, s.a, s.b) && s.action == "skip_next" ==> r'.skipNext)
            && (!Cond.ConditionHolds(w.rows, s.op, s.a, s.b) ==> !r'.skipNext && r'.cursor == r.cursor + 1)
  {
  }

  /** A goto to an index inside the chain moves the cursor there; any other
      index is logged as invalid and the run goes on with the next step. */
  lemma {:induction false} GotoMoves(r: Run, cfg: Settings, w: World)
    requires Valid(r) && r.phase == Running && !r.skipNext && r.steps[r.cursor].Goto?
    ensures var t := r.steps[r.cursor].target;
            var r' := Next(r, cfg, Tick(w));
            && (InRange(t, |r.steps|) ==> r'.cursor == JumpIndex(t).value && r'.phase == Running)
            && (!InRange(t, |r.steps|) ==> r'.cursor == r.cursor + 1)
            && r'.log == r.log + [GotoRow(t, InRange(t, |r.steps|))]
  {
  }

  // ---------------------------------------------------------------------
  // Termination of straight chains
  // ---------------------------------------------------------------------

  /** A chain without jumps and without button waits. */
  predicate Straight(steps: seq<ChainStep>) {
    forall i :: 0 <= i < |steps| ==> !steps[i].Goto? && !(steps[i].Wait? && steps[i].wait.Button?)
  }

  function Ticks(r: Run, cfg: Settings, worlds: seq<World>): Run
    decreases |worlds|
  {
    if |worlds| == 0 then r else Ticks(Next(r, cfg, Tick(worlds[0])), cfg, worlds[1..])
  }

  /** In a straight chain every tick of a running run moves the cursor on by
      one or ends the run. */
  lemma {:induction false} StraightTickAdvances(r: Run, cfg: Settings, w: World)
    requires Valid(r) && r.phase == Running && Straight(r.steps)
    ensures var r' := Next(r, cfg, Tick(w));
            && Valid(r') && r'.phase != AwaitingButton && Straight(r'.steps)
            && |r'.steps| == |r.steps|
            && (r'.phase == Finished || r'.cursor == r.cursor + 1)
  {
    var r' := Next(r, cfg, Tick(w));
    NextKeepsValid(r, cfg, Tick(w));
    CursorAdvances(r, cfg, w);
    forall i | 0 <= i < |r'.steps|
      ensures !r'.steps[i].Goto? && !(r'.steps[i].Wait? && r'.steps[i].wait.Button?)
    {
      assert SameKind(r.steps[i], r'.steps[i]);
    }
  }

  /** A step other than a goto or a button wait leaves the cursor for the
      next step, or ends the run. */
  lemma {:induction false} CursorAdvances(r: Run, cfg: Settings, w: World)
    requires r.cursor < |r.steps| && !r.steps[r.cursor].Goto?
    requires !(r.steps[r.cursor].Wait? && r.steps[r.cursor].wait.Button?)
    ensures var r' := Execute(r, cfg, w);
            r'.phase != AwaitingButton && (r'.phase == Finished || r'.cursor == r.cursor + 1)
  {
    var s := r.steps[r.cursor];
    if r.skipNext {
    } else if s.Copy? {
      assert Execute(r, cfg, w) == RunCopy(r, w.rows);
    } else if s.Condition? {
      assert Execute(r, cfg, w) == RunCondition(r, w.rows);
    } else if s.UsbRequest? {
      assert Execute(r, cfg, w) == RunUsbRequest(r, cfg, w.attempt);
    } else {
      assert Execute(r, cfg, w) == RunAction(r, w);
      ActionAdvances(r, w);
    }
  }

  lemma {:induction false} ActionAdvances(r: Run, w: World)
    requires r.cursor < |r.steps| && !r.steps[r.cursor].Goto?
    requires !r.steps[r.cursor].Copy? && !r.steps[r.cursor].Condition? && !r.steps[r.cursor].UsbRequest?
    requires !(r.steps[r.cursor].Wait? && r.steps[r.cursor].wait.Button?)
    ensures var r' := RunAction(r, w);
            r'.phase != AwaitingButton && (r'.phase == Finished || r'.cursor == r.cursor + 1)
  {
  }

  /** A straight chain runs to its end: with one tick per remaining step it
      is finished, whatever the world answers. */
  lemma {:induction false} StraightChainFinishes(r: Run, cfg: Settings, worlds: seq<World>)
    requires Valid(r) && r.phase != AwaitingButton && Straight(r.steps)
    requires |worlds| >= |r.steps| - r.cursor
    ensures Ticks(r, cfg, worlds).phase == Finished
    decreases |worlds|
  {
    if r.phase == Finished {
      FinishedStays(r, cfg, worlds);
    } else {
      var r' := Next(r, cfg, Tick(worlds[0]));
      StraightTickAdvances(r, cfg, worlds[0]);
      if r'.phase == Finished {
        FinishedStays(r', cfg, worlds[1..]);
      } else {
        StraightChainFinishes(r', cfg, worlds[1..]);
      }
    }
  }

  lemma {:induction false} FinishedStays(r: Run, cfg: Settings, worlds: seq<World>)
    requires r.phase == Finished
    ensures Ticks(r, cfg, worlds) == r
    decreases |worlds|
  {
    if |worlds| > 0 {
      FinishedStays(r, cfg, worlds[1..]);
    }
  }
}

=== FILE: chaincsv.dfy ===
/** The chain record format: one comma-separated record per step under a
    header line, quoted free-text fields, and the importer that reads such a
    file back into steps. */
module ChainCsv {
  import opened Wrappers
  import opened Text
  import opened ChainSteps

  // ---------------------------------------------------------------------
  // Splitting one line into fields
  // ---------------------------------------------------------------------

  /** The state machine of `parseCSVLine` from some point on: `inQuotes` is
      toggled by every '"', which is dropped; an unquoted ',' closes the
      current field; fields are trimmed as they are closed. */
  function Fields(line: string, inQuotes: bool, current: string): (r: seq<string>)
    requires '"' !in current
    ensures |r| > 0
    ensures forall i :: 0 <= i < |r| ==> IsTrimmed(r[i]) && '"' !in r[i]
    decreases |line|
  {
    TrimKeepsOut(current, '"');
    if |line| == 0 then [Trim(current)]
    else if line[0] == '"' then Fields(line[1..], !inQuotes, current)
    else if line[0] == ',' && !inQuotes then [Trim(current)] + Fields(line[1..], inQuotes, "")
    else Fields(line[1..], inQuotes, current + [line[0]])
  }

  /** `parseCSVLine(line)`. */
  function ParseCsvLine(line: string): (parts: seq<string>)
    ensures |parts| > 0
    ensures forall i :: 0 <= i < |parts| ==> IsTrimmed(parts[i]) && '"' !in parts[i]
  {
    Fields(line, false, "")
  }

  /** A character absent from `s` is absent from its trimmed form. */
  lemma {:induction false} TrimKeepsOut(s: string, c: char)
    requires c !in s
    ensures c !in Trim(s)
  {
    var t := TrimStart(s);
    TrimStartSpec(s);
    TrimEndSpec(t);
    assert Trim(s) == s[|s| - |t|..][..|TrimEnd(t)|];
  }

  /** The number of '"' in `s`. */
  function QuoteCount(s: string): nat {
    if |s| == 0 then 0 else QuoteCount(s[..|s| - 1]) + (if s[|s| - 1] == '"' then 1 else 0)
  }

  /** A comma preceded by an even number of quotes. */
  predicate UnquotedComma(line: string, i: nat)
    requires i < |line|
  {
    line[i] == ',' && QuoteCount(line[..i]) % 2 == 0
  }

  /** The unquoted commas at or after position `k`. */
  function UnquotedCommasFrom(line: string, k: nat): nat
    requires k <= |line|
    decreases |line| - k
  {
    if k == |line| then 0 else (if UnquotedComma(line, k) then 1 else 0) + UnquotedCommasFrom(line, k + 1)
  }

  lemma {:induction false} FieldCountFrom(line: string, k: nat, current: string)
    requires k <= |line| && '"' !in current
    ensures |Fields(line[k..], QuoteCount(line[..k]) % 2 == 1, current)| == UnquotedCommasFrom(line, k) + 1
    decreases |line| - k
  {
    if k < |line| {
      var c := line[k];
      assert line[..k + 1][..k] == line[..k];
      assert line[k..][0] == c && line[k..][1..] == line[k + 1..];
      if c == '"' || (c == ',' && QuoteCount(line[..k]) % 2 == 0) {
        FieldCountFrom(line, k + 1, "");
      } else {
        FieldCountFrom(line, k + 1, current + [c]);
      }
      if c == '"' {
        FieldCountFrom(line, k + 1, current);
      }
    }
  }

  /** A line splits into one more field than it has unquoted commas. */
  lemma {:induction false} ParseCsvLineCount(line: string)
    ensures |ParseCsvLine(line)| == UnquotedCommasFrom(line, 0) + 1
  {
    FieldCountFrom(line, 0, "");
    assert line[0..] == line && line[..0] == "";
  }

  // ---------------------------------------------------------------------
  // Writing fields
  // ---------------------------------------------------------------------

  /** A field as written: bare, or between quotes. */
  datatype Cell = Plain(text: string) | Quoted(text: string)

  function Render(c: Cell): string {
    match c
    case Plain(t) => t
    case Quoted(t) => "\"" + t + "\""
  }

  /** Fields joined with commas. */
  function RenderRow(cells: seq<Cell>): string
    requires |cells| > 0
  {
    if |cells| == 1 then Render(cells[0]) else Render(cells[0]) + "," + RenderRow(cells[1..])
  }

  /** A field that reads back: no quote inside, and no comma unless quoted. */
  predicate CellOk(c: Cell) {
    '"' !in c.text && (c.Plain? ==> ',' !in c.text)
  }

  /** What reading gives back for each field. */
  function Contents(cells: seq<Cell>): seq<string> {
    seq(|cells|, i requires 0 <= i < |cells| => Trim(cells[i].text))
  }

  lemma {:induction false} FieldsSkip(f: string, rest: string, q: bool, current: string)
    requires '"' !in f && '"' !in current && (q || ',' !in f)
    ensures Fields(f + rest, q, current) == Fields(rest, q, current + f)
    decreases |f|
  {
    if |f| == 0 {
      assert f + rest == rest && current + f == current;
    } else {
      assert (f + rest)[0] == f[0];
      assert (f + rest)[1..] == f[1..] + rest;
      FieldsSkip(f[1..], rest, q, current + [f[0]]);
      assert current + [f[0]] + f[1..] == current + f;
    }
  }

  lemma {:induction false} FieldsCell(c: Cell, rest: string)
    requires CellOk(c)
    ensures Fields(Render(c) + rest, false, "") == Fields(rest, false, c.text)
  {
    match c
    case Plain(t) =>
      FieldsSkip(t, rest, false, "");
      assert "" + t == t;
    case Quoted(t) =>
      var line := Render(c) + rest;
      assert line[0] == '"' && line[1..] == t + ("\"" + rest);
      FieldsSkip(t, "\"" + rest, true, "");
      assert "" + t == t;
      assert ("\"" + rest)[1..] == rest;
  }

  /** Reading a written row gives back every field, trimmed. */
  lemma {:induction false} ParseRenderedRow(cells: seq<Cell>)
    requires |cells| > 0 && forall i :: 0 <= i < |cells| ==> CellOk(cells[i])
    ensures ParseCsvLine(RenderRow(cells)) == Contents(cells)
    decreases |cells|
  {
    if |cells| == 1 {
      FieldsCell(cells[0], "");
      assert Render(cells[0]) + "" == Render(cells[0]);
    } else {
      var rest := RenderRow(cells[1..]);
      FieldsCell(cells[0], "," + rest);
      assert Render(cells[0]) + "," + rest == Render(cells[0]) + ("," + rest);
      assert ("," + rest)[1..] == rest;
      ParseRenderedRow(cells[1..]);
      assert Contents(cells) == [Trim(cells[0].text)] + Contents(cells[1..]);
    }
  }

  /** A written row starts with its first field and ends with its last. */
  lemma {:induction false} RenderRowEdges(cells: seq<Cell>)
    requires |cells| > 0
    ensures IsPrefix(Render(cells[0]), RenderRow(cells))
    ensures var r := RenderRow(cells);
            var last := Render(cells[|cells| - 1]);
            |last| <= |r| && r[|r| - |last|..] == last
    decreases |cells|
  {
    if |cells| > 1 {
      RenderRowEdges(cells[1..]);
    }
  }

  lemma {:induction false} RenderRowNoNewline(cells: seq<Cell>)
    requires |cells| > 0 && forall i :: 0 <= i < |cells| ==> '\n' !in cells[i].text
    ensures '\n' !in RenderRow(cells)
    decreases |cells|
  {
    if |cells| > 1 {
      RenderRowNoNewline(cells[1..]);
    }
  }

  // ---------------------------------------------------------------------
  // Records
  // ---------------------------------------------------------------------

  /** `parts[k]`, with a missing field read as "" (every use treats
      `undefined` like the empty string). */
  function Part(parts: seq<string>, k: nat): string {
    if k < |parts| then parts[k] else ""
  }

  function Num(n: int): Cell {
    Plain(IntToString(n))
  }

  /** The fields `exportChainCSV` writes for a step. */
  function ExportCells(s: ChainStep): (cells: seq<Cell>)
    ensures |cells| > 0
  {
    match s
    case Wait(w) =>
      (match w
       case GpioWait(pin, level, _) => [Plain("waitfor"), Plain("gpio"), Num(pin), Num(level)]
       case Webhook(id, _) => [Plain("waitfor"), Plain("webhook"), Quoted(id)]
       case Delay(d) => [Plain("waitfor"), Plain("delay"), Num(OrInt(d, 1000))]
       case UsbReset(note) => [Plain("waitfor"), Plain("usb_reset"), Quoted(OrStr(note, "USB Reset"))]
       case Button(prompt) => [Plain("waitfor"), Plain("button"), Quoted(OrStr(prompt, "Press Continue"))])
    case Http(url) => [Plain("action"), Plain("http"), Quoted(OrStr(url, DefaultUrl))]
    case GpioOut(pin, level) => [Plain("action"), Plain("gpio_out"), Num(pin), Num(level)]
    case Comment(text) => [Plain("action"), Plain("comment"), Quoted(OrStr(text, "Comment"))]
    case Copy(source, fromReqNo, fromLength, toField, toReqNo) =>
      [Plain("action"), Plain("copy"), Plain(source), Num(OrInt(fromReqNo, -1)),
       Num(OrInt(fromLength.GetOr(0), -1)), Plain(OrStr(toField, "wValue")), Num(OrInt(toReqNo, -1))]
    case Goto(target) => [Plain("action"), Plain("goto"), Plain(JumpText(target))]
    case Condition(op, a, b, action) =>
      [Plain("condition"), Plain(OrStr(op, "==")),
       Plain(OrStr(a.source, "manual")), Num(a.reqNo), Num(a.length.GetOr(-1)), Quoted(a.value),
       Plain(OrStr(b.source, "manual")), Num(b.reqNo), Num(b.length.GetOr(-1)), Quoted(b.value),
       Plain(OrStr(action, "continue"))]
    case EndpointIn(ep, addr, channel, length, timeout, epType, continuous, maxAttempts) =>
      [Plain("endpoint_in"), Num(OrInt(ep, 10)), Num(OrInt(addr, 0)), Num(OrInt(channel, 1)),
       Num(OrInt(length, 64)), Num(OrInt(timeout, 1000)), Plain(OrStr(epType, "bulk")),
       Num(if continuous != 0 then 1 else 0), Num(OrInt(maxAttempts, 10))]
    case EndpointOut(ep, addr, channel, payload, timeout, epType) =>
      [Plain("endpoint_out"), Num(OrInt(ep, 10)), Num(OrInt(addr, 0)), Num(OrInt(channel, 1)),
       Quoted(payload), Num(OrInt(timeout, 1000)), Plain(OrStr(epType, "bulk"))]
    case UsbRequest(bm, bReq, wVal, wIdx, wLen, pkt, mode, data, addr, noRetry) =>
      [Plain("usbrequest"), Plain(bm), Plain(bReq), Plain(wVal), Plain(wIdx), Plain(wLen), Plain(pkt),
       Plain(OrStr(mode, "separate")), Quoted(data), Num(OrInt(addr, 0))]
      + (if noRetry then [Plain("noretry")] else [])
  }

  const DefaultUrl: string := "http://example.com/api"

  function ExportLine(s: ChainStep): string {
    RenderRow(ExportCells(s))
  }

  /** `isNaN(parseInt(s)) ? -1 : parseInt(s)`. */
  function ParsedOrMinusOne(s: string): int {
    match JsParseInt(s, Auto)
    case Some(n) => n
    case None => -1
  }

  /** The number of cells a record of `kind` needs to be read (for an
      action, of subtype `sub`); `None` for a kind or action subtype the
      import does not know. */
  function RequiredFields(kind: string, sub: string): Option<nat> {
    if kind == "waitfor" then Some(2)
    else if kind == "action" then
      if sub == "http" || sub == "comment" then Some(2)
      else if sub == "gpio_out" then Some(4)
      else if sub == "copy" then Some(7)
      else if sub == "goto" then Some(3)
      else None
    else if kind == "condition" then Some(11)
    else if kind == "usbrequest" then Some(7)
    else if kind == "endpoint_in" then Some(3)
    else if kind == "endpoint_out" then Some(4)
    else None
  }

  /** The step one record of the import describes, or `None` when the record
      is short or of an unknown kind. */
  function ImportRecord(parts: seq<string>): (r: Option<ChainStep>)
    requires |parts| > 0
    ensures var need := RequiredFields(ToLower(parts[0]), if |parts| > 1 then parts[1] else "");
            r.Some? <==> need.Some? && |parts| >= need.value
    ensures r.Some? && ToLower(parts[0]) == "waitfor" ==> r.value.Wait?
    ensures r.Some? && ToLower(parts[0]) == "condition" ==> r.value.Condition?
    ensures r.Some? && ToLower(parts[0]) == "usbrequest" ==> r.value.UsbRequest?
    ensures r.Some? && ToLower(parts[0]) == "endpoint_in" ==> r.value.EndpointIn?
    ensures r.Some? && ToLower(parts[0]) == "endpoint_out" ==> r.value.EndpointOut?
  {
    var kind := ToLower(parts[0]);
    var n := |parts|;
    if kind == "waitfor" && n >= 2 then
      var waitType := OrStr(parts[1], "button");
      if waitType == "gpio" && n >= 4 then
        Some(Wait(GpioWait(ParsedOr(parts[2], 0), ParsedOr(parts[3], 0), 60)))
      else if waitType == "webhook" then Some(Wait(Webhook(Part(parts, 2), 300)))
      else if waitType == "delay" && n >= 3 then Some(Wait(Delay(ParsedOr(parts[2], 1000))))
      else if waitType == "usb_reset" then Some(Wait(UsbReset(OrStr(Part(parts, 2), "USB Reset"))))
      else Some(Wait(Button(OrStr(Part(parts, 2), "Press Continue"))))
    else if kind == "action" && n >= 2 then
      var sub := parts[1];
      if sub == "http" then Some(Http(OrStr(Part(parts, 2), DefaultUrl)))
      else if sub == "gpio_out" && n >= 4 then Some(GpioOut(ParsedOr(parts[2], 0), ParsedOr(parts[3], 0)))
      else if sub == "comment" then Some(Comment(OrStr(Part(parts, 2), "Comment")))
      else if sub == "copy" && n >= 7 then
        Some(Copy(OrStr(parts[2], "responsehex"), ParsedOr(parts[3], -1), Some(ParsedOr(parts[4], -1)),
                  OrStr(parts[5], "wValue"), ParsedOr(parts[6], -1)))
      else if sub == "goto" && n >= 3 then Some(Goto(Index(ParsedOr(parts[2], 0))))
      else None
    else if kind == "condition" && n >= 11 then
      Some(Condition(OrStr(parts[1], "=="),
                     Operand(OrStr(parts[2], "manual"), ParsedOr(parts[3], -1), Some(ParsedOrMinusOne(parts[4])), parts[5]),
                     Operand(OrStr(parts[6], "manual"), ParsedOr(parts[7], -1), Some(ParsedOrMinusOne(parts[8])), parts[9]),
                     OrStr(parts[10], "continue")))
    else if kind == "usbrequest" && n >= 7 then
      Some(UsbRequest(parts[1], parts[2], parts[3], parts[4], NumberText(parts[5]), NumberText(parts[6]),
                      OrStr(Part(parts, 7), "separate"), Part(parts, 8), ParsedOr(Part(parts, 9), 0),
                      Part(parts, 10) != "" && Trim(ToLower(parts[10])) == "noretry"))
    else if kind == "endpoint_in" && n >= 3 then
      Some(EndpointIn(ParsedOr(parts[1], 10), ParsedOr(parts[2], 0), ParsedOr(Part(parts, 3), 1),
                      ParsedOr(Part(parts, 4), 64), ParsedOr(Part(parts, 5), 1000),
                      ToLower(OrStr(Part(parts, 6), "bulk")), ParsedOr(Part(parts, 7), 0), ParsedOr(Part(parts, 8), 10)))
    else if kind == "endpoint_out" && n >= 4 then
      Some(EndpointOut(ParsedOr(parts[1], 10), ParsedOr(parts[2], 0), ParsedOr(parts[3], 1), Part(parts, 4),
                       ParsedOr(Part(parts, 5), 1000), ToLower(OrStr(Part(parts, 6), "bulk"))))
    else None
  }

  /** One line of the file: trimmed, and skipped when blank or a comment. */
  function ImportLine(line: string): (r: Option<ChainStep>)
    ensures |Trim(line)| == 0 || Trim(line)[0] == '#' ==> r.None?
    ensures r.Some? ==> var parts := ParseCsvLine(Trim(line));
                        RequiredFields(ToLower(parts[0]), if |parts| > 1 then parts[1] else "").Some?
  {
    var t := Trim(line);
    if |t| == 0 || t[0] == '#' then None else ImportRecord(ParseCsvLine(t))
  }

  /** The steps of some lines, in order, each read by `read`; lines it
      skips add nothing. */
  function ReadLines(read: string -> Option<ChainStep>, lines: seq<string>): (r: seq<ChainStep>)
    ensures |r| <= |lines|
  {
    if |lines| == 0 then []
    else
      (match read(lines[0]) case Some(s) => [s] case None => []) + ReadLines(read, lines[1..])
  }

  /** `handleChainFileImport`: the file is split at '\n' and every line after
      the first is read; the result replaces the chain. */
  function ImportChain(content: string): (r: seq<ChainStep>)
    ensures |r| < |Split(content, '\n')|
  {
    ReadLines(ImportLine, Split(content, '\n')[1..])
  }

  const Header: string := "type,p1,p2,p3,p4,p5,p6,p7,p8,p9,p10"

  /** Every step written by `write` and terminated by a newline. */
  function WriteLines(write: ChainStep -> string, steps: seq<ChainStep>): string {
    if |steps| == 0 then "" else write(steps[0]) + "\n" + WriteLines(write, steps[1..])
  }

  /** `exportChainCSV`: nothing for an empty chain, otherwise the header and
      one newline-terminated line per step. */
  function ExportChain(steps: seq<ChainStep>): (r: Option<string>)
    ensures r.Some? <==> |steps| > 0
  {
    if |steps| == 0 then None else Some(Header + "\n" + WriteLines(ExportLine, steps))
  }

  // ---------------------------------------------------------------------
  // Round trip
  // ---------------------------------------------------------------------

  function Lines(write: ChainStep -> string, steps: seq<ChainStep>): (r: seq<string>)
    ensures |r| == |steps|
  {
    seq(|steps|, i requires 0 <= i < |steps| => write(steps[i]))
  }

  /** The written lines are the lines of the steps joined with newlines, with a
      final empty line after the last newline. */
  lemma {:induction false} WriteLinesJoin(write: ChainStep -> string, steps: seq<ChainStep>)
    ensures WriteLines(write, steps) == Join(Lines(write, steps) + [""], "\n")
    decreases |steps|
  {
    if |steps| > 0 {
      WriteLinesJoin(write, steps[1..]);
      var parts := Lines(write, steps) + [""];
      assert parts[0] == write(steps[0]);
      assert parts[1..] == Lines(write, steps[1..]) + [""];
    } else {
      assert Lines(write, steps) + [""] == [""];
    }
  }

  /** Lines that each read as one step, followed by an empty line the
      reader skips, read as exactly those steps. */
  lemma {:induction false} ReadWrittenLines(read: string -> Option<ChainStep>, lines: seq<string>, out: seq<ChainStep>)
    requires read("") == None
    requires |lines| == |out|
    requires forall i :: 0 <= i < |lines| ==> read(lines[i]) == Some(out[i])
    ensures ReadLines(read, lines + [""]) == out
    decreases |lines|
  {
    var all := lines + [""];
    if |lines| == 0 {
      assert all == [""];
      assert all[1..] == [];
    } else {
      assert all[0] == lines[0];
      assert all[1..] == lines[1..] + [""];
      ReadWrittenLines(read, lines[1..], out[1..]);
      assert out == [out[0]] + out[1..];
    }
  }

  /** Reading works line by line: the steps of two runs of lines are the
      steps of each, in order. */
  lemma {:induction false} ReadLinesAppend(read: string -> Option<ChainStep>, a: seq<string>, b: seq<string>)
    ensures ReadLines(read, a + b) == ReadLines(read, a) + ReadLines(read, b)
    decreases |a|
  {
    if |a| == 0 {
      assert a + b == b;
    } else {
      assert (a + b)[0] == a[0] && (a + b)[1..] == a[1..] + b;
      ReadLinesAppend(read, a[1..], b);
    }
  }

  /** A line that reads as nothing (blank, a comment, too short or of an
      unknown kind) is skipped without disturbing its neighbours. */
  lemma {:induction false} UnreadableLineSkipped(a: seq<string>, line: string, b: seq<string>)
    requires ImportLine(line).None?
    ensures ReadLines(ImportLine, a + [line] + b) == ReadLines(ImportLine, a + b)
  {
    SkippedLine(ImportLine, a, line, b);
  }

  lemma {:induction false} SkippedLine(read: string -> Option<ChainStep>, a: seq<string>, line: string, b: seq<string>)
    requires read(line).None?
    ensures ReadLines(read, a + [line] + b) == ReadLines(read, a + b)
  {
    ReadLinesAppend(read, a + [line], b);
    ReadLinesAppend(read, a, [line]);
    ReadLinesAppend(read, a, b);
    assert ReadLines(read, [line]) == [] by {
      assert [line][1..] == [];
    }
  }

  /** A record whose kind the import does not know, or that has fewer cells
      than its kind needs, is skipped. */
  lemma {:induction false} UnknownOrShortRecordSkipped(line: string)
    requires var t := Trim(line); |t| > 0 && t[0] != '#'
    requires var parts := ParseCsvLine(Trim(line));
             var need := RequiredFields(ToLower(parts[0]), if |parts| > 1 then parts[1] else "");
             need.None? || |parts| < need.value
    ensures ImportLine(line).None?
  {
  }

  lemma {:induction false} EmptyLineIsSkipped()
    ensures ImportLine("") == None
  {
    assert Trim("") == "";
  }

  /** A file of a newline-free first line followed by newline-terminated,
      newline-free lines splits back into those lines, an empty piece last. */
  lemma {:induction false} SplitFile(head: string, lines: seq<string>)
    requires '\n' !in head
    requires forall i :: 0 <= i < |lines| ==> '\n' !in lines[i]
    ensures Split(head + "\n" + Join(lines + [""], "\n"), '\n')[1..] == lines + [""]
  {
    var parts := [head] + (lines + [""]);
    forall i | 0 <= i < |parts| ensures '\n' !in parts[i] {
      if i == 0 {
        assert parts[i] == head;
      } else if i == |parts| - 1 {
        assert parts[i] == "";
      } else {
        assert parts[i] == lines[i - 1];
      }
    }
    assert parts[1..] == lines + [""];
    SplitJoin(parts, '\n');
  }

  lemma {:induction false} HeaderHasNoNewline()
    ensures '\n' !in Header
  {
  }

  lemma {:induction false} ImportFile(lines: seq<string>)
    requires forall i :: 0 <= i < |lines| ==> '\n' !in lines[i]
    ensures ImportChain(Header + "\n" + Join(lines + [""], "\n")) == ReadLines(ImportLine, lines + [""])
  {
    HeaderHasNoNewline();
    SplitFile(Header, lines);
  }

  /** A file made of the header and newline-terminated lines that each read
      back as a step is imported as exactly those steps. */
  lemma {:induction false} FileRoundTrip(lines: seq<string>, out: seq<ChainStep>)
    requires |lines| == |out|
    requires forall i :: 0 <= i < |lines| ==> '\n' !in lines[i]
    requires forall i :: 0 <= i < |lines| ==> ImportLine(lines[i]) == Some(out[i])
    ensures ImportChain(Header + "\n" + Join(lines + [""], "\n")) == out
  {
    ImportFile(lines);
    EmptyLineIsSkipped();
    ReadWrittenLines(ImportLine, lines, out);
  }

  /** A chain whose every record reads back as some step is imported as
      exactly those steps, in order: the header is skipped and nothing is
      lost or added. */
  lemma {:induction false} ChainRoundTrip(steps: seq<ChainStep>, out: seq<ChainStep>)
    requires |steps| == |out| > 0
    requires forall i :: 0 <= i < |steps| ==> '\n' !in ExportLine(steps[i])
    requires forall i :: 0 <= i < |steps| ==> ImportLine(ExportLine(steps[i])) == Some(out[i])
    ensures ImportChain(ExportChain(steps).value) == out
  {
    var lines := Lines(ExportLine, steps);
    WriteLinesJoin(ExportLine, steps);
    FileRoundTrip(lines, out);
  }

  // ---------------------------------------------------------------------
  // Records that read back
  // ---------------------------------------------------------------------

  /** A bare field that reads back unchanged. */
  predicate PlainOk(f: string) {
    '"' !in f && ',' !in f && '\n' !in f && IsTrimmed(f)
  }

  /** A quoted field that reads back unchanged. */
  predicate QuotedOk(f: string) {
    '"' !in f && '\n' !in f && IsTrimmed(f)
  }

  lemma {:induction false} IntToStringPlain(n: int)
    ensures PlainOk(IntToString(n))
    ensures var r := IntToString(n); IsDigit(r[|r| - 1]) && (r[0] == '-' || IsDigit(r[0]))
  {
    var m := if n < 0 then -n else n;
    var d := NatToString(m, 10);
    assert AllDigits(d) by {
      NatToStringSpec(m, 10);
      forall i | 0 <= i < |d| ensures IsDigit(d[i]) {
        assert IsDigitOf(d[i], 10);
      }
    }
    if n < 0 {
      SignedDigitsArePlain(d);
    } else {
      SignedDigitsArePlain(d);
      assert IntToString(n) == d;
    }
  }

  predicate AllDigits(s: string) {
    forall i :: 0 <= i < |s| ==> IsDigit(s[i])
  }

  /** Decimal digits, signed or not, form a bare field. */
  lemma {:induction false} SignedDigitsArePlain(d: string)
    requires |d| > 0 && AllDigits(d)
    ensures PlainOk(d) && PlainOk("-" + d)
    ensures ("-" + d)[|"-" + d| - 1] == d[|d| - 1]
  {
    var r := "-" + d;
    assert forall i :: 1 <= i < |r| ==> r[i] == d[i - 1];
  }

  lemma {:induction false} ParsedOrOfIntToString(n: int, d: int)
    ensures ParsedOr(IntToString(n), d) == OrInt(n, d)
  {
    ParseIntOfIntToString(n);
  }

  lemma {:induction false} ToLowerOfLower(s: string)
    requires forall i :: 0 <= i < |s| ==> !('A' <= s[i] <= 'Z')
    ensures ToLower(s) == s
  {
  }

  /** The texts of a row of fields. */
  function Texts(cells: seq<Cell>): (r: seq<string>)
    ensures |r| == |cells|
  {
    seq(|cells|, i requires 0 <= i < |cells| => cells[i].text)
  }

  /** A field that reads back as its own text. */
  predicate FieldOk(c: Cell) {
    CellOk(c) && IsTrimmed(c.text) && '\n' !in c.text
  }

  /** A row of such fields that the importer reads as a record. */
  predicate Readable(cells: seq<Cell>) {
    && |cells| > 0
    && (forall i :: 0 <= i < |cells| ==> FieldOk(cells[i]))
    && cells[0].Plain? && |cells[0].text| > 0 && cells[0].text[0] != '#'
    && (cells[|cells| - 1].Quoted? || |cells[|cells| - 1].text| > 0)
  }

  /** A written record whose fields all read back, which starts with a bare
      kind that is not a comment marker and ends in a non-empty field, is read
      as the record of its field texts. */
  lemma {:induction false} ReadWrittenRecord(cells: seq<Cell>)
    requires Readable(cells)
    ensures '\n' !in RenderRow(cells)
    ensures ImportLine(RenderRow(cells)) == ImportRecord(Texts(cells))
  {
    var line := RenderRow(cells);
    ParseRenderedRow(cells);
    RenderRowNoNewline(cells);
    RenderRowEdges(cells);
    assert Contents(cells) == Texts(cells);
    var first := cells[0].text;
    var last := Render(cells[|cells| - 1]);
    assert line[0] == first[0];
    assert IsTrimmed(line) by {
      assert line[|line| - 1] == last[|last| - 1];
    }
    assert Trim(line) == line;
  }

  /** The bare keywords the writer emits read back unchanged. */
  lemma {:induction false} KeywordsArePlain()
    ensures PlainOk("usbrequest") && PlainOk("noretry") && PlainOk("action") && PlainOk("waitfor")
    ensures PlainOk("goto") && PlainOk("comment") && PlainOk("webhook") && PlainOk("gpio")
    ensures QuotedOk("Comment") && QuotedOk("Press Continue")
  {
    LowerWordIsPlain("usbrequest");
    LowerWordIsPlain("noretry");
    LowerWordIsPlain("action");
    LowerWordIsPlain("waitfor");
    LowerWordIsPlain("goto");
    LowerWordIsPlain("comment");
    LowerWordIsPlain("webhook");
    LowerWordIsPlain("gpio");
    assert QuotedOk("Comment");
    assert QuotedOk("Press Continue");
  }

  /** A word of lower-case letters and underscores is a bare field. */
  lemma {:induction false} LowerWordIsPlain(w: string)
    requires |w| > 0 && forall i :: 0 <= i < |w| ==> 'a' <= w[i] <= 'z' || w[i] == '_'
    ensures PlainOk(w)
  {
  }

  /** A USB request whose bare fields hold no quote, comma, newline or edge
      whitespace, whose two length fields are already in the form
      `String(parseInt(_))` gives, and whose data holds no quote or newline
      and no edge whitespace, is read back as itself, except that an empty
      data mode comes back as "separate". */
  lemma {:induction false} UsbRequestRoundTrip(s: ChainStep)
    requires s.UsbRequest?
    requires PlainOk(s.bmRequestType) && PlainOk(s.bRequest) && PlainOk(s.wValue) && PlainOk(s.wIndex)
    requires PlainOk(s.wLength) && PlainOk(s.packetSize) && PlainOk(s.dataMode)
    requires NumberText(s.wLength) == s.wLength && NumberText(s.packetSize) == s.packetSize
    requires QuotedOk(s.dataBytes)
    ensures '\n' !in ExportLine(s)
    ensures ImportLine(ExportLine(s)) == Some(s.(dataMode := OrStr(s.dataMode, "separate")))
  {
    var cells := ExportCells(s);
    UsbCellsReadable(s);
    ReadWrittenRecord(cells);
    UsbTexts(s);
    ImportUsbRecord(Texts(cells));
    ParsedOrOfIntToString(s.deviceAddr, 0);
    NoRetryReads();
  }

  /** The fields a USB request is written as. */
  lemma {:induction false} UsbTexts(s: ChainStep)
    requires s.UsbRequest?
    ensures var parts := Texts(ExportCells(s));
            && |parts| == (if s.noRetry then 11 else 10)
            && parts[0] == "usbrequest" && parts[1] == s.bmRequestType && parts[2] == s.bRequest
            && parts[3] == s.wValue && parts[4] == s.wIndex && parts[5] == s.wLength
            && parts[6] == s.packetSize && parts[7] == OrStr(s.dataMode, "separate")
            && parts[8] == s.dataBytes && parts[9] == IntToString(OrInt(s.deviceAddr, 0))
            && (s.noRetry ==> parts[10] == "noretry")
  {
  }

  lemma {:induction false} UsbCellsReadable(s: ChainStep)
    requires s.UsbRequest?
    requires PlainOk(s.bmRequestType) && PlainOk(s.bRequest) && PlainOk(s.wValue) && PlainOk(s.wIndex)
    requires PlainOk(s.wLength) && PlainOk(s.packetSize) && PlainOk(s.dataMode)
    requires QuotedOk(s.dataBytes)
    ensures Readable(ExportCells(s))
  {
    var cells := ExportCells(s);
    KeywordsArePlain();
    IntToStringPlain(OrInt(s.deviceAddr, 0));
    LowerWordIsPlain("separate");
    UsbTexts(s);
    forall i | 0 <= i < |cells| ensures FieldOk(cells[i]) {
      if i == 0 || i == 10 {
        assert cells[i].Plain? && PlainOk(cells[i].text);
      } else if i == 8 {
        assert cells[i] == Quoted(s.dataBytes);
      } else {
        assert cells[i].Plain? && PlainOk(cells[i].text);
      }
    }
  }

  lemma {:induction false} NoRetryReads()
    ensures Trim(ToLower("noretry")) == "noretry"
  {
    ToLowerOfLower("noretry");
    assert IsTrimmed("noretry");
  }

  lemma {:induction false} ImportUsbRecord(parts: seq<string>)
    requires |parts| >= 7 && parts[0] == "usbrequest"
    ensures ImportRecord(parts) == Some(UsbRequest(parts[1], parts[2], parts[3], parts[4],
              NumberText(parts[5]), NumberText(parts[6]), OrStr(Part(parts, 7), "separate"), Part(parts, 8),
              ParsedOr(Part(parts, 9), 0), Part(parts, 10) != "" && Trim(ToLower(parts[10])) == "noretry"))
  {
    ToLowerOfLower("usbrequest");
    var kind := ToLower(parts[0]);
    assert kind == "usbrequest";
    assert kind != "waitfor" && kind != "action" && kind != "condition";
  }

  lemma {:induction false} ImportActionRecord(parts: seq<string>)
    requires |parts| >= 2 && parts[0] == "action"
    ensures parts[1] == "goto" && |parts| >= 3 ==> ImportRecord(parts) == Some(Goto(Index(ParsedOr(parts[2], 0))))
    ensures parts[1] == "comment" ==> ImportRecord(parts) == Some(Comment(OrStr(Part(parts, 2), "Comment")))
  {
    ToLowerOfLower("action");
    var kind := ToLower(parts[0]);
    assert kind == "action";
    assert kind != "waitfor";
  }

  lemma {:induction false} ImportWaitRecord(parts: seq<string>)
    requires |parts| >= 2 && parts[0] == "waitfor"
    ensures parts[1] == "webhook" ==> ImportRecord(parts) == Some(Wait(Webhook(Part(parts, 2), 300)))
    ensures parts[1] == "gpio" && |parts| == 3 && parts[2] != "" ==> ImportRecord(parts) == Some(Wait(Button(parts[2])))
  {
    ToLowerOfLower("waitfor");
    var kind := ToLower(parts[0]);
    assert kind == "waitfor";
  }

  /** A goto record reads back as the same jump. */
  lemma {:induction false} GotoRoundTrip(target: int)
    ensures '\n' !in ExportLine(Goto(Index(target)))
    ensures ImportLine(ExportLine(Goto(Index(target)))) == Some(Goto(Index(target)))
  {
    var cells := ExportCells(Goto(Index(target)));
    KeywordsArePlain();
    IntToStringPlain(OrInt(target, 0));
    ReadWrittenRecord(cells);
    ImportActionRecord(Texts(cells));
    ParsedOrOfIntToString(target, 0);
  }

  /** A goto whose index a copy step rewrote to "0x" and hexadecimal digits
      is written with that text, and reads back as the number the digits
      spell: the imported goto jumps where the rewritten one did. */
  lemma {:induction false} WrittenGotoReadsBack(v: string)
    requires |v| > 0 && forall i :: 0 <= i < |v| ==> IsHexDigit(v[i])
    ensures '\n' !in ExportLine(Goto(Written("0x" + v)))
    ensures ImportLine(ExportLine(Goto(Written("0x" + v)))) == Some(Goto(Index(DigitsValue(v, 16) as int)))
    ensures JumpIndex(Index(DigitsValue(v, 16) as int)) == JumpIndex(Written("0x" + v))
  {
    var text := "0x" + v;
    var cells := ExportCells(Goto(Written(text)));
    HexTextPlain(v);
    KeywordsArePlain();
    ReadWrittenRecord(cells);
    ImportActionRecord(Texts(cells));
    ParseIntOfHexText(v);
    assert AllDigitsOf(v, 16);
    JsNumberOfHex(v);
  }

  /** "0x" and hexadecimal digits is a bare field that reads back. */
  lemma {:induction false} HexTextPlain(v: string)
    requires |v| > 0 && forall i :: 0 <= i < |v| ==> IsHexDigit(v[i])
    ensures PlainOk("0x" + v) && |"0x" + v| > 0
  {
    var text := "0x" + v;
    assert text[0] == '0' && text[|text| - 1] == v[|v| - 1];
    assert IsTrimmed(text) by {
      assert IsHexDigit(v[|v| - 1]);
    }
    forall k | 0 <= k < |text| ensures text[k] != '"' && text[k] != ',' && text[k] != '\n' {
      if k >= 2 { assert text[k] == v[k - 2]; }
    }
  }

  /** A comment record reads back as the same comment; an empty comment comes
      back as "Comment". */
  lemma {:induction false} CommentRoundTrip(text: string)
    requires QuotedOk(text)
    ensures '\n' !in ExportLine(Comment(text))
    ensures ImportLine(ExportLine(Comment(text))) == Some(Comment(OrStr(text, "Comment")))
  {
    var cells := ExportCells(Comment(text));
    KeywordsArePlain();
    ReadWrittenRecord(cells);
    ImportActionRecord(Texts(cells));
  }

  /** A GPIO wait record whose level is missing is read as a button wait
      whose prompt is the pin number. */
  lemma {:induction false} ShortGpioWaitIsButton(pin: int)
    ensures ImportLine(RenderRow([Plain("waitfor"), Plain("gpio"), Num(pin)])) == Some(Wait(Button(IntToString(pin))))
  {
    var cells := [Plain("waitfor"), Plain("gpio"), Num(pin)];
    KeywordsArePlain();
    IntToStringPlain(pin);
    ReadWrittenRecord(cells);
    var parts := Texts(cells);
    assert parts[0] == "waitfor" && parts[1] == "gpio";
    ImportWaitRecord(parts);
  }

  /** A webhook wait does not carry its timeout through the file: it comes
      back with 300 seconds. */
  lemma {:induction false} WebhookTimeoutResets(id: string, timeoutSec: int)
    requires QuotedOk(id)
    ensures ImportLine(ExportLine(Wait(Webhook(id, timeoutSec)))) == Some(Wait(Webhook(id, 300)))
  {
    var cells := ExportCells(Wait(Webhook(id, timeoutSec)));
    KeywordsArePlain();
    ReadWrittenRecord(cells);
    ImportWaitRecord(Texts(cells));
  }
}

=== FILE: chainsteps.dfy ===
/** The steps of a request chain as the web UI stores them. Fields the UI only
    ever concatenates into request URLs, CSV lines or table cells are kept as
    the text JavaScript would produce; numeric fields the engine compares are
    integers, and fields the engine tests against `undefined` are options. */
module ChainSteps {
  import opened Wrappers
  import opened Text

  /** The `waitfor` kinds, with their parameters as stored. */
  datatype WaitFor =
    | Button(prompt: string)
    | Webhook(triggerId: string, timeoutSec: int)
    | GpioWait(pin: int, level: int, timeoutSec: int)
    | Delay(durationMs: int)
    | UsbReset(note: string)

  /** One side of a condition: `valueXSource`, `valueXReqNo`, `valueXLength`
      and `valueXValue`. */
  datatype Operand = Operand(source: string, reqNo: int, length: Option<int>, value: string)

  /** A goto's `gotoReqNo`: the number the form and the CSV import store, or
      the text a copy step writes into it. */
  datatype JumpTarget = Index(n: int) | Written(text: string)

  /** A chain step: the `type` field and the fields each type uses. */
  datatype ChainStep =
    | UsbRequest(bmRequestType: string, bRequest: string, wValue: string, wIndex: string,
                 wLength: string, packetSize: string, dataMode: string, dataBytes: string,
                 deviceAddr: int, noRetry: bool)
    | Wait(wait: WaitFor)
    | Http(url: string)
    | GpioOut(pin: int, level: int)
    | Comment(text: string)
    | Copy(source: string, fromReqNo: int, fromLength: Option<int>, toField: string, toReqNo: int)
    | Goto(target: JumpTarget)
    | Condition(op: string, a: Operand, b: Operand, action: string)
    | EndpointIn(endpoint: int, deviceAddr: int, channel: int, length: int, timeoutMs: int,
                 epType: string, continuous: int, maxAttempts: int)
    | EndpointOut(endpoint: int, deviceAddr: int, channel: int, payload: string, timeoutMs: int, epType: string)

  /** `x || d` for a number that is never NaN: zero is falsy. */
  function OrInt(x: int, d: int): (r: int)
    ensures r != 0 || d == 0
    ensures x != 0 ==> r == x
  {
    if x == 0 then d else x
  }

  /** `s || d` for a string: the empty string is falsy. */
  function OrStr(s: string, d: string): (r: string)
    ensures s != "" ==> r == s
    ensures s == "" ==> r == d
  {
    if s == "" then d else s
  }

  /** `String(parseInt(s))`: the decimal text of the number read, or "NaN". */
  function NumberText(s: string): (r: string)
    ensures r == "NaN" <==> JsParseInt(s, Auto).None?
  {
    match JsParseInt(s, Auto)
    case Some(n) =>
      ParseIntOfIntToString(n);
      NaNIsNotANumber();
      IntToString(n)
    case None => "NaN"
  }

  /** `parseInt("NaN")` is NaN. */
  lemma {:induction false} NaNIsNotANumber()
    ensures JsParseInt("NaN", Auto).None?
  {
    var t := "NaN";
    assert TrimStart(t) == t by { assert !IsJsSpace(t[0]); }
    assert DigitPrefix(t, 10) == "";
  }

  /** Text already produced by `String(parseInt(_))` is left as it is. */
  lemma {:induction false} NumberTextIdempotent(s: string)
    ensures NumberText(NumberText(s)) == NumberText(s)
  {
    match JsParseInt(s, Auto)
    case Some(n) => ParseIntOfIntToString(n);
    case None => NaNIsNotANumber();
  }

  /** `parseInt(s) || d` as text, for fields stored from parsed CSV cells. */
  function ParsedOr(s: string, d: int): int {
    match JsParseInt(s, Auto)
    case Some(n) => OrInt(n, d)
    case None => d
  }

  predicate IsUsbRequest(s: ChainStep) {
    s.UsbRequest?
  }

  /** The names the UI offers as copy targets. */
  predicate IsCopyField(f: string) {
    f in {"bmRequestType", "bRequest", "wValue", "wIndex", "wLength", "packetSize", "dataBytes"}
  }

  /** `target[field]` for the text properties of a USB request that the
      runner sends: the copy targets and `dataMode`. */
  function RequestField(s: ChainStep, field: string): (v: Option<string>)
    requires s.UsbRequest?
    ensures v.Some? <==> IsCopyField(field) || field == "dataMode"
  {
    if field == "bmRequestType" then Some(s.bmRequestType)
    else if field == "bRequest" then Some(s.bRequest)
    else if field == "wValue" then Some(s.wValue)
    else if field == "wIndex" then Some(s.wIndex)
    else if field == "wLength" then Some(s.wLength)
    else if field == "packetSize" then Some(s.packetSize)
    else if field == "dataMode" then Some(s.dataMode)
    else if field == "dataBytes" then Some(s.dataBytes)
    else None
  }

  /** `gotoReqNo || 0` where the runner compares it with the chain's length:
      a number is used as it is, and text is turned into a number by
      JavaScript's `Number`; None stands for NaN, which is never in range. */
  function JumpIndex(t: JumpTarget): (g: Option<int>)
    ensures t.Index? ==> g == Some(OrInt(t.n, 0))
    ensures t.Written? && t.text == "" ==> g == Some(0)
  {
    match t
    case Index(n) => Some(OrInt(n, 0))
    case Written(text) => if text == "" then Some(0) else JsNumber(text)
  }

  /** `gotoReqNo || 0` as it is concatenated into a row or a CSV line. */
  function JumpText(t: JumpTarget): (r: string)
    ensures t.Index? ==> r == IntToString(OrInt(t.n, 0))
    ensures t.Written? ==> r == OrStr(t.text, "0")
  {
    match t
    case Index(n) => IntToString(OrInt(n, 0))
    case Written(text) => OrStr(text, "0")
  }

  /** `target[field] = value` for the properties the runner reads again: the
      request fields of a USB request, the data of an endpoint write, a goto's
      `gotoReqNo` and the manual values of a condition's two sides. A write
      to any other property is not modelled: the step is left as it was. */
  function SetField(s: ChainStep, field: string, value: string): (r: ChainStep)
    ensures r.UsbRequest? <==> s.UsbRequest?
    ensures s.UsbRequest? && field == "wValue" ==> r == s.(wValue := value)
    ensures !s.UsbRequest? && !s.EndpointOut? && !s.Goto? && !s.Condition? ==> r == s
    ensures s.UsbRequest? && RequestField(s, field).Some? ==> RequestField(r, field) == Some(value)
    ensures s.UsbRequest? ==> forall g :: g != field ==> RequestField(r, g) == RequestField(s, g)
    ensures s.UsbRequest? ==> r.deviceAddr == s.deviceAddr && r.noRetry == s.noRetry
    ensures s.UsbRequest? && RequestField(s, field).None? ==> r == s
    ensures s.EndpointOut? ==> r.EndpointOut? && r.(payload := s.payload) == s
    ensures s.EndpointOut? ==> r.payload == if field == "dataBytes" then value else s.payload
    ensures s.Goto? ==> r == if field == "gotoReqNo" then Goto(Written(value)) else s
    ensures s.Condition? ==> r.Condition? && r.op == s.op && r.action == s.action
    ensures s.Condition? ==> r.a == if field == "valueAValue" then s.a.(value := value) else s.a
    ensures s.Condition? ==> r.b == if field == "valueBValue" then s.b.(value := value) else s.b
  {
    match s
    case UsbRequest(_, _, _, _, _, _, _, _, _, _) =>
      if field == "bmRequestType" then s.(bmRequestType := value)
      else if field == "bRequest" then s.(bRequest := value)
      else if field == "wValue" then s.(wValue := value)
      else if field == "wIndex" then s.(wIndex := value)
      else if field == "wLength" then s.(wLength := value)
      else if field == "packetSize" then s.(packetSize := value)
      else if field == "dataMode" then s.(dataMode := value)
      else if field == "dataBytes" then s.(dataBytes := value)
      else s
    case EndpointOut(_, _, _, _, _, _) =>
      if field == "dataBytes" then s.(payload := value) else s
    case Goto(_) =>
      if field == "gotoReqNo" then Goto(Written(value)) else s
    case Condition(_, a, b, _) =>
      if field == "valueAValue" then s.(a := a.(value := value))
      else if field == "valueBValue" then s.(b := b.(value := value))
      else s
    case _ => s
  }

  /** The text a skipped step is logged with. */
  function SkippedDescription(s: ChainStep): string {
    match s
    case UsbRequest(bm, br, _, _, _, _, _, _, _, _) => "USB Request: " + OrStr(bm, "?") + " " + OrStr(br, "?")
    case Wait(w) =>
      "Wait: " + (match w
                  case Button(_) => "BUTTON"
                  case Webhook(_, _) => "WEBHOOK"
                  case GpioWait(_, _, _) => "GPIO"
                  case Delay(_) => "DELAY"
                  case UsbReset(_) => "USB_RESET")
    case Http(_) => "Action: HTTP"
    case GpioOut(_, _) => "Action: GPIO_OUT"
    case Comment(_) => "Action: COMMENT"
    case Copy(_, _, _, _, _) => "Action: COPY"
    case Goto(_) => "Action: GOTO"
    case Condition(_, _, _, _) => "Condition"
    case EndpointIn(ep, _, _, _, _, _, _, _) => "EP" + IntToString(OrInt(ep, 10)) + " IN"
    case EndpointOut(ep, _, _, _, _, _) => "EP" + IntToString(OrInt(ep, 10)) + " OUT"
  }
}

=== FILE: clib.dfy ===
/** The C library routines the firmware's request handler relies on, with the
    32-bit `long` and `size_t` of the ESP32 made explicit: `strtol`, `atoi`,
    `strtok` and the narrowing casts to `uint8_t`, `uint16_t` and `size_t`. */
module CLib {
  import opened Text

  const LongMax: int := 0x7FFF_FFFF
  const LongMin: int := -0x8000_0000

  /** `isspace` in the C locale. */
  predicate IsCSpace(c: char) {
    c == ' ' || c == '\t' || c == '\n' || c == '\U{0B}' || c == '\U{0C}' || c == '\r'
  }

  function SkipCSpace(s: string): (r: string)
    ensures |r| <= |s| && r == s[|s| - |r|..]
    ensures |r| > 0 ==> !IsCSpace(r[0])
  {
    if |s| > 0 && IsCSpace(s[0]) then SkipCSpace(s[1..]) else s
  }

  /** The base argument of `strtol`: 0 (detect from the prefix), 10 or 16. */
  datatype StrtolBase = Base0 | Base10 | Base16

  predicate HasHexPrefix(u: string) {
    |u| >= 2 && u[0] == '0' && (u[1] == 'x' || u[1] == 'X')
  }

  /** The magnitude `strtol` reads after the sign: a "0x"/"0X" prefix selects
      hexadecimal for bases 0 and 16, a leading '0' selects octal for base 0, and
      the longest run of digits of the selected base is read (no digits reads 0). */
  function StrtolMagnitude(u: string, base: StrtolBase): nat {
    if base != Base10 && HasHexPrefix(u) then DigitsValue(DigitPrefix(u[2..], 16), 16)
    else if base == Base0 && |u| > 0 && u[0] == '0' then DigitsValue(DigitPrefix(u, 8), 8)
    else
      var b := if base == Base16 then 16 else 10;
      DigitsValue(DigitPrefix(u, b), b)
  }

  /** `strtol(s, NULL, base)` with a 32-bit `long`: an out-of-range value
      saturates at LONG_MAX or LONG_MIN. */
  function Strtol(s: string, base: StrtolBase): (r: int)
    ensures LongMin <= r <= LongMax
  {
    var t := SkipCSpace(s);
    var u := if |t| > 0 && (t[0] == '-' || t[0] == '+') then t[1..] else t;
    var m := StrtolMagnitude(u, base);
    if |t| > 0 && t[0] == '-' then (if m > -LongMin then LongMin else -(m as int))
    else (if m > LongMax then LongMax else m)
  }

  /** `atoi`, which the C library defines as `(int)strtol(s, NULL, 10)`. */
  function Atoi(s: string): (r: int)
    ensures LongMin <= r <= LongMax
  {
    Strtol(s, Base10)
  }

  /** `(uint8_t)x`: reduction modulo 2^8. */
  function ToU8(x: int): (r: byte)
    ensures 0 <= x < 0x100 ==> r == x
    ensures (r - x) % 0x100 == 0
  {
    x % 0x100
  }

  /** `(uint16_t)x`: reduction modulo 2^16. */
  function ToU16(x: int): (r: u16)
    ensures 0 <= x < 0x1_0000 ==> r == x
    ensures (r - x) % 0x1_0000 == 0
  {
    x % 0x1_0000
  }

  /** `(size_t)x` for the ESP32's 32-bit `size_t`: reduction modulo 2^32. */
  function ToSize(x: int): (r: nat)
    ensures r < 0x1_0000_0000
    ensures 0 <= x < 0x1_0000_0000 ==> r == x
    ensures (r - x) % 0x1_0000_0000 == 0
  {
    x % 0x1_0000_0000
  }

  lemma {:induction false} MagnitudeOfDigits(d: string, base: StrtolBase)
    requires |d| > 0 && forall i :: 0 <= i < |d| ==> IsDigit(d[i])
    requires base != Base16 && d[0] != '0'
    ensures StrtolMagnitude(d, base) == DigitsValue(d, 10)
  {
    DigitPrefixOfDigits(d, "", 10);
    assert d + "" == d;
  }

  /** Unsigned text whose magnitude fits in a `long` is read as that magnitude. */
  lemma {:induction false} StrtolUnsigned(s: string, base: StrtolBase)
    requires |s| > 0 && !IsCSpace(s[0]) && s[0] != '-' && s[0] != '+'
    requires StrtolMagnitude(s, base) <= LongMax
    ensures Strtol(s, base) == StrtolMagnitude(s, base)
  {
    assert SkipCSpace(s) == s;
  }

  /** Decimal text without a leading zero is read back by `strtol` with base 0 or
      10 (so by `atoi`) as the number it writes, within the range of `long`. */
  lemma {:induction false} StrtolOfDecimal(n: nat, base: StrtolBase)
    requires n <= LongMax && base != Base16
    ensures Strtol(NatToString(n, 10), base) == n
  {
    var d := NatToString(n, 10);
    NatToStringSpec(n, 10);
    if n == 0 {
      assert d == "0";
      ZeroMagnitude(base);
    } else {
      MagnitudeOfDigits(d, base);
    }
    StrtolUnsigned(d, base);
  }

  lemma {:induction false} ZeroMagnitude(base: StrtolBase)
    ensures StrtolMagnitude("0", base) == 0
  {
    var z := "0";
    assert z[1..] == "";
    assert DigitPrefix(z, 8) == z;
    assert DigitPrefix(z, 10) == z;
    assert DigitPrefix(z, 16) == z;
    assert z[..0] == "";
  }

  /** Hexadecimal text behind a "0x" prefix is read back by `strtol` with base 0
      or 16 as the number it writes. */
  lemma {:induction false} StrtolOfHex(n: nat, s: string, base: StrtolBase)
    requires n <= LongMax && base != Base10
    requires s == "0x" + NatToString(n, 16)
    ensures Strtol(s, base) == n
  {
    NatToStringSpec(n, 16);
    StrtolOfHexDigits(NatToString(n, 16), base);
  }

  /** Any run of hexadecimal digits behind "0x" is read as its value, within
      the range of `long`. */
  lemma {:induction false} StrtolOfHexDigits(d: string, base: StrtolBase)
    requires base != Base10 && |d| > 0 && forall i :: 0 <= i < |d| ==> IsDigitOf(d[i], 16)
    requires DigitsValue(d, 16) <= LongMax
    ensures Strtol("0x" + d, base) == DigitsValue(d, 16)
  {
    var s := "0x" + d;
    assert s[2..] == d;
    DigitPrefixOfDigits(d, "", 16);
    assert d + "" == d;
    assert StrtolMagnitude(s, base) == DigitsValue(d, 16);
    StrtolUnsigned(s, base);
  }

  /** Two hexadecimal digits are read by `strtol(_, NULL, 16)` as the byte they encode. */
  lemma {:induction false} StrtolOfHexByte(b: byte, upper: bool)
    ensures Strtol(HexByte(b, upper), Base16) == b
  {
    var h := HexByte(b, upper);
    assert !HasHexPrefix(h);
    DigitPrefixOfDigits(h, "", 16);
    assert h + "" == h;
    HexPairValue(h);
    StrtolUnsigned(h, Base16);
  }

  // ---------------------------------------------------------------------
  // strtok(s, " ,")
  // ---------------------------------------------------------------------

  /** The delimiters the request handler gives `strtok`. */
  predicate IsTokenDelim(c: char) {
    c == ' ' || c == ','
  }

  predicate IsToken(t: string) {
    |t| > 0 && forall i :: 0 <= i < |t| ==> !IsTokenDelim(t[i])
  }

  /** The end of the token starting at the front of `s`. */
  function TokenEnd(s: string): (k: nat)
    requires |s| > 0 && !IsTokenDelim(s[0])
    ensures 0 < k <= |s|
    ensures forall i :: 0 <= i < k ==> !IsTokenDelim(s[i])
    ensures k < |s| ==> IsTokenDelim(s[k])
  {
    if |s| == 1 || IsTokenDelim(s[1]) then 1 else 1 + TokenEnd(s[1..])
  }

  /** The successive tokens `strtok(s, " ,")` returns: the maximal runs of
      non-delimiters, in order. */
  function Strtok(s: string): (r: seq<string>)
    ensures forall i :: 0 <= i < |r| ==> IsToken(r[i])
    decreases |s|
  {
    if |s| == 0 then []
    else if IsTokenDelim(s[0]) then Strtok(s[1..])
    else
      var k := TokenEnd(s);
      [s[..k]] + Strtok(s[k..])
  }

  /** Tokens joined by single spaces are split back into the same tokens. */
  lemma {:induction false} StrtokOfJoin(tokens: seq<string>)
    requires forall i :: 0 <= i < |tokens| ==> IsToken(tokens[i])
    ensures Strtok(Join(tokens, " ")) == tokens
  {
    if |tokens| == 0 {
    } else {
      var s := Join(tokens, " ");
      var t := tokens[0];
      var rest := Join(tokens[1..], " ");
      if |tokens| == 1 {
        assert s == t;
        TokenEndAt(s, |t|);
        assert s[..|t|] == t;
        assert s[|t|..] == "";
      } else {
        assert s == t + " " + rest;
        TokenEndAt(s, |t|);
        assert s[..|t|] == t;
        assert s[|t|..] == " " + rest;
        assert (" " + rest)[1..] == rest;
        StrtokOfJoin(tokens[1..]);
      }
    }
  }

  /** The token at the front of `s` ends at the first delimiter. */
  lemma {:induction false} TokenEndAt(s: string, k: nat)
    requires 0 < k <= |s|
    requires forall i :: 0 <= i < k ==> !IsTokenDelim(s[i])
    requires k < |s| ==> IsTokenDelim(s[k])
    ensures TokenEnd(s) == k
  {
  }
}

=== FILE: condition.dfy ===
/** Condition steps of a chain: each side is either a hex value typed by the
    user or a value read back from a row of the results table, and the two
    sides are compared as strings, as hexadecimal numbers, or by substring.
    The table is an explicit sequence of rows, each the texts of its cells. */
module Condition {
  import opened Wrappers
  import opened Text
  import opened ChainSteps

  /** The texts of one table row's `td` cells, left to right. */
  type Row = seq<string>

  // ---------------------------------------------------------------------
  // Manual values
  // ---------------------------------------------------------------------

  /** `s.replace(/0x/gi, '')`: occurrences are found left to right and never
      overlap, and the text left behind is not searched again. */
  function RemoveHexPrefixes(s: string): (r: string)
    ensures |r| <= |s|
    ensures NoSpaces(s) ==> NoSpaces(r)
    decreases |s|
  {
    if |s| == 0 then ""
    else if HasHexPrefix(s) then RemoveHexPrefixes(s[2..])
    else [s[0]] + RemoveHexPrefixes(s[1..])
  }

  /** No "0x" or "0X" anywhere in `s`. */
  predicate NoHexMarker(s: string) {
    forall i :: 0 <= i < |s| - 1 ==> !HasHexPrefix(s[i..])
  }

  /** Text without a marker is left alone. */
  lemma {:induction false} RemoveHexPrefixesUnmarked(s: string)
    requires NoHexMarker(s)
    ensures RemoveHexPrefixes(s) == s
    decreases |s|
  {
    if |s| > 0 {
      assert !HasHexPrefix(s) by {
        if |s| >= 2 { assert s[0..] == s; }
      }
      assert NoHexMarker(s[1..]) by {
        forall i | 0 <= i < |s[1..]| - 1 ensures !HasHexPrefix(s[1..][i..]) {
          assert s[1..][i..] == s[i + 1..];
        }
      }
      RemoveHexPrefixesUnmarked(s[1..]);
    }
  }

  /** Removal works piecewise on a split that does not fall between the '0'
      and the 'x' of a marker. */
  lemma {:induction false} RemoveHexPrefixesAppend(a: string, b: string)
    requires |a| == 0 || a[|a| - 1] != '0'
    ensures RemoveHexPrefixes(a + b) == RemoveHexPrefixes(a) + RemoveHexPrefixes(b)
    decreases |a|
  {
    if |a| == 0 {
      assert a + b == b;
    } else if HasHexPrefix(a) {
      assert (a + b)[2..] == a[2..] + b;
      RemoveHexPrefixesAppend(a[2..], b);
    } else {
      assert !HasHexPrefix(a + b);
      assert (a + b)[1..] == a[1..] + b;
      RemoveHexPrefixesAppend(a[1..], b);
    }
  }

  /** A marker at the front is dropped and the rest is processed. */
  lemma {:induction false} RemoveHexPrefixesMarker(s: string, c: char)
    requires c == 'x' || c == 'X'
    ensures RemoveHexPrefixes(['0', c] + s) == RemoveHexPrefixes(s)
  {
    assert (['0', c] + s)[2..] == s;
  }

  /** `(v || '').replace(/\s/g, '').replace(/0x/gi, '').toUpperCase()`. */
  function NormaliseManual(v: string): (r: string)
    ensures |r| <= |v|
    ensures NoSpaces(r)
    ensures forall i :: 0 <= i < |r| ==> !('a' <= r[i] <= 'z')
    ensures NoHexMarker(RemoveSpaces(v)) ==> r == ToUpper(RemoveSpaces(v))
  {
    var t := RemoveHexPrefixes(RemoveSpaces(v));
    assert NoHexMarker(RemoveSpaces(v)) ==> t == RemoveSpaces(v) by {
      if NoHexMarker(RemoveSpaces(v)) {
        RemoveHexPrefixesUnmarked(RemoveSpaces(v));
      }
    }
    var r := ToUpper(t);
    assert forall i :: 0 <= i < |r| ==> !IsJsSpace(r[i]) by {
      forall i | 0 <= i < |r| ensures !IsJsSpace(r[i]) {
        assert r[i] == ToUpperChar(t[i]);
      }
    }
    r
  }

  /** A leading "0x" or "0X" is dropped and the rest is read as it stands. */
  lemma {:induction false} ManualDropsLeadingMarker(v: string, c: char)
    requires c == 'x' || c == 'X'
    ensures NormaliseManual(['0', c] + v) == NormaliseManual(v)
  {
    RemoveSpacesAppend(['0', c], v);
    assert RemoveSpaces(['0', c]) == ['0', c] by {
      assert NoSpaces(['0', c]);
    }
    RemoveHexPrefixesMarker(RemoveSpaces(v), c);
  }

  /** Two typed pieces are read piecewise, unless the first one ends (after
      its whitespace is dropped) in the '0' of a marker the second one
      completes. */
  lemma {:induction false} ManualAppend(a: string, b: string)
    requires |RemoveSpaces(a)| == 0 || RemoveSpaces(a)[|RemoveSpaces(a)| - 1] != '0'
    ensures NormaliseManual(a + b) == NormaliseManual(a) + NormaliseManual(b)
  {
    var sa, sb := RemoveSpaces(a), RemoveSpaces(b);
    RemoveSpacesAppend(a, b);
    RemoveHexPrefixesAppend(sa, sb);
    ToUpperAppend(RemoveHexPrefixes(sa), RemoveHexPrefixes(sb));
  }

  /** Hex digits typed without spaces or markers are only upper-cased. */
  lemma {:induction false} ManualOfHexDigits(v: string)
    requires forall i :: 0 <= i < |v| ==> IsHexDigit(v[i])
    ensures NormaliseManual(v) == ToUpper(v)
  {
    assert NoSpaces(v);
    assert NoHexMarker(v) by {
      forall i | 0 <= i < |v| - 1 ensures !HasHexPrefix(v[i..]) {
        assert v[i..][1] == v[i + 1];
      }
    }
    RemoveHexPrefixesUnmarked(v);
  }

  /** Whitespace goes first, so a marker split by a space is still removed. */
  lemma {:induction false} ManualDropsSpacedMarker()
    ensures NormaliseManual("0 x1f") == "1F"
  {
    assert RemoveSpaces("0 x1f") == "0x1f";
    assert RemoveHexPrefixes("0x1f") == "1f" by {
      RemoveHexPrefixesMarker("1f", 'x');
      RemoveHexPrefixesUnmarked("1f");
    }
  }

  /** The removal is a single pass: "00xx" loses its one marker and leaves a
      new "0X" behind. */
  lemma {:induction false} ManualIsSinglePass()
    ensures NormaliseManual("00xx") == "0X"
    ensures HasHexPrefix(NormaliseManual("00xx"))
  {
    assert RemoveSpaces("00xx") == "00xx";
    assert RemoveHexPrefixes("00xx") == "0x" by {
      assert !HasHexPrefix("00xx");
      assert "00xx"[1..] == ['0', 'x'] + "x";
      RemoveHexPrefixesMarker("x", 'x');
      assert RemoveHexPrefixes("x") == "x";
    }
  }

  // ---------------------------------------------------------------------
  // Reading the results table
  // ---------------------------------------------------------------------

  /** The first and one-past-last cells the lookup inspects. */
  const FirstScannedCell: nat := 6
  const ScanEnd: nat := 9

  /** Whitespace and hexadecimal digits only. */
  predicate IsHexText(t: string) {
    |t| == 0 || ((IsHexDigit(t[0]) || IsJsSpace(t[0])) && IsHexText(t[1..]))
  }

  /** The cell test: non-empty text whose trimmed form is non-empty and made of
      hexadecimal digits and whitespace. */
  predicate HexCell(text: string) {
    |Trim(text)| > 0 && IsHexText(Trim(text))
  }

  /** Cells `c`, `c + 1`, … before cell 9 are tried in turn; the first hex cell
      is returned without its whitespace, and "" when there is none. */
  function ScanCells(cells: Row, c: nat): string
    decreases |cells| - c
  {
    if c < |cells| && c < ScanEnd then
      if HexCell(cells[c]) then RemoveSpaces(cells[c]) else ScanCells(cells, c + 1)
    else ""
  }

  /** What a hex cell yields: a non-empty run of hexadecimal digits. */
  lemma {:induction false} HexCellDigits(text: string)
    requires HexCell(text)
    ensures var r := RemoveSpaces(text);
            |r| > 0 && forall i :: 0 <= i < |r| ==> IsHexDigit(r[i])
  {
    var t := Trim(text);
    TrimRemovesOnlySpaces(text);
    HexTextDigits(t);
    assert !IsJsSpace(t[0]);
    assert RemoveSpaces(t) == [t[0]] + RemoveSpaces(t[1..]);
  }

  lemma {:induction false} HexTextDigits(t: string)
    requires IsHexText(t)
    ensures forall i :: 0 <= i < |RemoveSpaces(t)| ==> IsHexDigit(RemoveSpaces(t)[i])
  {
    if |t| > 0 {
      HexTextDigits(t[1..]);
      var r' := RemoveSpaces(t[1..]);
      var r := RemoveSpaces(t);
      if IsJsSpace(t[0]) {
        assert r == r';
      } else {
        assert r == [t[0]] + r';
        assert IsHexDigit(t[0]);
        forall i | 0 <= i < |r| ensures IsHexDigit(r[i]) {
          if i > 0 { assert r[i] == r'[i - 1]; }
        }
      }
    }
  }

  /** The scan returns the cell-free text of the first hex cell at or after
      `c` and before cell 9, and "" exactly when there is no such cell. */
  lemma {:induction false} ScanCellsSpec(cells: Row, c: nat)
    ensures var r := ScanCells(cells, c);
            && (forall i :: 0 <= i < |r| ==> IsHexDigit(r[i]))
            && (r == "" <==> forall k :: c <= k < |cells| && k < ScanEnd ==> !HexCell(cells[k]))
            && (r != "" ==> exists k :: c <= k < |cells| && k < ScanEnd && HexCell(cells[k])
                                        && r == RemoveSpaces(cells[k])
                                        && forall j :: c <= j < k ==> !HexCell(cells[j]))
  {
    ScanCellsDigits(cells, c);
    ScanCellsFinds(cells, c);
  }

  lemma {:induction false} ScanCellsDigits(cells: Row, c: nat)
    ensures var r := ScanCells(cells, c);
            && (forall i :: 0 <= i < |r| ==> IsHexDigit(r[i]))
            && (c < |cells| && c < ScanEnd && HexCell(cells[c]) ==> r != "")
    decreases |cells| - c
  {
    if c < |cells| && c < ScanEnd {
      if HexCell(cells[c]) {
        HexCellDigits(cells[c]);
      } else {
        ScanCellsDigits(cells, c + 1);
      }
    }
  }

  /** No hex cell at or after `c` and before cell 9. */
  predicate NoHexCellFrom(cells: Row, c: nat) {
    forall k :: c <= k < |cells| && k < ScanEnd ==> !HexCell(cells[k])
  }

  /** Cell `k` is the first hex cell at or after `c` and before cell 9. */
  predicate FirstHexCell(cells: Row, c: nat, k: nat) {
    c <= k < |cells| && k < ScanEnd && HexCell(cells[k]) && forall j :: c <= j < k ==> !HexCell(cells[j])
  }

  lemma {:induction false} ScanCellsFinds(cells: Row, c: nat)
    ensures var r := ScanCells(cells, c);
            && (r == "" <==> NoHexCellFrom(cells, c))
            && (r != "" ==> exists k: nat :: FirstHexCell(cells, c, k) && r == RemoveSpaces(cells[k]))
    decreases |cells| - c
  {
    if c < |cells| && c < ScanEnd {
      if HexCell(cells[c]) {
        ScanCellsDigits(cells, c);
        assert FirstHexCell(cells, c, c);
      } else {
        ScanCellsFinds(cells, c + 1);
        ScanCellsSkips(cells, c);
      }
    }
  }

  /** Skipping a cell that is not a hex cell changes neither answer. */
  lemma {:induction false} ScanCellsSkips(cells: Row, c: nat)
    requires c < |cells| && c < ScanEnd && !HexCell(cells[c])
    ensures ScanCells(cells, c) == ScanCells(cells, c + 1)
    ensures NoHexCellFrom(cells, c) <==> NoHexCellFrom(cells, c + 1)
    ensures forall k: nat :: FirstHexCell(cells, c + 1, k) ==> FirstHexCell(cells, c, k)
  {
  }

  /** The row a request number picks: a negative number counts back from the
      last row, a positive one indexes the rows directly (row 0, the header,
      cannot be picked), and 0 or a number out of range picks none. */
  function SelectRow(rows: seq<Row>, reqNo: int): (r: Option<Row>)
    ensures r.Some? <==> -|rows| <= reqNo < 0 || 0 < reqNo < |rows|
    ensures reqNo < 0 && r.Some? ==> r.value == rows[|rows| + reqNo]
    ensures reqNo > 0 && r.Some? ==> r.value == rows[reqNo]
  {
    if reqNo < 0 then
      var index := |rows| + reqNo;
      if 0 <= index < |rows| then Some(rows[index]) else None
    else if 0 < reqNo < |rows| then Some(rows[reqNo])
    else None
  }

  /** `getTableResponseHex(reqNo)`. */
  function ResponseHex(rows: seq<Row>, reqNo: int): string {
    match SelectRow(rows, reqNo)
    case None => ""
    case Some(row) => ScanCells(row, FirstScannedCell)
  }

  /** `s.substring(0, end)`: the end is clamped to the string. */
  function Leading(s: string, end: int): (r: string)
    ensures |r| == if end <= 0 then 0 else Min(end, |s|)
    ensures r == s[..|r|]
  {
    if end <= 0 then "" else s[..Min(end, |s|)]
  }

  /** A table operand: the hex read from row `reqNo || -1`, cut to `2 * length`
      characters unless the length is absent or -1, then upper-cased. */
  function TableValue(rows: seq<Row>, reqNo: int, length: Option<int>): (r: string)
    ensures var full := ResponseHex(rows, OrInt(reqNo, -1));
            && |r| <= |full|
            && r == ToUpper(full[..|r|])
            && (length.GetOr(-1) == -1 ==> |r| == |full|)
            && (length.GetOr(-1) != -1 ==> |r| == if length.value <= 0 then 0 else Min(2 * length.value, |full|))
  {
    var hex := ResponseHex(rows, OrInt(reqNo, -1));
    var n := length.GetOr(-1);
    if n == -1 then ToUpper(hex) else ToUpper(Leading(hex, 2 * n))
  }

  predicate FromTable(o: Operand) {
    o.source == "rxbytes" || o.source == "responsehex"
  }

  /** The value of one side of a condition. */
  function OperandValue(rows: seq<Row>, o: Operand): (v: string)
    ensures NoSpaces(v) && forall i :: 0 <= i < |v| ==> !('a' <= v[i] <= 'z')
    ensures FromTable(o) ==> forall i :: 0 <= i < |v| ==> IsHexDigit(v[i])
    ensures !FromTable(o) && (forall i :: 0 <= i < |o.value| ==> IsHexDigit(o.value[i])) ==> v == ToUpper(o.value)
  {
    if FromTable(o) then
      TableValueIsHexPrefix(rows, o.reqNo, o.length);
      TableValue(rows, o.reqNo, o.length)
    else
      if forall i :: 0 <= i < |o.value| ==> IsHexDigit(o.value[i]) then
        ManualOfHexDigits(o.value);
        NormaliseManual(o.value)
      else NormaliseManual(o.value)
  }

  /** A manual value of "0x" and upper-case hexadecimal digits, as a copy
      step writes it, is read as the digits alone. */
  lemma {:induction false} ManualMarkedHex(rows: seq<Row>, o: Operand, v: string)
    requires !FromTable(o) && o.value == "0x" + v
    requires forall k :: 0 <= k < |v| ==> IsHexDigit(v[k]) && !('a' <= v[k] <= 'z')
    ensures OperandValue(rows, o) == v
  {
    ManualDropsLeadingMarker(v, 'x');
    ManualOfHexDigits(v);
    assert ToUpper(v) == v;
    assert !(forall k :: 0 <= k < |o.value| ==> IsHexDigit(o.value[k])) by {
      assert o.value[1] == 'x';
    }
  }

  /** A table value is never padded: it is an upper-cased prefix of the hex
      read, made of hexadecimal digits. */
  lemma {:induction false} TableValueIsHexPrefix(rows: seq<Row>, reqNo: int, length: Option<int>)
    ensures var r := TableValue(rows, reqNo, length);
            var full := ResponseHex(rows, OrInt(reqNo, -1));
            && IsPrefix(r, ToUpper(full))
            && forall i :: 0 <= i < |r| ==> IsHexDigit(r[i])
  {
    var r := TableValue(rows, reqNo, length);
    var full := ResponseHex(rows, OrInt(reqNo, -1));
    match SelectRow(rows, OrInt(reqNo, -1))
    case None =>
    case Some(row) => ScanCellsSpec(row, FirstScannedCell);
    assert forall i :: 0 <= i < |r| ==> r[i] == ToUpperChar(full[i]);
  }

  // ---------------------------------------------------------------------
  // Comparison
  // ---------------------------------------------------------------------

  predicate IsOrdering(op: string) {
    op == "<" || op == "<=" || op == ">" || op == ">="
  }

  predicate IsKnownOperator(op: string) {
    op == "==" || op == "!=" || IsOrdering(op) || op == "contains"
  }

  /** `parseInt(v, 16)`. */
  function HexNumber(v: string): Option<int> {
    JsParseInt(v, Hex)
  }

  /** The comparison under `op || '=='`: equality and inequality compare text,
      the orderings compare `parseInt(_, 16)` and fail when either side is
      NaN, `contains` is substring search, and any other operator fails. */
  function Evaluate(op: string, a: string, b: string): (res: bool)
    ensures (op == "" || op == "==") ==> (res <==> a == b)
    ensures op == "!=" ==> (res <==> a != b)
    ensures op == "contains" ==> (res <==> exists k :: WindowAt(a, b, k))
    ensures IsOrdering(op) && (HexNumber(a).None? || HexNumber(b).None?) ==> !res
    ensures op != "" && !IsKnownOperator(op) ==> !res
  {
    var operator := OrStr(op, "==");
    if operator == "==" then a == b
    else if operator == "!=" then a != b
    else if IsOrdering(operator) then Ordered(operator, HexNumber(a), HexNumber(b))
    else if operator == "contains" then IncludesIffWindow(a, b); Includes(a, b)
    else false
  }

  /** One of the orderings on two numbers read; false when either is NaN. */
  function Ordered(op: string, x: Option<int>, y: Option<int>): bool
    requires IsOrdering(op)
  {
    && x.Some? && y.Some?
    && (if op == "<" then x.value < y.value
        else if op == "<=" then x.value <= y.value
        else if op == ">" then x.value > y.value
        else x.value >= y.value)
  }

  /** `parseInt(_, 16)` reads the leading run of hexadecimal digits. */
  lemma {:induction false} HexNumberOfDigits(d: string, rest: string)
    requires |d| > 0 && forall i :: 0 <= i < |d| ==> IsHexDigit(d[i])
    requires |rest| > 0 ==> !IsHexDigit(rest[0])
    requires !HasHexPrefix(d + rest)
    ensures HexNumber(d + rest) == Some(DigitsValue(d, 16) as int)
  {
    var s := d + rest;
    assert forall i :: 0 <= i < |d| ==> IsDigitOf(d[i], 16);
    assert |rest| > 0 ==> !IsDigitOf(rest[0], 16);
    DigitPrefixOfDigits(d, rest, 16);
    assert ParseUnsigned(s, Hex) == Some(DigitsValue(d, 16) as int);
    assert s[0] == d[0];
    TrimStartNoSpace(s);
    ParseIntPositive(s, Hex, DigitsValue(d, 16));
  }

  /** The orderings compare the numbers the leading hex digits spell, not the
      text: "0A" is greater than "9". */
  lemma {:induction false} OrderingIsNumeric(da: string, ra: string, db: string, rb: string)
    requires |da| > 0 && forall i :: 0 <= i < |da| ==> IsHexDigit(da[i])
    requires |db| > 0 && forall i :: 0 <= i < |db| ==> IsHexDigit(db[i])
    requires |ra| > 0 ==> !IsHexDigit(ra[0])
    requires |rb| > 0 ==> !IsHexDigit(rb[0])
    requires !HasHexPrefix(da + ra) && !HasHexPrefix(db + rb)
    ensures var x := DigitsValue(da, 16);
            var y := DigitsValue(db, 16);
            && (Evaluate("<", da + ra, db + rb) <==> x < y)
            && (Evaluate("<=", da + ra, db + rb) <==> x <= y)
            && (Evaluate(">", da + ra, db + rb) <==> x > y)
            && (Evaluate(">=", da + ra, db + rb) <==> x >= y)
  {
    HexNumberOfDigits(da, ra);
    HexNumberOfDigits(db, rb);
    var x := HexNumber(da + ra);
    var y := HexNumber(db + rb);
    assert x == Some(DigitsValue(da, 16) as int) && y == Some(DigitsValue(db, 16) as int);
    assert Evaluate("<", da + ra, db + rb) == Ordered("<", x, y);
    assert Evaluate("<=", da + ra, db + rb) == Ordered("<=", x, y);
    assert Evaluate(">", da + ra, db + rb) == Ordered(">", x, y);
    assert Evaluate(">=", da + ra, db + rb) == Ordered(">=", x, y);
  }

  /** A side that reads nothing from the table is "" and is never ordered
      against anything. */
  lemma {:induction false} EmptyNeverOrders(op: string, b: string)
    requires IsOrdering(op)
    ensures !Evaluate(op, "", b) && !Evaluate(op, b, "")
  {
    assert HexNumber("").None? by {
      assert TrimStart("") == "";
      assert DigitPrefix("", 16) == "";
    }
  }

  /** Every value contains the empty value. */
  lemma {:induction false} ContainsEmpty(a: string)
    ensures Evaluate("contains", a, "")
  {
    assert WindowAt(a, "", 0);
  }

  /** Inequality is the negation of equality. */
  lemma {:induction false} EqualityComplement(a: string, b: string)
    ensures Evaluate("!=", a, b) == !Evaluate("==", a, b)
  {
  }

  /** The outcome of a condition step over the table as it stands. */
  function ConditionHolds(rows: seq<Row>, op: string, a: Operand, b: Operand): bool {
    Evaluate(op, OperandValue(rows, a), OperandValue(rows, b))
  }

  // ---------------------------------------------------------------------
  // The rows the client writes
  // ---------------------------------------------------------------------

  /** `s.substring(0, n)` followed by "..." when `s` is longer than `n`. */
  function Cut(s: string, n: nat): string {
    Leading(s, n) + (if |s| > n then "..." else "")
  }

  /** The cell texts `addTableRow` writes: the running count, the six request
      columns, the received byte count, the response cut to 60 characters and
      the ASCII cut to 30. */
  function ResultRow(count: nat, bm: string, bReq: string, wVal: string, wIdx: string, wLen: string,
                     pkt: string, rx: string, respHex: string, ascii: string): (row: Row)
    ensures |row| == 10 && row[6] == pkt && row[8] == Cut(respHex, 60)
  {
    [IntToString(count), bm, bReq, wVal, wIdx, wLen, pkt, rx, Cut(respHex, 60), Cut(ascii, 30)]
  }

  /** The scan starts at the packet-size column: for a request row whose
      packet size is written in decimal, the value read back is the packet
      size, whatever the device answered. */
  lemma {:induction false} ScanReadsPacketSize(count: nat, bm: string, bReq: string, wVal: string, wIdx: string, wLen: string,
                            pkt: string, rx: string, respHex: string, ascii: string)
    requires |pkt| > 0 && forall i :: 0 <= i < |pkt| ==> IsDigit(pkt[i])
    ensures ScanCells(ResultRow(count, bm, bReq, wVal, wIdx, wLen, pkt, rx, respHex, ascii), FirstScannedCell) == pkt
  {
    DecimalCell(pkt);
  }

  /** So a condition with the default row number (-1) reads the bottom row
      of the table, `rows[|rows| - 1]`: since `addTableRow` inserts each new
      row at the top, that is the oldest row logged, not the latest request.
      Its value is that row's packet size. */
  lemma {:induction false} LastRowReadsPacketSize(rows: seq<Row>, pkt: string)
    requires |rows| > 0 && |rows[|rows| - 1]| > FirstScannedCell && rows[|rows| - 1][FirstScannedCell] == pkt
    requires |pkt| > 0 && forall i :: 0 <= i < |pkt| ==> IsDigit(pkt[i])
    ensures TableValue(rows, 0, None) == pkt
  {
    DecimalCell(pkt);
    var last := rows[|rows| - 1];
    assert SelectRow(rows, -1) == Some(last);
    assert ScanCells(last, FirstScannedCell) == pkt;
    assert ResponseHex(rows, -1) == pkt;
    assert ToUpper(pkt) == pkt;
  }

  /** A decimal number is a hex cell, read back as it is. */
  lemma {:induction false} DecimalCell(t: string)
    requires |t| > 0 && forall i :: 0 <= i < |t| ==> IsDigit(t[i])
    ensures HexCell(t) && RemoveSpaces(t) == t
  {
    assert IsTrimmed(t) && NoSpaces(t);
    DigitsAreHexText(t);
  }

  lemma {:induction false} DigitsAreHexText(t: string)
    requires forall i :: 0 <= i < |t| ==> IsDigit(t[i])
    ensures IsHexText(t)
  {
    if |t| > 0 {
      assert forall i :: 0 <= i < |t[1..]| ==> t[1..][i] == t[i + 1];
      DigitsAreHexText(t[1..]);
    }
  }
}

=== FILE: control.dfy ===
/** The firmware's control-transfer construction on the USB host channel: the
    SETUP packet layout (section 9.3, Table 9-2 of the USB 2.0 specification),
    the DATA OUT stage split into 64-byte packets with DATA1/DATA0 toggling
    (section 8.6), the DATA IN poll outcome with the auto-recovery counters, and
    the device-info fetch with its cache. Register programming, DMA and delays
    are replaced by oracle outcomes: one result per DATA OUT packet, a sequence
    of channel interrupt polls, and the contents of the receive DMA buffer. */
module ControlTransfer {
  import opened Wrappers
  import opened Text
  import Descriptors

  const SetupPacketSize: nat := 8
  const ControlEp0Mps: nat := 64
  const MaxExtraData: nat := 248
  const DmaChunkSize: nat := 64
  const DefaultTimeoutMs: nat := 1000
  const DeviceDescriptorSize: nat := 18
  const MaxPacketSize: nat := 256
  const MaxConsecutiveFailures: nat := 5
  const MaxRecoveryAttempts: nat := 3

  /** A 32-bit `size_t`. */
  type SizeT = x: int | 0 <= x < 0x1_0000_0000

  /** The `extra_data[248]` array of a packet configuration. */
  type ExtraData = s: seq<byte> | |s| == 248 witness seq(248, _ => 0 as byte)

  /** A DMA buffer of 256 bytes. */
  type DmaBuffer = s: seq<byte> | |s| == 256 witness seq(256, _ => 0 as byte)

  /** A maximum packet size of endpoint 0; the source divides by it. */
  type Mps = x: int | 1 <= x < 0x1_0000 witness 64

  /** `usb_packet_config_t`. The response buffer is represented by its size,
      `None` standing for a NULL pointer. */
  datatype Config = Config(
    bmRequestType: byte, bRequest: byte, wValue: u16, wIndex: u16, wLength: u16,
    packetSize: SizeT, extraData: ExtraData,
    deviceAddr: byte, endpoint: byte, maxPacketSize: Mps,
    expectResponse: bool, timeoutMs: nat, maxNakRetries: int,
    responseBufferSize: Option<SizeT>)

  function Zeros(n: nat): (r: seq<byte>)
    ensures |r| == n && forall i :: 0 <= i < n ==> r[i] == 0
  {
    seq(n, _ => 0 as byte)
  }

  /** `usb_packet_config_default`: a standard 8-byte GET_DESCRIPTOR(Device)
      request for 18 bytes on endpoint 0 of address 0, with zeroed extra data. */
  function DefaultConfig(): (c: Config)
    ensures SetupHeader(c) == [0x80, 0x06, 0x00, 0x01, 0x00, 0x00, 0x12, 0x00]
    ensures c.packetSize == SetupPacketSize && c.wLength == DeviceDescriptorSize
  {
    Config(0x80, 0x06, 0x0100, 0x0000, DeviceDescriptorSize, SetupPacketSize, Zeros(248),
           0, 0, ControlEp0Mps, true, DefaultTimeoutMs, -1, None)
  }

  // ---------------------------------------------------------------------
  // SETUP packet, section 9.3
  // ---------------------------------------------------------------------

  /** The eight SETUP bytes of Table 9-2: bmRequestType, bRequest, then wValue,
      wIndex and wLength, each least significant byte first. */
  function SetupHeader(c: Config): (r: seq<byte>)
    ensures |r| == 8
  {
    [c.bmRequestType, c.bRequest,
     Descriptors.Lo(c.wValue), Descriptors.Hi(c.wValue),
     Descriptors.Lo(c.wIndex), Descriptors.Hi(c.wIndex),
     Descriptors.Lo(c.wLength), Descriptors.Hi(c.wLength)]
  }

  /** How many `extra_data` bytes follow the header in a packet of `size`
      bytes: none up to 8, then the excess, capped at 248. */
  function ExtraLength(size: nat): (n: nat)
    ensures n <= MaxExtraData
    ensures size <= 8 ==> n == 0
    ensures 8 < size <= 256 ==> n == size - 8
  {
    if size > SetupPacketSize then Min(size - SetupPacketSize, MaxExtraData) else 0
  }

  /** The 256-byte packet buffer after it is cleared and filled. */
  function SetupBuffer(c: Config): (r: DmaBuffer)
    ensures forall i :: 0 <= i < Min(c.packetSize, 8) ==> r[i] == SetupHeader(c)[i]
    ensures forall i :: 0 <= i < ExtraLength(c.packetSize) ==> r[8 + i] == c.extraData[i]
    ensures forall i :: Min(c.packetSize, 8) <= i < 8 ==> r[i] == 0
    ensures forall i :: 8 + ExtraLength(c.packetSize) <= i < 256 ==> r[i] == 0
  {
    var h := SetupHeader(c);
    var n := ExtraLength(c.packetSize);
    seq(256, i requires 0 <= i < 256 =>
      if i < 8 then (if i < c.packetSize then h[i] else 0)
      else if i < 8 + n then c.extraData[i - 8]
      else 0)
  }

  /** A full-size SETUP packet decodes back to the request fields. */
  lemma {:induction false} SetupLayout(c: Config)
    requires c.packetSize >= 8
    ensures var r := SetupBuffer(c);
            r[0] == c.bmRequestType && r[1] == c.bRequest
            && Descriptors.Le16(r[2], r[3]) == c.wValue
            && Descriptors.Le16(r[4], r[5]) == c.wIndex
            && Descriptors.Le16(r[6], r[7]) == c.wLength
  {
    var r := SetupBuffer(c);
    assert r[2] == SetupHeader(c)[2] && r[3] == SetupHeader(c)[3];
    assert r[4] == SetupHeader(c)[4] && r[5] == SetupHeader(c)[5];
    assert r[6] == SetupHeader(c)[6] && r[7] == SetupHeader(c)[7];
    Descriptors.Le16Split(c.wValue);
    Descriptors.Le16Split(c.wIndex);
    Descriptors.Le16Split(c.wLength);
  }

  /** `(packet_size + max_packet_size - 1) / max_packet_size`. */
  function PacketCount(size: nat, mps: Mps): nat {
    (size + mps - 1) / mps
  }

  /** The packet count is the ceiling of the size over the packet size. */
  lemma {:induction false} PacketCountIsCeiling(size: nat, mps: Mps)
    requires size > 0
    ensures var k := PacketCount(size, mps);
            (k - 1) * mps < size <= k * mps
  {
    var k := PacketCount(size, mps);
    var q := size + mps - 1;
    assert q == k * mps + q % mps;
  }

  // ---------------------------------------------------------------------
  // DATA OUT stage, section 8.6
  // ---------------------------------------------------------------------

  /** The data PID of a packet: the first DATA OUT packet is DATA1. */
  datatype Pid = Data0 | Data1

  datatype Chunk = Chunk(pid: Pid, bytes: seq<byte>)

  /** What the channel reports for one DATA OUT packet. */
  datatype ChunkResult = Acked | Stalled | Halted | TimedOut

  /** `esp_err_t` results of the transfer functions. */
  datatype Status = Ok | InvalidArg | Timeout | InvalidResponse | Fail

  /** The byte at position `j` of a DATA OUT stage of `length` bytes: from the
      extra data below `min(length, 248)`, zero after. */
  function Payload(data: ExtraData, length: nat, j: int): byte {
    if 0 <= j < Min(length, MaxExtraData) then data[j] else 0
  }

  function NumChunks(length: nat): nat {
    (length + DmaChunkSize - 1) / DmaChunkSize
  }

  function ChunkSize(length: nat, k: nat): (n: nat)
    requires k < NumChunks(length)
    ensures 0 < n <= DmaChunkSize
  {
    Min(DmaChunkSize, length - DmaChunkSize * k)
  }

  /** The `k`-th packet of the stage: 64 bytes (the last one shorter) starting at
      `64 * k`, with DATA1 on even and DATA0 on odd positions. */
  function ChunkAt(data: ExtraData, length: nat, k: nat): Chunk
    requires k < NumChunks(length)
  {
    Chunk(PidAt(k),
          PayloadSlice(data, length, DmaChunkSize * k, ChunkSize(length, k)))
  }

  function PidAt(k: nat): Pid {
    if k % 2 == 0 then Data1 else Data0
  }

  /** Consecutive packets alternate their PIDs. */
  lemma {:induction false} PidToggles(k: nat)
    ensures PidAt(k + 1) == if PidAt(k) == Data1 then Data0 else Data1
  {
  }

  /** `n` payload bytes starting at `start`. */
  function PayloadSlice(data: ExtraData, length: nat, start: nat, n: nat): (r: seq<byte>)
    ensures |r| == n && forall i :: 0 <= i < n ==> r[i] == Payload(data, length, start + i)
  {
    seq(n, i => if 0 <= start + i < Min(length, MaxExtraData) then data[start + i] else 0)
  }

  /** Packet `k` exists exactly when the packets before it leave bytes over. */
  lemma {:induction false} NumChunksBound(length: nat, k: nat)
    ensures DmaChunkSize * k < length <==> k < NumChunks(length)
  {
    var q := length + DmaChunkSize - 1;
    assert q == NumChunks(length) * DmaChunkSize + q % DmaChunkSize;
  }

  /** The first `count` packets of the stage. */
  function Chunks(data: ExtraData, length: nat, count: nat): (r: seq<Chunk>)
    requires count <= NumChunks(length)
    ensures |r| == count
    ensures forall k :: 0 <= k < count ==> r[k] == ChunkAt(data, length, k)
  {
    seq(count, k requires 0 <= k < count => ChunkAt(data, length, k))
  }

  /** The oracle's result for packet `k`; a missing result is a timeout. */
  function ResultAt(results: seq<ChunkResult>, k: nat): ChunkResult {
    if k < |results| then results[k] else TimedOut
  }

  /** The position of the first packet, from `k` on, that is not acknowledged,
      or `n` when all of them are. */
  function FirstFailure(results: seq<ChunkResult>, k: nat, n: nat): (f: nat)
    requires k <= n
    ensures k <= f <= n
    ensures forall j :: k <= j < f ==> ResultAt(results, j) == Acked
    ensures f < n ==> ResultAt(results, f) != Acked
    decreases n - k
  {
    if k == n || ResultAt(results, k) != Acked then k else FirstFailure(results, k + 1, n)
  }

  function FailureStatus(r: ChunkResult): Status {
    match r
    case Acked => Ok
    case Stalled => InvalidResponse
    case Halted => Fail
    case TimedOut => Timeout
  }

  /** The declarative outcome of a DATA OUT stage: every packet up to and
      including the first one that is not acknowledged is handed to the channel,
      and that packet decides the status. */
  function WriteOutcome(data: ExtraData, length: nat, results: seq<ChunkResult>): (res: (Status, seq<Chunk>))
    ensures res.0 == Ok <==> forall j :: 0 <= j < NumChunks(length) ==> ResultAt(results, j) == Acked
    ensures res.0 == Ok ==> |res.1| == NumChunks(length)
    ensures res.0 != Ok ==> 0 < |res.1| <= NumChunks(length) && ResultAt(results, |res.1| - 1) != Acked
    ensures forall k :: 0 <= k < |res.1| ==> res.1[k] == ChunkAt(data, length, k)
  {
    var n := NumChunks(length);
    var f := FirstFailure(results, 0, n);
    if f == n then (Ok, Chunks(data, length, n))
    else (FailureStatus(ResultAt(results, f)), Chunks(data, length, f + 1))
  }

  /** The 64-byte DMA buffer of one packet: cleared, then the part of the
      packet that lies below `available` copied from the extra data. */
  function DmaChunk(data: ExtraData, available: nat, totalSent: nat, chunkSize: nat): (r: seq<byte>)
    requires available <= MaxExtraData
    ensures |r| == chunkSize
  {
    seq(chunkSize, i => if 0 <= totalSent + i < available then data[totalSent + i] else 0)
  }

  lemma {:induction false} DmaChunkIsPacket(data: ExtraData, length: nat, k: nat)
    requires k < NumChunks(length)
    ensures DmaChunk(data, Min(length, MaxExtraData), DmaChunkSize * k, ChunkSize(length, k))
            == ChunkAt(data, length, k).bytes
  {
  }

  /** `usb_write_data`: the packet loop as the firmware runs it, with the
      oracle's result for each packet. `sent` lists the packets handed to the
      channel, including a final one that failed. */
  method WriteData(data: ExtraData, length: nat, results: seq<ChunkResult>) returns (status: Status, sent: seq<Chunk>)
    ensures (status, sent) == WriteOutcome(data, length, results)
  {
    var available := if length > MaxExtraData then MaxExtraData else length;
    var totalSent := 0;
    var pid := Data1;
    var k := 0;
    sent := [];
    NumChunksBound(length, 0);
    while totalSent < length
      invariant totalSent == Min(length, DmaChunkSize * k)
      invariant totalSent < length <==> k < NumChunks(length)
      invariant k <= NumChunks(length)
      invariant pid == PidAt(k)
      invariant sent == Chunks(data, length, k)
      invariant FirstFailure(results, 0, NumChunks(length)) >= k
      decreases length - totalSent
    {
      var remaining := length - totalSent;
      var chunkSize := if remaining > DmaChunkSize then DmaChunkSize else remaining;
      DmaChunkIsPacket(data, length, k);
      sent := sent + [Chunk(pid, DmaChunk(data, available, totalSent, chunkSize))];
      ChunksSnoc(data, length, k);
      FirstFailureFrom(results, k, NumChunks(length));
      var outcome := ResultAt(results, k);
      if outcome != Acked {
        return FailureStatus(outcome), sent;
      }
      totalSent := totalSent + chunkSize;
      pid := if pid == Data1 then Data0 else Data1;
      PidToggles(k);
      k := k + 1;
      NumChunksBound(length, k);
    }
    status := Ok;
  }

  lemma {:induction false} ChunksSnoc(data: ExtraData, length: nat, k: nat)
    requires k < NumChunks(length)
    ensures Chunks(data, length, k + 1) == Chunks(data, length, k) + [ChunkAt(data, length, k)]
  {
  }

  /** Once the first `k` packets are acknowledged, the first failure is packet
      `k` exactly when packet `k` fails. */
  lemma {:induction false} FirstFailureFrom(results: seq<ChunkResult>, k: nat, n: nat)
    requires k < n && FirstFailure(results, 0, n) >= k
    ensures ResultAt(results, k) != Acked <==> FirstFailure(results, 0, n) == k
  {
  }

  /** The packets of a complete stage carry exactly the stage's bytes: together
      they are `length` bytes long, taken from the extra data up to 248 bytes and
      zero beyond. */
  lemma {:induction false} ChunksCoverPayload(data: ExtraData, length: nat, count: nat)
    requires count <= NumChunks(length)
    ensures var bytes := ChunkBytes(Chunks(data, length, count));
            |bytes| == Min(length, DmaChunkSize * count)
            && forall j :: 0 <= j < |bytes| ==> bytes[j] == Payload(data, length, j)
  {
    if count > 0 {
      var cs := Chunks(data, length, count);
      assert cs[..count - 1] == Chunks(data, length, count - 1);
      ChunksCoverPayload(data, length, count - 1);
      ChunkBytesSnoc(cs[..count - 1], cs[count - 1]);
      assert cs == cs[..count - 1] + [cs[count - 1]];
    }
  }

  /** The payload bytes of a packet list, in order. */
  function ChunkBytes(cs: seq<Chunk>): seq<byte> {
    if |cs| == 0 then [] else ChunkBytes(cs[..|cs| - 1]) + cs[|cs| - 1].bytes
  }

  lemma {:induction false} ChunkBytesSnoc(cs: seq<Chunk>, c: Chunk)
    ensures ChunkBytes(cs + [c]) == ChunkBytes(cs) + c.bytes
  {
    assert (cs + [c])[..|cs|] == cs;
  }

  /** A stage of `length` bytes needs `ceil(length / 64)` packets, and together
      they carry exactly `length` bytes. */
  lemma {:induction false} WholeStageLength(data: ExtraData, length: nat)
    ensures |ChunkBytes(Chunks(data, length, NumChunks(length)))| == length
  {
    ChunksCoverPayload(data, length, NumChunks(length));
    var n := NumChunks(length);
    var q := length + DmaChunkSize - 1;
    assert q == n * DmaChunkSize + q % DmaChunkSize;
  }

  // ---------------------------------------------------------------------
  // DATA IN stage and auto-recovery
  // ---------------------------------------------------------------------

  /** One read of the channel interrupt register: halted (CHHLTD), transfer
      complete (XFERCOMPL), NAK, and the transfer-size register's remaining
      count. */
  datatype Poll = Poll(halted: bool, complete: bool, nak: bool, remaining: SizeT)

  datatype PollVerdict = Received(count: nat) | NoData

  /** The count `xfer - remaining` as the firmware computes it in `size_t`. */
  function ReceivedCount(xfer: nat, remaining: SizeT): SizeT {
    (xfer - remaining) % 0x1_0000_0000
  }

  /** The wrapped count lands in `1..xfer` exactly when less than the transfer
      size remains. */
  lemma {:induction false} ReceivedCountInRange(xfer: nat, remaining: SizeT)
    requires xfer < 0x1_0000_0000
    ensures 0 < ReceivedCount(xfer, remaining) <= xfer <==> remaining < xfer
    ensures remaining < xfer ==> ReceivedCount(xfer, remaining) == xfer - remaining
  {
    if remaining > xfer {
      assert ReceivedCount(xfer, remaining) == xfer - remaining + 0x1_0000_0000;
    }
  }

  /** The poll loop of `usb_read_response` with the transfer size `xfer`
      programmed: a halt without completion on the very first poll is skipped as
      stale; a halt with completion and a count in `1..xfer` delivers the data; a
      halt with NAK re-arms the channel; any other halt ends the loop; running
      out of polls is the timeout. */
  function PollLoop(polls: seq<Poll>, xfer: nat, first: bool): (v: PollVerdict)
    ensures v.Received? ==> 0 < v.count <= xfer
    decreases |polls|
  {
    if |polls| == 0 then NoData
    else
      var p := polls[0];
      if first && p.halted && !p.complete then PollLoop(polls[1..], xfer, false)
      else if p.halted then
        var n := ReceivedCount(xfer, p.remaining);
        if p.complete && 0 < n <= xfer then Received(n)
        else if p.nak then PollLoop(polls[1..], xfer, false)
        else NoData
      else PollLoop(polls[1..], xfer, false)
  }

  /** Data is delivered only by a completed transfer whose remaining count is
      below the transfer size, and the count delivered is what was not left. */
  lemma {:induction false} PollLoopWitness(polls: seq<Poll>, xfer: nat, first: bool)
    requires xfer < 0x1_0000_0000
    requires PollLoop(polls, xfer, first).Received?
    ensures exists k :: 0 <= k < |polls| && polls[k].halted && polls[k].complete
                        && polls[k].remaining < xfer
                        && PollLoop(polls, xfer, first).count == xfer - polls[k].remaining
    decreases |polls|
  {
    var p := polls[0];
    var n := ReceivedCount(xfer, p.remaining);
    ReceivedCountInRange(xfer, p.remaining);
    if p.halted && !(first && !p.complete) && p.complete && 0 < n <= xfer {
    } else {
      PollLoopWitness(polls[1..], xfer, false);
      var k :| 0 <= k < |polls[1..]| && polls[1..][k].halted && polls[1..][k].complete
               && polls[1..][k].remaining < xfer
               && PollLoop(polls[1..], xfer, false).count == xfer - polls[1..][k].remaining;
      assert polls[k + 1] == polls[1..][k];
    }
  }

  /** The auto-recovery counters `consecutive_failures` and `recovery_attempts`. */
  datatype Recovery = Recovery(failures: nat, attempts: nat)

  datatype RecoveryAction = NoAction | BusReset | PowerCycle

  /** The counters between two reads. */
  predicate ValidRecovery(r: Recovery) {
    r.failures < MaxConsecutiveFailures && r.attempts < MaxRecoveryAttempts
  }

  /** A failed read: one more consecutive failure; at the fifth, one more
      recovery attempt and a bus reset, or at the third attempt a power cycle
      and the attempts start over; the failure count then starts over. */
  function AfterFailure(r: Recovery): (res: (Recovery, RecoveryAction))
    ensures res.1 == NoAction <==> r.failures + 1 < MaxConsecutiveFailures
    ensures res.1 == NoAction ==> res.0 == Recovery(r.failures + 1, r.attempts)
    ensures res.1 == BusReset ==> res.0 == Recovery(0, r.attempts + 1)
    ensures res.1 == PowerCycle <==>
              r.failures + 1 >= MaxConsecutiveFailures && r.attempts + 1 >= MaxRecoveryAttempts
    ensures res.1 == PowerCycle ==> res.0 == Recovery(0, 0)
  {
    var failures := r.failures + 1;
    if failures >= MaxConsecutiveFailures then
      var attempts := r.attempts + 1;
      if attempts >= MaxRecoveryAttempts then (Recovery(0, 0), PowerCycle)
      else (Recovery(0, attempts), BusReset)
    else (Recovery(failures, r.attempts), NoAction)
  }

  lemma {:induction false} AfterFailureKeepsValid(r: Recovery)
    requires ValidRecovery(r)
    ensures ValidRecovery(AfterFailure(r).0)
  {
  }

  /** The counters after `k` failed reads in a row from a fresh start. */
  function FailRepeatedly(k: nat): Recovery
    decreases k
  {
    if k == 0 then Recovery(0, 0) else AfterFailure(FailRepeatedly(k - 1)).0
  }

  /** After `k` consecutive failures the counters are `k mod 5` and
      `(k div 5) mod 3`; the `k`-th failure resets the bus when `k` is a
      multiple of 5 but not of 15, and power-cycles when it is a multiple of
      15. */
  lemma {:induction false} FailRepeatedlyClosedForm(k: nat)
    ensures FailRepeatedly(k) == Recovery(k % 5, (k / 5) % 3)
    ensures k > 0 ==> AfterFailure(FailRepeatedly(k - 1)).1
                      == if k % 15 == 0 then PowerCycle else if k % 5 == 0 then BusReset else NoAction
  {
    if k > 0 {
      var j := k - 1;
      FailRepeatedlyClosedForm(j);
      CountersStep(j);
      var r := Recovery(j % 5, (j / 5) % 3);
      assert FailRepeatedly(k) == AfterFailure(r).0;
      if j % 5 + 1 == 5 {
        if (j / 5) % 3 + 1 == 3 {
          assert AfterFailure(r) == (Recovery(0, 0), PowerCycle);
        } else {
          assert AfterFailure(r) == (Recovery(0, (j / 5) % 3 + 1), BusReset);
        }
      } else {
        assert AfterFailure(r) == (Recovery(j % 5 + 1, (j / 5) % 3), NoAction);
      }
    }
  }

  /** How `k mod 5` and `(k div 5) mod 3` move from `j` to `j + 1`. */
  lemma {:induction false} CountersStep(j: nat)
    ensures var k := j + 1;
            && (j % 5 + 1 == 5 <==> k % 5 == 0)
            && (k % 5 != 0 ==> k / 5 == j / 5 && k % 5 == j % 5 + 1)
            && (k % 5 == 0 ==> k / 5 == j / 5 + 1 && ((j / 5) % 3 + 1 == 3 <==> k % 15 == 0))
            && (k % 5 == 0 ==> ((j / 5) % 3 + 1 < 3 ==> (k / 5) % 3 == (j / 5) % 3 + 1))
            && (k % 5 == 0 ==> ((j / 5) % 3 + 1 == 3 ==> (k / 5) % 3 == 0))
  {
    var k := j + 1;
    var q, r := j / 5, j % 5;
    if r < 4 {
      DivMod5(k, q, r + 1);
    } else {
      DivMod5(k, q + 1, 0);
      var a, b := q / 3, q % 3;
      if b < 2 {
        DivMod3(q + 1, a, b + 1);
        DivMod15(k, a, 5 * (b + 1));
      } else {
        DivMod3(q + 1, a + 1, 0);
        DivMod15(k, a + 1, 0);
      }
    }
  }

  /** Division by 5 is determined by quotient and remainder. */
  lemma {:induction false} DivMod5(k: int, q: int, r: int)
    requires k == 5 * q + r && 0 <= r < 5
    ensures k / 5 == q && k % 5 == r
  {
  }

  lemma {:induction false} DivMod3(k: int, q: int, r: int)
    requires k == 3 * q + r && 0 <= r < 3
    ensures k / 3 == q && k % 3 == r
  {
  }

  lemma {:induction false} DivMod15(k: int, q: int, r: int)
    requires k == 15 * q + r && 0 <= r < 15
    ensures k % 15 == r
  {
  }

  datatype ReadResult = ReadResult(status: Status, bytesRead: nat, data: seq<byte>, recovery: Recovery, action: RecoveryAction)

  /** `usb_read_response` into a buffer of `maxLen` bytes, with the transfer
      size limited to the 256-byte receive DMA buffer (see
      `ReadCountAsWritten`). Success copies the received bytes and clears both
      counters; anything else reports 0 bytes, a timeout, and counts a
      failure. */
  function ReadResponse(maxLen: nat, polls: seq<Poll>, rx: DmaBuffer, r: Recovery): (res: ReadResult)
    ensures res.status == Ok || res.status == Timeout
    ensures res.status == Ok ==> 0 < res.bytesRead <= Min(maxLen, MaxPacketSize)
                                 && res.data == rx[..res.bytesRead] && res.recovery == Recovery(0, 0)
    ensures res.status == Timeout ==> res.bytesRead == 0 && res.data == []
                                      && (res.recovery, res.action) == AfterFailure(r)
  {
    match PollLoop(polls, Min(maxLen, MaxPacketSize), true)
    case Received(n) => ReadResult(Ok, n, rx[..n], Recovery(0, 0), NoAction)
    case NoData =>
      var (r', action) := AfterFailure(r);
      ReadResult(Timeout, 0, [], r', action)
  }

  /** The count `usb_read_response` accepts as written: the transfer size is
      the caller's `max_len`, with no regard to the 256-byte receive DMA
      buffer. */
  function ReadCountAsWritten(maxLen: nat, polls: seq<Poll>): PollVerdict {
    PollLoop(polls, maxLen, true)
  }

  /** With the request handler's 512-byte response buffer, a device that fills
      the transfer makes the firmware accept 512 bytes, twice the receive DMA
      buffer it copies them from. */
  lemma {:induction false} ReadCountAsWrittenOverruns()
    ensures ReadCountAsWritten(512, [Poll(true, true, false, 0)]) == Received(512)
    ensures 512 > MaxPacketSize
  {
  }

  /** With the transfer size limited, no accepted count exceeds the receive DMA
      buffer or the caller's buffer. */
  lemma {:induction false} ReadResponseFitsBuffers(maxLen: nat, polls: seq<Poll>, rx: DmaBuffer, r: Recovery)
    ensures ReadResponse(maxLen, polls, rx, r).bytesRead <= MaxPacketSize
    ensures ReadResponse(maxLen, polls, rx, r).bytesRead <= maxLen
  {
  }

  // ---------------------------------------------------------------------
  // usb_send_packet
  // ---------------------------------------------------------------------

  /** The hardware's side of one transfer: a result per DATA OUT packet, the
      interrupt polls of a DATA IN stage, and what the DMA engine leaves in the
      receive buffer. */
  datatype Bus = Bus(chunkResults: seq<ChunkResult>, polls: seq<Poll>, rx: DmaBuffer)

  /** What one transfer did: its status, the bytes handed to the DMA engine for
      the SETUP stage, its packet count, the DATA OUT packets, the bytes read,
      and the recovery counters after it. */
  datatype Transfer = Transfer(
    status: Status, setupFrame: seq<byte>, packetCount: nat, dataOut: seq<Chunk>,
    bytesRead: nat, received: seq<byte>, recovery: Recovery, action: RecoveryAction)

  predicate IsHostToDevice(c: Config) {
    c.bmRequestType < 0x80
  }

  /** The guard of `usb_send_packet_impl` as written: only a NULL configuration
      and a zero packet size are rejected. */
  predicate AcceptedAsWritten(config: Option<Config>) {
    config.Some? && config.value.packetSize != 0
  }

  /** The guard with the bound the 256-byte DMA buffer needs. */
  predicate Accepted(config: Option<Config>) {
    config.Some? && 0 < config.value.packetSize <= MaxPacketSize
  }

  /** With no custom data, the request handler passes any packet size through,
      and the guard as written lets 300 through although the SETUP DMA copy
      holds 256 bytes. */
  lemma {:induction false} AcceptedAsWrittenOverruns(c: Config)
    requires c.packetSize == 300
    ensures AcceptedAsWritten(Some(c)) && !Accepted(Some(c))
    ensures c.packetSize > |SetupBuffer(c)|
  {
  }

  /** `usb_send_packet_impl` with the packet-size bound: a rejected
      configuration touches nothing; otherwise the first `packet_size` bytes of
      the SETUP buffer go out, then a DATA OUT stage of `wLength` bytes for a
      host-to-device request with data, or a DATA IN stage into the response
      buffer for a device-to-host request that expects one, or nothing. */
  function SendPacket(config: Option<Config>, bus: Bus, r: Recovery): (t: Transfer)
    ensures !Accepted(config) ==> t == Transfer(InvalidArg, [], 0, [], 0, [], r, NoAction)
    ensures Accepted(config) ==> t.setupFrame == SetupBuffer(config.value)[..config.value.packetSize]
    ensures Accepted(config) && IsHostToDevice(config.value) && config.value.wLength > 0 ==>
              (t.status, t.dataOut) == WriteOutcome(config.value.extraData, config.value.wLength, bus.chunkResults)
              && t.recovery == r && t.bytesRead == 0 && t.received == []
    ensures Accepted(config) && !IsHostToDevice(config.value) && config.value.expectResponse
            && config.value.responseBufferSize.Some? ==>
              var res := ReadResponse(config.value.responseBufferSize.value, bus.polls, bus.rx, r);
              && t.status == res.status && t.bytesRead == res.bytesRead && t.received == res.data
              && t.recovery == res.recovery && t.action == res.action && t.dataOut == []
    ensures Accepted(config) && !(IsHostToDevice(config.value) && config.value.wLength > 0)
            && !(!IsHostToDevice(config.value) && config.value.expectResponse
                 && config.value.responseBufferSize.Some?) ==>
              && t.status == Ok && t.dataOut == [] && t.bytesRead == 0 && t.received == []
              && t.recovery == r && t.action == NoAction
    ensures t.recovery != r ==> Accepted(config) && !IsHostToDevice(config.value)
    ensures |t.received| == t.bytesRead
  {
    if !Accepted(config) then Transfer(InvalidArg, [], 0, [], 0, [], r, NoAction)
    else
      var c := config.value;
      var frame := SetupBuffer(c)[..c.packetSize];
      var count := PacketCount(c.packetSize, c.maxPacketSize);
      if IsHostToDevice(c) && c.wLength > 0 then
        var (status, sent) := WriteOutcome(c.extraData, c.wLength, bus.chunkResults);
        Transfer(status, frame, count, sent, 0, [], r, NoAction)
      else if !IsHostToDevice(c) && c.expectResponse && c.responseBufferSize.Some? then
        var res := ReadResponse(c.responseBufferSize.value, bus.polls, bus.rx, r);
        Transfer(res.status, frame, count, [], res.bytesRead, res.data, res.recovery, res.action)
      else Transfer(Ok, frame, count, [], 0, [], r, NoAction)
  }

  /** An accepted transfer's SETUP frame of 8 bytes or more starts with the
      configuration's request fields. */
  lemma {:induction false} SendPacketFrame(c: Config, bus: Bus, r: Recovery)
    requires Accepted(Some(c)) && c.packetSize >= 8
    ensures var frame := SendPacket(Some(c), bus, r).setupFrame;
            && |frame| >= 8 && frame[0] == c.bmRequestType && frame[1] == c.bRequest
            && Descriptors.Le16(frame[2], frame[3]) == c.wValue
            && Descriptors.Le16(frame[4], frame[5]) == c.wIndex
            && Descriptors.Le16(frame[6], frame[7]) == c.wLength
  {
    SetupLayout(c);
  }

  /** `max_nak_retries` is carried in the configuration but never read: the
      transfer does not depend on it. */
  lemma {:induction false} SendPacketIgnoresNakRetries(c: Config, m: int, bus: Bus, r: Recovery)
    ensures SendPacket(Some(c), bus, r) == SendPacket(Some(c.(maxNakRetries := m)), bus, r)
  {
    var c' := c.(maxNakRetries := m);
    assert SetupHeader(c') == SetupHeader(c);
    assert SetupBuffer(c') == SetupBuffer(c);
  }

  // ---------------------------------------------------------------------
  // Device info and its cache
  // ---------------------------------------------------------------------

  /** `usb_device_info_t`. */
  datatype DeviceInfo = DeviceInfo(
    connected: bool, vid: u16, pid: u16, deviceClass: byte, deviceSubClass: byte,
    deviceProtocol: byte, maxPacketSize: byte, manufacturer: string, product: string, serial: string)

  /** A zero-filled record. */
  function BlankInfo(): DeviceInfo {
    DeviceInfo(false, 0, 0, 0, 0, 0, 0, "", "", "")
  }

  /** The request the device-info fetch sends: GET_DESCRIPTOR(Device) for 18
      bytes into an 18-byte buffer with a 500 ms timeout. */
  function DeviceInfoConfig(): (c: Config)
    ensures SetupHeader(c) == SetupHeader(DefaultConfig())
    ensures !IsHostToDevice(c) && c.expectResponse && c.responseBufferSize == Some(DeviceDescriptorSize)
  {
    Config(0x80, 0x06, 0x0100, 0x0000, DeviceDescriptorSize, SetupPacketSize, Zeros(248),
           0, 0, ControlEp0Mps, true, 500, 50, Some(DeviceDescriptorSize))
  }

  /** The firmware state the fetch reads and writes. */
  datatype InfoState = InfoState(cache: DeviceInfo, needsReset: bool, recovery: Recovery)

  datatype InfoResult = InfoResult(status: Status, info: DeviceInfo, state: InfoState, resetSent: bool, transfer: Option<Transfer>)

  /** `usb_get_device_info_impl`: with no device, report not connected and mark
      the cache stale; with a valid cache, return it; otherwise reset the bus
      if a reset is pending, fetch the device descriptor, and on a full
      18-byte answer decode it, cache it (with empty strings) and return it
      with "N/A" strings. */
  function GetDeviceInfo(connected: bool, s: InfoState, bus: Bus): (res: InfoResult)
    ensures !connected ==> res.status == Fail && !res.info.connected && !res.state.cache.connected
    ensures connected && s.cache.connected ==> res.status == Ok && res.info == s.cache && res.state == s
    ensures res.status == Ok && !s.cache.connected ==>
              res.state.cache == res.info.(manufacturer := "", product := "", serial := "")
              && res.info.connected
  {
    if !connected then
      InfoResult(Fail, BlankInfo(), s.(cache := s.cache.(connected := false)), false, None)
    else if s.cache.connected then
      InfoResult(Ok, s.cache, s, false, None)
    else
      var t := SendPacket(Some(DeviceInfoConfig()), bus, s.recovery);
      var s' := s.(needsReset := false, recovery := t.recovery);
      if t.status == Ok && t.bytesRead >= DeviceDescriptorSize then
        var d := t.received;
        var parsed := DeviceInfo(true, Descriptors.Le16(d[8], d[9]), Descriptors.Le16(d[10], d[11]),
                                 d[4], d[5], d[6], d[7], "", "", "");
        InfoResult(Ok, parsed.(manufacturer := "N/A", product := "N/A", serial := "N/A"),
                   s'.(cache := parsed), s.needsReset, Some(t))
      else
        InfoResult(Fail, BlankInfo().(connected := true), s', s.needsReset, Some(t))
  }

  /** The fetched fields are those of the device descriptor (section 9.6.1) in
      the 18 bytes received. */
  lemma {:induction false} DeviceInfoMatchesDescriptor(s: InfoState, bus: Bus)
    requires !s.cache.connected
    requires GetDeviceInfo(true, s, bus).status == Ok
    ensures var res := GetDeviceInfo(true, s, bus);
            var dd := Descriptors.ParseDeviceDescriptor(res.transfer.value.received);
            dd.Some? && res.info.vid == dd.value.idVendor && res.info.pid == dd.value.idProduct
            && res.info.deviceClass == dd.value.deviceClass && res.info.deviceSubClass == dd.value.deviceSubClass
            && res.info.deviceProtocol == dd.value.deviceProtocol && res.info.maxPacketSize == dd.value.maxPacketSize0
  {
  }

  /** The answer of a fresh fetch and the cached answer that follows it differ
      in their strings: "N/A" the first time, empty afterwards. */
  lemma {:induction false} CachedInfoLosesStrings(s: InfoState, bus: Bus, bus2: Bus)
    requires !s.cache.connected
    requires GetDeviceInfo(true, s, bus).status == Ok
    ensures var first := GetDeviceInfo(true, s, bus);
            var second := GetDeviceInfo(true, first.state, bus2);
            first.info.manufacturer == "N/A" && second.info.manufacturer == ""
            && second.info.vid == first.info.vid && second.info.pid == first.info.pid
  {
  }
}

=== FILE: descriptors.dfy ===
/** The browser client's decoding of USB standard descriptors (chapter 9 of the
    USB 2.0 specification) and of the hexadecimal dump the firmware returns:
    device descriptor (section 9.6.1), configuration, interface and endpoint
    descriptors (sections 9.6.3, 9.6.5, 9.6.6), LANGID list and string
    descriptors (section 9.6.7), BCD version text, and the hex-byte formatter. */
module Descriptors {
  import opened Wrappers
  import opened Text

  /** `lo | (hi << 8)`: a little-endian 16-bit field. */
  function Le16(lo: byte, hi: byte): u16 {
    lo + hi * 0x100
  }

  function Lo(v: u16): byte { v % 0x100 }
  function Hi(v: u16): byte { v / 0x100 }

  /** `Lo` and `Hi` split a 16-bit value into the bytes `Le16` joins. */
  lemma {:induction false} Le16Split(v: u16)
    ensures Le16(Lo(v), Hi(v)) == v
  {
  }

  lemma {:induction false} Le16Parts(lo: byte, hi: byte)
    ensures Lo(Le16(lo, hi)) == lo && Hi(Le16(lo, hi)) == hi
  {
  }

  // ---------------------------------------------------------------------
  // The hex dump a transfer result carries, and the hex-byte formatter
  // ---------------------------------------------------------------------

  /** Every two characters of the whitespace-free text, read with
      `parseInt(_, 16)`; a trailing odd character is read on its own. `None`
      is NaN. */
  function HexPairs(t: string): (r: seq<Option<int>>)
    ensures |r| == (|t| + 1) / 2
  {
    if |t| == 0 then []
    else if |t| == 1 then [JsParseInt(t, Hex)]
    else [JsParseInt(t[..2], Hex)] + HexPairs(t[2..])
  }

  /** The byte array the client builds from a result's `data` text. */
  function ParseHexDump(data: string): seq<Option<int>> {
    HexPairs(RemoveSpaces(data))
  }

  /** The client's descriptor fetch: the parsed dump when the result has a
      non-empty `data` text and a positive byte count, nothing otherwise. */
  function DescriptorResponse(data: Option<string>, bytesReceived: int): (r: Option<seq<Option<int>>>)
    ensures r.Some? <==> data.Some? && data.value != "" && bytesReceived > 0
  {
    if data.Some? && data.value != "" && bytesReceived > 0 then Some(ParseHexDump(data.value)) else None
  }

  /** The two-digit hexadecimal spellings of `bs`, back to back. */
  function HexDigits(bs: seq<byte>, upper: bool): (r: string)
    ensures |r| == 2 * |bs|
    ensures NoSpaces(r)
  {
    if |bs| == 0 then "" else HexByte(bs[0], upper) + HexDigits(bs[1..], upper)
  }

  /** `formatHexBytes`: upper-case two-digit bytes separated by single spaces. */
  function FormatHexBytes(bs: seq<byte>): string {
    Join(seq(|bs|, i requires 0 <= i < |bs| => HexByte(bs[i], true)), " ")
  }

  function AsSome(bs: seq<byte>): (r: seq<Option<int>>)
    ensures |r| == |bs|
    ensures forall i :: 0 <= i < |bs| ==> r[i] == Some(bs[i] as int)
  {
    seq(|bs|, i requires 0 <= i < |bs| => Some(bs[i] as int))
  }

  /** Back-to-back hex digit pairs read back as the bytes they spell. */
  lemma {:induction false} HexPairsOfDigits(bs: seq<byte>, upper: bool)
    ensures HexPairs(HexDigits(bs, upper)) == AsSome(bs)
  {
    if |bs| > 0 {
      HexPairsStep(bs, upper);
      HexPairsOfDigits(bs[1..], upper);
    }
  }

  lemma {:induction false} HexPairsStep(bs: seq<byte>, upper: bool)
    requires |bs| > 0
    ensures HexPairs(HexDigits(bs, upper)) == [Some(bs[0] as int)] + HexPairs(HexDigits(bs[1..], upper))
    ensures AsSome(bs) == [Some(bs[0] as int)] + AsSome(bs[1..])
  {
    HexPairsCons(HexByte(bs[0], upper), HexDigits(bs[1..], upper));
    ParseIntOfHexByte(bs[0], upper);
  }

  lemma {:induction false} HexPairsCons(h: string, rest: string)
    requires |h| == 2
    ensures HexPairs(h + rest) == [JsParseInt(h, Hex)] + HexPairs(rest)
  {
    assert (h + rest)[..2] == h;
    assert (h + rest)[2..] == rest;
  }

  /** `formatHexBytes` loses nothing but the separators. */
  lemma {:induction false} FormatHexBytesDigits(bs: seq<byte>)
    ensures RemoveSpaces(FormatHexBytes(bs)) == HexDigits(bs, true)
  {
    if |bs| == 1 {
      assert FormatHexBytes(bs) == HexByte(bs[0], true);
      assert HexDigits(bs[1..], true) == "";
      assert HexByte(bs[0], true) + "" == HexByte(bs[0], true);
    } else if |bs| > 1 {
      FormatHexBytesStep(bs);
      FormatHexBytesDigits(bs[1..]);
    }
  }

  lemma {:induction false} FormatHexBytesStep(bs: seq<byte>)
    requires |bs| > 1
    ensures RemoveSpaces(FormatHexBytes(bs)) == HexByte(bs[0], true) + RemoveSpaces(FormatHexBytes(bs[1..]))
  {
    FormatHexBytesCons(bs);
    var h := HexByte(bs[0], true);
    RemoveSpacesAppend(h + " ", FormatHexBytes(bs[1..]));
    RemoveSpacesAppend(h, " ");
    assert RemoveSpaces(" ") == "";
    HexByteHasNoSpaces(bs[0], true);
  }

  lemma {:induction false} FormatHexBytesCons(bs: seq<byte>)
    requires |bs| > 1
    ensures FormatHexBytes(bs) == (HexByte(bs[0], true) + " ") + FormatHexBytes(bs[1..])
  {
    var parts := seq(|bs|, i requires 0 <= i < |bs| => HexByte(bs[i], true));
    var rest := seq(|bs| - 1, i requires 0 <= i < |bs| - 1 => HexByte(bs[1..][i], true));
    assert parts[1..] == rest;
  }

  /** The hex-dump parser inverts `formatHexBytes`. */
  lemma {:induction false} HexDumpRoundTrip(bs: seq<byte>)
    ensures ParseHexDump(FormatHexBytes(bs)) == AsSome(bs)
  {
    FormatHexBytesDigits(bs);
    HexPairsOfDigits(bs, true);
  }

  // ---------------------------------------------------------------------
  // Device descriptor, section 9.6.1
  // ---------------------------------------------------------------------

  datatype DeviceDescriptor = DeviceDescriptor(
    bcdUsb: u16, deviceClass: byte, deviceSubClass: byte, deviceProtocol: byte,
    maxPacketSize0: byte, idVendor: u16, idProduct: u16, bcdDevice: u16,
    numConfigurations: byte)

  /** `parseDeviceDescriptor`: nothing below 18 bytes; otherwise the fields at
      their section 9.6.1 offsets (bLength, bDescriptorType and the string
      indices are not read). */
  function ParseDeviceDescriptor(d: seq<byte>): (r: Option<DeviceDescriptor>)
    ensures r.None? <==> |d| < 18
  {
    if |d| < 18 then None
    else Some(DeviceDescriptor(
      Le16(d[2], d[3]), d[4], d[5], d[6], d[7],
      Le16(d[8], d[9]), Le16(d[10], d[11]), Le16(d[12], d[13]), d[17]))
  }

  /** The 18 bytes a device sends for `dd`, with the given string indices. */
  function EncodeDeviceDescriptor(dd: DeviceDescriptor, iManufacturer: byte, iProduct: byte, iSerial: byte): (r: seq<byte>)
    ensures |r| == 18 && r[0] == 18 && r[1] == 1
  {
    [18, 1, Lo(dd.bcdUsb), Hi(dd.bcdUsb), dd.deviceClass, dd.deviceSubClass, dd.deviceProtocol,
     dd.maxPacketSize0, Lo(dd.idVendor), Hi(dd.idVendor), Lo(dd.idProduct), Hi(dd.idProduct),
     Lo(dd.bcdDevice), Hi(dd.bcdDevice), iManufacturer, iProduct, iSerial, dd.numConfigurations]
  }

  /** Decoding an encoded device descriptor, whatever follows it, gives it back. */
  lemma {:induction false} DeviceDescriptorRoundTrip(dd: DeviceDescriptor, iManufacturer: byte, iProduct: byte, iSerial: byte, trailing: seq<byte>)
    ensures ParseDeviceDescriptor(EncodeDeviceDescriptor(dd, iManufacturer, iProduct, iSerial) + trailing) == Some(dd)
  {
    Le16Split(dd.bcdUsb);
    Le16Split(dd.idVendor);
    Le16Split(dd.idProduct);
    Le16Split(dd.bcdDevice);
  }

  /** Only the first 18 bytes matter. */
  lemma {:induction false} DeviceDescriptorPrefix(d: seq<byte>)
    requires |d| >= 18
    ensures ParseDeviceDescriptor(d) == ParseDeviceDescriptor(d[..18])
  {
  }

  // ---------------------------------------------------------------------
  // Configuration, interface and endpoint descriptors, sections 9.6.3-9.6.6
  // ---------------------------------------------------------------------

  datatype ConfigHeader = ConfigHeader(
    totalLength: u16, numInterfaces: byte, configurationValue: byte, attributes: byte, maxPower: byte)
  {
    /** The power figure the client shows: bMaxPower is in 2 mA units. */
    function MaxPowerMilliamps(): nat { maxPower * 2 }
  }

  datatype InterfaceDesc = InterfaceDesc(
    number: byte, alternate: byte, numEndpoints: byte, ifaceClass: byte, subClass: byte, protocol: byte)

  datatype TransferType = Control | Isochronous | Bulk | Interrupt

  /** An endpoint descriptor. The client derives the endpoint number from the low
      four address bits (`epAddr & 0x0F`), the direction from bit 7
      (`epAddr & 0x80`) and the transfer type from the low two attribute bits
      (`epAttr & 0x03`), as section 9.6.6 lays them out. */
  datatype EndpointDesc = EndpointDesc(address: byte, attributes: byte, maxPacketSize: u16, interval: byte)
  {
    function Number(): nat { address % 0x10 }
    predicate IsIn() { address >= 0x80 }
    function Transfer(): TransferType {
      [Control, Isochronous, Bulk, Interrupt][attributes % 4]
    }
  }

  /** One interface card the client draws: an interface and the endpoints that
      followed it. */
  datatype InterfaceCard = InterfaceCard(iface: InterfaceDesc, endpoints: seq<EndpointDesc>)

  /** A descriptor as the walk classifies it. */
  datatype Desc = IfaceD(i: InterfaceDesc) | EndpointD(e: EndpointDesc) | OtherD(kind: byte, body: seq<byte>)

  datatype ConfigInfo = ConfigInfo(header: ConfigHeader, interfaces: seq<InterfaceCard>)

  /** The classification of one descriptor `b` (whose first byte is its length):
      type 4 with at least 9 bytes is an interface, type 5 with at least 7 bytes
      is an endpoint, anything else is passed over. */
  function DecodeDesc(b: seq<byte>): (r: Desc)
    requires |b| >= 2
    ensures r.OtherD? ==> r.kind == b[1]
  {
    if b[1] == 4 && |b| >= 9 then IfaceD(InterfaceDesc(b[2], b[3], b[4], b[5], b[6], b[7]))
    else if b[1] == 5 && |b| >= 7 then EndpointD(EndpointDesc(b[2], b[3], Le16(b[4], b[5]), b[6]))
    else OtherD(b[1], b[2..])
  }

  /** What a descriptor does to the cards drawn so far: an interface opens a new
      card, an endpoint joins the latest card (and is dropped when there is none),
      anything else is ignored. */
  function Attach(cards: seq<InterfaceCard>, d: Desc): (r: seq<InterfaceCard>)
    ensures d.IfaceD? ==> |r| == |cards| + 1
    ensures !d.IfaceD? ==> |r| == |cards|
  {
    match d
    case IfaceD(i) => cards + [InterfaceCard(i, [])]
    case EndpointD(e) =>
      if |cards| == 0 then cards
      else
        var last := cards[|cards| - 1];
        cards[..|cards| - 1] + [last.(endpoints := last.endpoints + [e])]
    case OtherD(_, _) => cards
  }

  function AttachAll(cards: seq<InterfaceCard>, ds: seq<Desc>): seq<InterfaceCard>
    decreases |ds|
  {
    if |ds| == 0 then cards else AttachAll(Attach(cards, ds[0]), ds[1..])
  }

  /** The loop of `parseConfigDescriptor` from `offset`: read bLength, stop when it
      is below 2 or the descriptor would run past the data, otherwise classify the
      descriptor and move past it. */
  function Walk(d: seq<byte>, offset: nat, cards: seq<InterfaceCard>): seq<InterfaceCard>
    decreases |d| - offset
  {
    if offset >= |d| then cards
    else
      var len := d[offset];
      if len < 2 || offset + len > |d| then cards
      else Walk(d, offset + len, Attach(cards, DecodeDesc(d[offset..offset + len])))
  }

  /** `parseConfigDescriptor`: nothing below 9 bytes; otherwise the header fields
      at their section 9.6.3 offsets and the cards found from offset 9 on. */
  function ParseConfigDescriptor(d: seq<byte>): (r: Option<ConfigInfo>)
    ensures r.None? <==> |d| < 9
  {
    if |d| < 9 then None
    else Some(ConfigInfo(ConfigHeader(Le16(d[2], d[3]), d[4], d[5], d[7], d[8]), Walk(d, 9, [])))
  }

  /** The descriptors a well-formed device sends: other descriptors fit in a
      byte-sized length and are not of the interface or endpoint type. */
  predicate WellFormed(d: Desc) {
    d.OtherD? ==> |d.body| <= 253 && d.kind != 4 && d.kind != 5
  }

  function EncodeDesc(d: Desc): (r: seq<byte>)
    requires WellFormed(d)
    ensures |r| >= 2 && r[0] == |r|
  {
    match d
    case IfaceD(i) => [9, 4, i.number, i.alternate, i.numEndpoints, i.ifaceClass, i.subClass, i.protocol, 0]
    case EndpointD(e) => [7, 5, e.address, e.attributes, Lo(e.maxPacketSize), Hi(e.maxPacketSize), e.interval]
    case OtherD(k, body) => [2 + |body|, k] + body
  }

  function EncodeAll(ds: seq<Desc>): seq<byte>
    requires forall i :: 0 <= i < |ds| ==> WellFormed(ds[i])
  {
    if |ds| == 0 then [] else EncodeDesc(ds[0]) + EncodeAll(ds[1..])
  }

  function EncodeConfig(h: ConfigHeader, ds: seq<Desc>): (r: seq<byte>)
    requires forall i :: 0 <= i < |ds| ==> WellFormed(ds[i])
    ensures |r| >= 9 && r[..9] == [9, 2, Lo(h.totalLength), Hi(h.totalLength), h.numInterfaces, h.configurationValue, 0, h.attributes, h.maxPower]
  {
    [9, 2, Lo(h.totalLength), Hi(h.totalLength), h.numInterfaces, h.configurationValue, 0, h.attributes, h.maxPower]
      + EncodeAll(ds)
  }

  lemma {:induction false} DecodeEncode(d: Desc)
    requires WellFormed(d)
    ensures DecodeDesc(EncodeDesc(d)) == d
  {
    match d
    case IfaceD(_) =>
    case EndpointD(e) => Le16Split(e.maxPacketSize);
    case OtherD(k, body) => assert EncodeDesc(d)[2..] == body;
  }

  /** Walking over encoded descriptors applies them one by one. */
  lemma {:induction false} WalkEncoded(x: seq<byte>, offset: nat, ds: seq<Desc>, cards: seq<InterfaceCard>)
    requires forall i :: 0 <= i < |ds| ==> WellFormed(ds[i])
    requires offset <= |x| && x[offset..] == EncodeAll(ds)
    ensures Walk(x, offset, cards) == AttachAll(cards, ds)
    decreases |ds|
  {
    if |ds| == 0 {
      assert |x[offset..]| == 0;
    } else {
      var n := WalkEncodedStep(x, offset, ds, cards);
      WalkEncoded(x, n, ds[1..], Attach(cards, ds[0]));
    }
  }

  /** The first descriptor: the walk reads it, attaches it and goes on at the
      offset returned, where the rest of the encoding starts. */
  lemma {:induction false} WalkEncodedStep(x: seq<byte>, offset: nat, ds: seq<Desc>, cards: seq<InterfaceCard>)
    returns (n: nat)
    requires |ds| > 0 && forall i :: 0 <= i < |ds| ==> WellFormed(ds[i])
    requires offset <= |x| && x[offset..] == EncodeAll(ds)
    ensures n <= |x| && x[n..] == EncodeAll(ds[1..])
    ensures forall i :: 0 <= i < |ds[1..]| ==> WellFormed(ds[1..][i])
    ensures Walk(x, offset, cards) == Walk(x, n, Attach(cards, ds[0]))
    ensures AttachAll(cards, ds) == AttachAll(Attach(cards, ds[0]), ds[1..])
  {
    var e := EncodeDesc(ds[0]);
    var rest := ds[1..];
    assert forall i :: 0 <= i < |rest| ==> rest[i] == ds[i + 1];
    assert EncodeAll(ds) == e + EncodeAll(rest);
    SliceSplit(x, offset, e, EncodeAll(rest));
    DecodeEncode(ds[0]);
    WalkStep(x, offset, cards, e);
    n := offset + |e|;
  }

  lemma {:induction false} SliceSplit<T>(x: seq<T>, offset: nat, a: seq<T>, b: seq<T>)
    requires offset <= |x| && x[offset..] == a + b
    ensures offset + |a| <= |x| && x[offset..offset + |a|] == a && x[offset + |a|..] == b
  {
    assert x[offset..][..|a|] == a;
    assert x[offset..][|a|..] == b;
  }

  /** One iteration of the walk over a descriptor `e` found at `offset`. */
  lemma {:induction false} WalkStep(x: seq<byte>, offset: nat, cards: seq<InterfaceCard>, e: seq<byte>)
    requires |e| >= 2 && e[0] == |e| && offset + |e| <= |x|
    requires x[offset..offset + |e|] == e
    ensures Walk(x, offset, cards) == Walk(x, offset + |e|, Attach(cards, DecodeDesc(e)))
  {
    assert x[offset] == e[0];
  }

  /** An encoded configuration decodes to its header and the cards its
      descriptors build. */
  lemma {:induction false} ConfigRoundTrip(h: ConfigHeader, ds: seq<Desc>)
    requires forall i :: 0 <= i < |ds| ==> WellFormed(ds[i])
    ensures ParseConfigDescriptor(EncodeConfig(h, ds)) == Some(ConfigInfo(h, AttachAll([], ds)))
  {
    var x := EncodeConfig(h, ds);
    assert x[9..] == EncodeAll(ds);
    WalkEncoded(x, 9, ds, []);
    Le16Split(h.totalLength);
  }

  /** The descriptors that draw exactly `cards`: each interface followed by its
      endpoints. */
  function Flatten(cards: seq<InterfaceCard>): (r: seq<Desc>)
    ensures forall i :: 0 <= i < |r| ==> WellFormed(r[i])
  {
    if |cards| == 0 then []
    else Flatten(cards[..|cards| - 1]) + [IfaceD(cards[|cards| - 1].iface)] + EndpointsOf(cards[|cards| - 1].endpoints)
  }

  function EndpointsOf(es: seq<EndpointDesc>): (r: seq<Desc>)
    ensures |r| == |es|
    ensures forall i :: 0 <= i < |r| ==> r[i] == EndpointD(es[i])
  {
    seq(|es|, i requires 0 <= i < |es| => EndpointD(es[i]))
  }

  lemma {:induction false} AttachAllAppend(cards: seq<InterfaceCard>, a: seq<Desc>, b: seq<Desc>)
    ensures AttachAll(cards, a + b) == AttachAll(AttachAll(cards, a), b)
    decreases |a|
  {
    if |a| == 0 {
      assert a + b == b;
    } else {
      assert (a + b)[1..] == a[1..] + b;
      AttachAllAppend(Attach(cards, a[0]), a[1..], b);
    }
  }

  lemma {:induction false} AttachEndpoints(cards: seq<InterfaceCard>, c: InterfaceCard, es: seq<EndpointDesc>)
    ensures AttachAll(cards + [c], EndpointsOf(es)) == cards + [c.(endpoints := c.endpoints + es)]
    decreases |es|
  {
    if |es| == 0 {
      assert c.endpoints + es == c.endpoints;
    } else {
      var c' := c.(endpoints := c.endpoints + [es[0]]);
      assert Attach(cards + [c], EndpointD(es[0])) == cards + [c'];
      assert EndpointsOf(es)[1..] == EndpointsOf(es[1..]);
      AttachEndpoints(cards, c', es[1..]);
      assert c.endpoints + [es[0]] + es[1..] == c.endpoints + es;
    }
  }

  /** Every card list is drawn by its flattening: endpoints land on the interface
      they follow. */
  lemma {:induction false} AttachFlatten(cards: seq<InterfaceCard>)
    ensures AttachAll([], Flatten(cards)) == cards
  {
    if |cards| > 0 {
      var init := cards[..|cards| - 1];
      var c := cards[|cards| - 1];
      AttachFlatten(init);
      AttachAllAppend([], Flatten(init) + [IfaceD(c.iface)], EndpointsOf(c.endpoints));
      AttachAllAppend([], Flatten(init), [IfaceD(c.iface)]);
      assert AttachAll(init, [IfaceD(c.iface)]) == init + [InterfaceCard(c.iface, [])];
      AttachEndpoints(init, InterfaceCard(c.iface, []), c.endpoints);
      assert [] + c.endpoints == c.endpoints;
      assert init + [c] == cards;
    }
  }

  /** An endpoint descriptor before the first interface is dropped. */
  lemma {:induction false} EndpointBeforeInterface(e: EndpointDesc, ds: seq<Desc>)
    ensures AttachAll([], [EndpointD(e)] + ds) == AttachAll([], ds)
  {
    assert ([EndpointD(e)] + ds)[1..] == ds;
  }

  /** A configuration built from cards decodes to those cards. */
  lemma {:induction false} ConfigCardsRoundTrip(h: ConfigHeader, cards: seq<InterfaceCard>)
    ensures ParseConfigDescriptor(EncodeConfig(h, Flatten(cards))) == Some(ConfigInfo(h, cards))
  {
    ConfigRoundTrip(h, Flatten(cards));
    AttachFlatten(cards);
  }

  /** `formatConfigAttributes`: bit 6 is Self-Powered, bit 5 Remote Wakeup, and
      Bus-Powered is shown when neither is set. */
  function FormatConfigAttributes(attr: byte): (r: string)
    ensures r == "Bus-Powered" <==> (attr / 0x20) % 4 == 0
    ensures ((attr / 0x40) % 2 == 1) <==> r in {"Self-Powered", "Self-Powered, Remote Wakeup"}
    ensures ((attr / 0x20) % 2 == 1) <==> r in {"Remote Wakeup", "Self-Powered, Remote Wakeup"}
  {
    var self := (attr / 0x40) % 2 == 1;
    var wake := (attr / 0x20) % 2 == 1;
    if self && wake then "Self-Powered, Remote Wakeup"
    else if self then "Self-Powered"
    else if wake then "Remote Wakeup"
    else "Bus-Powered"
  }

  // ---------------------------------------------------------------------
  // String descriptors and the LANGID list, section 9.6.7
  // ---------------------------------------------------------------------

  /** The loop of `parseLanguages` from index `i`: a LANGID per byte pair while
      `i < data[0]` and the pair is inside the data. */
  function LangsFrom(d: seq<byte>, i: nat): (r: seq<u16>)
    requires |d| >= 1
    decreases |d| - i
  {
    if i < d[0] && i + 1 < |d| then [Le16(d[i], d[i + 1])] + LangsFrom(d, i + 2) else []
  }

  /** `parseLanguages`: the LANGID codes of string descriptor zero. */
  function ParseLanguages(d: seq<byte>): seq<u16> {
    if |d| >= 4 then LangsFrom(d, 2) else []
  }

  /** A string descriptor carrying the 16-bit units `units`. */
  function EncodeUnits(units: seq<u16>): (r: seq<byte>)
    requires 2 + 2 * |units| < 0x100
    ensures |r| == 2 + 2 * |units| && r[0] == |r| && r[1] == 3
  {
    [2 + 2 * |units|, 3] + UnitBytes(units)
  }

  function UnitBytes(units: seq<u16>): (r: seq<byte>)
    ensures |r| == 2 * |units|
    ensures forall k :: 0 <= k < |units| ==> r[2 * k] == Lo(units[k]) && r[2 * k + 1] == Hi(units[k])
  {
    if |units| == 0 then []
    else
      var r := [Lo(units[0]), Hi(units[0])] + UnitBytes(units[1..]);
      assert forall k :: 1 <= k < |units| ==> r[2 * k] == UnitBytes(units[1..])[2 * (k - 1)];
      r
  }

  lemma {:induction false} LangsFromEncoded(units: seq<u16>, k: nat)
    requires 2 + 2 * |units| < 0x100 && k <= |units|
    ensures LangsFrom(EncodeUnits(units), 2 + 2 * k) == units[k..]
    decreases |units| - k
  {
    var d := EncodeUnits(units);
    if k < |units| {
      assert d[2 + 2 * k] == Lo(units[k]) && d[3 + 2 * k] == Hi(units[k]);
      Le16Split(units[k]);
      LangsFromEncoded(units, k + 1);
      assert units[k..] == [units[k]] + units[k + 1..];
    }
  }

  /** The LANGID list of an encoded string descriptor zero is read back. */
  lemma {:induction false} LanguagesRoundTrip(langs: seq<u16>)
    requires 2 + 2 * |langs| < 0x100
    ensures ParseLanguages(EncodeUnits(langs)) == langs
  {
    if |langs| > 0 {
      LangsFromEncoded(langs, 0);
    }
  }

  /** The loop of `parseUsbString` from index `i` up to `len`: a code unit per
      byte pair, where a missing high byte counts as 0, keeping the non-zero
      units. */
  function UnitsFrom(d: seq<byte>, i: nat, len: nat): (r: seq<u16>)
    requires len <= |d|
    ensures forall k :: 0 <= k < |r| ==> r[k] != 0
    decreases len - i
  {
    if i < len then
      var code := Le16(d[i], if i + 1 < |d| then d[i + 1] else 0);
      (if code > 0 then [code] else []) + UnitsFrom(d, i + 2, len)
    else []
  }

  /** `parseUsbString`: the UTF-16 code units of a string descriptor, bounded by
      both bLength and the data received. */
  function ParseUsbString(d: seq<byte>): (units: seq<u16>)
    ensures forall k :: 0 <= k < |units| ==> units[k] != 0
  {
    if |d| < 2 then [] else UnitsFrom(d, 2, if d[0] < |d| then d[0] else |d|)
  }

  lemma {:induction false} UnitsFromEncoded(units: seq<u16>, k: nat)
    requires 2 + 2 * |units| < 0x100 && k <= |units|
    requires forall j :: 0 <= j < |units| ==> units[j] != 0
    ensures UnitsFrom(EncodeUnits(units), 2 + 2 * k, 2 + 2 * |units|) == units[k..]
    decreases |units| - k
  {
    var d := EncodeUnits(units);
    if k < |units| {
      assert d[2 + 2 * k] == Lo(units[k]) && d[3 + 2 * k] == Hi(units[k]);
      Le16Split(units[k]);
      UnitsFromEncoded(units, k + 1);
      assert units[k..] == [units[k]] + units[k + 1..];
    }
  }

  /** A string descriptor of non-zero code units is read back; zero units are
      never part of a result. */
  lemma {:induction false} UsbStringRoundTrip(units: seq<u16>)
    requires 2 + 2 * |units| < 0x100
    requires forall j :: 0 <= j < |units| ==> units[j] != 0
    ensures ParseUsbString(EncodeUnits(units)) == units
  {
    UnitsFromEncoded(units, 0);
  }

  // ---------------------------------------------------------------------
  // BCD version text
  // ---------------------------------------------------------------------

  /** `formatBCD`: "major.minor", plus ".patch" when the patch nibble is not
      zero; the major byte is written as a decimal number. */
  function FormatBcd(bcd: u16): string {
    var major := bcd / 0x100;
    var minor := (bcd / 0x10) % 0x10;
    var patch := bcd % 0x10;
    IntToString(major) + "." + IntToString(minor) + (if patch > 0 then "." + IntToString(patch) else "")
  }

  /** The three numbers a version text is made of. */
  datatype VersionParts = VersionParts(major: int, minor: int, patch: int)

  /** Reads a version text back: two or three dot-separated decimal numbers, an
      absent patch being 0. */
  function ParseVersionText(s: string): Option<VersionParts> {
    var parts := Split(s, '.');
    if |parts| != 2 && |parts| != 3 then None
    else
      var ma := JsParseInt(parts[0], Dec);
      var mi := JsParseInt(parts[1], Dec);
      var pa := if |parts| == 3 then JsParseInt(parts[2], Dec) else Some(0);
      if ma.None? || mi.None? || pa.None? then None
      else Some(VersionParts(ma.value, mi.value, pa.value))
  }

  lemma {:induction false} NoDotInNumber(n: int)
    ensures '.' !in IntToString(n)
  {
    var d := NatToString(if n < 0 then -n else n, 10);
    NatToStringSpec(if n < 0 then -n else n, 10);
    assert forall i :: 0 <= i < |d| ==> IsDigit(d[i]);
    if n < 0 {
      assert IntToString(n) == "-" + d;
      assert forall i :: 0 <= i < |IntToString(n)| ==> IntToString(n)[i] != '.';
    }
  }

  lemma {:induction false} ReadTwoNumbers(x: int, y: int)
    ensures ParseVersionText(IntToString(x) + "." + IntToString(y)) == Some(VersionParts(x, y, 0))
  {
    var a := IntToString(x);
    var b := IntToString(y);
    NoDotInNumber(x);
    NoDotInNumber(y);
    JoinTwo(a, b, ".");
    SplitJoin([a, b], '.');
    ParseIntOfIntToString(x);
    ParseIntOfIntToString(y);
  }

  lemma {:induction false} ReadThreeNumbers(x: int, y: int, z: int)
    ensures ParseVersionText(IntToString(x) + "." + IntToString(y) + "." + IntToString(z)) == Some(VersionParts(x, y, z))
  {
    var a := IntToString(x);
    var b := IntToString(y);
    var c := IntToString(z);
    NoDotInNumber(x);
    NoDotInNumber(y);
    NoDotInNumber(z);
    JoinThree(a, b, c, ".");
    SplitJoin([a, b, c], '.');
    ParseIntOfIntToString(x);
    ParseIntOfIntToString(y);
    ParseIntOfIntToString(z);
  }

  /** The version text determines the BCD value: reading it back gives the major
      byte and the minor and patch nibbles, so distinct values never share a
      text. */
  lemma {:induction false} FormatBcdReadsBack(bcd: u16)
    ensures ParseVersionText(FormatBcd(bcd)) == Some(VersionParts(bcd / 0x100, (bcd / 0x10) % 0x10, bcd % 0x10))
  {
    var x, y, z := bcd / 0x100, (bcd / 0x10) % 0x10, bcd % 0x10;
    var t := FormatBcd(bcd);
    if z > 0 {
      assert t == IntToString(x) + "." + IntToString(y) + "." + IntToString(z);
      ReadThreeNumbers(x, y, z);
    } else {
      assert t == IntToString(x) + "." + IntToString(y) + "";
      assert t == IntToString(x) + "." + IntToString(y);
      ReadTwoNumbers(x, y);
    }
  }

  lemma {:induction false} FormatBcdInjective(a: u16, b: u16)
    requires FormatBcd(a) == FormatBcd(b)
    ensures a == b
  {
    FormatBcdReadsBack(a);
    FormatBcdReadsBack(b);
    Nibbles(a);
    Nibbles(b);
  }

  lemma {:induction false} Nibbles(v: u16)
    ensures v == (v / 0x100) * 0x100 + ((v / 0x10) % 0x10) * 0x10 + v % 0x10
  {
  }

  /** The major byte is printed as a binary number, not as two BCD digits: a
      release number 0x1000 ("10.0" in BCD) is shown as "16.0". */
  lemma {:induction false} FormatBcdMajorIsBinary()
    ensures FormatBcd(0x1000) == "16.0"
  {
    assert NatToString(16, 10) == "16";
    assert NatToString(0, 10) == "0";
  }
}

=== FILE: query.dfy ===
/** Query strings as the firmware's handlers see them through the HTTP
    server's `httpd_query_key_value`: the first value of a key, copied into a
    fixed buffer. */
module HttpQuery {
  import opened Wrappers

  /** The key buffers of the request handler: `char x_str[16]`. */
  const QueryValueCap: nat := 16

  /** The query as the HTTP server splits it: `key=value` pairs in order. */
  type Query = seq<(string, string)>

  /** The value of the first pair with `key`. */
  function Lookup(q: Query, key: string): (r: Option<string>)
    ensures r.Some? ==> exists i :: 0 <= i < |q| && q[i] == (key, r.value)
    ensures r.None? ==> forall i :: 0 <= i < |q| ==> q[i].0 != key
  {
    if |q| == 0 then None
    else if q[0].0 == key then Some(q[0].1)
    else
      var r := Lookup(q[1..], key);
      assert r.Some? ==> exists i :: 0 <= i < |q[1..]| && q[1..][i] == (key, r.value);
      assert forall i :: 0 <= i < |q[1..]| ==> q[1..][i] == q[i + 1];
      r
  }

  /** A key given once is looked up to its value, whatever precedes it. */
  lemma {:induction false} LookupFindsFirst(q: Query, p: Query, key: string, v: string)
    requires forall i :: 0 <= i < |q| ==> q[i].0 != key
    ensures Lookup(q + [(key, v)] + p, key) == Some(v)
  {
    if |q| > 0 {
      assert (q + [(key, v)] + p)[1..] == q[1..] + [(key, v)] + p;
      LookupFindsFirst(q[1..], p, key, v);
    }
  }

  /** `httpd_query_key_value` into a buffer of `cap` bytes: a value that does
      not fit together with its terminator is an error, and the caller keeps its
      default. */
  function QueryValue(q: Query, key: string, cap: nat): (r: Option<string>)
    ensures r.Some? <==> Lookup(q, key).Some? && |Lookup(q, key).value| < cap
    ensures r.Some? ==> r.value == Lookup(q, key).value
  {
    match Lookup(q, key)
    case Some(v) => if |v| < cap then Some(v) else None
    case None => None
  }

  /** The text left in a buffer of `cap` bytes whose return code the caller
      ignores: the value cut to `cap - 1` characters, or nothing (the buffer's
      zero-filled initial content) when the key is absent. */
  function QueryText(q: Query, key: string, cap: nat): (r: string)
    requires cap > 0
    ensures |r| < cap
    ensures Lookup(q, key).None? ==> r == ""
    ensures Lookup(q, key).Some? ==> IsPrefixOf(r, Lookup(q, key).value)
    ensures QueryValue(q, key, cap).Some? ==> r == QueryValue(q, key, cap).value
    ensures Lookup(q, key).Some? && |Lookup(q, key).value| >= cap ==> |r| == cap - 1
  {
    match Lookup(q, key)
    case Some(v) => if |v| < cap then v else v[..cap - 1]
    case None => ""
  }

  predicate IsPrefixOf(p: string, s: string) {
    |p| <= |s| && s[..|p|] == p
  }
}

=== FILE: requestapi.dfy ===
/** The firmware's `/api/send_request` handler: the query values become a
    control-transfer configuration (custom data in append or separate mode, or
    the automatic pattern), the transfer runs, and its outcome is rendered as
    the JSON reply with a hex and an ASCII dump. */
module RequestApi {
  import opened Wrappers
  import opened Text
  import opened CLib
  import opened HttpQuery
  import CT = ControlTransfer
  import Descriptors

  const DataBytesCap: nat := 512
  const CustomDataCap: nat := 248
  const ResponseBufferSize: nat := 512
  const HexStrCap: nat := 384
  const AsciiStrCap: nat := 256
  const ResponseMaxBytes: nat := 128

  // ---------------------------------------------------------------------
  // The request fields
  // ---------------------------------------------------------------------

  /** The handler's locals after the query is read. */
  datatype Fields = Fields(
    bmRequestType: byte, bRequest: byte, wValue: u16, wIndex: u16, wLength: u16,
    packetSize: CT.SizeT, packetSizeGiven: bool, maxRetries: int, append: bool, customData: seq<byte>)

  /** `dataBytes`: the `strtok(_, " ,")` tokens, each read by
      `strtol(_, NULL, 16)` and cast to `uint8_t`, at most 248 of them. */
  function ParseDataBytes(s: string): (r: seq<byte>)
    ensures |r| == Min(|Strtok(s)|, CustomDataCap)
    ensures forall i :: 0 <= i < |r| ==> r[i] == ToU8(Strtol(Strtok(s)[i], Base16))
  {
    var tokens := Strtok(s);
    var n := Min(|tokens|, CustomDataCap);
    seq(n, i requires 0 <= i < n => ToU8(Strtol(tokens[i], Base16)))
  }

  /** What a query sets, with the handler's defaults for absent or oversized
      values: a GET_DESCRIPTOR(Device) request for 18 bytes in an 8-byte
      packet. */
  function ReadFields(q: Query): (f: Fields)
    ensures QueryValue(q, "packetSize", QueryValueCap).None? ==> f.packetSize == 8 && !f.packetSizeGiven
    ensures QueryValue(q, "dataBytes", DataBytesCap).None? ==> f.customData == []
    ensures |f.customData| <= CustomDataCap
  {
    var bm := QueryValue(q, "bmRequestType", QueryValueCap);
    var br := QueryValue(q, "bRequest", QueryValueCap);
    var wv := QueryValue(q, "wValue", QueryValueCap);
    var wi := QueryValue(q, "wIndex", QueryValueCap);
    var wl := QueryValue(q, "wLength", QueryValueCap);
    var ps := QueryValue(q, "packetSize", QueryValueCap);
    var mr := QueryValue(q, "maxRetries", QueryValueCap);
    var dm := QueryValue(q, "dataMode", QueryValueCap);
    var db := QueryValue(q, "dataBytes", DataBytesCap);
    Fields(
      ByteOr(bm, 0x80), ByteOr(br, 0x06), WordOr(wv, Base0, 0x0100), WordOr(wi, Base0, 0x0000),
      if wl.Some? then ToU16(Atoi(wl.value)) else 18,
      if ps.Some? then ToSize(Atoi(ps.value)) else 8,
      ps.Some?,
      if mr.Some? then Atoi(mr.value) else -1,
      dm.Some? && dm.value == "append",
      if db.Some? && |db.value| > 0 then ParseDataBytes(db.value) else [])
  }

  /** Each request field comes from its key when the key is present, read
      as the handler reads it, and is the default otherwise. */
  lemma {:induction false} ReadRequestFields(q: Query)
    ensures var f := ReadFields(q);
            var v := QueryValue(q, "bmRequestType", QueryValueCap);
            (v.Some? ==> f.bmRequestType == ToU8(Strtol(v.value, Base0))) && (v.None? ==> f.bmRequestType == 0x80)
    ensures var f := ReadFields(q);
            var v := QueryValue(q, "bRequest", QueryValueCap);
            (v.Some? ==> f.bRequest == ToU8(Strtol(v.value, Base0))) && (v.None? ==> f.bRequest == 0x06)
    ensures var f := ReadFields(q);
            var v := QueryValue(q, "wValue", QueryValueCap);
            (v.Some? ==> f.wValue == ToU16(Strtol(v.value, Base0))) && (v.None? ==> f.wValue == 0x0100)
    ensures var f := ReadFields(q);
            var v := QueryValue(q, "wIndex", QueryValueCap);
            (v.Some? ==> f.wIndex == ToU16(Strtol(v.value, Base0))) && (v.None? ==> f.wIndex == 0)
    ensures var f := ReadFields(q);
            var v := QueryValue(q, "wLength", QueryValueCap);
            (v.Some? ==> f.wLength == ToU16(Atoi(v.value))) && (v.None? ==> f.wLength == 18)
  {
  }

  /** The packet size, the retry count, the data mode and the custom bytes
      come from their keys: a given packet size is `atoi` wrapped to `size_t`,
      append mode is exactly `dataMode=append`, and only a non-empty
      `dataBytes` gives custom data. */
  lemma {:induction false} ReadTransferOptions(q: Query)
    ensures var f := ReadFields(q);
            var v := QueryValue(q, "packetSize", QueryValueCap);
            && (f.packetSizeGiven <==> v.Some?)
            && (v.Some? ==> f.packetSize == ToSize(Atoi(v.value)))
            && (v.None? ==> f.packetSize == 8)
    ensures var f := ReadFields(q);
            var v := QueryValue(q, "maxRetries", QueryValueCap);
            (v.Some? ==> f.maxRetries == Atoi(v.value)) && (v.None? ==> f.maxRetries == -1)
    ensures ReadFields(q).append <==> QueryValue(q, "dataMode", QueryValueCap) == Some("append")
    ensures var f := ReadFields(q);
            var v := QueryValue(q, "dataBytes", DataBytesCap);
            && (v.Some? && |v.value| > 0 ==> f.customData == ParseDataBytes(v.value))
            && (v.None? || v.value == "" ==> f.customData == [])
  {
  }

  /** A byte field: `strtol(_, NULL, 0)` cast to `uint8_t`, or the default. */
  function ByteOr(v: Option<string>, d: byte): (r: byte)
    ensures v.Some? ==> r == ToU8(Strtol(v.value, Base0))
    ensures v.None? ==> r == d
  {
    if v.Some? then ToU8(Strtol(v.value, Base0)) else d
  }

  /** A 16-bit field read by `strtol` in `base`, or the default. */
  function WordOr(v: Option<string>, base: StrtolBase, d: u16): (r: u16)
    ensures v.Some? ==> r == ToU16(Strtol(v.value, base))
    ensures v.None? ==> r == d
  {
    if v.Some? then ToU16(Strtol(v.value, base)) else d
  }

  /** The only packet size the handler refuses: zero. `size_t` cannot hold the
      negative values its message mentions; those wrap to large sizes. */
  predicate RejectsPacketSize(f: Fields) {
    f.packetSizeGiven && f.packetSize == 0
  }

  /** A negative `packetSize` is not refused: -1 becomes 4294967295. */
  lemma {:induction false} NegativePacketSizeWraps()
    ensures ToSize(Atoi("-1")) == 0xFFFF_FFFF
  {
    var s := "-1";
    assert SkipCSpace(s) == s;
    assert s[1..] == "1";
    assert DigitPrefix("1", 10) == "1" by { assert "1"[1..] == ""; assert "1"[..1] == "1"; }
    assert DigitsValue("1", 10) == 1 by { assert "1"[..0] == ""; }
  }

  /** `customData` padded with zeros to the 248-byte `extra_data` array. */
  function Padded(data: seq<byte>): (r: CT.ExtraData)
    requires |data| <= CustomDataCap
    ensures r[..|data|] == data
    ensures forall i :: |data| <= i < CustomDataCap ==> r[i] == 0
  {
    data + CT.Zeros(CustomDataCap - |data|)
  }

  /** The automatic filler of an oversized SETUP packet: 0xAA, 0xAB, ..., 0xB1
      repeating, over the first `min(packetSize - 8, 248)` bytes. */
  function AutoPattern(packetSize: nat): (r: CT.ExtraData)
    ensures forall i :: 0 <= i < CustomDataCap ==>
              r[i] == if i < Min(packetSize - 8, CustomDataCap) then 0xAA + i % 8 else 0
  {
    seq(CustomDataCap, i requires 0 <= i < CustomDataCap =>
      if i < Min(packetSize - 8, CustomDataCap) then (0xAA + i % 8) as byte else 0)
  }

  /** The configuration the handler sends: the default one with the request
      fields, the response buffer of 512 bytes, and the data placed by mode. In
      append mode the custom bytes extend the SETUP packet (the cap of 256 bytes
      in the source cannot be reached with at most 248 custom bytes); in
      separate mode they form a DATA OUT stage of at least their length; without
      custom data an oversized packet is filled with the automatic pattern. */
  function BuildConfig(f: Fields): (c: CT.Config)
    requires |f.customData| <= CustomDataCap
    ensures CT.SetupHeader(c)[..2] == [f.bmRequestType, f.bRequest]
    ensures c.bmRequestType == f.bmRequestType && c.bRequest == f.bRequest
    ensures c.wValue == f.wValue && c.wIndex == f.wIndex && c.maxNakRetries == f.maxRetries
    ensures c.responseBufferSize == Some(ResponseBufferSize) && c.expectResponse
    ensures var n := |f.customData|;
            && (n > 0 && f.append ==>
                  c.packetSize == 8 + n <= CT.MaxPacketSize && c.extraData[..n] == f.customData
                  && c.wLength == f.wLength)
            && (n > 0 && !f.append ==>
                  c.packetSize == 8 && c.extraData[..n] == f.customData
                  && c.wLength == Max(f.wLength, n))
            && (n == 0 ==> c.packetSize == f.packetSize && c.wLength == f.wLength
                           && c.extraData == AutoPattern(f.packetSize))
  {
    var base := CT.DefaultConfig().(
      bmRequestType := f.bmRequestType, bRequest := f.bRequest,
      wValue := f.wValue, wIndex := f.wIndex, wLength := f.wLength,
      packetSize := f.packetSize, maxNakRetries := f.maxRetries,
      responseBufferSize := Some(ResponseBufferSize));
    var n := |f.customData|;
    if n > 0 && f.append then
      base.(packetSize := CT.SetupPacketSize + n, extraData := Padded(f.customData))
    else if n > 0 then
      base.(packetSize := CT.SetupPacketSize, extraData := Padded(f.customData),
            wLength := if f.wLength < n then n else f.wLength)
    else if f.packetSize > CT.SetupPacketSize then
      base.(extraData := AutoPattern(f.packetSize))
    else
      assert CT.Zeros(CustomDataCap) == AutoPattern(f.packetSize);
      base
  }

  /** In append mode the custom bytes travel in the SETUP packet itself, right
      after the eight standard bytes. */
  lemma {:induction false} AppendPutsDataInSetup(f: Fields, i: nat)
    requires |f.customData| <= CustomDataCap && f.append && i < |f.customData|
    ensures CT.SetupBuffer(BuildConfig(f))[8 + i] == f.customData[i]
  {
    var c := BuildConfig(f);
    assert c.extraData[i] == c.extraData[..|f.customData|][i];
  }

  /** In separate mode the custom bytes open the DATA OUT stage, which is a
      host-to-device request's only data stage, and the SETUP packet is the
      standard eight bytes. */
  lemma {:induction false} SeparatePutsDataInDataStage(f: Fields, i: nat)
    requires |f.customData| <= CustomDataCap && !f.append && i < |f.customData|
    ensures BuildConfig(f).packetSize == 8
    ensures CT.Payload(BuildConfig(f).extraData, BuildConfig(f).wLength, i) == f.customData[i]
  {
    var c := BuildConfig(f);
    assert c.extraData[i] == c.extraData[..|f.customData|][i];
  }

  /** The custom bytes the client writes with its hex formatter (upper-case
      pairs separated by spaces) are read back exactly, up to 248 of them. */
  lemma {:induction false} DataBytesRoundTrip(bs: seq<byte>)
    requires |bs| <= CustomDataCap
    ensures ParseDataBytes(Descriptors.FormatHexBytes(bs)) == bs
  {
    var parts := seq(|bs|, i requires 0 <= i < |bs| => HexByte(bs[i], true));
    assert Descriptors.FormatHexBytes(bs) == Join(parts, " ");
    forall i | 0 <= i < |parts| ensures IsToken(parts[i]) {
      var h := parts[i];
      assert !IsTokenDelim(h[0]) && !IsTokenDelim(h[1]);
    }
    StrtokOfJoin(parts);
    forall i | 0 <= i < |bs| ensures ToU8(Strtol(parts[i], Base16)) == bs[i] {
      StrtolOfHexByte(bs[i], true);
    }
  }

  /** The 512-byte `dataBytes` buffer holds at most 170 space-separated bytes:
      171 of them do not fit, and the whole value is then ignored. */
  lemma {:induction false} DataBytesCapacity(bs: seq<byte>, q: Query)
    requires |bs| == 171 && q == [("dataBytes", Descriptors.FormatHexBytes(bs))]
    ensures ReadFields(q).customData == []
  {
    FormatHexBytesLength(bs);
  }

  lemma {:induction false} FormatHexBytesLength(bs: seq<byte>)
    requires |bs| > 0
    ensures |Descriptors.FormatHexBytes(bs)| == 3 * |bs| - 1
  {
    var parts := seq(|bs|, i requires 0 <= i < |bs| => HexByte(bs[i], true));
    if |bs| > 1 {
      var rest := seq(|bs| - 1, i requires 0 <= i < |bs| - 1 => HexByte(bs[1..][i], true));
      assert parts[1..] == rest;
      assert Descriptors.FormatHexBytes(bs) == (HexByte(bs[0], true) + " ") + Descriptors.FormatHexBytes(bs[1..]);
      FormatHexBytesLength(bs[1..]);
    }
  }

  // ---------------------------------------------------------------------
  // The reply
  // ---------------------------------------------------------------------

  /** "%02x " for each of the first `k` bytes. */
  function HexGroups(bs: seq<byte>): (r: string)
    ensures |r| == 3 * |bs|
  {
    if |bs| == 0 then "" else HexByte(bs[0], false) + " " + HexGroups(bs[1..])
  }

  /** The reply's `data` text for a response of `n` bytes: the first 128 as hex
      groups, then "... (k more)" when `k` bytes were left out. */
  function HexDump(bs: seq<byte>, n: nat): (r: string)
    requires |bs| >= Min(n, ResponseMaxBytes)
    ensures n <= ResponseMaxBytes ==> |r| == 3 * n
    ensures n > ResponseMaxBytes ==> |r| > 3 * ResponseMaxBytes && r[|r| - 6..] == " more)"
  {
    HexGroups(bs[..Min(n, ResponseMaxBytes)])
    + (if n > ResponseMaxBytes then "... (" + IntToString(n - ResponseMaxBytes) + " more)" else "")
  }

  /** The printable ASCII characters 32 to 126 show as themselves, every other
      byte as '.'. */
  function AsciiChar(b: byte): (c: char)
    ensures c == '.' || (32 <= c as int <= 126 && c as int == b)
  {
    if 32 <= b <= 126 then b as char else '.'
  }

  /** The reply's `ascii` text: one character per byte of the first 128. */
  function AsciiDump(bs: seq<byte>, n: nat): (r: string)
    requires |bs| >= Min(n, ResponseMaxBytes)
    ensures |r| == Min(n, ResponseMaxBytes)
    ensures forall i :: 0 <= i < |r| ==> r[i] == AsciiChar(bs[i])
  {
    seq(Min(n, ResponseMaxBytes), i requires 0 <= i < Min(n, ResponseMaxBytes) => AsciiChar(bs[i]))
  }

  /** The error text of a failed transfer with no data. */
  function ErrorToken(s: CT.Status): (t: string)
    ensures t in {"TIMEOUT", "NAK", "ERROR", "FAILED"}
  {
    match s
    case Timeout => "TIMEOUT"
    case InvalidResponse => "NAK"
    case Fail => "ERROR"
    case _ => "FAILED"
  }

  /** The request values the reply echoes. */
  datatype Echo = Echo(
    bmRequestType: byte, bRequest: byte, wValue: u16, wIndex: u16, wLength: u16,
    packetSize: CT.SizeT, maxRetries: int, connected: bool)

  /** The JSON reply; the refusal of a zero packet size has no echo. */
  datatype Reply = Reply(status: string, data: string, ascii: string, bytesReceived: nat, echo: Option<Echo>)

  const PacketSizeRefusal: Reply :=
    Reply("failed", "ERROR: packetSize <= 0 is invalid", "", 0, None)

  /** The rendered outcome of a transfer. */
  function Render(status: CT.Status, bs: seq<byte>, n: nat, echo: Echo): (r: Reply)
    requires |bs| >= Min(n, ResponseMaxBytes)
    ensures r.status == (if status == CT.Ok then "success" else "failed")
    ensures n > 0 ==> r.data == HexDump(bs, n) && r.ascii == AsciiDump(bs, n)
    ensures n == 0 && status == CT.Ok ==> r.data == "" && r.ascii == ""
    ensures n == 0 && status != CT.Ok ==> r.data == ErrorToken(status) && r.ascii == ""
    ensures r.bytesReceived == n && r.echo == Some(echo)
  {
    var st := if status == CT.Ok then "success" else "failed";
    if n > 0 then Reply(st, HexDump(bs, n), AsciiDump(bs, n), n, Some(echo))
    else if status == CT.Ok then Reply(st, "", "", 0, Some(echo))
    else Reply(st, ErrorToken(status), "", 0, Some(echo))
  }

  /** The client's hex-dump parser reads the firmware's hex groups back as the
      bytes they spell, for responses of up to 128 bytes. */
  lemma {:induction false} HexDumpReadsBack(bs: seq<byte>)
    requires 0 < |bs| <= ResponseMaxBytes
    ensures Descriptors.ParseHexDump(HexDump(bs, |bs|)) == Descriptors.AsSome(bs)
  {
    assert bs[..|bs|] == bs;
    assert HexDump(bs, |bs|) == HexGroups(bs) + "";
    assert HexGroups(bs) + "" == HexGroups(bs);
    HexGroupsDigits(bs);
    Descriptors.HexPairsOfDigits(bs, false);
  }

  lemma {:induction false} HexGroupsDigits(bs: seq<byte>)
    ensures RemoveSpaces(HexGroups(bs)) == Descriptors.HexDigits(bs, false)
  {
    if |bs| > 0 {
      HexGroupStep(bs);
      HexGroupsDigits(bs[1..]);
    }
  }

  /** The first group loses its separating space and keeps its two digits. */
  lemma {:induction false} HexGroupStep(bs: seq<byte>)
    requires |bs| > 0
    ensures RemoveSpaces(HexGroups(bs)) == HexByte(bs[0], false) + RemoveSpaces(HexGroups(bs[1..]))
    ensures Descriptors.HexDigits(bs, false) == HexByte(bs[0], false) + Descriptors.HexDigits(bs[1..], false)
  {
    var h := HexByte(bs[0], false);
    var g := HexGroups(bs[1..]);
    assert HexGroups(bs) == (h + " ") + g;
    RemoveSpacesAppend(h + " ", g);
    RemoveSpacesAppend(h, " ");
    assert RemoveSpaces(" ") == "";
    HexByteHasNoSpaces(bs[0], false);
  }


  // ---------------------------------------------------------------------
  // Dump capacities
  // ---------------------------------------------------------------------

  /** The hex dump as written needs its text and a terminator in the 384-byte
      `hex_str`. */
  predicate HexDumpFitsAsWritten(bs: seq<byte>, n: nat)
    requires |bs| >= Min(n, ResponseMaxBytes)
  {
    |HexDump(bs, n)| + 1 <= HexStrCap
  }

  /** A 128-byte response already overflows `hex_str`: 128 groups of three
      characters fill all 384 bytes, and the terminator lands past the end. */
  lemma {:induction false} HexDumpOverflowsAsWritten(bs: seq<byte>)
    requires |bs| == ResponseMaxBytes
    ensures !HexDumpFitsAsWritten(bs, |bs|)
    ensures |HexDump(bs, |bs|)| + 1 == HexStrCap + 1
  {
    assert bs[..|bs|] == bs;
  }

  /** A capacity for the hex dump: 128 groups, the longest suffix a 512-byte
      response buffer can produce ("... (384 more)", 14 characters), and the
      terminator. */
  const HexStrCapNeeded: nat := 3 * 128 + 14 + 1

  /** Every dump of a response that fits the 512-byte buffer fits that
      capacity, and 399 bytes are needed. */
  lemma {:induction false} HexDumpFits(bs: seq<byte>, n: nat)
    requires n <= ResponseBufferSize && |bs| >= Min(n, ResponseMaxBytes)
    ensures |HexDump(bs, n)| + 1 <= HexStrCapNeeded
    ensures n == ResponseBufferSize ==> |HexDump(bs, n)| + 1 == HexStrCapNeeded
  {
    if n > ResponseMaxBytes {
      DecimalWidth(n - ResponseMaxBytes);
      if n == ResponseBufferSize {
        NatToStringSpec(384, 10);
        assert NatToString(384, 10) == NatToString(38, 10) + [DigitChar(4, false)];
        assert NatToString(38, 10) == NatToString(3, 10) + [DigitChar(8, false)];
      }
    }
  }

  /** Numbers below 1000 have at most three decimal digits. */
  lemma {:induction false} DecimalWidth(k: nat)
    requires k < 1000
    ensures |NatToString(k, 10)| <= 3
  {
    if k >= 10 {
      assert NatToString(k, 10) == NatToString(k / 10, 10) + [DigitChar(k % 10, false)];
      if k / 10 >= 10 {
        assert NatToString(k / 10, 10) == NatToString(k / 100, 10) + [DigitChar((k / 10) % 10, false)];
      }
    }
  }

  /** The ASCII dump with its terminator always fits the 256-byte `ascii_str`. */
  lemma {:induction false} AsciiDumpFits(bs: seq<byte>, n: nat)
    requires |bs| >= Min(n, ResponseMaxBytes)
    ensures |AsciiDump(bs, n)| + 1 <= AsciiStrCap
  {
  }

  // ---------------------------------------------------------------------
  // The handler
  // ---------------------------------------------------------------------

  /** What one request does: whether a bus reset went out first, the pending
      reset flag after it, the transfer made (if any), and the reply (`None`
      when the query cannot be read and nothing is answered). */
  datatype Handled = Handled(resetSent: bool, needsReset: bool, transfer: Option<CT.Transfer>,
                             recovery: CT.Recovery, reply: Option<Reply>)

  /** `api_send_request_handler`. */
  function HandleSendRequest(q: Option<Query>, connected: bool, needsReset: bool,
                             bus: CT.Bus, rec: CT.Recovery): (h: Handled)
    ensures q.None? ==> h == Handled(false, needsReset, None, rec, None)
    ensures q.Some? && RejectsPacketSize(ReadFields(q.value)) ==>
              h == Handled(false, needsReset, None, rec, Some(PacketSizeRefusal))
    ensures h.transfer.Some? ==> h.reply.Some? && h.reply.value.bytesReceived == h.transfer.value.bytesRead
                                 && (h.reply.value.status == "success" <==> h.transfer.value.status == CT.Ok)
    ensures h.resetSent <==> h.transfer.Some? && needsReset && connected
    ensures h.transfer.Some? <==> q.Some? && !RejectsPacketSize(ReadFields(q.value))
    ensures h.transfer.Some? ==>
              h.transfer.value == CT.SendPacket(Some(BuildConfig(ReadFields(q.value))), bus, rec)
    ensures h.transfer.Some? ==>
              var t := h.transfer.value;
              var f := ReadFields(q.value);
              var c := BuildConfig(f);
              && |t.received| >= Min(t.bytesRead, ResponseMaxBytes)
              && h.reply.value == Render(t.status, t.received, t.bytesRead,
                                         Echo(f.bmRequestType, f.bRequest, f.wValue, f.wIndex, c.wLength,
                                              c.packetSize, f.maxRetries, connected))
  {
    if q.None? then Handled(false, needsReset, None, rec, None)
    else
      var f := ReadFields(q.value);
      if RejectsPacketSize(f) then Handled(false, needsReset, None, rec, Some(PacketSizeRefusal))
      else
        var reset := needsReset && connected;
        var c := BuildConfig(f);
        var t := CT.SendPacket(Some(c), bus, rec);
        var echo := Echo(f.bmRequestType, f.bRequest, f.wValue, f.wIndex, c.wLength,
                         c.packetSize, f.maxRetries, connected);
        Handled(reset, needsReset && !reset, Some(t), t.recovery,
                Some(Render(t.status, t.received, t.bytesRead, echo)))
  }

  /** When a transfer reads bytes, the reply's data and ascii members are the
      hex and ASCII dumps of what it received. */
  lemma {:induction false} ReplyDumpsReceived(q: Query, connected: bool, needsReset: bool,
                                              bus: CT.Bus, rec: CT.Recovery)
    requires !RejectsPacketSize(ReadFields(q))
    ensures var h := HandleSendRequest(Some(q), connected, needsReset, bus, rec);
            var t := h.transfer.value;
            t.bytesRead > 0 ==>
              && |t.received| >= Min(t.bytesRead, ResponseMaxBytes)
              && h.reply.value.data == HexDump(t.received, t.bytesRead)
              && h.reply.value.ascii == AsciiDump(t.received, t.bytesRead)
  {
  }

  /** The SETUP frame a request sends carries the query's request fields at
      the offsets of section 9.3 of the USB 2.0 specification, whenever the
      frame has its full 8 bytes. */
  lemma {:induction false} SetupFrameCarriesQuery(q: Query, connected: bool, needsReset: bool,
                                                  bus: CT.Bus, rec: CT.Recovery)
    requires !RejectsPacketSize(ReadFields(q))
    requires CT.Accepted(Some(BuildConfig(ReadFields(q)))) && BuildConfig(ReadFields(q)).packetSize >= 8
    ensures var f := ReadFields(q);
            var frame := HandleSendRequest(Some(q), connected, needsReset, bus, rec).transfer.value.setupFrame;
            && |frame| >= 8 && frame[0] == f.bmRequestType && frame[1] == f.bRequest
            && Descriptors.Le16(frame[2], frame[3]) == f.wValue
            && Descriptors.Le16(frame[4], frame[5]) == f.wIndex
  {
    var f := ReadFields(q);
    var c := BuildConfig(f);
    CT.SendPacketFrame(c, bus, rec);
  }

  /** Without the packet-size bound in the transfer, the handler passes a
      packet size of 300 straight to the SETUP copy into the 256-byte DMA
      buffer; with it the transfer is refused and the reply says FAILED. */
  lemma {:induction false} OversizedPacketReachesTransfer(q: Query, bus: CT.Bus, rec: CT.Recovery)
    requires Lookup(q, "packetSize") == Some("300") && Lookup(q, "dataBytes").None?
    ensures var c := BuildConfig(ReadFields(q));
            && c.packetSize == 300
            && CT.AcceptedAsWritten(Some(c)) && !CT.Accepted(Some(c))
            && HandleSendRequest(Some(q), true, false, bus, rec).reply.value.data == "FAILED"
  {
    var f := ReadFields(q);
    PacketSize300(q);
    assert BuildConfig(f).packetSize == 300;
    RefusedConfigReportsFailed(q, true, false, bus, rec);
  }

  lemma {:induction false} PacketSize300(q: Query)
    requires Lookup(q, "packetSize") == Some("300") && Lookup(q, "dataBytes").None?
    ensures ReadFields(q).packetSize == 300 && ReadFields(q).customData == []
    ensures !RejectsPacketSize(ReadFields(q))
  {
    Atoi300();
    var f := ReadFields(q);
    assert QueryValue(q, "packetSize", QueryValueCap) == Some("300");
    assert f.packetSize == ToSize(Atoi("300"));
  }

  lemma {:induction false} Atoi300()
    ensures Atoi("300") == 300
  {
    assert NatToString(3, 10) == "3";
    assert NatToString(30, 10) == NatToString(3, 10) + [DigitChar(0, false)];
    assert NatToString(300, 10) == NatToString(30, 10) + [DigitChar(0, false)];
    assert DigitChar(0, false) == '0';
    assert NatToString(300, 10) == "300";
    StrtolOfDecimal(300, Base10);
  }

  /** A configuration the transfer refuses is reported with the error token
      FAILED and no bytes. */
  lemma {:induction false} RefusedConfigReportsFailed(q: Query, connected: bool, needsReset: bool, bus: CT.Bus, rec: CT.Recovery)
    requires !RejectsPacketSize(ReadFields(q)) && !CT.Accepted(Some(BuildConfig(ReadFields(q))))
    ensures var h := HandleSendRequest(Some(q), connected, needsReset, bus, rec);
            h.reply.value.data == "FAILED" && h.reply.value.status == "failed" && h.reply.value.bytesReceived == 0
  {
    var t := CT.SendPacket(Some(BuildConfig(ReadFields(q))), bus, rec);
    assert t.status == CT.InvalidArg && t.bytesRead == 0;
  }
}

=== FILE: text.dfy ===
/** Character- and string-level primitives shared by the browser client and the
    firmware: bytes, JavaScript whitespace, trimming, ASCII case mapping,
    substring search, number formatting and JavaScript's `parseInt`. */
module Text {
  import opened Wrappers

  type byte = x: int | 0 <= x < 0x100
  type u16 = x: int | 0 <= x < 0x1_0000

  /** The code points ECMAScript's `\s` matches and `String.prototype.trim` strips
      (WhiteSpace and LineTerminator). */
  predicate IsJsSpace(c: char) {
    c == '\t' || c == '\n' || c == '\U{0B}' || c == '\U{0C}' || c == '\r' || c == ' '
    || c == '\U{A0}' || c == '\U{1680}' || ('\U{2000}' <= c <= '\U{200A}')
    || c == '\U{2028}' || c == '\U{2029}' || c == '\U{202F}' || c == '\U{205F}'
    || c == '\U{3000}' || c == '\U{FEFF}'
  }

  function Min(a: int, b: int): int {
    if a < b then a else b
  }

  function Max(a: int, b: int): int {
    if a < b then b else a
  }

  predicate IsDigit(c: char) {
    '0' <= c <= '9'
  }

  predicate IsHexDigit(c: char) {
    IsDigit(c) || 'a' <= c <= 'f' || 'A' <= c <= 'F'
  }

  /** A digit of `base` (8, 10 or 16), in either letter case. */
  predicate IsDigitOf(c: char, base: nat) {
    IsHexDigit(c) && (base == 16 || (IsDigit(c) && (base != 8 || c <= '7')))
  }

  function DigitValue(c: char): (v: nat)
    requires IsHexDigit(c)
    ensures v < 16
    ensures IsDigit(c) ==> v < 10
  {
    if IsDigit(c) then (c - '0') as nat
    else if 'a' <= c <= 'f' then (c - 'a') as nat + 10
    else (c - 'A') as nat + 10
  }

  /** The digit character for `v`; letters are lower case unless `upper`. */
  function DigitChar(v: nat, upper: bool): (c: char)
    requires v < 16
    ensures IsHexDigit(c) && DigitValue(c) == v
    ensures v < 10 ==> IsDigit(c)
    ensures upper ==> !('a' <= c <= 'z')
    ensures !upper ==> !('A' <= c <= 'Z')
  {
    if v < 10 then ('0' as int + v) as char
    else if upper then ('A' as int + v - 10) as char
    else ('a' as int + v - 10) as char
  }

  predicate NoSpaces(s: string) {
    forall i :: 0 <= i < |s| ==> !IsJsSpace(s[i])
  }

  /** `s.replace(/\s/g, '')`. */
  function RemoveSpaces(s: string): (r: string)
    ensures NoSpaces(r)
    ensures |r| <= |s|
    ensures NoSpaces(s) ==> r == s
  {
    if |s| == 0 then ""
    else if IsJsSpace(s[0]) then RemoveSpaces(s[1..])
    else [s[0]] + RemoveSpaces(s[1..])
  }

  lemma {:induction false} RemoveSpacesAppend(a: string, b: string)
    ensures RemoveSpaces(a + b) == RemoveSpaces(a) + RemoveSpaces(b)
  {
    if |a| == 0 {
      assert a + b == b;
    } else {
      assert (a + b)[1..] == a[1..] + b;
      RemoveSpacesAppend(a[1..], b);
    }
  }

  /** Leading whitespace removed. */
  function TrimStart(s: string): string {
    if |s| > 0 && IsJsSpace(s[0]) then TrimStart(s[1..]) else s
  }

  /** `TrimStart` drops a prefix made of whitespace and stops at the first other
      character. */
  lemma {:induction false} TrimStartSpec(s: string)
    ensures var r := TrimStart(s);
            |r| <= |s| && r == s[|s| - |r|..]
            && (forall i :: 0 <= i < |s| - |r| ==> IsJsSpace(s[i]))
            && (|r| > 0 ==> !IsJsSpace(r[0]))
  {
    if |s| > 0 && IsJsSpace(s[0]) {
      TrimStartSpec(s[1..]);
    }
  }

  /** Trailing whitespace removed. */
  function TrimEnd(s: string): string {
    if |s| > 0 && IsJsSpace(s[|s| - 1]) then TrimEnd(s[..|s| - 1]) else s
  }

  lemma {:induction false} TrimEndSpec(s: string)
    ensures var r := TrimEnd(s);
            |r| <= |s| && r == s[..|r|]
            && (forall i :: |r| <= i < |s| ==> IsJsSpace(s[i]))
            && (|r| > 0 ==> !IsJsSpace(r[|r| - 1]))
  {
    if |s| > 0 && IsJsSpace(s[|s| - 1]) {
      TrimEndSpec(s[..|s| - 1]);
    }
  }

  /** `String.prototype.trim`. */
  function Trim(s: string): (r: string)
    ensures |r| <= |s|
    ensures IsTrimmed(r)
    ensures IsTrimmed(s) ==> r == s
  {
    TrimStartSpec(s);
    TrimEndSpec(TrimStart(s));
    TrimEnd(TrimStart(s))
  }

  /** A string `trim` leaves alone. */
  predicate IsTrimmed(s: string) {
    |s| == 0 || (!IsJsSpace(s[0]) && !IsJsSpace(s[|s| - 1]))
  }

  /** Trimming removes whitespace only. */
  lemma {:induction false} TrimRemovesOnlySpaces(s: string)
    ensures RemoveSpaces(Trim(s)) == RemoveSpaces(s)
  {
    TrimStartRemovesOnlySpaces(s);
    TrimEndRemovesOnlySpaces(TrimStart(s));
  }

  lemma {:induction false} TrimStartRemovesOnlySpaces(s: string)
    ensures RemoveSpaces(TrimStart(s)) == RemoveSpaces(s)
  {
    var t := TrimStart(s);
    TrimStartSpec(s);
    var p := s[..|s| - |t|];
    assert s == p + t;
    forall i | 0 <= i < |p| ensures IsJsSpace(p[i]) {
      assert p[i] == s[i];
    }
    DropSpacePrefix(p, t);
  }

  lemma {:induction false} TrimEndRemovesOnlySpaces(t: string)
    ensures RemoveSpaces(TrimEnd(t)) == RemoveSpaces(t)
  {
    var r := TrimEnd(t);
    TrimEndSpec(t);
    var q := t[|r|..];
    assert t == r + q;
    forall i | 0 <= i < |q| ensures IsJsSpace(q[i]) {
      assert q[i] == t[|r| + i];
    }
    DropSpaceSuffix(r, q);
  }

  lemma {:induction false} DropSpacePrefix(a: string, b: string)
    requires forall i :: 0 <= i < |a| ==> IsJsSpace(a[i])
    ensures RemoveSpaces(a + b) == RemoveSpaces(b)
  {
    SpacesOnly(a);
    RemoveSpacesAppend(a, b);
  }

  lemma {:induction false} DropSpaceSuffix(a: string, b: string)
    requires forall i :: 0 <= i < |b| ==> IsJsSpace(b[i])
    ensures RemoveSpaces(a + b) == RemoveSpaces(a)
  {
    SpacesOnly(b);
    RemoveSpacesAppend(a, b);
    assert RemoveSpaces(a) + "" == RemoveSpaces(a);
  }

  lemma {:induction false} SpacesOnly(s: string)
    requires forall i :: 0 <= i < |s| ==> IsJsSpace(s[i])
    ensures RemoveSpaces(s) == ""
  {
    if |s| > 0 {
      SpacesOnly(s[1..]);
    }
  }

  function ToUpperChar(c: char): (d: char)
    ensures !('a' <= d <= 'z')
    ensures !('a' <= c <= 'z') ==> d == c
  {
    if 'a' <= c <= 'z' then (c as int - 32) as char else c
  }

  function ToLowerChar(c: char): (d: char)
    ensures !('A' <= d <= 'Z')
    ensures !('A' <= c <= 'Z') ==> d == c
  {
    if 'A' <= c <= 'Z' then (c as int + 32) as char else c
  }

  /** `toUpperCase`, on the ASCII letters. */
  function ToUpper(s: string): (r: string)
    ensures |r| == |s|
    ensures forall i :: 0 <= i < |s| ==> r[i] == ToUpperChar(s[i])
  {
    seq(|s|, i requires 0 <= i < |s| => ToUpperChar(s[i]))
  }

  lemma {:induction false} ToUpperAppend(a: string, b: string)
    ensures ToUpper(a + b) == ToUpper(a) + ToUpper(b)
  {
    assert forall i :: 0 <= i < |a + b| ==> ToUpper(a + b)[i] == (ToUpper(a) + ToUpper(b))[i];
  }

  /** `toLowerCase`, on the ASCII letters. */
  function ToLower(s: string): (r: string)
    ensures |r| == |s|
    ensures forall i :: 0 <= i < |s| ==> r[i] == ToLowerChar(s[i])
  {
    seq(|s|, i requires 0 <= i < |s| => ToLowerChar(s[i]))
  }

  predicate IsPrefix<T(==)>(p: seq<T>, s: seq<T>) {
    |p| <= |s| && s[..|p|] == p
  }

  /** `s.includes(t)`, searched position by position. */
  predicate Includes<T(==)>(s: seq<T>, t: seq<T>)
    decreases |s|
  {
    IsPrefix(t, s) || (|s| > 0 && Includes(s[1..], t))
  }

  /** `t` occurs in `s` at position `k`. */
  predicate WindowAt<T(==)>(s: seq<T>, t: seq<T>, k: int) {
    0 <= k <= |s| - |t| && s[k..k + |t|] == t
  }

  /** The declarative reading of `Includes`: some window of `s` equals `t`. */
  lemma {:induction false} IncludesIffWindow<T>(s: seq<T>, t: seq<T>)
    ensures Includes(s, t) <==> exists k :: WindowAt(s, t, k)
    decreases |s|
  {
    if IsPrefix(t, s) {
      assert WindowAt(s, t, 0);
    } else if |s| > 0 {
      IncludesIffWindow(s[1..], t);
      if exists k :: WindowAt(s, t, k) {
        var k :| WindowAt(s, t, k);
        assert k != 0;
        assert WindowAt(s[1..], t, k - 1) by {
          assert s[1..][k - 1..k - 1 + |t|] == s[k..k + |t|];
        }
      }
      if Includes(s[1..], t) {
        var k :| WindowAt(s[1..], t, k);
        assert WindowAt(s, t, k + 1) by {
          assert s[1..][k..k + |t|] == s[k + 1..k + 1 + |t|];
        }
      }
    }
  }

  function Repeat<T>(x: T, n: nat): (r: seq<T>)
    ensures |r| == n
    ensures forall i :: 0 <= i < n ==> r[i] == x
  {
    seq(n, _ => x)
  }

  /** `s.padStart(width, c)`. */
  function PadStart(s: string, width: nat, c: char): (r: string)
    ensures |r| == if |s| >= width then |s| else width
    ensures r[|r| - |s|..] == s
    ensures forall i :: 0 <= i < |r| - |s| ==> r[i] == c
  {
    if |s| >= width then s else Repeat(c, width - |s|) + s
  }

  // ---------------------------------------------------------------------
  // Number formatting
  // ---------------------------------------------------------------------

  /** The digits of `n` in `base`, most significant first, without leading zeros
      (`n.toString(base)` for a non-negative integer; letters lower case). */
  function NatToString(n: nat, base: nat): (r: string)
    requires base == 10 || base == 16
    ensures |r| > 0
    decreases n
  {
    if n < base then [DigitChar(n, false)]
    else NatToString(n / base, base) + [DigitChar(n % base, false)]
  }

  /** `NatToString` writes digits of its base, lower-case, without a leading
      zero, whose value is the number written. */
  lemma {:induction false} NatToStringSpec(n: nat, base: nat)
    requires base == 10 || base == 16
    ensures var r := NatToString(n, base);
            && (forall i :: 0 <= i < |r| ==> IsDigitOf(r[i], base) && !('A' <= r[i] <= 'Z'))
            && DigitsValue(r, base) == n
            && (|r| > 1 ==> r[0] != '0')
    decreases n
  {
    if n >= base {
      NatToStringSpec(n / base, base);
      var r := NatToString(n, base);
      assert r[..|r| - 1] == NatToString(n / base, base);
    }
  }

  /** `String(n)` for an integer: decimal with a leading '-' when negative. */
  function IntToString(n: int): (r: string)
    ensures |r| > 0
  {
    if n < 0 then "-" + NatToString(-n, 10) else NatToString(n, 10)
  }

  /** The value of a digit string read most significant digit first (a
      character that is no hexadecimal digit counts as 0). */
  function DigitsValue(ds: string, base: nat): nat {
    if |ds| == 0 then 0
    else
      var c := ds[|ds| - 1];
      DigitsValue(ds[..|ds| - 1], base) * base + (if IsHexDigit(c) then DigitValue(c) else 0)
  }

  /** The longest prefix of `s` made of digits of `base`. */
  function DigitPrefix(s: string, base: nat): string {
    if |s| > 0 && IsDigitOf(s[0], base) then [s[0]] + DigitPrefix(s[1..], base) else ""
  }

  lemma {:induction false} DigitPrefixOfDigits(s: string, rest: string, base: nat)
    requires forall i :: 0 <= i < |s| ==> IsDigitOf(s[i], base)
    requires |rest| > 0 ==> !IsDigitOf(rest[0], base)
    ensures DigitPrefix(s + rest, base) == s
  {
    if |s| > 0 {
      assert (s + rest)[1..] == s[1..] + rest;
      DigitPrefixOfDigits(s[1..], rest, base);
    } else {
      assert s + rest == rest;
    }
  }

  /** How `parseInt` is given its radix: `Dec` is `parseInt(s, 10)`, `Hex` is
      `parseInt(s, 16)`, and `Auto` is `parseInt(s)` with no radix. */
  datatype Radix = Dec | Hex | Auto

  predicate HasHexPrefix(s: string) {
    |s| >= 2 && s[0] == '0' && (s[1] == 'x' || s[1] == 'X')
  }

  /** ECMAScript `parseInt`: leading whitespace skipped, one optional sign, a
      "0x"/"0X" prefix stripped when the radix is 16 or absent (and then the radix
      is 16), and the longest run of digits that follows; `None` is NaN. */
  function JsParseInt(s: string, radix: Radix): Option<int> {
    var t := TrimStart(s);
    match ParseUnsigned(StripSign(t), radix)
    case None => None
    case Some(m) => Some(if IsNegative(t) then -m else m)
  }

  predicate IsNegative(t: string) {
    |t| > 0 && t[0] == '-'
  }

  function StripSign(t: string): string {
    if |t| > 0 && (t[0] == '-' || t[0] == '+') then t[1..] else t
  }

  /** The unsigned part of `parseInt`, after whitespace and sign. */
  function ParseUnsigned(u: string, radix: Radix): Option<int> {
    var strip := radix != Dec && HasHexPrefix(u);
    var base: nat := if radix == Hex || strip then 16 else 10;
    var v := if strip then u[2..] else u;
    var ds := DigitPrefix(v, base);
    if |ds| == 0 then None else Some(DigitsValue(ds, base) as int)
  }

  lemma {:induction false} ParseUnsignedOfDigits(d: string, radix: Radix)
    requires |d| > 0 && forall i :: 0 <= i < |d| ==> IsDigit(d[i])
    requires radix != Hex && (|d| > 1 ==> d[0] != '0')
    ensures ParseUnsigned(d, radix) == Some(DigitsValue(d, 10))
  {
    assert !HasHexPrefix(d);
    DigitPrefixOfDigits(d, "", 10);
    assert d + "" == d;
  }

  /** A run of decimal digits is read as its value. */
  lemma {:induction false} ParseIntOfDigits(d: string, radix: Radix)
    requires |d| > 0 && forall i :: 0 <= i < |d| ==> IsDigit(d[i])
    requires radix != Hex && (|d| > 1 ==> d[0] != '0')
    ensures JsParseInt(d, radix) == Some(DigitsValue(d, 10) as int)
  {
    ParseUnsignedOfDigits(d, radix);
    TrimStartNoSpace(d);
    assert StripSign(d) == d;
    assert !IsNegative(d);
  }

  /** A run of decimal digits after a '-' is read as the negated value. */
  lemma {:induction false} ParseIntOfNegDigits(d: string, radix: Radix)
    requires |d| > 0 && forall i :: 0 <= i < |d| ==> IsDigit(d[i])
    requires radix != Hex && (|d| > 1 ==> d[0] != '0')
    ensures JsParseInt("-" + d, radix) == Some(0 - DigitsValue(d, 10))
  {
    ParseUnsignedOfDigits(d, radix);
    ParseIntNegative(d, radix, DigitsValue(d, 10));
  }

  lemma {:induction false} ParseIntNegative(u: string, radix: Radix, m: int)
    requires ParseUnsigned(u, radix) == Some(m)
    ensures JsParseInt("-" + u, radix) == Some(-m)
  {
    var s := "-" + u;
    assert s[0] == '-' && s[1..] == u;
    assert TrimStart(s) == s by { assert !IsJsSpace(s[0]); }
    assert StripSign(s) == u;
    assert IsNegative(s);
  }

  lemma {:induction false} TrimStartNoSpace(s: string)
    requires |s| > 0 && (s[0] == '-' || IsHexDigit(s[0]))
    ensures TrimStart(s) == s
  {
    assert !IsJsSpace(s[0]);
  }

  /** Decimal text written by `String(n)` is read back by `parseInt`, with or
      without an explicit radix of 10. */
  lemma {:induction false} ParseIntOfIntToString(n: int)
    ensures JsParseInt(IntToString(n), Dec) == Some(n)
    ensures JsParseInt(IntToString(n), Auto) == Some(n)
  {
    if n < 0 {
      NegTextReadsBack(-n, Dec);
      NegTextReadsBack(-n, Auto);
    } else {
      NatTextReadsBack(n, Dec);
      NatTextReadsBack(n, Auto);
    }
  }

  lemma {:induction false} NatTextReadsBack(n: nat, radix: Radix)
    requires radix != Hex
    ensures JsParseInt(NatToString(n, 10), radix) == Some(n)
  {
    var d := NatToString(n, 10);
    NatToStringSpec(n, 10);
    DecimalIsDigits(d);
    ParseIntOfDigits(d, radix);
  }

  lemma {:induction false} NegTextReadsBack(n: nat, radix: Radix)
    requires radix != Hex
    ensures JsParseInt("-" + NatToString(n, 10), radix) == Some(-(n as int))
  {
    var d := NatToString(n, 10);
    NatToStringSpec(n, 10);
    DecimalIsDigits(d);
    ParseIntOfNegDigits(d, radix);
  }

  lemma {:induction false} DecimalIsDigits(d: string)
    requires forall i :: 0 <= i < |d| ==> IsDigitOf(d[i], 10)
    ensures forall i :: 0 <= i < |d| ==> IsDigit(d[i])
  {
  }

  /** Two hexadecimal digits for a byte (`b.toString(16).padStart(2, '0')`,
      upper-cased when `upper`). */
  function HexByte(b: byte, upper: bool): (r: string)
    ensures |r| == 2 && IsHexDigit(r[0]) && IsHexDigit(r[1])
    ensures DigitValue(r[0]) * 16 + DigitValue(r[1]) == b
  {
    [DigitChar(b / 16, upper), DigitChar(b % 16, upper)]
  }

  lemma {:induction false} HexByteHasNoSpaces(b: byte, upper: bool)
    ensures RemoveSpaces(HexByte(b, upper)) == HexByte(b, upper)
  {
    var h := HexByte(b, upper);
    assert !IsJsSpace(h[0]) && !IsJsSpace(h[1]);
    assert NoSpaces(h);
  }

  /** Two hexadecimal digits are read back by `parseInt(_, 16)` as the byte they encode. */
  lemma {:induction false} ParseIntOfHexByte(b: byte, upper: bool)
    ensures JsParseInt(HexByte(b, upper), Hex) == Some(b)
  {
    var h := HexByte(b, upper);
    DigitPrefixOfDigits(h, "", 16);
    assert h + "" == h;
    HexPairValue(h);
    assert ParseUnsigned(h, Hex) == Some(b);
    TrimStartNoSpace(h);
    ParseIntPositive(h, Hex, b);
  }

  /** `parseInt` without a radix reads "0x" and hexadecimal digits as their
      value. */
  lemma {:induction false} ParseIntOfHexText(d: string)
    requires |d| > 0 && forall i :: 0 <= i < |d| ==> IsHexDigit(d[i])
    ensures JsParseInt("0x" + d, Auto) == Some(DigitsValue(d, 16) as int)
  {
    var t := "0x" + d;
    assert t[2..] == d && HasHexPrefix(t);
    DigitPrefixOfDigits(d, "", 16);
    assert d + "" == d;
    assert ParseUnsigned(t, Auto) == Some(DigitsValue(d, 16) as int);
    TrimStartNoSpace(t);
    ParseIntPositive(t, Auto, DigitsValue(d, 16));
  }

  lemma {:induction false} ParseIntPositive(s: string, radix: Radix, m: int)
    requires |s| > 0 && s[0] != '-' && s[0] != '+' && TrimStart(s) == s
    requires ParseUnsigned(s, radix) == Some(m)
    ensures JsParseInt(s, radix) == Some(m)
  {
    assert StripSign(s) == s;
  }

  lemma {:induction false} HexPairValue(h: string)
    requires |h| == 2 && IsHexDigit(h[0]) && IsHexDigit(h[1])
    ensures DigitsValue(h, 16) == DigitValue(h[0]) * 16 + DigitValue(h[1])
  {
    var h1 := h[..1];
    assert h1[..0] == "";
    assert DigitsValue(h1, 16) == DigitValue(h[0]);
    assert h[..|h| - 1] == h1;
  }

  // ---------------------------------------------------------------------
  // Splitting and joining
  // ---------------------------------------------------------------------

  /** `s.split(sep)` for a one-character separator: always one more piece than
      there are separators. */
  function Split(s: string, sep: char): (r: seq<string>)
    ensures |r| > 0
    ensures forall i :: 0 <= i < |r| ==> sep !in r[i]
  {
    if sep !in s then [s]
    else
      var k := IndexOf(s, sep);
      [s[..k]] + Split(s[k + 1..], sep)
  }

  function IndexOf(s: string, c: char): (k: nat)
    requires c in s
    ensures k < |s| && s[k] == c && c !in s[..k]
  {
    if s[0] == c then 0 else 1 + IndexOf(s[1..], c)
  }

  function Join(parts: seq<string>, sep: string): string {
    if |parts| == 0 then ""
    else if |parts| == 1 then parts[0]
    else parts[0] + sep + Join(parts[1..], sep)
  }

  lemma {:induction false} JoinTwo(a: string, b: string, sep: string)
    ensures Join([a, b], sep) == a + sep + b
  {
    assert [a, b][1..] == [b];
  }

  lemma {:induction false} JoinThree(a: string, b: string, c: string, sep: string)
    ensures Join([a, b, c], sep) == a + sep + b + sep + c
  {
    assert [a, b, c][1..] == [b, c];
    JoinTwo(b, c, sep);
  }

  /** Splitting the join of separator-free pieces gives the pieces back. */
  lemma {:induction false} SplitJoin(parts: seq<string>, sep: char)
    requires |parts| > 0
    requires forall i :: 0 <= i < |parts| ==> sep !in parts[i]
    ensures Split(Join(parts, [sep]), sep) == parts
  {
    if |parts| == 1 {
    } else {
      var s := Join(parts, [sep]);
      var rest := Join(parts[1..], [sep]);
      assert s == parts[0] + [sep] + rest;
      assert s[|parts[0]|] == sep;
      assert s[..|parts[0]|] == parts[0];
      assert IndexOf(s, sep) == |parts[0]|;
      assert s[|parts[0]| + 1..] == rest;
      SplitJoin(parts[1..], sep);
    }
  }

  /** Joining the pieces of a split gives the string back. */
  lemma {:induction false} JoinSplit(s: string, sep: char)
    ensures Join(Split(s, sep), [sep]) == s
    decreases |s|
  {
    if sep in s {
      var k := IndexOf(s, sep);
      JoinSplit(s[k + 1..], sep);
      var r := Split(s[k + 1..], sep);
      assert Split(s, sep) == [s[..k]] + r;
      assert ([s[..k]] + r)[1..] == r;
      assert s == s[..k] + [sep] + s[k + 1..];
    }
  }

  /** A join of non-empty pieces starts with the first piece's first
      character and ends with the last piece's last character. */
  lemma {:induction false} JoinEnds(parts: seq<string>, sep: string)
    requires |parts| > 0 && forall i :: 0 <= i < |parts| ==> |parts[i]| > 0
    ensures var j := Join(parts, sep);
            |j| > 0 && j[0] == parts[0][0] && j[|j| - 1] == parts[|parts| - 1][|parts[|parts| - 1]| - 1]
  {
    if |parts| > 1 {
      JoinEnds(parts[1..], sep);
    }
  }

  // ---------------------------------------------------------------------
  // Number
  // ---------------------------------------------------------------------

  /** `Number(s)` for integer text: blank text is 0, decimal digits with an
      optional sign or hexadecimal digits after "0x"/"0X" are their value, and
      anything else is NaN (None). */
  function JsNumber(s: string): Option<int> {
    var t := Trim(s);
    if t == "" then Some(0)
    else if HasHexPrefix(t) then
      (if |t| > 2 && AllDigitsOf(t[2..], 16) then Some(DigitsValue(t[2..], 16) as int) else None)
    else
      var neg := t[0] == '-';
      var u := if t[0] == '-' || t[0] == '+' then t[1..] else t;
      var m := DigitsValue(u, 10) as int;
      if |u| > 0 && AllDigitsOf(u, 10) then Some(if neg then -m else m) else None
  }

  predicate AllDigitsOf(s: string, base: nat) {
    forall i :: 0 <= i < |s| ==> IsDigitOf(s[i], base)
  }

  /** `Number` reads back the decimal text `String` writes for an integer. */
  lemma {:induction false} JsNumberOfIntToString(n: int)
    ensures JsNumber(IntToString(n)) == Some(n)
  {
    var m: nat := if n < 0 then -n else n;
    NatToStringSpec(m, 10);
    if n < 0 {
      JsNumberOfNegDigits(NatToString(m, 10));
    } else {
      JsNumberOfDigits(NatToString(m, 10));
    }
  }

  lemma {:induction false} JsNumberOfDigits(d: string)
    requires |d| > 0 && AllDigitsOf(d, 10) && (|d| > 1 ==> d[0] != '0')
    ensures JsNumber(d) == Some(DigitsValue(d, 10) as int)
  {
    assert IsDigitOf(d[0], 10) && IsDigitOf(d[|d| - 1], 10);
    assert IsTrimmed(d);
  }

  lemma {:induction false} JsNumberOfNegDigits(d: string)
    requires |d| > 0 && AllDigitsOf(d, 10)
    ensures JsNumber("-" + d) == Some(-(DigitsValue(d, 10) as int))
  {
    var t := "-" + d;
    assert t[1..] == d && t[|t| - 1] == d[|d| - 1];
    assert IsDigitOf(d[|d| - 1], 10);
    assert IsTrimmed(t);
  }

  /** `Number` reads "0x" and hexadecimal digits as their value. */
  lemma {:induction false} JsNumberOfHex(d: string)
    requires |d| > 0 && AllDigitsOf(d, 16)
    ensures JsNumber("0x" + d) == Some(DigitsValue(d, 16) as int)
  {
    var t := "0x" + d;
    assert t[2..] == d && t[|t| - 1] == d[|d| - 1];
    assert IsDigitOf(d[|d| - 1], 16);
    assert IsTrimmed(t);
  }
}

=== FILE: triggers.dfy ===
/** The firmware's webhook trigger registry behind `/api/trigger`: a bounded
    list of distinct ids that chain runs wait on. A POST sets or clears an id,
    a GET reports whether it is set. */
module Triggers {
  import opened Wrappers
  import opened HttpQuery

  const MaxTriggers: nat := 16
  const TriggerIdCap: nat := 32
  const StateCap: nat := 8
  const DefaultId: string := "trigger1"

  /** `triggered_ids[0 .. triggered_count)`. */
  datatype Registry = Registry(ids: seq<string>)

  /** At most 16 ids, pairwise distinct. */
  predicate Valid(r: Registry) {
    |r.ids| <= MaxTriggers
    && forall i, j :: 0 <= i < j < |r.ids| ==> r.ids[i] != r.ids[j]
  }

  const Empty: Registry := Registry([])

  predicate Contains(r: Registry, id: string) {
    id in r.ids
  }

  /** Setting an id appends it when it is absent and fewer than 16 are stored;
      otherwise the registry is unchanged. */
  function Set(r: Registry, id: string): (r': Registry)
    ensures !Contains(r, id) && |r.ids| < MaxTriggers ==> r'.ids == r.ids + [id]
    ensures Contains(r, id) || |r.ids| >= MaxTriggers ==> r' == r
  {
    if id !in r.ids && |r.ids| < MaxTriggers then Registry(r.ids + [id]) else r
  }

  /** The position of the first stored copy of `id`. */
  function IndexOf(ids: seq<string>, id: string): (k: nat)
    requires id in ids
    ensures k < |ids| && ids[k] == id
    ensures forall j :: 0 <= j < k ==> ids[j] != id
  {
    if ids[0] == id then 0 else 1 + IndexOf(ids[1..], id)
  }

  /** Clearing an id removes its first copy, shifting the later ones down;
      clearing an absent id changes nothing. */
  function Clear(r: Registry, id: string): (r': Registry)
    ensures !Contains(r, id) ==> r' == r
    ensures Contains(r, id) ==> |r'.ids| == |r.ids| - 1
  {
    if id in r.ids then
      var k := IndexOf(r.ids, id);
      Registry(r.ids[..k] + r.ids[k + 1..])
    else r
  }

  /** Both operations keep the registry valid. */
  lemma {:induction false} SetKeepsValid(r: Registry, id: string)
    requires Valid(r)
    ensures Valid(Set(r, id))
  {
  }

  lemma {:induction false} ClearKeepsValid(r: Registry, id: string)
    requires Valid(r)
    ensures Valid(Clear(r, id))
  {
    if id in r.ids {
      var k := IndexOf(r.ids, id);
      var ids' := Clear(r, id).ids;
      forall i, j | 0 <= i < j < |ids'| ensures ids'[i] != ids'[j] {
        var i0 := if i < k then i else i + 1;
        var j0 := if j < k then j else j + 1;
        assert ids'[i] == r.ids[i0] && ids'[j] == r.ids[j0];
      }
    }
  }

  /** After a set, the id is present exactly when it was already present or
      there was room; every other id keeps its membership. */
  lemma {:induction false} SetMembership(r: Registry, id: string, other: string)
    ensures Contains(Set(r, id), id) <==> Contains(r, id) || |r.ids| < MaxTriggers
    ensures other != id ==> (Contains(Set(r, id), other) <==> Contains(r, other))
  {
  }

  /** The ids other than `id`, in their stored order. */
  function Without(ids: seq<string>, id: string): (r: seq<string>)
    ensures |r| <= |ids|
    ensures forall x :: x in r <==> x in ids && x != id
  {
    if |ids| == 0 then [] else (if ids[0] == id then [] else [ids[0]]) + Without(ids[1..], id)
  }

  lemma {:induction false} WithoutAbsent(ids: seq<string>, id: string)
    requires id !in ids
    ensures Without(ids, id) == ids
  {
    if |ids| > 0 {
      WithoutAbsent(ids[1..], id);
      assert ids == [ids[0]] + ids[1..];
    }
  }

  lemma {:induction false} WithoutFirstCopy(ids: seq<string>, id: string)
    requires id in ids
    requires forall i, j :: 0 <= i < j < |ids| ==> ids[i] != ids[j]
    ensures var k := IndexOf(ids, id);
            ids[..k] + ids[k + 1..] == Without(ids, id)
  {
    if ids[0] == id {
      assert id !in ids[1..] by {
        forall j | 0 <= j < |ids[1..]| ensures ids[1..][j] != id {
          assert ids[0] != ids[j + 1];
        }
      }
      WithoutAbsent(ids[1..], id);
    } else {
      var k := IndexOf(ids, id);
      WithoutFirstCopy(ids[1..], id);
      assert ids[..k] == [ids[0]] + ids[1..][..k - 1];
      assert ids[k + 1..] == ids[1..][k..];
      assert Without(ids, id) == [ids[0]] + Without(ids[1..], id);
    }
  }

  /** In a valid registry, a clear leaves exactly the other ids, in their
      stored order. */
  lemma {:induction false} ClearKeepsOrder(r: Registry, id: string)
    requires Valid(r)
    ensures Clear(r, id).ids == Without(r.ids, id)
  {
    if id in r.ids {
      WithoutFirstCopy(r.ids, id);
    } else {
      WithoutAbsent(r.ids, id);
    }
  }

  /** In a valid registry, a clear removes the id and keeps every other id. */
  lemma {:induction false} ClearMembership(r: Registry, id: string, other: string)
    requires Valid(r)
    ensures !Contains(Clear(r, id), id)
    ensures other != id ==> (Contains(Clear(r, id), other) <==> Contains(r, other))
  {
    ClearKeepsOrder(r, id);
  }

  /** Setting an absent id when there is room, then clearing it, restores the
      registry; setting twice is setting once. */
  lemma {:induction false} SetClearInverse(r: Registry, id: string)
    requires !Contains(r, id) && |r.ids| < MaxTriggers
    ensures Clear(Set(r, id), id) == r
  {
    var ids := r.ids + [id];
    assert IndexOf(ids, id) == |r.ids| by {
      IndexOfLast(r.ids, id);
    }
    assert ids[..|r.ids|] == r.ids;
  }

  lemma {:induction false} IndexOfLast(ids: seq<string>, id: string)
    requires id !in ids
    ensures IndexOf(ids + [id], id) == |ids|
  {
    if |ids| > 0 {
      assert (ids + [id])[1..] == ids[1..] + [id];
      IndexOfLast(ids[1..], id);
    }
  }

  lemma {:induction false} SetIdempotent(r: Registry, id: string)
    ensures Set(Set(r, id), id) == Set(r, id)
  {
  }

  // ---------------------------------------------------------------------
  // The handler
  // ---------------------------------------------------------------------

  datatype HttpMethod = Get | Post

  /** The JSON reply: a POST adds `"status": "ok"`. */
  datatype TriggerReply = TriggerReply(status: Option<string>, id: string, triggered: bool)

  /** The id a request names: a non-empty `id` that fits the 32-byte buffer,
      otherwise "trigger1". */
  function RequestedId(q: Option<Query>): (id: string)
    ensures |id| > 0 && |id| < TriggerIdCap
  {
    if q.None? then DefaultId
    else
      var v := QueryValue(q.value, "id", TriggerIdCap);
      if v.Some? && |v.value| > 0 then v.value else DefaultId
  }

  /** Whether a POST sets: no (or an empty) `state`, "true" or "1" sets; any
      other text, read into an 8-byte buffer whose overflow is ignored,
      clears. */
  function RequestedState(q: Option<Query>): (setIt: bool)
    ensures setIt <==> q.None? || Lookup(q.value, "state").None?
                       || Lookup(q.value, "state").value in {"", "true", "1"}
  {
    var s := if q.None? then "" else QueryText(q.value, "state", StateCap);
    |s| == 0 || s == "true" || s == "1"
  }

  /** `char query[128]`. */
  const QueryBufferCap: nat := 128

  /** What `httpd_req_get_url_query_str` leaves the handler: the query when
      the request has one whose `length` characters fit the buffer with their
      terminator; a missing or longer query is an error, and the handler then
      reads nothing from it. */
  function ReceivedQuery(q: Option<Query>, length: nat): (r: Option<Query>)
    ensures r.Some? <==> q.Some? && length < QueryBufferCap
    ensures r.Some? ==> r == q
  {
    if q.Some? && length < QueryBufferCap then q else None
  }

  /** `api_trigger_handler`. */
  function HandleTrigger(r: Registry, m: HttpMethod, q: Option<Query>): (res: (Registry, TriggerReply))
    ensures m == Get ==> res.0 == r && res.1 == TriggerReply(None, RequestedId(q), Contains(r, RequestedId(q)))
    ensures m == Post ==> res.1 == TriggerReply(Some("ok"), RequestedId(q), RequestedState(q))
    ensures m == Post && RequestedState(q) ==> res.0 == Set(r, RequestedId(q))
    ensures m == Post && !RequestedState(q) ==> res.0 == Clear(r, RequestedId(q))
  {
    var id := RequestedId(q);
    match m
    case Get => (r, TriggerReply(None, id, Contains(r, id)))
    case Post =>
      var setIt := RequestedState(q);
      (if setIt then Set(r, id) else Clear(r, id), TriggerReply(Some("ok"), id, setIt))
  }

  /** Every handler call keeps the registry valid. */
  lemma {:induction false} HandleKeepsValid(r: Registry, m: HttpMethod, q: Option<Query>)
    requires Valid(r)
    ensures Valid(HandleTrigger(r, m, q).0)
  {
    SetKeepsValid(r, RequestedId(q));
    ClearKeepsValid(r, RequestedId(q));
  }

  /** A query of 128 characters or more is dropped whole, not cut: whatever
      it names, a GET asks about "trigger1" and a POST sets "trigger1". */
  lemma {:induction false} LongQueryActsOnDefault(r: Registry, m: HttpMethod, q: Query, length: nat)
    requires length >= QueryBufferCap
    ensures var res := HandleTrigger(r, m, ReceivedQuery(Some(q), length));
            && res.1.id == DefaultId
            && (m == Post ==> res.0 == Set(r, DefaultId) && res.1.triggered)
            && (m == Get ==> res.0 == r && res.1.triggered == Contains(r, DefaultId))
  {
  }

  /** A POST reports the state it asked for, not the state it reached: with 16
      other ids stored, "set" reports true yet the id stays absent. */
  lemma {:induction false} PostReportsRequest(r: Registry, q: Query)
    requires |r.ids| == MaxTriggers && RequestedId(Some(q)) !in r.ids && RequestedState(Some(q))
    ensures var res := HandleTrigger(r, Post, Some(q));
            res.1.triggered && !Contains(res.0, RequestedId(Some(q)))
  {
  }

  /** A `state` value of 8 or more characters is cut to 7 before it is read:
      "truetrue" arrives as "truetru" and clears. */
  lemma {:induction false} LongStateClears(q: Query)
    requires Lookup(q, "state") == Some("truetrue")
    ensures !RequestedState(Some(q))
  {
    assert QueryText(q, "state", StateCap) == "truetru";
  }
}

=== FILE: uihelpers.dfy ===
/** Small pure pieces of the web UI: the version comparison of the update
    check, the results-table filter, the packet size the request form
    proposes for the data mode, and moving a chain step up or down. */
module UiHelpers {
  import opened Wrappers
  import opened Text
  import ChainSteps
  import Descriptors
  import RequestApi

  // ---------------------------------------------------------------------
  // compareVersions
  // ---------------------------------------------------------------------

  /** `v.replace(/^v/, '')`. */
  function StripV(v: string): string {
    if |v| > 0 && v[0] == 'v' then v[1..] else v
  }

  /** The parts of a version, with `|| 0` applied: NaN counts as 0. */
  function Parts(v: string): (ps: seq<int>)
    ensures |ps| == |Split(StripV(v), '.')|
  {
    var texts := Split(StripV(v), '.');
    seq(|texts|, i requires 0 <= i < |texts| => match JsNumber(texts[i]) case Some(n) => n case None => 0)
  }

  /** `parts[i] || 0`: a missing part counts as 0. */
  function At(ps: seq<int>, i: nat): int {
    if i < |ps| then ps[i] else 0
  }

  /** The comparison loop from index `i` on. */
  function CompareFrom(a: seq<int>, b: seq<int>, i: nat): (r: int)
    ensures r == -1 || r == 0 || r == 1
    decreases Max(|a|, |b|) - i
  {
    if i >= Max(|a|, |b|) then 0
    else if At(a, i) > At(b, i) then 1
    else if At(a, i) < At(b, i) then -1
    else CompareFrom(a, b, i + 1)
  }

  /** `compareVersions`: 1 when `v1` is newer, -1 when older, 0 when the
      same. */
  function CompareVersions(v1: string, v2: string): (r: int)
    ensures r == -1 || r == 0 || r == 1
  {
    CompareFrom(Parts(v1), Parts(v2), 0)
  }

  /** The parts agree from `i` on, missing parts counting as 0. */
  predicate SameFrom(a: seq<int>, b: seq<int>, i: nat) {
    forall k :: i <= k < Max(|a|, |b|) ==> At(a, k) == At(b, k)
  }

  /** The comparison is 0 exactly when the parts agree. */
  lemma {:induction false} CompareZeroIffSame(a: seq<int>, b: seq<int>, i: nat)
    ensures CompareFrom(a, b, i) == 0 <==> SameFrom(a, b, i)
    decreases Max(|a|, |b|) - i
  {
    if i < Max(|a|, |b|) {
      CompareZeroIffSame(a, b, i + 1);
      if At(a, i) == At(b, i) {
        assert SameFrom(a, b, i) <==> SameFrom(a, b, i + 1);
      }
    }
  }

  /** Swapping the versions negates the comparison. */
  lemma {:induction false} CompareAntisymmetric(a: seq<int>, b: seq<int>, i: nat)
    ensures CompareFrom(a, b, i) == -CompareFrom(b, a, i)
    decreases Max(|a|, |b|) - i
  {
    if i < Max(|a|, |b|) {
      assert Max(|a|, |b|) == Max(|b|, |a|);
      CompareAntisymmetric(a, b, i + 1);
    }
  }

  /** Newer-than is transitive. */
  lemma {:induction false} CompareTransitive(a: seq<int>, b: seq<int>, c: seq<int>, i: nat)
    requires CompareFrom(a, b, i) == 1 && CompareFrom(b, c, i) == 1
    ensures CompareFrom(a, c, i) == 1
    decreases Max(Max(|a|, |b|), |c|) - i
  {
    if At(a, i) == At(b, i) && At(b, i) == At(c, i) {
      CompareTransitive(a, b, c, i + 1);
    }
  }

  /** The versions' order: the first part where they differ decides. */
  lemma {:induction false} CompareFirstDifference(a: seq<int>, b: seq<int>, i: nat, k: nat)
    requires i <= k < Max(|a|, |b|)
    requires forall m :: i <= m < k ==> At(a, m) == At(b, m)
    requires At(a, k) != At(b, k)
    ensures CompareFrom(a, b, i) == (if At(a, k) > At(b, k) then 1 else -1)
    decreases k - i
  {
    if i < k {
      CompareFirstDifference(a, b, i + 1, k);
    }
  }

  /** Trailing zero parts do not matter: "1.2" and "1.2.0" are the same
      version. */
  lemma {:induction false} TrailingZeroIgnored(a: seq<int>)
    ensures CompareFrom(a + [0], a, 0) == 0
  {
    forall k | 0 <= k < Max(|a + [0]|, |a|) ensures At(a + [0], k) == At(a, k) {
    }
    CompareZeroIffSame(a + [0], a, 0);
  }

  /** A leading 'v' is ignored. */
  lemma {:induction false} LeadingVIgnored(v1: string, v2: string)
    requires |v1| == 0 || v1[0] != 'v'
    ensures CompareVersions("v" + v1, v2) == CompareVersions(v1, v2)
  {
    assert ("v" + v1)[1..] == v1;
  }

  lemma {:induction false} CompareVersionsAntisymmetric(v1: string, v2: string)
    ensures CompareVersions(v1, v2) == -CompareVersions(v2, v1)
  {
    CompareAntisymmetric(Parts(v1), Parts(v2), 0);
  }

  lemma {:induction false} CompareVersionsReflexive(v: string)
    ensures CompareVersions(v, v) == 0
  {
    CompareZeroIffSame(Parts(v), Parts(v), 0);
  }

  // ---------------------------------------------------------------------
  // applyFilters
  // ---------------------------------------------------------------------

  /** The filter bar: hide failed rows, the minimum byte count as typed, the
      search text as typed and the mode ("include", anything else
      excludes). */
  datatype Filter = Filter(hideFailed: bool, minBytes: string, contains: string, mode: string)

  /** The attributes `addTableRow` writes on a row: `data-rxbytes`,
      `data-resphex` and `data-failed`. */
  datatype RowAttrs = RowAttrs(rxBytes: string, respHex: string, failed: string)

  /** What `addTableRow` writes for a row with this byte count and response
      text: the response upper-cased without whitespace, and failed when it
      is exactly "FAILED" or "ERROR". */
  function TableRow(rxBytes: int, respHex: string): (r: RowAttrs)
    ensures NoSpaces(r.respHex)
    ensures r.failed == "1" <==> respHex in {"FAILED", "ERROR"}
  {
    RowAttrs(IntToString(rxBytes), RemoveSpaces(ToUpper(respHex)),
             if respHex == "FAILED" || respHex == "ERROR" then "1" else "0")
  }

  /** The search text as compared: upper-cased, whitespace removed. */
  function Query(f: Filter): string {
    RemoveSpaces(ToUpper(f.contains))
  }

  /** Whether `applyFilters` hides a row. */
  predicate Hidden(f: Filter, row: RowAttrs) {
    var rx := ChainSteps.ParsedOr(row.rxBytes, 0);
    var isFailed := row.failed == "1";
    var q := Query(f);
    || (f.hideFailed && isFailed)
    || (rx < ChainSteps.ParsedOr(f.minBytes, 0) && !isFailed)
    || (q != "" && (if f.mode == "include" then !Includes(row.respHex, q) else Includes(row.respHex, q)))
  }

  /** The rows left visible, in table order. */
  function Shown(f: Filter, rows: seq<RowAttrs>): (r: seq<RowAttrs>)
    ensures |r| <= |rows|
    ensures forall i :: 0 <= i < |r| ==> r[i] in rows && !Hidden(f, r[i])
  {
    if |rows| == 0 then []
    else (if Hidden(f, rows[0]) then [] else [rows[0]]) + Shown(f, rows[1..])
  }

  /** `filter_stats`: "shown/total rows". */
  function Stats(f: Filter, rows: seq<RowAttrs>): (r: string) {
    IntToString(|Shown(f, rows)|) + "/" + IntToString(|rows|) + " rows"
  }

  /** Every visible row is shown and every hidden one is not. */
  lemma {:induction false} ShownExactly(f: Filter, rows: seq<RowAttrs>, row: RowAttrs)
    ensures row in Shown(f, rows) <==> row in rows && !Hidden(f, row)
  {
    if |rows| > 0 {
      ShownExactly(f, rows[1..], row);
      assert row in rows <==> row == rows[0] || row in rows[1..];
    }
  }

  /** The byte count a row is written with is the one the filter reads. */
  lemma {:induction false} RowBytesRead(n: int)
    ensures ChainSteps.ParsedOr(IntToString(n), 0) == n
  {
    ParseIntOfIntToString(n);
  }

  /** The filters as `resetFilters` leaves them show every row
      `addTableRow` writes with a byte count that is not negative. */
  lemma {:induction false} ResetFiltersShowAll(rxBytes: int, respHex: string)
    requires rxBytes >= 0
    ensures !Hidden(Filter(false, "0", "", "include"), TableRow(rxBytes, respHex))
  {
    RowBytesRead(rxBytes);
    ParseIntOfIntToString(0);
    assert IntToString(0) == "0";
    assert ToUpper("") == "";
  }

  /** A failed row is hidden only by the hide-failed switch or the search,
      never by the minimum byte count. */
  lemma {:induction false} FailedRowsIgnoreMinBytes(f: Filter, row: RowAttrs)
    requires row.failed == "1" && !f.hideFailed && Query(f) == ""
    ensures !Hidden(f, row)
  {
  }

  /** A row the include mode shows the exclude mode hides, and the other way
      round, when the search text is not blank and the other filters hide
      nothing. */
  lemma {:induction false} IncludeExcludeComplement(f: Filter, row: RowAttrs)
    requires Query(f) != "" && !f.hideFailed
    requires ChainSteps.ParsedOr(row.rxBytes, 0) >= ChainSteps.ParsedOr(f.minBytes, 0)
    ensures Hidden(f.(mode := "include"), row) <==> !Hidden(f.(mode := "exclude"), row)
  {
  }

  /** Raising the minimum byte count never shows a row that was hidden. */
  lemma {:induction false} MinBytesMonotone(f: Filter, g: Filter, row: RowAttrs)
    requires f.hideFailed == g.hideFailed && f.contains == g.contains && f.mode == g.mode
    requires ChainSteps.ParsedOr(f.minBytes, 0) <= ChainSteps.ParsedOr(g.minBytes, 0)
    ensures Hidden(f, row) ==> Hidden(g, row)
  {
  }

  /** The search ignores case and whitespace in what is typed. */
  lemma {:induction false} QueryIgnoresCaseAndSpaces(f: Filter, t: string)
    requires RemoveSpaces(ToUpper(t)) == RemoveSpaces(ToUpper(f.contains))
    ensures forall row :: Hidden(f.(contains := t), row) == Hidden(f, row)
  {
  }

  // ---------------------------------------------------------------------
  // updatePacketSizeOnDataMode
  // ---------------------------------------------------------------------

  /** `s.replace(/[^0-9a-fA-F]/g, '')`. */
  function HexOnly(s: string): (r: string)
    ensures |r| <= |s|
    ensures forall i :: 0 <= i < |r| ==> IsHexDigit(r[i])
  {
    if |s| == 0 then ""
    else (if IsHexDigit(s[0]) then [s[0]] else "") + HexOnly(s[1..])
  }

  /** The packet size the form switches to when the data mode changes:
      eight SETUP bytes plus one per pair of hex digits typed when the data
      is appended to the SETUP packet, eight when it is sent separately, and
      no change in any other mode. */
  function PacketSizeFor(mode: string, dataBytes: string): (r: Option<int>)
    ensures mode == "separate" ==> r == Some(8)
    ensures mode != "append" && mode != "separate" ==> r.None?
    ensures mode == "append" ==> r.Some? && r.value == 8 + |HexOnly(Trim(dataBytes))| / 2
  {
    var t := Trim(dataBytes);
    if mode == "append" then
      if |t| > 0 then
        var n := |HexOnly(t)| / 2;
        Some(if n > 0 then 8 + n else 8)
      else Some(8)
    else if mode == "separate" then Some(8)
    else None
  }

  lemma {:induction false} HexOnlyAppend(a: string, b: string)
    ensures HexOnly(a + b) == HexOnly(a) + HexOnly(b)
  {
    if |a| > 0 {
      assert (a + b)[1..] == a[1..] + b;
      HexOnlyAppend(a[1..], b);
    } else {
      assert a + b == b;
    }
  }

  lemma {:induction false} HexOnlyOfDigits(s: string)
    requires forall i :: 0 <= i < |s| ==> IsHexDigit(s[i])
    ensures HexOnly(s) == s
  {
    if |s| > 0 {
      HexOnlyOfDigits(s[1..]);
    }
  }

  /** Keeping the hex digits of pairs joined by spaces keeps two per
      pair. */
  lemma {:induction false} HexOnlyOfPairs(pairs: seq<string>)
    requires forall i :: 0 <= i < |pairs| ==> |pairs[i]| == 2 && IsHexDigit(pairs[i][0]) && IsHexDigit(pairs[i][1])
    ensures |HexOnly(Join(pairs, " "))| == 2 * |pairs|
  {
    if |pairs| == 1 {
      HexOnlyOfDigits(pairs[0]);
    } else if |pairs| > 1 {
      HexOnlyOfPairs(pairs[1..]);
      HexOnlyOfDigits(pairs[0]);
      HexOnlyAppend(pairs[0], " " + Join(pairs[1..], " "));
      HexOnlyAppend(" ", Join(pairs[1..], " "));
      assert pairs[0] + " " + Join(pairs[1..], " ") == pairs[0] + (" " + Join(pairs[1..], " "));
    }
  }

  /** Bytes written as the UI writes them, appended to SETUP, make the
      proposed packet size eight plus their number, and the firmware reads
      exactly those bytes back from the same text. */
  lemma {:induction false} AppendSizeCoversData(bs: seq<byte>)
    requires 0 < |bs| <= 248
    ensures PacketSizeFor("append", Descriptors.FormatHexBytes(bs)) == Some(8 + |bs|)
    ensures RequestApi.ParseDataBytes(Descriptors.FormatHexBytes(bs)) == bs
  {
    AppendSizeOfFormatted(bs);
    RequestApi.DataBytesRoundTrip(bs);
  }

  lemma {:induction false} AppendSizeOfFormatted(bs: seq<byte>)
    requires 0 < |bs| <= 248
    ensures PacketSizeFor("append", Descriptors.FormatHexBytes(bs)) == Some(8 + |bs|)
  {
    var pairs := seq(|bs|, i requires 0 <= i < |bs| => HexByte(bs[i], true));
    var s := Descriptors.FormatHexBytes(bs);
    assert s == Join(pairs, " ");
    HexOnlyOfPairs(pairs);
    JoinEnds(pairs, " ");
    assert IsTrimmed(s);
  }

  /** Odd digits are dropped: only whole pairs count as bytes. */
  lemma {:induction false} OddDigitDropped(d: string)
    requires |d| == 3 && forall i :: 0 <= i < 3 ==> IsHexDigit(d[i])
    ensures PacketSizeFor("append", d) == Some(9)
  {
    assert IsTrimmed(d);
    HexOnlyOfDigits(d);
  }

  // ---------------------------------------------------------------------
  // moveChainItem
  // ---------------------------------------------------------------------

  /** `moveChainItem`: the step at `index` moves to `index + direction`;
      a move past either end leaves the chain alone. */
  function Move<T>(s: seq<T>, index: nat, direction: int): (r: seq<T>)
    requires index < |s|
    ensures |r| == |s|
    ensures multiset(r) == multiset(s)
    ensures !(0 <= index + direction < |s|) ==> r == s
    ensures 0 <= index + direction < |s| ==> r[index + direction] == s[index]
  {
    var k := index + direction;
    if k < 0 || k >= |s| then s
    else
      var rest := s[..index] + s[index + 1..];
      InsertPermutes(s[..index], s[index], s[index + 1..], k);
      assert s == s[..index] + [s[index]] + s[index + 1..];
      rest[..k] + [s[index]] + rest[k..]
  }

  /** Taking an element out and putting it back anywhere keeps the
      elements. */
  lemma {:induction false} InsertPermutes<T>(a: seq<T>, x: T, b: seq<T>, k: nat)
    requires k <= |a + b|
    ensures var rest := a + b;
            multiset(rest[..k] + [x] + rest[k..]) == multiset(a + [x] + b)
  {
    var rest := a + b;
    assert rest == rest[..k] + rest[k..];
    calc {
      multiset(rest[..k] + [x] + rest[k..]);
      multiset(rest[..k]) + multiset([x]) + multiset(rest[k..]);
      multiset(rest) + multiset([x]);
      multiset(a) + multiset(b) + multiset([x]);
      multiset(a + [x] + b);
    }
  }

  /** The other steps keep their order. */
  lemma {:induction false} MoveKeepsOthersInOrder<T>(s: seq<T>, index: nat, direction: int)
    requires index < |s| && 0 <= index + direction < |s|
    ensures var r := Move(s, index, direction);
            var k := index + direction;
            r[..k] + r[k + 1..] == s[..index] + s[index + 1..]
  {
    var r := Move(s, index, direction);
    var k := index + direction;
    var rest := s[..index] + s[index + 1..];
    assert r == rest[..k] + [s[index]] + rest[k..];
    assert r[..k] == rest[..k];
    assert r[k + 1..] == rest[k..];
  }

  /** Moving up or down by one swaps the step with its neighbour. */
  lemma {:induction false} MoveByOneSwaps<T>(s: seq<T>, index: nat, direction: int)
    requires index < |s| && (direction == 1 || direction == -1) && 0 <= index + direction < |s|
    ensures Move(s, index, direction) == s[index := s[index + direction]][index + direction := s[index]]
  {
    var r := Move(s, index, direction);
    var t := s[index := s[index + direction]][index + direction := s[index]];
    MoveKeepsOthersInOrder(s, index, direction);
    forall i | 0 <= i < |s| ensures r[i] == t[i] {
      var k := index + direction;
      var rest := s[..index] + s[index + 1..];
      assert r == rest[..k] + [s[index]] + rest[k..];
    }
  }

  /** A move is undone by the opposite move from the new place. */
  lemma {:induction false} MoveBack<T>(s: seq<T>, index: nat, direction: int)
    requires index < |s| && 0 <= index + direction < |s|
    ensures Move(Move(s, index, direction), index + direction, -direction) == s
  {
    var r := Move(s, index, direction);
    var k := index + direction;
    MoveKeepsOthersInOrder(s, index, direction);
    var rest := r[..k] + r[k + 1..];
    assert rest == s[..index] + s[index + 1..];
    var u := Move(r, k, -direction);
    assert u == rest[..index] + [r[k]] + rest[index..];
    assert rest[..index] == s[..index];
    assert rest[index..] == s[index + 1..];
    assert s == s[..index] + [s[index]] + s[index + 1..];
  }
}

=== FILE: wrappers.dfy ===
/** Option, the only failure-compatible wrapper the model needs: `None` stands for
    a value the source reports as missing (JavaScript's NaN or undefined, an
    absent query key), `Some` for a present one. */
module Wrappers {

  datatype Option<+T> = None | Some(value: T) {

    predicate IsFailure() {
      None?
    }

    function PropagateFailure<U>(): Option<U>
      requires None?
    {
      None
    }

    function Extract(): T
      requires Some?
    {
      value
    }

    /** The JavaScript idiom `x || default` for a value that is either missing or present. */
    function GetOr(default: T): T {
      match this
      case Some(v) => v
      case None => default
    }
  }
}
